=== FILE: README.md ===
# Mission Control control plane, modelled in Dafny

This project models the control plane of Mission Control: a small Node server that
- accepts agent spawns and externally produced event envelopes,
- stores them in an append-only event log,
- streams them to dashboards over server-sent events,
- runs a debounced build-and-test pipeline per agent,
- forwards failures to a healer service behind a circuit breaker,
- raises human decisions when an agent is stuck, flapping or cannot be healed.

It also models the parts of the React dashboard that are plain logic: the incremental SSE parser and its reconnect backoff, the runtime clock text, the status mapping, the insight cards, and the reducer that folds each incoming envelope into the dashboard state.

Every component is an immutable value and every operation a pure function of it. Wherever the program reads a clock, draws random bytes, touches the file system, runs a child process or talks to the network, the model takes that reading or outcome as a parameter instead. The modules follow the source files:

- `Auth`: `server/src/auth.js`
- `Breaker`: `server/src/circuitBreaker.js`
- `Retry`: `server/src/httpClient.js`
- `Healer`: `server/src/healerClient.js`
- `Uuid`: `server/src/id.js`
- `Db`: `server/src/db.js`
- `EventHub`: `server/src/eventHub.js`
- `Contract`: `server/src/contract.js`
- `Agents`: `server/src/agentService.js`, `server/src/runner.js`
- `AgentText`: the string helpers at the end of `server/src/agentService.js`
- `Routes`: `server/src/app.js`
- `Sse`: `src/lib/controlPlane.js`
- `Dashboard`: `src/App.jsx`

The remaining modules model language features:
- `Wrappers` holds `Option`/`Result`.
- `Text` models the JavaScript string methods the program calls.
- `Json` models JSON values with ordered object members, truthiness, `||`, `??` and spread.
- `JsNumber` models the `Number(text)` coercion of ECMAScript, following section 7.1.4.1.1 of ECMA-262.

## Model

| member | source | states |
|---|---|---|
| Auth.AuthorizedCarriesToken | server/src/auth.js:1-5 | a header `isAuthorized` accepts is `Bearer`, one space, the configured token (non-empty, space-free), then nothing or a space |
| Auth.CarriesTokenAuthorized | server/src/auth.js:1-5 | every header of that shape is accepted |
| Auth.IsAuthorizedIff | server/src/auth.js:1-5 | acceptance holds exactly when the header has that shape (both directions) |
| Auth.IsAuthorized | server/src/auth.js:1-5 | a request with no header is refused, and an accepted token is non-empty and has no space; `Auth.IsAuthorizedIff` states the full header shape |
| Auth.MissingHeaderRejected | server/src/auth.js:2-4 | a request without an `Authorization` header is rejected |
| Auth.BearerTokenAccepted | server/src/auth.js:3-4 | `Bearer <token>` is accepted exactly when the token is non-empty and has no space |
| Auth.SchemeCaseSensitive | server/src/auth.js:4 | `bearer <token>` (lower-case scheme) is rejected |
| Auth.OnlySecondFieldCompared | server/src/auth.js:3-4 | fields after the second are ignored; a double space leaves an empty second field and is rejected |
| Auth.RequireBearer | server/src/auth.js:7-13 | no reply exactly when the request is authorized; otherwise a 401 whose body has `error: "unauthorized"` |
| Breaker.NewBreaker | server/src/circuitBreaker.js:1-7 | a new breaker has no failures, is closed at every instant from 0 on, and keeps the configured threshold and open time |
| Breaker.CanRequest | server/src/circuitBreaker.js:9-11 | a request may pass once the clock reaches the open-until instant; `Breaker.NewBreaker`, `Breaker.MarkSuccess` and `Breaker.ThresholdFailuresOpen` state when that holds |
| Breaker.MarkSuccess | server/src/circuitBreaker.js:13-16 | a success clears the count and closes the breaker at every instant, keeping the configuration and the counting invariant |
| Breaker.MarkFailure | server/src/circuitBreaker.js:18-24 | a failure either only counts or opens the breaker until `now + openMs` and restarts the count; the count stays below the threshold |
| Breaker.FewFailuresKeepClosed | server/src/circuitBreaker.js:18-24 | failures that stay below the threshold only raise the count; the open-until instant is unchanged |
| Breaker.ThresholdFailuresOpen | server/src/circuitBreaker.js:9-11 | from a zero count, `threshold` consecutive failures open the breaker until the last failure's instant plus `openMs`, and `canRequest` is false exactly before then |
| Breaker.MarkFailuresAppend | server/src/circuitBreaker.js:18-24 | two runs of failures act as their concatenation |
| Breaker.SuccessResetsCount | server/src/circuitBreaker.js:13-16 | after a success, fewer than `threshold` failures never open the breaker |
| Retry.AttemptResult | server/src/httpClient.js:11-25 | an attempt succeeds exactly when it responds with a 2xx status and a body that parses; a non-2xx status fails with that status; an empty body reads as `{}` |
| Retry.RetryFrom | server/src/httpClient.js:7-33 | from attempt `i` on, the loop stops at the first attempt that does not fail, every attempt before it failed, a failure is returned only after the last attempt, and the sleeps are the base delays in between |
| Retry.PostJsonWithRetry | server/src/httpClient.js:5-35 | one to three attempts; the result is that of the last attempt made; every earlier attempt failed; a failure means all three were made; the sleeps are the first `attempts - 1` base delays |
| Retry.RunAttempts | server/src/httpClient.js:5-35 | the loop as written computes exactly the recursive reading, including the error it throws after three failures |
| Retry.FirstSuccessReturned | server/src/httpClient.js:21-25 | when attempts before `k` fail and attempt `k` does not, the call returns attempt `k`'s value after `k + 1` attempts and the first `k` delays |
| Retry.AllFailLastError | server/src/httpClient.js:26-34 | when every attempt fails, the call throws the third attempt's error after sleeping 500 and 1000 ms |
| Retry.RequestHeaders | server/src/httpClient.js:13-16 | the request carries `content-type: application/json` unless an extra header overrides it, and every extra header |
| Healer.NewHealerClient | server/src/healerClient.js:5-10 | a new client's breaker is closed, counts zero failures, trips after five and stays open two minutes |
| Healer.ErrorCode | server/src/healerClient.js:13-17 | only the fail-fast error carries the code `circuit_open`; a forwarded error carries none |
| Healer.ForwardBody | server/src/healerClient.js:22-25 | the body carries the event's correlation id (left out when the event has none) and the whole event under `buildFailedEvent` |
| Healer.ForwardRequest | server/src/healerClient.js:20-32 | the request goes to the healer URL with the client's timeout, the forward body, a bearer token header and the JSON content type |
| Healer.ForwardBuildFailed | server/src/healerClient.js:12-39 | an open breaker fails fast with `circuit_open` and sends nothing; otherwise the retry run's success marks the breaker successful and is returned, and its failure marks one breaker failure and is rethrown |
| Healer.OneMarkPerForward | server/src/healerClient.js:35-38 | a forward whose three attempts all fail costs exactly one breaker failure and rethrows the last attempt's error |
| Healer.ForwardMany | server/src/healerClient.js:12-39 | forwarding `n` times yields `n` results |
| Healer.FiveFailuresOpenCircuit | server/src/healerClient.js:9-17 | from a fresh client, five failed forwards make every forward within two minutes of the fifth fail fast with code `circuit_open` |
| Healer.FailingForwards | server/src/healerClient.js:35-38 | while the breaker stays below its threshold, failing forwards are failure marks at the instants they settle |
| Uuid.Hex | server/src/id.js:21 | every byte becomes exactly two hex digits |
| Uuid.HexIsLowerHex | server/src/id.js:21 | `toString(16)` with `padStart(2, '0')` writes only lower-case hex digits |
| Uuid.FormatUuid | server/src/id.js:20-23 | the formatted id is 36 characters long |
| Uuid.ParseFormat | server/src/id.js:20-23 | the 8-4-4-4-12 layout loses nothing: the 16 bytes read back from the formatted id |
| Uuid.TimeBytesValue | server/src/id.js:5-12 | the six leading bytes, read big-endian, are the millisecond clock modulo `2^48` |
| Uuid.StampHexDigits | server/src/id.js:14-15 | the version digit is `7` and the variant digit is one of `8`, `9`, `a`, `b` |
| Uuid.Uuidv7Shape | server/src/id.js:3-22 | every generated id matches the UUID version 7 text pattern: lower-case hex in 8-4-4-4-12 groups with the version and variant digits |
| Uuid.Uuidv7 | server/src/id.js:3-22 | `uuidv7()` on a clock reading and 16 random bytes; its shape, clock prefix, kept random bits and ordering are stated by `Uuid.Uuidv7Shape`, `Uuid.Uuidv7Timestamp`, `Uuid.Uuidv7KeepsRandomBits` and `Uuid.Uuidv7Ordered` |
| Uuid.Uuidv7KeepsRandomBits | server/src/id.js:4-17 | the random bytes survive in every bit the clock, version and variant do not overwrite |
| Uuid.Uuidv7Timestamp | server/src/id.js:5-22 | the first twelve hex digits of the id are the clock modulo `2^48` |
| Uuid.Uuidv7Ordered | server/src/id.js:3-22 | an id generated at a later clock reading (modulo `2^48`) sorts after an earlier one as a string |
| Db.EmptyStore | server/src/db.js:16-66 | a fresh database has no events and no agent runs, and meets the table invariant |
| Db.KeepFrom | server/src/db.js:74-75 | the delete keeps exactly the rows created at or after the cutoff, in their order |
| Db.PruneOldEvents | server/src/db.js:72-76 | exactly the events older than seven days go; the seq counter and the other tables are untouched |
| Db.InsertEvent | server/src/db.js:78-95 | the insert prunes first, then appends the envelope under the next seq, which it returns and which is above every seq already in the log |
| Db.TryInsertEvent | server/src/db.js:78-95 | an event without a text id, correlation id or type fails the `NOT NULL` columns after the prune has run; every other event is inserted |
| Db.AppendRowValid | server/src/db.js:19 | a row stamped with the autoincrement counter keeps the log ascending and below the counter |
| Db.InsertSeqsIncrease | server/src/db.js:78-95 | a run of inserts returns strictly increasing seqs, each at least the counter before the run and below the counter after it |
| Db.FirstAbove | server/src/db.js:101 | the index scan stops at the first row above the cursor, and every row before it is at or below the cursor |
| Db.GetEventsAfter | server/src/db.js:97-109 | the page is ascending, holds only rows above the cursor, at most `limit` of them, and any row above the cursor that is left out comes after a full page |
| Db.GetSeqForEventId | server/src/db.js:111-115 | the result is 0 exactly when no row carries the event id, and otherwise the seq of a row that does |
| Db.GetIdempotencyRecord | server/src/db.js:117-127 | a record comes back exactly when the key was saved, with what was saved |
| Db.SaveIdempotencyRecord | server/src/db.js:129-134 | the key then reads back the response and the save time; every other key reads as before |
| Db.PruneIdempotency | server/src/db.js:136-139 | exactly the records older than the cutoff go; the rest are unchanged |
| Db.PrunedRecordsAreFresh | server/src/db.js:136-139 | after a prune every remaining record is at most `maxAgeMs` old |
| Db.UpsertAgentRun | server/src/db.js:141-166 | the agent id stays a primary key, and only the runs table changes |
| Db.StoredRun | server/src/db.js:162 | the row binds `run.metadata ?? {}`: a `null` metadata becomes `{}`, any other metadata is kept |
| Db.UpsertAgentRunEffect | server/src/db.js:143-165 | a new agent gets the whole row; a known agent keeps its task, correlation id and start time and takes the rest; a `null` metadata is stored as `{}`; every other agent's row is unchanged |
| Db.FindRun | server/src/db.js:50 | a row comes back exactly when some run carries the agent id, and it is that run |
| Db.ListAgents | server/src/db.js:168-186 | every run is listed exactly once, latest start first |
| Db.SortByStart | server/src/db.js:172 | `ORDER BY started_at DESC`: the result is latest start first and a permutation of the runs |
| Db.InsertByStart | server/src/db.js:172 | inserting into a latest-first list keeps it latest-first and adds exactly that row |
| Db.CreateDecision | server/src/db.js:188-203 | a new id is stored pending with the creation time, its correlation id, agent id and reason code, no resolution, and its payload, or `{}` when none or null is given; every other decision keeps its row; an existing id fails the primary key and changes nothing |
| Db.ResolveDecision | server/src/db.js:205-220 | an unknown id returns null and changes nothing; a known one, resolved or not, takes the resolution, actor, notes and time and returns its id, correlation id and agent id |
| Db.ResolveTwice | server/src/db.js:205-220 | resolving twice succeeds both times and the second resolution wins |
| EventHub.ToSseFrame | server/src/eventHub.js:70-72 | every event frame opens with an `id:` line carrying its seq |
| EventHub.HeartbeatFrame | server/src/eventHub.js:54 | the heartbeat frame opens with its `event: heartbeat` line |
| EventHub.RowFrames | server/src/eventHub.js:41-43 | the replayed rows become one frame each, in order |
| EventHub.Broadcast | server/src/eventHub.js:20-27 | every attached client receives the frame once and, for a publish, records its seq; clients that left are untouched |
| EventHub.NormalizeLastEventId | server/src/eventHub.js:61-68 | no header or an empty one gives 0; a header `Number` reads as a non-negative whole number gives that number; anything else is looked up as an event id |
| EventHub.CursorOfFrameId | server/src/eventHub.js:61-72 | the `id` a frame carries, sent back as `Last-Event-ID`, resumes right after that frame |
| EventHub.CursorSpellings | server/src/eventHub.js:63-65 | a padded or hexadecimal spelling of a number is that number |
| EventHub.CursorExponent | server/src/eventHub.js:63-65 | an exponent spelling of a number is that number |
| EventHub.CursorBlank | server/src/eventHub.js:62-65 | a header of blanks is not empty text but `Number` reads it as 0, so replay starts from the beginning |
| EventHub.CursorOfNumber | server/src/eventHub.js:63-65 | a header that reads as a non-negative whole number is the cursor itself |
| EventHub.CursorOfOtherNumber | server/src/eventHub.js:64-67 | a header that reads as a negative or fractional number is looked up as an event id |
| EventHub.CursorOfEventId | server/src/eventHub.js:67 | a non-numeric cursor resumes after the event of that id, or from the start when no stored event has it |
| EventHub.NegativeAndFractionLookedUp | server/src/eventHub.js:64-67 | `-5` and `1.5` are looked up as event ids |
| EventHub.Publish | server/src/eventHub.js:20-28 | publishing inserts the event, writes its frame to every attached client, sets their last sent seq, and returns the seq |
| EventHub.TryPublish | server/src/eventHub.js:20-28 | when the insert throws, the prune has already run and no client is written to |
| EventHub.PublishReachesAttached | server/src/eventHub.js:23-26 | an attached client gets the frame once and its last sent seq moves above every seq the log held |
| EventHub.ReplayedUpTo | server/src/eventHub.js:45 | a new connection's last sent seq is the last replayed seq, or the cursor when nothing was replayed |
| EventHub.Connect | server/src/eventHub.js:30-47 | a new connection is sent the comment line and then the frames of up to 500 rows above its cursor |
| EventHub.Attach | server/src/eventHub.js:30-51 | attaching adds the new connection after its backlog and leaves the store alone |
| EventHub.Detach | server/src/eventHub.js:48-50 | a closed connection leaves the set with what it was sent; no other connection changes |
| EventHub.Heartbeat | server/src/eventHub.js:53-58 | a heartbeat writes its frame to every attached client and leaves the store and the last sent seqs alone |
| EventHub.Close | server/src/eventHub.js:12-18 | closing ends every attached response and empties the set |
| EventHub.DetachedReceivesNothing | server/src/eventHub.js:48-50 | a connection that has left receives neither published frames nor heartbeats |
| EventHub.ClosedHubIsSilent | server/src/eventHub.js:12-18 | after close nothing is written to anyone |
| EventHub.HeartbeatKeepsLog | server/src/eventHub.js:53-58 | a heartbeat does not touch the log and its frame has no `id` line |
| EventHub.ReplayLeavesGap | server/src/eventHub.js:40-45 | when more than 500 rows follow the cursor, the next publish moves the connection past a stored row it was never sent |
| EventHub.PagePrefix | server/src/db.js:97-109 | a page of `limit` rows is the first `limit` rows of a longer page |
| Contract.Errors | server/src/contract.js:43-46 | the `errors` array holds one message per issue, in order |
| Contract.ValidateEventEnvelope | server/src/contract.js:15-47 | `null`, or a primitive checked against a non-empty required list, throws; otherwise the envelope is valid exactly when there are no errors, and exactly when it has every required key and passes every field check |
| Contract.MissingIssues | server/src/contract.js:17-20 | the missing-key loop reports nothing exactly when every required key is present, and at most one issue per required key |
| Contract.MissingIssueIff | server/src/contract.js:18-20 | a key is reported missing exactly when it is required and absent |
| Contract.ArrayMethodsNotMissing | server/src/contract.js:18-19 | on an array event, a required name inherited from `Array.prototype` (such as `map`) is never reported missing |
| Contract.MissingIssuesOnlyMissing | server/src/contract.js:18-20 | the required-key loop reports only missing-key issues |
| Contract.MissingKeyReported | server/src/contract.js:15-20 | in the full result, a key is reported missing exactly when it is required and absent |
| Contract.Failing | server/src/contract.js:22-41 | no field check reports exactly when every one passes |
| Contract.FailingIff | server/src/contract.js:22-41 | a check's issue is reported exactly when it is listed and fails |
| Contract.FieldCheckReported | server/src/contract.js:22-41 | each field check adds its own issue exactly when its field fails that check |
| Contract.MissingMessageInjective | server/src/contract.js:19 | two keys with the same `missing` message are the same key |
| Contract.MissingAgree | server/src/contract.js:18-20 | two events with the same required keys present get the same missing-key issues |
| Contract.FailingAgree | server/src/contract.js:22-41 | two events that pass the same checks get the same field issues |
| Contract.SameIssuesSameResult | server/src/contract.js:43-46 | the result depends on the event only through its issues |
| Contract.AgreeOnInspected | server/src/contract.js:15-47 | two objects that agree on every key the validator reads get the same result |
| Contract.UnknownTopLevelKeyIgnored | server/src/contract.js:15-47 | adding or overwriting a key the validator does not read never changes the result |
| Contract.PayloadContentsIgnored | server/src/contract.js:39-41 | whatever members the payload object carries, the result is the same |
| Contract.PadNat | server/src/contract.js:3 | a zero-padded number is all digits and exactly the width when it fits |
| Contract.IsoStringAccepted | server/src/contract.js:30-32 | every timestamp `toISOString` writes for years 0 to 9999 passes the timestamp check |
| Contract.TimestampShapeOnly | server/src/contract.js:3 | the pattern checks shape only: out-of-range fields and long fractions pass, offsets other than `Z` and an empty fraction fail |
| Sse.FieldOf | src/lib/controlPlane.js:66-67 | the field is a prefix of the line with no `:` in it |
| Sse.ValueOf | src/lib/controlPlane.js:66-68 | a line without `:` has an empty value, and a value never starts with whitespace |
| Sse.Dispatch | src/lib/controlPlane.js:56 | the dispatched message keeps the id and event of the message being assembled |
| Sse.ProcessLine | src/lib/controlPlane.js:53-76 | a blank line dispatches the message only when it has data and starts a fresh one; any other line dispatches nothing; a comment line changes nothing |
| Sse.ProcessLines | src/lib/controlPlane.js:53-77 | lines that are all non-blank dispatch nothing, and no line dispatches more than one message |
| Sse.ParseChunk | src/lib/controlPlane.js:48-51 | the buffer keeps exactly the text after the last line terminator; a chunk without `\n` only grows the buffer |
| Sse.ChunksCompose | src/lib/controlPlane.js:48-51 | feeding `s1` then `s2` dispatches the same messages and ends in the same state as feeding `s1 + s2` |
| Sse.AnyChunking | src/lib/controlPlane.js:48-51 | any cut of a stream into chunks parses like the whole stream in one chunk |
| Sse.DataLinesRecovered | src/lib/controlPlane.js:56 | joined data lines split back into the lines when none holds a `\n` |
| Sse.FieldLineRoundTrip | src/lib/controlPlane.js:66-68 | a `name: value` line reads back as that name and value |
| Sse.FieldStep | src/lib/controlPlane.js:70-76 | an `id`, `event` or `data` line sets that part of the message and dispatches nothing |
| Sse.BlankLineDispatches | src/lib/controlPlane.js:54-59 | a blank line after one data line dispatches that line as the data and resets the message |
| Sse.FrameRoundTrip | src/lib/controlPlane.js:48-78 | the hub's frame of an envelope with one-line JSON, parsed from a fresh state, dispatches exactly one message: id the decimal seq, event the envelope type, data the JSON |
| Sse.ConnectedCommentSilent | src/lib/controlPlane.js:62-64 | the `: connected` comment sent on attach dispatches nothing and leaves the state fresh |
| Sse.RowMessage | src/lib/controlPlane.js:48-78 | the message read from a stored row's frame carries the row's seq as id and its envelope's JSON as data |
| Sse.ReplayParses | src/lib/controlPlane.js:48-78 | the replayed frames of stored rows parse into one message per row, in order |
| Sse.ReplayAnyChunking | src/lib/controlPlane.js:48-78 | however the transport cuts the replayed frames into chunks, the client reads exactly one message per row, in order |
| Sse.Deliver | src/lib/controlPlane.js:153-170 | a message with no data or of event `heartbeat` is dropped; otherwise parsed JSON is handed on and unparsable text reported; the last event id takes the frame id, then the envelope id when present |
| Sse.FrameDelivered | src/lib/controlPlane.js:153-167 | a hub frame reaches the callback as its envelope and the last event id becomes the envelope's id, or the frame's seq when the envelope has none |
| Sse.HeartbeatIgnored | src/lib/controlPlane.js:158-160 | a heartbeat never reaches `onEnvelope` and never moves the last event id |
| Sse.Backoff | src/lib/controlPlane.js:181-182 | the wait is one of the four delays, between 500 and 5000 ms, and 5000 from the fourth attempt on |
| Sse.BackoffMonotone | src/lib/controlPlane.js:181 | later attempts never wait less |
| Sse.Waits | src/lib/controlPlane.js:135-188 | every wait is between 500 and 5000 ms |
| Sse.ConnectingState | src/lib/controlPlane.js:124 | the reported state is `connecting` exactly on the first attempt |
| Sse.FailuresBackOff | src/lib/controlPlane.js:181-182 | consecutive failed connections wait 500, 1000, 2000 and then 5000 ms each time |
| Sse.OpenedResets | src/lib/controlPlane.js:135-182 | a pass that opened the stream waits the shortest delay after it drops, however many failures came before |
| Routes.ErrorReply | server/src/app.js:119-121 | an error reply carries its status and the error text under `error` |
| Routes.ParseJsonBody | server/src/app.js:139-157 | an empty body reads as `{}`, parsed text as its value, and only text that does not parse is answered `400 invalid_json` |
| Routes.BodyGuard | server/src/app.js:36-37 | a failed parse stops with its 400; as written the guard also stops, with no reply, on a body that parsed to a falsy value; corrected it stops only on a failed parse |
| Routes.DedupedBody | server/src/app.js:58 | the replayed body is the cached one with `accepted: true` and `deduped: true` |
| Routes.AcceptedBody | server/src/app.js:70 | the answer carries `accepted: true`, `deduped: false`, the envelope id and the stream seq |
| Routes.Cached | server/src/app.js:56-57 | a cached record counts only while at most ten minutes old |
| Routes.Rejection | server/src/app.js:64-68 | an envelope the validator throws on is a 500; otherwise it is rejected with `400 invalid_event` exactly when it does not conform |
| Routes.PublishAndCache | server/src/app.js:69-73 | a bindable envelope is published and its answer cached under the key; one the store cannot bind throws after the prune and nothing is cached |
| Routes.Ingest | server/src/app.js:47-74 | a missing key is a 400 that changes nothing; the cache is pruned and a fresh record replayed before the body is read; a malformed body is a 400; only a parsed, valid envelope is published |
| Routes.IngestThenReplay | server/src/app.js:55-72 | a key answered within ten minutes is answered again with the cached body and `deduped: true`, whatever the second body, and the log does not grow |
| Routes.MissingKeyNoEffect | server/src/app.js:49-53 | a request without a key changes nothing and is answered before the body is read |
| Routes.RejectedNotRecorded | server/src/app.js:64-68 | a rejected envelope is neither published nor cached, so the key stays free |
| Routes.AcceptedPublishedOnce | server/src/app.js:62-73 | a valid envelope under a fresh key is appended once under the next seq, which the answer reports |
| Routes.DecisionIdOf | server/src/app.js:96-104 | a resolve path yields a non-empty id without `/`, and the path is the prefix, the id and the suffix |
| Routes.DecisionPathRoundTrip | server/src/app.js:96-104 | every non-empty id without `/` has a resolve path, and the handler reads the id back from it |
| Routes.RouteOf | server/src/app.js:24-119 | a POST to a resolve path takes the resolve route with that path's id, and only such a request does |
| Routes.TextOf | server/src/app.js:38 | a field is read as text exactly when it holds a string, and the text is that string |
| Routes.FalsyOrText | server/src/agentService.js:33 | a field read with a logical or is absent exactly when falsy, and otherwise read as text when it holds a string |
| Routes.NullableText | server/src/agentService.js:41 | a field read with `??` is absent exactly when missing or `null` |
| Routes.SpawnRequestOf | server/src/agentService.js:30-43 | the spawn argument takes the task and repository path as given, the branch unless falsy, the priority unless missing or `null`, and `{}` for missing metadata |
| Routes.SpawnReply | server/src/agentService.js:79 | a spawn is answered 202 with the agent id, the correlation id and `status: accepted` |
| Routes.SpawnRoute | server/src/app.js:34-45 | a `null` body is a 500; a falsy task or repository path is a 400 that changes nothing; a 202 registers a run for the new agent with the task and repository path asked for |
| Routes.InjectedReply | server/src/app.js:85 | an injection is answered 200 with `accepted: true` and the envelope |
| Routes.InjectRoute | server/src/app.js:76-87 | a `null` body is a 500; a falsy `type` is a 400; a 200 publishes exactly the answered envelope, whose type is the body's |
| Routes.ResolutionOf | server/src/app.js:105-110 | the resolution argument takes the decision id from the path and the resolution, actor and notes from the body |
| Routes.ResolvedReply | server/src/app.js:115 | a resolution is answered 200 with `accepted: true` and the decision id |
| Routes.ResolveRoute | server/src/app.js:96-117 | a `null` body is a 500; a falsy resolution or actor is a 400; an unknown decision is a 404 that changes nothing; a 200 marks the decision resolved with the resolution asked for |
| Routes.Authorized | server/src/app.js:34-117 | past the bearer check, ingestion runs the idempotent path and the silent case happens only for a falsy body under the guard as written |
| Routes.Handle | server/src/app.js:21-123 | a state-changing route without a valid bearer token is answered by the bearer check and changes nothing; the read routes leave the store alone; no reply is sent only for a falsy body under the guard as written |
| Routes.Unguarded | server/src/app.js:23-31 | the read routes (the event stream, the agent list, the decision list, an unknown path) always answer, need no bearer token and leave the store as it was |
| Routes.UnauthorizedIgnoresBody | server/src/app.js:34-97 | without a valid token a state-changing route answers 401 whatever the body and key, and changes nothing |
| Routes.NullSpawnBodyUnanswered | server/src/app.js:36-37 | as written, an authorized `POST /spawn` whose body is the JSON text `null` is never answered |
| Routes.EveryRequestAnswered | server/src/app.js:21-123 | with the guard stopping only on a failed parse, every request is answered; a falsy spawn body gets the 500 of reading a field of `null` or the missing-field 400 |
| Routes.DecisionsListingFails | server/src/app.js:89-94 | `GET /decisions` calls a store method that does not exist, so it is always the catch-all 500 and changes nothing |
| Routes.ListedAgentsSorted | server/src/app.js:29-32 | `GET /agents` lists every stored run once, latest start first, and changes nothing |
| Routes.StreamAttaches | server/src/app.js:24-27 | `GET /events` attaches one connection positioned by its `Last-Event-ID` header and changes nothing else |
| AgentText.LastN | server/src/agentService.js:357 | `slice(-n)` keeps the last `n` elements, or everything when `n` is 0 or there are fewer |
| AgentText.Tail | server/src/agentService.js:354-358 | empty output gives empty text; otherwise the last `maxLines` lines rejoined with `\n` |
| AgentText.TailKeepsLastLines | server/src/agentService.js:354-358 | the tail splits back into exactly the last `maxLines` lines of the output, and no more than `maxLines` of them |
| AgentText.FirstNonBlank | server/src/agentService.js:363 | the search stops at the first line with a non-whitespace character, and every line before it is blank |
| AgentText.Prefix | server/src/agentService.js:364 | `slice(0, n)` is a prefix of at most `n` characters, the whole text when short enough |
| AgentText.SignatureOf | server/src/agentService.js:360-365 | the signature is the phase, a colon, and the first non-blank line of stderr then stdout cut to 160 characters, or `unknown` |
| AgentText.StderrLineFirst | server/src/agentService.js:361-364 | a non-blank first stderr line is the signature, whatever stdout holds |
| AgentText.BlankOutputUnknown | server/src/agentService.js:363-364 | all-whitespace output has the signature `<phase>:unknown` |
| AgentText.CollapseRuns | server/src/agentService.js:370 | the result has only slug characters and hyphens, never two hyphens in a row |
| AgentText.TrimHyphens | server/src/agentService.js:371 | the result is a slice of the input with no hyphen at either end |
| AgentText.Slug | server/src/agentService.js:368-372 | the slug has at most 40 characters, all lower-case letters, digits or hyphens, and does not start with a hyphen |
| AgentText.BranchFromTask | server/src/agentService.js:367-374 | the branch is `agent/<agentId>/<slug>` with a non-empty slug of that form, `task` standing in for a missing task or an empty slug |
| AgentText.SlugOfSlugShaped | server/src/agentService.js:367-374 | a text already in slug form, at most 40 characters, is its own slug and names the branch unchanged |
| Agents.RunnerResult | server/src/runner.js:27-35 | a run is ok exactly when it did not time out and exited with 0; a signal reads as code -1; the output is kept |
| Agents.NewService | server/src/agentService.js:9-18 | a new service knows no agents, has published nothing and meets the service invariant |
| Agents.Mint | server/src/id.js:3-18 | each `uuidv7()` draws the next id of the supply, and the ids left stay distinct and unused |
| Agents.EventLinks | server/src/agentService.js:64-71 | the envelope tail carries the correlation id, the agent id (left out when `undefined`) and the payload |
| Agents.EventBody | server/src/agentService.js:61-63 | the envelope middle carries the type, the severity and the timestamp, then the tail unchanged |
| Agents.MakeEvent | server/src/agentService.js:56-72 | every emitted envelope has the given id, schema version `1.0.0`, event version 1, source `mission-control`, and the given type, severity, timestamp, links and payload |
| Agents.AgentEvent | server/src/agentService.js:216-227 | an envelope about an agent can be stored, and names that agent, its type, severity, correlation id and payload |
| Agents.Touch | server/src/agentService.js:142-144 | refreshing an agent changes only its activity time, and only when the agent is known |
| Agents.TouchCurrent | server/src/agentService.js:142-144 | refreshing an agent whose activity time is already `now` changes nothing |
| Agents.AgentIdOf | server/src/agentService.js:142 | the agent id `emit` looks up is the event's string agent id, or none |
| Agents.Emit | server/src/agentService.js:140-145 | emitting publishes the event once, refreshes the agent it names, and leaves the decisions and runs alone |
| Agents.EmitRefreshes | server/src/agentService.js:142-144 | an emitted event refreshes exactly the known agent it names by a non-empty id |
| Agents.EndedAt | server/src/agentService.js:331 | an end time is stored exactly for `completed` and `failed`, and it is the current time |
| Agents.SetAgentStatus | server/src/agentService.js:325-333 | an unknown agent changes nothing; a known one takes the status in its entry and its stored row; the log and decisions are untouched |
| Agents.StatusEndsRunOnlyWhenFinal | server/src/agentService.js:325-333 | the stored row carries the status just set and an end time exactly for `completed` and `failed`; the entry's flags, task and start time stay |
| Agents.Pause | server/src/agentService.js:271 | pausing sets only the pause flag |
| Agents.DecisionPayload | server/src/agentService.js:317-321 | the payload carries the decision id and the reason code unless the given payload overrides them, and every member of the given payload |
| Agents.RecordDecision | server/src/agentService.js:305-306 | the decision is stored pending under the next UUID and only the decisions table changes |
| Agents.CreateDecisionRequired | server/src/agentService.js:304-323 | a pending decision under the next UUID, then one `decision.required` event under the one after, carrying the decision id and reason code; runs and flags are untouched |
| Agents.ScheduleBuild | server/src/agentService.js:186-197 | an unknown, paused or already queued agent changes nothing; otherwise exactly its queued flag is set |
| Agents.ScheduleBuildIdempotent | server/src/agentService.js:189 | a second request before the timer fires changes nothing: at most one build is queued per agent |
| Agents.ResolveBranch | server/src/agentService.js:33 | a non-empty branch is kept, and otherwise the branch is derived from the agent id and task |
| Agents.CommandOr | server/src/agentService.js:182-183 | a truthy command in the metadata is used, and otherwise the default |
| Agents.RejectRepo | server/src/agentService.js:148-157 | a path that is not a directory marks the agent failed and raises a decision; nothing is watched |
| Agents.RejectRepoDecision | server/src/agentService.js:150-155 | the rejected path raises a pending `repo_path_invalid` decision naming it |
| Agents.WatchRepo | server/src/agentService.js:159-183 | a directory is watched, then the entry takes its build and test commands; a `null` metadata throws after the watcher is registered |
| Agents.StartWatcher | server/src/agentService.js:147-184 | the watcher either rejects the path or watches it, and throws only for a directory with `null` metadata |
| Agents.SpawnedRun | server/src/agentService.js:35-46 | the spawned run is `running`, started now, with the task, path and metadata asked for, the resolved branch and priority `normal` by default |
| Agents.Registered | server/src/agentService.js:48-54 | the new entry is unpaused with nothing queued, appended to the iteration order when new, and its row is upserted |
| Agents.SpawnedEvent | server/src/agentService.js:56-72 | the `agent.spawned` envelope can be stored and names the new agent |
| Agents.SpawnEntry | server/src/agentService.js:31-54 | the agent and correlation ids are the first two UUIDs, and the entry is registered before anything is published |
| Agents.SpawnHead | server/src/agentService.js:31-72 | after registering, `agent.spawned` is published under the third UUID |
| Agents.Spawn | server/src/agentService.js:30-80 | spawn registers the agent, publishes `agent.spawned`, starts the watcher, throws exactly for `null` metadata, and queues a build unless `runImmediately` is `false` |
| Agents.WatcherKeepsRun | server/src/agentService.js:147-184 | the watcher leaves the entry's task, path, correlation id and pause flag alone |
| Agents.SpawnRegistersRun | server/src/agentService.js:30-80 | the spawned entry keeps the task and path asked for under the fresh correlation id, and is not paused, whatever the watcher did |
| Agents.InvalidRepoStillSchedules | server/src/agentService.js:74-77 | a path that is not a directory leaves the agent failed but not paused, and the build is still queued |
| Agents.WatchError | server/src/agentService.js:173-180 | a watcher error changes nothing for an agent that is not watched |
| Agents.WatchErrorKeepsStatus | server/src/agentService.js:173-180 | a watcher error raises a `watcher_failed` decision and changes neither the agent's status nor its pause flag, nor any other agent |
| Agents.FileChanged | server/src/agentService.js:163-169 | a change under a watched path requests a build for that agent |
| Agents.Close | server/src/agentService.js:20-24 | closing closes every watcher and changes nothing else |
| Agents.KeepRecent | server/src/agentService.js:260 | the window keeps exactly the failure times less than thirty minutes old, in order |
| Agents.FailureSeries | server/src/agentService.js:260-262 | the series after a failure is the recent times of that signature followed by now |
| Agents.FailureEvent | server/src/agentService.js:236-255 | the `build.failed` envelope is critical, can be stored, and names the agent |
| Agents.ReportFailure | server/src/agentService.js:235-262 | a failure publishes `build.failed`, blocks the agent, and records the failure time under its signature |
| Agents.Flag | server/src/agentService.js:265-272 | flagging raises a pending decision with the reason and payload, publishes `decision.required`, and pauses the agent |
| Agents.EscalationReason | server/src/agentService.js:278 | the reason is `healer_circuit_open` exactly for the breaker's own error, and `healer_unreachable` otherwise |
| Agents.ErrorText | server/src/agentService.js:298 | the error text is never empty, and is `circuit_open` for the breaker's error |
| Agents.WarnEscalated | server/src/agentService.js:279-293 | the `heal.escalated` warning is published under the next UUID and only refreshes the agent |
| Agents.EscalateToHuman | server/src/agentService.js:277-301 | a failed forward publishes `heal.escalated`, raises a decision with the same reason code and the error text, and pauses the agent |
| Agents.ForwardFailure | server/src/agentService.js:275-301 | the forward's client replaces the service's; a delivered forward changes nothing else; a failed one escalates to a human |
| Agents.HandleBuildFailure | server/src/agentService.js:231-302 | an unknown agent changes nothing; a known one is reported and blocked, then flagged on the third failure of its signature in the window, or forwarded to the healer otherwise |
| Agents.PassedEvent | server/src/agentService.js:216-227 | the `build.passed` envelope is informational, can be stored and names the agent |
| Agents.BuildPassed | server/src/agentService.js:216-228 | a passing pipeline publishes `build.passed` and sets the agent `running` |
| Agents.RunBuildPipeline | server/src/agentService.js:199-229 | an unknown or paused agent changes nothing; otherwise the build runs, then the tests only after a passing build |
| Agents.BuildTimerFired | server/src/agentService.js:191-196 | when the debounce timer fires the queued flag is cleared before the pipeline runs |
| Agents.SignatureWindowShared | server/src/agentService.js:260-262 | the failure windows are keyed by signature alone, so two agents with the same failure share one window |
| Agents.ThirdFailureInWindowFlaps | server/src/agentService.js:260-264 | three failures of one signature within thirty minutes make a series of three |
| Agents.StaleFailuresForgotten | server/src/agentService.js:260-261 | a failure thirty minutes or more after every earlier one of its signature starts a new series |
| Agents.FailureBlocksAndReports | server/src/agentService.js:256-257 | whatever happens next, `handleBuildFailure` publishes `build.failed` first and leaves the agent `blocked` |
| Agents.FlappingSkipsHealer | server/src/agentService.js:264-273 | the third failure of a signature in the window raises `flapping_failure_signature`, pauses the agent and never calls the healer |
| Agents.DeliveredForwardRests | server/src/agentService.js:275-276 | below the threshold a delivered forward leaves the agent blocked but not paused, with no decision raised |
| Agents.FailedForwardEscalates | server/src/agentService.js:277-300 | a failed forward raises a decision whose reason tells an open circuit from an unreachable healer, and pauses the agent |
| Agents.PipelineTestsOnlyAfterBuild | server/src/agentService.js:204-210 | when the build command is missing or the build fails, the test results make no difference |
| Agents.PipelinePassedIff | server/src/agentService.js:199-229 | a run of an active agent ends in `build.passed` exactly when both commands can run and pass |
| Agents.PipelinePasses | server/src/agentService.js:216-228 | when both phases pass, `build.passed` is the one event and the agent is `running` |
| Agents.PipelineSkips | server/src/agentService.js:204 | a missing command ends the run quietly: nothing is published |
| Agents.PipelineBuildFails | server/src/agentService.js:205-208 | a failing build publishes `build.failed` first and never `build.passed` |
| Agents.PipelineTestFails | server/src/agentService.js:210-213 | a passing build whose tests fail publishes `build.failed` first and never `build.passed` |
| Agents.MarkStalled | server/src/agentService.js:340-342 | a stalled agent is paused and `blocked`, and its row is stored with no end time |
| Agents.StallOne | server/src/agentService.js:339-349 | a stalled agent is paused and blocked, then an `agent_stalled` decision is raised carrying its last activity time |
| Agents.StallBlocksRow | server/src/agentService.js:342 | a stalled agent's stored row reads `blocked` with no end time |
| Agents.StallVisit | server/src/agentService.js:338-349 | visiting one agent handles it when stalled and leaves it alone otherwise |
| Agents.StallScan | server/src/agentService.js:337-350 | a scan handles the stalled agents in order, one decision event each, and nothing else |
| Agents.CheckStalledAgents | server/src/agentService.js:335-351 | the check visits every agent in spawn order and publishes one event per stalled agent |
| Agents.StallMapEffect | server/src/agentService.js:337-350 | with distinct ids, exactly the visited stalled agents end paused and blocked; every other agent is unchanged |
| Agents.Stalled | server/src/agentService.js:338-339 | an unpaused agent idle for more than fifteen minutes; `Agents.StallMapEffect` and `Agents.CheckStalledIdempotent` state what the check does with it |
| Agents.NothingStalled | server/src/agentService.js:338-339 | when no visited agent is stalled the check changes nothing |
| Agents.CheckStalledIdempotent | server/src/agentService.js:338-340 | a second check at the same instant finds nothing more: each stall pauses its agent |
| Agents.CheckStalledEffect | server/src/agentService.js:335-351 | the check pauses and blocks exactly the stalled agents and leaves every other agent as it was |
| Agents.ResolvedEvent | server/src/agentService.js:86-97 | the `decision.resolved` envelope carries the row's correlation id, its agent id unless null, and the resolution payload with `notes` defaulting to null |
| Agents.Unpause | server/src/agentService.js:101-103 | resuming unpauses the agent, refreshes it and sets it `running` |
| Agents.ResumedEvent | server/src/agentService.js:105-116 | the `agent.progress` envelope can be stored and names the agent |
| Agents.Resume | server/src/agentService.js:99-118 | a known agent named by the decision is unpaused, `running`, announced with `agent.progress`, and queued for a build |
| Agents.Announce | server/src/agentService.js:83-97 | the decision is resolved as asked and `decision.resolved` is published under the next UUID |
| Agents.ResolveDecision | server/src/agentService.js:82-121 | an unknown decision returns null and changes nothing; a known one is resolved and announced, and resumes its agent when the service knows it |
| Agents.ResolveResumesAgent | server/src/agentService.js:99-118 | resolving a decision that names a known agent resumes it: unpaused, `running`, and a build queued |
| Agents.ResolveWithoutAgentAnnounces | server/src/agentService.js:99 | a decision with no agent, or one the service does not know, is only announced |
| Agents.FlagThenResolve | server/src/agentService.js:82-118 | a decision raised by a pause, once resolved, lifts that pause |
| Agents.InjectedEnvelope | server/src/agentService.js:123-135 | the injected envelope keeps the body's type, agent id and payload, with severity `warn`, a fresh correlation id and `{}` standing in for missing ones |
| Agents.InjectEvent | server/src/agentService.js:123-138 | injecting publishes exactly the envelope it returns, drawing a second UUID only when the correlation id is missing or `null` |
| Agents.InjectDefaults | server/src/agentService.js:123-135 | a body naming only its type gets every default |
| Agents.InjectMinimal | server/src/agentService.js:123-138 | injecting such a body stores it under the first UUID with the second as its correlation id |
| Agents.NoneRecent | server/src/agentService.js:260 | a signature with no failure inside the window starts a series of one |
| Agents.ResumedEntry | server/src/agentService.js:101-103 | the resumed entry keeps its task, path and correlation id and is no longer paused |
| Agents.AnnounceThenResume | server/src/agentService.js:82-118 | resolving is announcing and then, for a known agent, resuming; nothing else happens |
| Agents.TypeOnlyBody | server/src/agentService.js:124-133 | a body naming only its type reads `undefined` for every other member the injection looks at |
| Dashboard.PadTime | src/App.jsx:28-30 | the padded text is all digits, at least two of them, spells the number, and is exactly two long below 100 |
| Dashboard.Safe | src/App.jsx:40 | the safe value is the input when it is a finite non-negative number, and 0 otherwise |
| Dashboard.ClockText | src/App.jsx:41-44 | the text is `h:mm:ss` with minutes and seconds below 60, and the three fields add up to the whole seconds |
| Dashboard.FormatRuntime | src/App.jsx:39-45 | the runtime text is the clock text of the floor of the safe value |
| Dashboard.FormatFields | src/App.jsx:41-43 | the floors of `safe / 3600`, `(safe % 3600) / 60` and `safe % 60` are the hours, minutes and seconds of the whole seconds |
| Dashboard.ClockSeconds | src/App.jsx:35-36 | three fields none of which is `NaN` give `h * 3600 + m * 60 + s`, and a `NaN` field gives 0 |
| Dashboard.ParseRuntimeToSeconds | src/App.jsx:32-37 | a missing, non-string or empty runtime is 0; a string is split on `:` and read field by field with `Number`, and anything but three fields is 0 |
| Dashboard.RuntimeRoundTrip | src/App.jsx:32-45 | reading back a formatted whole number of seconds gives that number |
| Dashboard.ParseClockText | src/App.jsx:32-37 | every clock text reads back as the seconds it spells |
| Dashboard.ParseDigitFields | src/App.jsx:32-37 | three fields of decimal digits, however many, read as the clock reading they spell |
| Dashboard.TickAdvances | src/App.jsx:189 | the ticker turns the runtime of a whole number of seconds into that of one second more |
| Dashboard.NonPositiveRuntime | src/App.jsx:40 | a negative, zero, infinite or `NaN` count shows as `00:00:00` |
| Dashboard.ParseFiniteFields | src/App.jsx:34-36 | three fields that `Number` reads as finite values give `h * 3600 + m * 60 + s` |
| Dashboard.FractionalRuntime | src/App.jsx:34-36 | `1.5:00:00` reads as 5400 seconds, because `Number` accepts a fraction |
| Dashboard.NegativeRuntime | src/App.jsx:34-36 | `-5:00:00` reads as -18000 seconds, because `Number` accepts a sign |
| Dashboard.StatusKey | src/App.jsx:57 | the lookup key has no upper-case letter |
| Dashboard.StatusAsWritten | src/App.jsx:15-26 | the lookup yields one of the four labels, except exactly for a key `Object.prototype` defines, where it yields the inherited member |
| Dashboard.ConstructorStatusEscapes | src/App.jsx:57 | a status of `constructor` yields the inherited constructor instead of a label |
| Dashboard.AgentStatus | src/App.jsx:15-26 | the status is always one of the four labels: the map's label for a listed key and `idle` for any other |
| Dashboard.StatusAgreesOffPrototype | src/App.jsx:57 | the corrected lookup agrees with the source for every key `Object.prototype` does not define, and only `constructor` and `__proto__` yield non-labels |
| Dashboard.SeverityDefaults | src/App.jsx:126 | of the seven shown types, exactly `build.failed` and `heal.escalated` default to critical |
| Dashboard.DefaultSeverity | src/App.jsx:126 | `critical` when the type contains `failed` or `escalated`, else `info`; `Dashboard.SeverityDefaults` states it on the shown types |
| Dashboard.FirstDefined | src/App.jsx:106-112 | the chain yields the first present, truthy candidate, and the fallback when there is none |
| Dashboard.PayloadOf | src/App.jsx:105 | a defined payload is used, and `{}` stands in for a missing one |
| Dashboard.EventToInsight | src/App.jsx:89-134 | a card exactly for the seven shown types, pending, with `Open inbox` exactly for `decision.required`, the default title when the payload has none, and the default severity when the event has none |
| Dashboard.Remember | src/App.jsx:228-231 | a new id is appended; past 2000 ids only the 1000 most recent are kept; the new id is always last and no id appears twice |
| Dashboard.FindAgent | src/App.jsx:248 | the index of the first card with the id, or -1 when no card has it |
| Dashboard.UpsertAgent | src/App.jsx:247-255 | the new card goes first for a new id and replaces the card in place for a known one; no other card changes |
| Dashboard.UpsertKeepsIdsDistinct | src/App.jsx:247-255 | an agent update never lists one id twice |
| Dashboard.AddRequired | src/App.jsx:266-269 | a required decision goes first unless its id is already listed, in which case nothing changes |
| Dashboard.AddRequiredKeepsIdsDistinct | src/App.jsx:266-269 | a required decision never lists one id twice |
| Dashboard.MarkResolved | src/App.jsx:278-282 | exactly the decisions whose id is the resolved id become resolved and not resolving, with no error; the rest and the order stay |
| Dashboard.AddInsight | src/App.jsx:288 | the new card goes first, the previous cards follow in order, and at most 50 are kept |
| Dashboard.OpenInbox | src/App.jsx:272 | an open panel stays; with none open the inbox opens |
| Dashboard.AgentStep | src/App.jsx:239-256 | only an `agent.` type touches the agent cards, and it touches nothing else; the card's label comes from the corrected `Dashboard.AgentStatus`, so a `constructor` status shows `idle` where the code as written shows the inherited member (see Findings) |
| Dashboard.RequiredStep | src/App.jsx:258-273 | only `decision.required` touches the decisions and the panel, and it touches nothing else |
| Dashboard.ResolvedStep | src/App.jsx:275-284 | only `decision.resolved` touches the decisions, and it touches nothing else |
| Dashboard.InsightStep | src/App.jsx:286-289 | the insight step touches only the insights feed |
| Dashboard.Dispatch | src/App.jsx:237-290 | the type-specific steps leave the seen ids and the last event id alone |
| Dashboard.HandleEnvelope | src/App.jsx:220-236 | no truthy type or an already seen id changes nothing; a non-string type throws after the id is remembered; a new id is remembered and becomes the last event id |
| Dashboard.DispatchKeepsConsistent | src/App.jsx:237-290 | the type-specific steps keep agent ids and decision ids distinct and the feed at most 50 |
| Dashboard.HandleKeepsConsistent | src/App.jsx:220-290 | every envelope, whatever its shape, keeps at most 2000 distinct seen ids, distinct agent and decision ids, and at most 50 insights |
| Dashboard.RedeliveryIgnored | src/App.jsx:223-226 | an envelope delivered again with the same id changes nothing the second time |
| Dashboard.RequiredListedOnce | src/App.jsx:258-273 | a fresh `decision.required` lists its decision exactly once, adds a card only for a new id, and leaves a panel open |
| Dashboard.ResolvedMarksDecision | src/App.jsx:275-284 | a fresh `decision.resolved` marks exactly the named decision resolved and leaves the others as they were |
| Dashboard.AnonymousAgentEventIgnored | src/App.jsx:245 | an `agent.` event that names no agent stops the handler: no card, decision, insight or panel changes |
| Dashboard.AgentEventUpserts | src/App.jsx:239-256 | a fresh `agent.` event naming an agent leaves exactly one card for it, carrying the status label of its payload |
| JsNumber.WholeNumber | server/src/eventHub.js:63-64 | a whole number is found exactly when `Number` gives an integer that is not negative, and it is that integer |
| JsNumber.Add | src/App.jsx:189 | finite values add; `NaN` is absorbing; only `NaN` or opposite infinities give `NaN` |
| JsNumber.Scale | src/App.jsx:36 | a finite value is scaled, and `NaN` and the infinities are kept |
| JsNumber.NumericLiteral | server/src/eventHub.js:63 | only `Infinity` with an optional sign reads as an infinity, with the sign it carries |
| JsNumber.StringToNumber | server/src/eventHub.js:63 | blank text, white space only included, is 0 |
| JsNumber.TrimmedNumber | server/src/eventHub.js:63 | the value of a text is that of its trimmed literal |
| JsNumber.LiteralNumber | server/src/eventHub.js:63 | a text with no surrounding white space is read as a literal as it stands |
| JsNumber.BlankNumber | server/src/eventHub.js:63 | blank text is 0 |
| JsNumber.PaddedNumber | server/src/eventHub.js:63 | white space around a literal does not change its value |
| JsNumber.PlainNumber | src/App.jsx:34 | an unsigned decimal literal has its decimal value |
| JsNumber.DigitsNumber | src/App.jsx:34 | a string of decimal digits, leading zeros included, is the number it spells |
| JsNumber.NatToStringNumber | server/src/eventHub.js:63 | the decimal text of a whole number reads back as that number |
| JsNumber.SignedDigits | src/App.jsx:34 | a sign before decimal digits negates for `-` and is ignored for `+` |
| JsNumber.SignedNumber | src/App.jsx:34 | `+digits` is the digits' value and `-digits` its negation |
| JsNumber.FractionNumber | src/App.jsx:34 | `whole.fraction` is the digits' value scaled down by the fraction's length |
| JsNumber.ExponentNumber | src/App.jsx:34 | `mantissa e exponent` is the mantissa scaled up by ten to the exponent |
| JsNumber.HexNumber | server/src/eventHub.js:63 | a `0x` literal is read in base 16 |
| JsNumber.SignedHexNaN | server/src/eventHub.js:63 | a sign before a `0x` literal makes it `NaN` |
| JsNumber.PaddingIgnored | server/src/eventHub.js:63 | ` 5` followed by a newline reads as `5` does |
| JsNumber.SignedFive | src/App.jsx:34 | `+5` is 5 and `-5` is -5 |
| JsNumber.OneAndAHalf | src/App.jsx:34 | `1.5` is 1.5 |
| JsNumber.OneThousand | src/App.jsx:34 | `1e3` is 1000 |
| JsNumber.HexFive | server/src/eventHub.js:63 | `0x5` is 5 and `-0x5` is `NaN` |
| Text.NatToString | src/App.jsx:29 | `String(n)` of a whole number is a non-empty run of digits with no leading zero |
| Text.DigitsValueOfNatToString | src/App.jsx:29 | the decimal text of a whole number spells that number |
| Text.PadStart2 | src/App.jsx:29 | `padStart(2, '0')` brings a shorter text to exactly two characters and leaves a longer one as long as it was |
| Text.TrimStart | src/lib/controlPlane.js:68 | `trimStart` removes exactly the leading white space and line terminators |
| Text.TrimEnd | server/src/agentService.js:363 | the trailing half of `trim` removes exactly the trailing white space and line terminators |
| Text.Lower | server/src/agentService.js:369 | `toLowerCase` keeps the length and lowers each character on its own |
| Text.IndexOf | server/src/agentService.js:356 | the first position of a character, or -1 when it does not occur |
| Text.SplitOn | src/App.jsx:34 | `split` on one character yields at least one part |
| Text.SplitOnFree | src/App.jsx:34 | no part of a split contains the separator |
| Text.JoinSplit | src/App.jsx:34 | joining the parts of a split with the separator gives back the text |
| Text.SplitJoin | src/App.jsx:34 | splitting parts joined by a separator none of them contains gives back the parts |
| Text.DropCR | src/lib/controlPlane.js:50 | the `\r?` of the line break pattern removes at most one final carriage return |
| Text.SplitLines | src/lib/controlPlane.js:50 | `split(/\r?\n/)` yields at least one line, and the text itself when it has no line feed |
| Text.SplitLinesFree | src/lib/controlPlane.js:50 | no line of the split contains a line feed |
| Text.SplitLinesAppend | src/lib/controlPlane.js:50 | splitting a text followed by more text gives the text's lines with the last one continued by the more text's lines |
| Json.LookupFinds | server/src/contract.js:30-32 | a member lookup finds a value exactly when some member has the key, and then that member holds it |
| Json.Put | server/src/app.js:58 | setting a member makes the key hold the value and leaves every other key as it was |
| Json.Assign | src/App.jsx:253 | a spread `{...base, ...extra}` reads every key of `extra` from `extra` and every other key from `base` |
| Json.Or | src/App.jsx:242 | the logical or of `a` and `b` is `a` when it is present and truthy, and `b` otherwise |
| Json.Nullish | server/src/agentService.js:41 | `a ?? b` is `a` unless it is missing or `null` |
| Json.StringifyNoLineBreak | server/src/eventHub.js:70-72 | `JSON.stringify` output never contains a line feed or carriage return, so it fits on one `data:` line |

## Left out

- Network, HTTP and stream plumbing are outside the model. This covers the HTTP server and `sendJson` writes, request-body streaming, and `fetch`, `AbortController` and timeouts. A request is modelled as its method, path, headers and whole body text, and a response as a status and a JSON body.
- The SQLite engine, its pragmas, the schema migration and the row (de)serialisation in `server/src/db.js` are outside the model. Tables are sequences and maps of JSON values, so a `JSON.stringify`/`JSON.parse` pair is the identity. The `??` defaults applied before stringifying are modelled (`Db.StoredRun`, `Db.CreateDecision`).
- Db.CreateDecision: it models the `PRIMARY KEY` conflict on a reused id as `None`, but the service never meets it: decision ids come from UUIDv7 values, which `Agents.Mint` draws from a supply that `Agents.Valid` keeps distinct and unused by the decisions table. What SQLite would throw there is not carried further.
- The clocks (`Date.now()`, `new Date()`), `randomBytes`, `fs.watch`, `existsSync`/`statSync` and the child process of `server/src/runner.js` are inputs. The model takes a time `now`, the 16 random bytes, a "path is a directory" flag, a watcher error event and a runner result. One reading of `now` stands for every clock read of one synchronous step, for example the prune cutoff and `created_at` of `insertEvent` (`server/src/db.js:73` and `:80`), which the program takes microseconds apart.
- Timers (`setTimeout`, `setInterval`, `queueMicrotask`) are explicit calls: the debounce timer firing, the stall scan, the heartbeat and the dashboard ticker. Real time and the interleaving of callbacks are outside the model.
- Agents.ForwardFailure: the healer call runs as one atomic step. While the real `await` is pending, another pipeline run could change the agent, and that interleaving is not modelled.
- Retry.PostJsonWithRetry: the `Math.random()` jitter added to each back-off (`server/src/httpClient.js:30-31`) is floating point and random. A sleep is recorded by its base delay.
- JsNumber.StringToNumber: values are exact reals. Rounding to the nearest double is not modelled, so digit strings above 2^53 do not round and very large literals do not overflow to `Infinity`.
- EventHub.NormalizeLastEventId: a header beyond 2^53 is read exactly instead of rounded, as for `JsNumber.StringToNumber`.
- Dashboard.ParseRuntimeToSeconds: it inherits the same exact-real reading. A field too large for a double does not become `Infinity`.
- Dashboard.FormatRuntime: `Math.floor` and `%` are taken on exact reals, with no double rounding.
- Text.Lower: it folds ASCII letters only. JavaScript's `toLowerCase` is Unicode-aware, so text with other upper-case letters differs. The Kelvin sign U+212A, for example, becomes `k` in JavaScript and stays as it is here. This affects `AgentText.Slug` and `Dashboard.StatusKey`: `BLOC\u212AED` (with a Kelvin sign for the K) is `blocked` in the source and `idle` here.
- AgentText.SignatureOf: `.slice(0, 160)` counts UTF-16 code units, while the model counts characters. A line holding a character outside the Basic Multilingual Plane is cut at a different place.
- AgentText.Slug: `.slice(0, 40)` counts UTF-16 code units in the source and characters here, with the same consequence for astral characters.
- AgentText.BranchFromTask: the model joins the three parts with `/`, where the source calls `path.posix.join`. The two agree for the `agent_<uuid>` ids the service mints. An id containing `/`, `.` or `..`, or an empty one, would be normalised by `path.posix.join` and is not.
- Routes.SpawnRequestOf: a `task`, `repoPath` or `branch` that is truthy but not a string answers `Unmodelled`. The source carries on with such a value, and `branchFromTask` applies `String(task)` to it.
- Routes.ResolutionOf: a `resolution`, `actor` or `notes` that is present but not a string answers `Unmodelled`. The source passes such a value on to the store unchanged.
- Routes.Handle: `GET /decisions` is modelled only as the 500 it answers (`Routes.DecisionsListingFails`). `server/src/app.js:91` calls `db.listDecisions`, which `server/src/db.js` does not define. What a listing was meant to return is unknown, so no listing is modelled.
- `src/App.jsx:10` imports `spawnAgent`, and its launch handler calls it, but `src/lib/controlPlane.js` exports no such function. Launching a mission from the dashboard is not modelled.
- Dashboard.Remember: the seen-id set compares ids by value. The JavaScript `Set` uses SameValueZero, so two object ids with equal contents count as different there.
- Dashboard.HandleEnvelope: it keeps only the id and status label of a normalized agent, and the id, status and resolving flags of a normalized decision. The other display fields are kept only as the raw payload. `toLocaleTimeString` and `localStorage` are outside the model.
- `deriveRuntime`, which reads `Date.now()`, is outside the model. So is the snapshot load, which is a fetch.
- Agents.InjectEvent: it assumes the `type` check that `POST /inject` makes before calling it.
- `server/src/config.js` and `server/src/index.js` (environment loading and bootstrap) are outside the model.
- The rendering components, mode configuration and mock data of the dashboard are outside the model.
- The stricter test-side validator in `server/contracts/tests/event-schema.test.mjs` is not the model of `server/src/contract.js`.

## Findings

| source | as written | input that shows it | evidently intended | confidence | as-written member | corrected member |
|---|---|---|---|---|---|---|
| server/src/app.js:36-37 | `if (!body) return;` after `parseJsonBody` meets a failed parse, which has already answered 400, but also any body that parses to a falsy value. That request gets no reply at all | an authorized `POST /spawn` whose body is the text `null` (likewise `false`, `0` or `""` on any body route) | stop only when the parse failed. Otherwise continue, so that a `null` spawn body gets the catch-all 500 and another falsy body gets the missing-field 400 | not executed | Routes.NullSpawnBodyUnanswered | Routes.EveryRequestAnswered |
| src/App.jsx:57 | the status lookup, which falls back to `'idle'`, indexes a plain object literal, so a key that `Object.prototype` defines yields the inherited member instead of a label | an `agent.*` envelope whose payload has `status: "constructor"` (or `"__proto__"`) | only the map's own keys give labels, and every other status shows as `idle` | not executed | Dashboard.ConstructorStatusEscapes | Dashboard.AgentStatus |

=== FILE: agents.dfy ===
/** The agent orchestrator of `server/src/agentService.js`. The service is an immutable value:
    the hub with its store, the per-agent state in the order agents were first spawned, the
    failure windows, the watched agents, the healer client, the UUIDv7 values still to be drawn,
    and the list of every envelope `publish` stored. Each operation is one atomic step;
    timers, the file watcher, the runner and the healer are inputs: a timer firing is a call,
    a directory check is a boolean, a runner result and a healer outcome are parameters. */
module Agents {
  import opened Wrappers
  import opened Text
  import opened Json
  import opened Db
  import EventHub
  import opened Retry
  import opened Healer
  import opened AgentText

  const SchemaVersion: string := "1.0.0"
  const ServiceSource: string := "mission-control"
  /** An agent with no activity for longer than this is stalled. */
  const StallAfterMs: int := 15 * 60 * 1000
  /** Failures of one signature within this window count together. */
  const FailureWindowMs: int := 30 * 60 * 1000
  /** This many failures of one signature within the window pause the agent. */
  const FlappingThreshold: nat := 3
  /** Lines of output kept in a failure event. */
  const TailLines: nat := 100
  const DefaultBuildCommand: string := "npm run build"
  const DefaultTestCommand: string := "npm run test --if-present"
  const HumanContext: string := "Healer forwarding failed; manual intervention required."
  const ResumedMessage: string := "Agent resumed after decision resolution"

  // ---------------------------------------------------------------- runner results

  /** What `runShellCommand` resolves with. */
  datatype ShellResult = ShellResult(ok: bool, code: int, timedOut: bool, stdout: string, stderr: string)

  /** The result record built when the child closes with `exitCode` (`None` for a signal). */
  function RunnerResult(exitCode: Option<int>, timedOut: bool, stdout: string, stderr: string): (r: ShellResult)
    ensures r.ok <==> !timedOut && exitCode == Some(0)
    ensures r.ok ==> r.code == 0 && !r.timedOut
    ensures exitCode.None? ==> !r.ok && r.code == -1
    ensures exitCode.Some? ==> r.code == exitCode.value
    ensures r.timedOut == timedOut && r.stdout == stdout && r.stderr == stderr
  {
    ShellResult(!timedOut && exitCode == Some(0), if exitCode.Some? then exitCode.value else -1,
                timedOut, stdout, stderr)
  }

  // ---------------------------------------------------------------- state

  /** One entry of `agentState`: the run fields plus the orchestration flags. The entry's own
      `endedAt` stays `null`; only the stored row gets an end time. Commands are absent until
      a watcher starts. */
  datatype AgentState = AgentState(
    run: AgentRun,
    paused: bool,
    lastActivityAt: int,
    pendingBuild: bool,
    buildCommand: Option<Json>,
    testCommand: Option<Json>)

  datatype Service = Service(
    hub: EventHub.Hub,
    agents: map<string, AgentState>,
    order: seq<string>,
    signatures: map<string, seq<int>>,
    watched: set<string>,
    healer: HealerClient,
    uuids: seq<string>,
    published: seq<Json>)

  /** The clock reading of a step: `Date.now()` and `new Date().toISOString()`. */
  datatype Clock = Clock(now: int, stamp: string)

  /** The state the service keeps consistent: a valid store, entries keyed by their own
      (non-empty) agent id, and UUIDs still to be drawn that are distinct and name no decision yet. */
  predicate Valid(s: Service) {
    && EventHub.Valid(s.hub)
    && "" !in s.agents
    && (forall a :: a in s.agents ==> s.agents[a].run.agentId == a)
    && (forall i, j :: 0 <= i < j < |s.uuids| ==> s.uuids[i] != s.uuids[j])
    && (forall i :: 0 <= i < |s.uuids| ==> s.uuids[i] !in s.hub.store.decisions)
  }

  /** `order` lists every known agent once: the iteration order of the `agentState` map. */
  predicate Ordered(s: Service) {
    && (forall i, j :: 0 <= i < j < |s.order| ==> s.order[i] != s.order[j])
    && (forall a :: a in s.agents ==> a in s.order)
    && (forall i :: 0 <= i < |s.order| ==> s.order[i] in s.agents)
  }

  /** An operation that keeps `order` and the set of known agents keeps `Ordered`. */
  lemma OrderedFrame(s: Service, r: Service)
    requires r.order == s.order
    requires forall a :: a in r.agents <==> a in s.agents
    ensures Ordered(s) ==> Ordered(r)
  {
  }

  /** A service with no agents over an empty store and hub. */
  function NewService(healer: HealerClient, uuids: seq<string>): (s: Service)
    requires forall i, j :: 0 <= i < j < |uuids| ==> uuids[i] != uuids[j]
    ensures Valid(s) && Ordered(s) && s.agents == map[] && s.published == [] && s.uuids == uuids
  {
    Service(EventHub.Hub(EmptyStore(), []), map[], [], map[], {}, healer, uuids, [])
  }

  /** `uuidv7()`: the next UUID of the supply. */
  function Mint(s: Service): (r: (string, Service))
    requires |s.uuids| > 0
    ensures r.0 == s.uuids[0] && r.1 == s.(uuids := s.uuids[1..])
    ensures Valid(s) ==>
      && Valid(r.1) && r.0 !in s.hub.store.decisions
      && forall i :: 0 <= i < |r.1.uuids| ==> r.1.uuids[i] != r.0
  {
    (s.uuids[0], s.(uuids := s.uuids[1..]))
  }

  // ---------------------------------------------------------------- envelopes

  /** The ten member names of an envelope are distinct. */
  lemma EnvelopeKeysDistinct()
    ensures "id" != "schemaVersion" && "id" != "eventVersion" && "id" != "source"
    ensures "id" != "type" && "id" != "severity" && "id" != "timestamp"
    ensures "id" != "correlationId" && "id" != "agentId" && "id" != "payload"
    ensures "schemaVersion" != "eventVersion" && "schemaVersion" != "source" && "schemaVersion" != "type"
    ensures "schemaVersion" != "severity" && "schemaVersion" != "timestamp" && "schemaVersion" != "correlationId"
    ensures "schemaVersion" != "agentId" && "schemaVersion" != "payload" && "eventVersion" != "source"
    ensures "eventVersion" != "type" && "eventVersion" != "severity" && "eventVersion" != "timestamp"
    ensures "eventVersion" != "correlationId" && "eventVersion" != "agentId" && "eventVersion" != "payload"
    ensures "source" != "type" && "source" != "severity" && "source" != "timestamp"
    ensures "source" != "correlationId" && "source" != "agentId" && "source" != "payload"
    ensures "type" != "severity" && "type" != "timestamp" && "type" != "correlationId"
    ensures "type" != "agentId" && "type" != "payload" && "severity" != "timestamp"
    ensures "severity" != "correlationId" && "severity" != "agentId" && "severity" != "payload"
    ensures "timestamp" != "correlationId" && "timestamp" != "agentId" && "timestamp" != "payload"
    ensures "correlationId" != "agentId" && "correlationId" != "payload" && "agentId" != "payload"
  {
  }

  /** The last members of an envelope: correlation id, agent id (left out when `undefined`)
      and payload. */
  function EventLinks(correlationId: Json, agentId: Option<Json>, payload: Json): (ms: Object)
    ensures Lookup(ms, "correlationId") == Some(correlationId)
    ensures Lookup(ms, "agentId") == agentId
    ensures Lookup(ms, "payload") == Some(payload)
  {
    EnvelopeKeysDistinct();
    Cons("correlationId", correlationId, ConsOpt("agentId", agentId, Cons("payload", payload, [])))
  }

  /** The members of an envelope after its fixed head: type, severity, timestamp, then the
      links. */
  function EventBody(eventType: Json, severity: Json, stamp: string, links: Object): (ms: Object)
    ensures Lookup(ms, "type") == Some(eventType)
    ensures Lookup(ms, "severity") == Some(severity)
    ensures Lookup(ms, "timestamp") == Some(JStr(stamp))
    ensures forall k :: k !in {"type", "severity", "timestamp"} ==> Lookup(ms, k) == Lookup(links, k)
  {
    EnvelopeKeysDistinct();
    Cons("type", eventType, Cons("severity", severity, Cons("timestamp", JStr(stamp), links)))
  }

  /** The envelope every emitting method builds, members in the order the source writes them:
      fixed schema version, event version 1 and source `mission-control`. */
  function MakeEvent(id: string, eventType: Json, severity: Json, stamp: string,
                     correlationId: Json, agentId: Option<Json>, payload: Json): (e: Json)
    ensures Prop(e, "id") == Some(JStr(id))
    ensures Prop(e, "schemaVersion") == Some(JStr(SchemaVersion))
    ensures Prop(e, "eventVersion") == Some(JNum(Int(1)))
    ensures Prop(e, "source") == Some(JStr(ServiceSource))
    ensures Prop(e, "type") == Some(eventType)
    ensures Prop(e, "severity") == Some(severity)
    ensures Prop(e, "timestamp") == Some(JStr(stamp))
    ensures Prop(e, "correlationId") == Some(correlationId)
    ensures Prop(e, "agentId") == agentId
    ensures Prop(e, "payload") == Some(payload)
  {
    EnvelopeKeysDistinct();
    var body := EventBody(eventType, severity, stamp, EventLinks(correlationId, agentId, payload));
    JObj(Cons("id", JStr(id), Cons("schemaVersion", JStr(SchemaVersion),
      Cons("eventVersion", JNum(Int(1)), Cons("source", JStr(ServiceSource), body)))))
  }

  /** An envelope the service emits about one of its agents. */
  function AgentEvent(id: string, eventType: string, severity: string, stamp: string,
                      correlationId: string, agentId: string, payload: Object): (e: Json)
    ensures Insertable(e)
    ensures Prop(e, "id") == Some(JStr(id))
    ensures Prop(e, "type") == Some(JStr(eventType))
    ensures Prop(e, "severity") == Some(JStr(severity))
    ensures Prop(e, "correlationId") == Some(JStr(correlationId))
    ensures Prop(e, "agentId") == Some(JStr(agentId))
    ensures Prop(e, "payload") == Some(JObj(payload))
  {
    MakeEvent(id, JStr(eventType), JStr(severity), stamp, JStr(correlationId), Some(JStr(agentId)), JObj(payload))
  }

  /** The entries after an event about `a`: its activity time is `now` if it is known. */
  function Touch(agents: map<string, AgentState>, a: string, now: int): (r: map<string, AgentState>)
    ensures forall b :: b in r <==> b in agents
    ensures forall b :: b in agents ==>
      r[b] == if b == a && a != "" then agents[b].(lastActivityAt := now) else agents[b]
  {
    if a != "" && a in agents then agents[a := agents[a].(lastActivityAt := now)] else agents
  }

  /** Touching an entry whose activity time is already `now` changes nothing. */
  lemma TouchCurrent(agents: map<string, AgentState>, a: string, now: int)
    requires a in agents ==> agents[a].lastActivityAt == now
    ensures Touch(agents, a, now) == agents
  {
    if a != "" && a in agents {
      assert agents[a].(lastActivityAt := now) == agents[a];
    }
  }

  /** Two updates of one key: the second wins. */
  lemma UpdateTwice<K, V>(m: map<K, V>, k: K, v1: V, v2: V)
    ensures m[k := v1][k := v2] == m[k := v2]
  {
  }

  /** Whatever is appended, the old sequence is the prefix of its own length. */
  lemma PrefixKept<T>(xs: seq<T>, ys: seq<T>)
    ensures (xs + ys)[..|xs|] == xs
  {
  }

  /** Appending one element, then another, appends both. */
  lemma AppendTwo<T>(xs: seq<T>, a: T, b: T)
    ensures xs + [a] + [b] == xs + [a, b]
  {
  }

  /** The agent id `emit` looks up: the event's `agentId` when it is a string, otherwise
      none; an agent map holds string keys only. */
  function AgentIdOf(event: Json): (a: string)
    ensures Prop(event, "agentId") == Some(JStr(a)) || a == ""
  {
    match Prop(event, "agentId")
    case Some(JStr(a)) => a
    case _ => ""
  }

  /** Whether `emit(event)` refreshes agent `a`: `event.agentId` is truthy and names it. */
  predicate Refreshes(event: Json, a: string) {
    a != "" && Prop(event, "agentId") == Some(JStr(a))
  }

  /** `emit(event)` at `now`: publish, then refresh the activity time of the agent the event
      names, if the service knows it. */
  function Emit(s: Service, now: int, event: Json): (r: Service)
    requires Valid(s) && Insertable(event)
    ensures r.hub == EventHub.Publish(s.hub, now, event).0
    ensures r.published == s.published + [event]
    ensures r.agents == Touch(s.agents, AgentIdOf(event), now)
    ensures r == s.(hub := r.hub, agents := r.agents, published := r.published)
    ensures r.hub.store.decisions == s.hub.store.decisions && r.hub.store.runs == s.hub.store.runs
    ensures Valid(r)
  {
    var hub := EventHub.Publish(s.hub, now, event).0;
    s.(hub := hub, agents := Touch(s.agents, AgentIdOf(event), now), published := s.published + [event])
  }

  /** An emitted event refreshes exactly the known agent it names by a non-empty id. */
  lemma EmitRefreshes(s: Service, now: int, event: Json)
    requires Valid(s) && Insertable(event)
    ensures var r := Emit(s, now, event);
      && (forall a :: a in r.agents <==> a in s.agents)
      && forall a :: a in s.agents ==>
           r.agents[a] == (if Refreshes(event, a) then s.agents[a].(lastActivityAt := now) else s.agents[a])
  {
  }

  // ---------------------------------------------------------------- status and decisions

  /** The end time `setAgentStatus` stores: the current time for a finished run, else `null`. */
  function EndedAt(status: string, now: int): (t: Option<int>)
    ensures t.Some? <==> status == "completed" || status == "failed"
    ensures t.Some? ==> t.value == now
  {
    if status == "completed" || status == "failed" then Some(now) else None
  }

  /** `setAgentStatus(agentId, status)` at `now`: the entry takes the status and the run row
      is upserted with it. */
  function SetAgentStatus(s: Service, now: int, agentId: string, status: string): (r: Service)
    requires Valid(s)
    ensures agentId !in s.agents ==> r == s
    ensures agentId in s.agents ==>
      && r.agents == s.agents[agentId := s.agents[agentId].(run := s.agents[agentId].run.(status := status))]
      && r.hub == s.hub.(store := UpsertAgentRun(s.hub.store, r.agents[agentId].run.(endedAt := EndedAt(status, now))))
    ensures r == s.(agents := r.agents, hub := r.hub)
    ensures r.hub.store.decisions == s.hub.store.decisions && r.hub.store.log == s.hub.store.log
    ensures Valid(r)
  {
    if agentId !in s.agents then s
    else
      var st := s.agents[agentId];
      var st' := st.(run := st.run.(status := status));
      var row := st'.run.(endedAt := EndedAt(status, now));
      s.(agents := s.agents[agentId := st'], hub := s.hub.(store := UpsertAgentRun(s.hub.store, row)))
  }

  /** The stored row of a known agent has the status just set and an end time exactly for
      `completed` and `failed`; the entry's flags, task and start time do not change. */
  lemma StatusEndsRunOnlyWhenFinal(s: Service, now: int, agentId: string, status: string)
    requires Valid(s) && agentId in s.agents
    ensures var r := SetAgentStatus(s, now, agentId, status);
      && FindRun(r.hub.store, agentId).Some?
      && FindRun(r.hub.store, agentId).value.status == status
      && FindRun(r.hub.store, agentId).value.endedAt == (if status == "completed" || status == "failed" then Some(now) else None)
      && r.agents[agentId].paused == s.agents[agentId].paused
      && r.agents[agentId].pendingBuild == s.agents[agentId].pendingBuild
      && r.agents[agentId].run.endedAt == s.agents[agentId].run.endedAt
  {
    var st := s.agents[agentId];
    var row := st.run.(status := status, endedAt := EndedAt(status, now));
    UpsertAgentRunEffect(s.hub.store, row, agentId);
  }

  /** `state.paused = true`. */
  function Pause(s: Service, agentId: string): (r: Service)
    requires agentId in s.agents
    ensures r.agents == s.agents[agentId := s.agents[agentId].(paused := true)]
    ensures r == s.(agents := r.agents)
    ensures Valid(s) ==> Valid(r)
  {
    s.(agents := s.agents[agentId := s.agents[agentId].(paused := true)])
  }

  /** `{decisionId, reasonCode, ...payload}`. */
  function DecisionPayload(decisionId: string, reasonCode: string, payload: Object): (p: Object)
    ensures UniqueKeys(payload) && !HasKey(payload, "decisionId") ==> Lookup(p, "decisionId") == Some(JStr(decisionId))
    ensures UniqueKeys(payload) && !HasKey(payload, "reasonCode") ==> Lookup(p, "reasonCode") == Some(JStr(reasonCode))
    ensures UniqueKeys(payload) ==> forall k :: HasKey(payload, k) ==> Lookup(p, k) == Lookup(payload, k)
  {
    Assign(Cons("decisionId", JStr(decisionId), Cons("reasonCode", JStr(reasonCode), [])), payload)
  }

  /** The decision row `createDecisionRequired` stores. */
  predicate IsRequired(d: Decision, correlationId: string, agentId: string, reasonCode: string, payload: Object) {
    && d.status == "pending" && d.resolvedAt.None?
    && d.correlationId == correlationId && d.agentId == Some(agentId)
    && d.reasonCode == Some(reasonCode) && d.payload == JObj(payload)
  }

  /** `db.createDecision` under the next UUID, as `createDecisionRequired` calls it. */
  function RecordDecision(s: Service, c: Clock, correlationId: string, agentId: string,
                          reasonCode: string, payload: Object): (r: Service)
    requires Valid(s) && |s.uuids| >= 1
    ensures r.uuids == s.uuids[1..]
    ensures var id := s.uuids[0];
      && id !in s.hub.store.decisions
      && (forall k :: k in r.hub.store.decisions <==> k in s.hub.store.decisions || k == id)
      && IsRequired(r.hub.store.decisions[id], correlationId, agentId, reasonCode, payload)
      && r.hub.store.decisions[id].createdAt == c.now
      && (forall k :: k in s.hub.store.decisions ==> r.hub.store.decisions[k] == s.hub.store.decisions[k])
    ensures r.hub.store == s.hub.store.(decisions := r.hub.store.decisions)
    ensures r == s.(hub := r.hub, uuids := r.uuids) && r.hub.clients == s.hub.clients
    ensures Valid(r)
  {
    var (id, s1) := Mint(s);
    var d := NewDecision(id, correlationId, Some(agentId), Some(reasonCode), Some(JObj(payload)));
    var store := CreateDecision(s1.hub.store, d, c.now).value;
    s1.(hub := s1.hub.(store := store))
  }

  /** `createDecisionRequired({correlationId, agentId, reasonCode, payload})`: a pending
      decision under the next UUID, then a `decision.required` event under the one after. */
  function CreateDecisionRequired(s: Service, c: Clock, correlationId: string, agentId: string,
                                  reasonCode: string, payload: Object): (r: Service)
    requires Valid(s) && |s.uuids| >= 2
    ensures r.uuids == s.uuids[2..]
    ensures var id := s.uuids[0];
      && id !in s.hub.store.decisions
      && (forall k :: k in r.hub.store.decisions <==> k in s.hub.store.decisions || k == id)
      && IsRequired(r.hub.store.decisions[id], correlationId, agentId, reasonCode, payload)
      && r.hub.store.decisions[id].createdAt == c.now
      && (forall k :: k in s.hub.store.decisions ==> r.hub.store.decisions[k] == s.hub.store.decisions[k])
    ensures r.published == s.published +
      [AgentEvent(s.uuids[1], "decision.required", "warn", c.stamp, correlationId, agentId,
                  DecisionPayload(s.uuids[0], reasonCode, payload))]
    ensures r.agents == Touch(s.agents, agentId, c.now)
    ensures r.order == s.order && r.signatures == s.signatures && r.watched == s.watched && r.healer == s.healer
    ensures r.hub.store.runs == s.hub.store.runs
    ensures Valid(r)
  {
    var s2 := RecordDecision(s, c, correlationId, agentId, reasonCode, payload);
    var (eid, s3) := Mint(s2);
    assert s3.uuids == s.uuids[2..];
    var event := AgentEvent(eid, "decision.required", "warn", c.stamp, correlationId, agentId,
                            DecisionPayload(s.uuids[0], reasonCode, payload));
    var r := Emit(s3, c.now, event);
    assert AgentIdOf(event) == agentId;
    r
  }

  // ---------------------------------------------------------------- build scheduling

  /** `scheduleBuild(agentId)`: queue the debounced build unless the agent is unknown, paused
      or already has one queued. */
  function ScheduleBuild(s: Service, agentId: string): (r: Service)
    ensures agentId !in s.agents || s.agents[agentId].paused || s.agents[agentId].pendingBuild ==> r == s
    ensures agentId in s.agents && !s.agents[agentId].paused ==> agentId in r.agents && r.agents[agentId].pendingBuild
    ensures agentId in s.agents ==>
      && agentId in r.agents
      && r.agents == s.agents[agentId := r.agents[agentId]]
      && r.agents[agentId] == s.agents[agentId].(pendingBuild := r.agents[agentId].pendingBuild)
    ensures r == s.(agents := r.agents)
    ensures Valid(s) ==> Valid(r)
  {
    if agentId !in s.agents || s.agents[agentId].paused || s.agents[agentId].pendingBuild then s
    else s.(agents := s.agents[agentId := s.agents[agentId].(pendingBuild := true)])
  }

  /** A second request before the timer fires changes nothing: at most one build is queued
      per agent. */
  lemma ScheduleBuildIdempotent(s: Service, agentId: string)
    ensures ScheduleBuild(ScheduleBuild(s, agentId), agentId) == ScheduleBuild(s, agentId)
  {
  }

  // ---------------------------------------------------------------- spawn and the watcher

  /** The fields `spawn` reads from its argument; `metadata` is `{}` when absent. */
  datatype SpawnRequest = SpawnRequest(
    task: string,
    repoPath: string,
    branch: Option<string>,
    priority: Option<string>,
    metadata: Json)

  /** What `spawn` resolves with (its `status` is always `accepted`). */
  datatype SpawnResponse = SpawnResponse(agentId: string, correlationId: string)

  /** The outcome of `spawn`: the service afterwards, the response or `None` when the call
      threw, and whether the microtask that calls `scheduleBuild` was queued. */
  datatype Spawned = Spawned(service: Service, response: Option<SpawnResponse>, queuesBuild: bool)

  /** `branch || branchFromTask(agentId, task)`. */
  function ResolveBranch(agentId: string, task: string, branch: Option<string>): (b: string)
    ensures branch.Some? && branch.value != "" ==> b == branch.value
    ensures branch.None? || branch.value == "" ==> b == BranchFromTask(agentId, Some(JStr(task)))
  {
    if branch.Some? && branch.value != "" then branch.value else BranchFromTask(agentId, Some(JStr(task)))
  }

  /** `metadata.key || fallback`, for a `metadata` that is not `null`. */
  function CommandOr(metadata: Json, key: string, fallback: string): (cmd: Json)
    ensures Defined(Prop(metadata, key)) ==> cmd == Prop(metadata, key).value
    ensures !Defined(Prop(metadata, key)) ==> cmd == JStr(fallback)
  {
    Or(Prop(metadata, key), Some(JStr(fallback))).value
  }

  /** `startWatcher` on a path that is not a directory: the agent is marked failed and a
      `repo_path_invalid` decision is raised; nothing is watched and no command is set. */
  function RejectRepo(s: Service, c: Clock, agentId: string, repoPath: string): (r: Service)
    requires Valid(s) && agentId in s.agents && |s.uuids| >= 2
    ensures Valid(r) && r.order == s.order
    ensures forall a :: a in r.agents <==> a in s.agents
    ensures r.watched == s.watched && r.uuids == s.uuids[2..]
    ensures |r.published| == |s.published| + 1 && r.published[..|s.published|] == s.published
    ensures r.agents == Touch(s.agents[agentId := s.agents[agentId].(run := s.agents[agentId].run.(status := "failed"))],
                              agentId, c.now)
  {
    var s1 := SetAgentStatus(s, c.now, agentId, "failed");
    assert s1.agents[agentId].run.correlationId == s.agents[agentId].run.correlationId;
    CreateDecisionRequired(s1, c, s.agents[agentId].run.correlationId, agentId, "repo_path_invalid",
                           [Member("repoPath", JStr(repoPath))])
  }

  /** The rejected path raises a pending `repo_path_invalid` decision naming it. */
  lemma RejectRepoDecision(s: Service, c: Clock, agentId: string, repoPath: string)
    requires Valid(s) && agentId in s.agents && |s.uuids| >= 2
    ensures var r := RejectRepo(s, c, agentId, repoPath); var id := s.uuids[0];
      && id in r.hub.store.decisions && id !in s.hub.store.decisions
      && IsRequired(r.hub.store.decisions[id], s.agents[agentId].run.correlationId, agentId,
                    "repo_path_invalid", [Member("repoPath", JStr(repoPath))])
  {
  }

  /** `startWatcher` on a directory: the agent is watched, then takes its build and test
      commands from `metadata`, or the defaults; reading them from a `null` metadata throws
      after the watcher is registered, which the boolean reports. */
  function WatchRepo(s: Service, agentId: string, metadata: Json): (r: (Service, bool))
    requires Valid(s) && agentId in s.agents
    ensures Valid(r.0) && r.1 <==> metadata == JNull
    ensures r.0.watched == s.watched + {agentId}
    ensures metadata == JNull ==> r.0 == s.(watched := r.0.watched)
    ensures metadata != JNull ==>
      r.0 == s.(watched := r.0.watched, agents := s.agents[agentId := s.agents[agentId].(
               buildCommand := Some(CommandOr(metadata, "buildCommand", DefaultBuildCommand)),
               testCommand := Some(CommandOr(metadata, "testCommand", DefaultTestCommand)))])
  {
    var s1 := s.(watched := s.watched + {agentId});
    if metadata == JNull then (s1, true)
    else
      var st := s1.agents[agentId];
      var st' := st.(buildCommand := Some(CommandOr(metadata, "buildCommand", DefaultBuildCommand)),
                     testCommand := Some(CommandOr(metadata, "testCommand", DefaultTestCommand)));
      (s1.(agents := s1.agents[agentId := st']), false)
  }

  /** `startWatcher(agentId, repoPath, metadata)`; the boolean says whether it threw. */
  function StartWatcher(s: Service, c: Clock, agentId: string, repoPath: string, metadata: Json,
                        repoIsDir: bool): (r: (Service, bool))
    requires Valid(s) && agentId in s.agents && |s.uuids| >= 2
    ensures Valid(r.0) && r.0.order == s.order
    ensures forall a :: a in r.0.agents <==> a in s.agents
    ensures |r.0.published| >= |s.published| && r.0.published[..|s.published|] == s.published
    ensures r.1 <==> repoIsDir && metadata == JNull
    ensures !repoIsDir ==> r.0 == RejectRepo(s, c, agentId, repoPath)
    ensures repoIsDir ==> r == WatchRepo(s, agentId, metadata)
  {
    if !repoIsDir then (RejectRepo(s, c, agentId, repoPath), false)
    else WatchRepo(s, agentId, metadata)
  }

  /** The payload of `agent.spawned`. */
  function SpawnedPayload(task: string, repoPath: string, branch: string, priority: string): Object {
    Cons("task", JStr(task), Cons("repoPath", JStr(repoPath), Cons("branch", JStr(branch),
      Cons("priority", JStr(priority), []))))
  }

  /** The run row `spawn` records for a request under the agent and correlation ids. */
  function SpawnedRun(agentId: string, correlationId: string, req: SpawnRequest, now: int): (run: AgentRun)
    ensures run.agentId == agentId && run.correlationId == correlationId
    ensures run.task == req.task && run.repoPath == req.repoPath && run.metadata == req.metadata
    ensures run.status == "running" && run.startedAt == now && run.endedAt.None?
    ensures run.branch == ResolveBranch(agentId, req.task, req.branch)
    ensures run.priority == Some(req.priority.GetOr("normal"))
  {
    AgentRun(agentId, req.task, "running", req.repoPath, ResolveBranch(agentId, req.task, req.branch),
             Some(req.priority.GetOr("normal")), correlationId, req.metadata, now, None)
  }

  /** The entry `spawn` registers before anything else happens. */
  function Registered(s: Service, agentId: string, run: AgentRun, now: int): (r: Service)
    requires Valid(s) && run.agentId == agentId && agentId != ""
    ensures r.agents == s.agents[agentId := AgentState(run, false, now, false, None, None)]
    ensures agentId in s.agents ==> r.order == s.order
    ensures agentId !in s.agents ==> r.order == s.order + [agentId]
    ensures r.hub == s.hub.(store := UpsertAgentRun(s.hub.store, run))
    ensures r == s.(agents := r.agents, order := r.order, hub := r.hub)
    ensures Valid(r)
    ensures Ordered(s) ==> Ordered(r)
  {
    var order := if agentId in s.agents then s.order else s.order + [agentId];
    var r := s.(agents := s.agents[agentId := AgentState(run, false, now, false, None, None)], order := order,
                hub := s.hub.(store := UpsertAgentRun(s.hub.store, run)));
    assert forall i :: 0 <= i < |s.order| ==> order[i] == s.order[i];
    r
  }

  /** The `agent.spawned` envelope. */
  function SpawnedEvent(id: string, c: Clock, agentId: string, correlationId: string, req: SpawnRequest): (e: Json)
    ensures Insertable(e) && Prop(e, "agentId") == Some(JStr(agentId))
  {
    AgentEvent(id, "agent.spawned", "info", c.stamp, correlationId, agentId,
               SpawnedPayload(req.task, req.repoPath, ResolveBranch(agentId, req.task, req.branch),
                              req.priority.GetOr("normal")))
  }

  /** The entry and row `spawn` registers under the first two UUIDs. */
  function SpawnEntry(s: Service, c: Clock, req: SpawnRequest): (r: Service)
    requires Valid(s) && |s.uuids| >= 3
    ensures Valid(r) && r.uuids == s.uuids[2..] && r.published == s.published && r.watched == s.watched
    ensures var agentId := "agent_" + s.uuids[0];
      r.agents == s.agents[agentId := AgentState(SpawnedRun(agentId, s.uuids[1], req, c.now), false, c.now, false, None, None)]
    ensures Ordered(s) ==> Ordered(r)
  {
    var agentId := "agent_" + s.uuids[0];
    var s2 := Mint(Mint(s).1).1;
    Registered(s2, agentId, SpawnedRun(agentId, s.uuids[1], req, c.now), c.now)
  }

  /** The part of `spawn` before the watcher: the registered entry and the `agent.spawned`
      event under the third UUID, which refreshes the new entry to the time it already has. */
  function SpawnHead(s: Service, c: Clock, req: SpawnRequest): (r: Service)
    requires Valid(s) && |s.uuids| >= 3
    ensures Valid(r) && r.uuids == s.uuids[3..] && r.watched == s.watched
    ensures var agentId := "agent_" + s.uuids[0];
      && r.agents == s.agents[agentId := AgentState(SpawnedRun(agentId, s.uuids[1], req, c.now), false, c.now, false, None, None)]
      && r.published == s.published + [SpawnedEvent(s.uuids[2], c, agentId, s.uuids[1], req)]
    ensures Ordered(s) ==> Ordered(r)
  {
    var agentId := "agent_" + s.uuids[0];
    var s3 := SpawnEntry(s, c, req);
    var s4 := Mint(s3).1;
    var event := SpawnedEvent(s.uuids[2], c, agentId, s.uuids[1], req);
    assert AgentIdOf(event) == agentId;
    var r := Emit(s4, c.now, event);
    TouchCurrent(s4.agents, agentId, c.now);
    OrderedFrame(s4, r);
    r
  }


  /** `spawn(request)`: two UUIDs name the agent and its correlation, a third the
      `agent.spawned` event; the watcher may take two more for a decision. The build itself is
      queued as a microtask, which the caller runs as `ScheduleBuild` when `queuesBuild`. */
  function Spawn(s: Service, c: Clock, req: SpawnRequest, repoIsDir: bool): (r: Spawned)
    requires Valid(s) && |s.uuids| >= 5
    ensures Valid(r.service)
    ensures var agentId := "agent_" + s.uuids[0];
      && agentId in r.service.agents
      && (forall a :: a in s.agents ==> a in r.service.agents)
      && (r.response.Some? ==> r.response.value == SpawnResponse(agentId, s.uuids[1]))
    ensures Ordered(s) ==> Ordered(r.service)
    ensures r.service == SpawnService(s, c, req, repoIsDir)
    ensures r.response.None? <==> req.metadata == JNull
    ensures r.queuesBuild <==> req.metadata != JNull && Prop(req.metadata, "runImmediately") != Some(JBool(false))
  {
    var agentId := "agent_" + s.uuids[0];
    var w := SpawnService(s, c, req, repoIsDir);
    if req.metadata == JNull then Spawned(w, None, false)
    else Spawned(w, Some(SpawnResponse(agentId, s.uuids[1])),
                 Prop(req.metadata, "runImmediately") != Some(JBool(false)))
  }

  /** The service once `spawn`'s synchronous part is done: the entry and `agent.spawned`, then
      the watcher. The new agent is known, every earlier agent still is, and the service stays
      valid and ordered. */
  function SpawnService(s: Service, c: Clock, req: SpawnRequest, repoIsDir: bool): (w: Service)
    requires Valid(s) && |s.uuids| >= 5
    ensures Valid(w) && "agent_" + s.uuids[0] in w.agents
    ensures forall a :: a in s.agents ==> a in w.agents
    ensures Ordered(s) ==> Ordered(w)
  {
    var head := SpawnHead(s, c, req);
    var w := StartWatcher(head, c, "agent_" + s.uuids[0], req.repoPath, req.metadata, repoIsDir).0;
    OrderedFrame(head, w);
    w
  }

  /** The watcher leaves the entry's task, path, correlation id and pause flag alone. */
  lemma WatcherKeepsRun(s: Service, c: Clock, a: string, repoPath: string, metadata: Json, repoIsDir: bool)
    requires Valid(s) && a in s.agents && |s.uuids| >= 2
    ensures var r := StartWatcher(s, c, a, repoPath, metadata, repoIsDir).0;
      && a in r.agents && r.agents[a].paused == s.agents[a].paused
      && r.agents[a].run.task == s.agents[a].run.task && r.agents[a].run.repoPath == s.agents[a].run.repoPath
      && r.agents[a].run.correlationId == s.agents[a].run.correlationId
  {
    if !repoIsDir {
      var st := s.agents[a];
      var failed := s.agents[a := st.(run := st.run.(status := "failed"))];
      assert RejectRepo(s, c, a, repoPath).agents[a] == failed[a].(lastActivityAt := c.now);
    }
  }

  /** The spawned entry keeps the request's task and path under the fresh correlation id,
      and is not paused, whether or not the watcher accepted the path. */
  lemma SpawnRegistersRun(s: Service, c: Clock, req: SpawnRequest, repoIsDir: bool)
    requires Valid(s) && |s.uuids| >= 5
    ensures var a := "agent_" + s.uuids[0]; var r := Spawn(s, c, req, repoIsDir).service;
      && a in r.agents && !r.agents[a].paused
      && r.agents[a].run.task == req.task && r.agents[a].run.repoPath == req.repoPath
      && r.agents[a].run.correlationId == s.uuids[1]
  {
    var a := "agent_" + s.uuids[0];
    var head := SpawnHead(s, c, req);
    WatcherKeepsRun(head, c, a, req.repoPath, req.metadata, repoIsDir);
  }

  /** A spawn whose path is not a directory leaves the agent failed but not paused, with no
      build command; the build it queues still runs the pipeline, which stops at the missing
      command after only refreshing the activity time. */
  lemma InvalidRepoStillSchedules(s: Service, c: Clock, req: SpawnRequest)
    requires Valid(s) && |s.uuids| >= 5
    requires req.metadata != JNull && Prop(req.metadata, "runImmediately") != Some(JBool(false))
    ensures var sp := Spawn(s, c, req, false); var agentId := "agent_" + s.uuids[0];
      && sp.queuesBuild && sp.response.Some?
      && agentId in sp.service.agents && agentId !in sp.service.watched - s.watched
      && sp.service.agents[agentId].run.status == "failed"
      && !sp.service.agents[agentId].paused
      && sp.service.agents[agentId].buildCommand.None?
      && ScheduleBuild(sp.service, agentId).agents[agentId].pendingBuild
  {
  }

  /** The file watcher's `error` event: a `watcher_failed` decision for a watched agent. */
  function WatchError(s: Service, c: Clock, agentId: string): (r: Service)
    requires Valid(s) && |s.uuids| >= 2
    ensures agentId !in s.watched || agentId !in s.agents ==> r == s
    ensures Valid(r)
  {
    if agentId !in s.watched || agentId !in s.agents then s
    else
      var st := s.agents[agentId];
      CreateDecisionRequired(s, c, st.run.correlationId, agentId, "watcher_failed",
                             [Member("repoPath", JStr(st.run.repoPath))])
  }

  /** A watcher error raises a decision and changes neither the agent's status nor its pause
      flag, nor any other agent. */
  lemma WatchErrorKeepsStatus(s: Service, c: Clock, agentId: string)
    requires Valid(s) && |s.uuids| >= 2 && agentId in s.watched && agentId in s.agents
    ensures var r := WatchError(s, c, agentId);
      && s.uuids[0] in r.hub.store.decisions
      && r.hub.store.decisions[s.uuids[0]].reasonCode == Some("watcher_failed")
      && r.hub.store.decisions[s.uuids[0]].agentId == Some(agentId)
      && r.agents[agentId].run == s.agents[agentId].run
      && r.agents[agentId].paused == s.agents[agentId].paused
      && forall a :: a in s.agents && a != agentId ==> r.agents[a] == s.agents[a]
  {
  }

  /** A change the watcher reports: a build request for that agent. */
  function FileChanged(s: Service, agentId: string): (r: Service)
    ensures agentId in s.watched ==> r == ScheduleBuild(s, agentId)
    ensures agentId !in s.watched ==> r == s
  {
    if agentId in s.watched then ScheduleBuild(s, agentId) else s
  }

  /** `close()`: every watcher closed. */
  function Close(s: Service): (r: Service)
    ensures r.watched == {} && r == s.(watched := {})
  {
    s.(watched := {})
  }

  // ---------------------------------------------------------------- build failures

  /** `filter((ts) => now - ts < 30 * 60 * 1000)`: the failure times still inside the window,
      in their order. */
  function KeepRecent(times: seq<int>, now: int): (r: seq<int>)
    ensures |r| <= |times|
    ensures forall t :: t in r <==> t in times && now - t < FailureWindowMs
    decreases |times|
  {
    if |times| == 0 then []
    else if now - times[0] < FailureWindowMs then [times[0]] + KeepRecent(times[1..], now)
    else KeepRecent(times[1..], now)
  }

  /** The failure times of `signature` after a failure at `now`: the recent ones, then `now`. */
  function FailureSeries(signatures: map<string, seq<int>>, signature: string, now: int): (r: seq<int>)
    ensures |r| >= 1 && r[|r| - 1] == now
    ensures forall t :: t in r[..|r| - 1] <==>
      signature in signatures && t in signatures[signature] && now - t < FailureWindowMs
  {
    var before := if signature in signatures then signatures[signature] else [];
    var r := KeepRecent(before, now) + [now];
    assert r[..|r| - 1] == KeepRecent(before, now);
    r
  }

  /** The payload of `build.failed`; `command` is left out when the command is `undefined`. */
  function FailurePayload(phase: string, command: Option<Json>, result: ShellResult, signature: string): Object {
    Cons("phase", JStr(phase), ConsOpt("command", command, Cons("exitCode", JNum(Int(result.code)),
      Cons("timedOut", JBool(result.timedOut), Cons("signature", JStr(signature),
      Cons("stdoutTail", JStr(Tail(result.stdout, TailLines)),
      Cons("stderrTail", JStr(Tail(result.stderr, TailLines)), [])))))))
  }

  /** The command a phase ran. */
  function PhaseCommand(st: AgentState, phase: string): Option<Json> {
    if phase == "build" then st.buildCommand else st.testCommand
  }

  /** The `build.failed` envelope for a result of `phase`. */
  function FailureEvent(id: string, c: Clock, st: AgentState, agentId: string, result: ShellResult,
                        phase: string): (e: Json)
    ensures Insertable(e) && Prop(e, "agentId") == Some(JStr(agentId))
    ensures Prop(e, "type") == Some(JStr("build.failed")) && Prop(e, "severity") == Some(JStr("critical"))
  {
    AgentEvent(id, "build.failed", "critical", c.stamp, st.run.correlationId, agentId,
               FailurePayload(phase, PhaseCommand(st, phase), result,
                              SignatureOf(result.stderr, result.stdout, phase)))
  }

  /** The first half of `handleBuildFailure`: the critical `build.failed` event, the agent
      blocked, and the failure time appended to its signature's recent failures. */
  function ReportFailure(s: Service, c: Clock, agentId: string, result: ShellResult, phase: string): (r: Service)
    requires Valid(s) && agentId in s.agents && |s.uuids| >= 1
    ensures Valid(r) && r.uuids == s.uuids[1..]
    ensures r.published == s.published + [FailureEvent(s.uuids[0], c, s.agents[agentId], agentId, result, phase)]
    ensures r.agents == s.agents[agentId := s.agents[agentId].(lastActivityAt := c.now,
                                           run := s.agents[agentId].run.(status := "blocked"))]
    ensures var signature := SignatureOf(result.stderr, result.stdout, phase);
      r.signatures == s.signatures[signature := FailureSeries(s.signatures, signature, c.now)]
    ensures r.order == s.order && r.watched == s.watched && r.healer == s.healer
    ensures r.hub.store.decisions == s.hub.store.decisions
  {
    var signature := SignatureOf(result.stderr, result.stdout, phase);
    var event := FailureEvent(s.uuids[0], c, s.agents[agentId], agentId, result, phase);
    var s1 := Mint(s).1;
    assert AgentIdOf(event) == agentId;
    var s2 := Emit(s1, c.now, event);
    var st := s.agents[agentId];
    assert s2.agents == s.agents[agentId := st.(lastActivityAt := c.now)];
    var s3 := SetAgentStatus(s2, c.now, agentId, "blocked");
    UpdateTwice(s.agents, agentId, st.(lastActivityAt := c.now),
                st.(lastActivityAt := c.now, run := st.run.(status := "blocked")));
    s3.(signatures := s3.signatures[signature := FailureSeries(s3.signatures, signature, c.now)])
  }

  /** A decision that stops the agent: `createDecisionRequired` under the next two UUIDs,
      then `state.paused = true`. */
  function Flag(s: Service, c: Clock, agentId: string, reason: string, payload: Object): (r: Service)
    requires Valid(s) && agentId in s.agents && |s.uuids| >= 2
    ensures Valid(r) && r.uuids == s.uuids[2..] && r.healer == s.healer
    ensures r.agents == s.agents[agentId := s.agents[agentId].(paused := true, lastActivityAt := c.now)]
    ensures r.published == s.published +
      [AgentEvent(s.uuids[1], "decision.required", "warn", c.stamp, s.agents[agentId].run.correlationId,
                  agentId, DecisionPayload(s.uuids[0], reason, payload))]
    ensures s.uuids[0] in r.hub.store.decisions
    ensures IsRequired(r.hub.store.decisions[s.uuids[0]], s.agents[agentId].run.correlationId, agentId,
                       reason, payload)
    ensures r.order == s.order && r.signatures == s.signatures && r.watched == s.watched
  {
    var r := CreateDecisionRequired(s, c, s.agents[agentId].run.correlationId, agentId, reason, payload);
    DecisionThenPause(s, c, agentId, reason, payload);
    Pause(r, agentId)
  }

  /** Step of `Flag`: recording the decision refreshes the agent's activity, and the pause
      then sets its flag. */
  lemma DecisionThenPause(s: Service, c: Clock, agentId: string, reason: string, payload: Object)
    requires Valid(s) && agentId in s.agents && |s.uuids| >= 2
    ensures var r := CreateDecisionRequired(s, c, s.agents[agentId].run.correlationId, agentId, reason, payload);
      && agentId in r.agents
      && Pause(r, agentId).agents == s.agents[agentId := s.agents[agentId].(paused := true, lastActivityAt := c.now)]
  {
    var st := s.agents[agentId];
    var r := CreateDecisionRequired(s, c, st.run.correlationId, agentId, reason, payload);
    assert r.agents == s.agents[agentId := st.(lastActivityAt := c.now)];
    UpdateTwice(s.agents, agentId, st.(lastActivityAt := c.now), st.(lastActivityAt := c.now, paused := true));
  }

  /** The reason code of a failed forward: the breaker's own error, or anything else. */
  function EscalationReason(e: HealerError): (reason: string)
    ensures reason == "healer_circuit_open" <==> ErrorCode(e) == Some("circuit_open")
    ensures reason == "healer_circuit_open" || reason == "healer_unreachable"
  {
    if ErrorCode(e) == Some("circuit_open") then "healer_circuit_open" else "healer_unreachable"
  }

  /** `String(err.message || err)`; an error with an empty message prints as its name, which
      is `Error` here. */
  function ErrorText(e: HealerError): (text: string)
    ensures e.CircuitOpen? ==> text == "circuit_open"
    ensures text != ""
  {
    var message := if e.CircuitOpen? then "circuit_open" else ErrorMessage(e.cause);
    if message != "" then message else "Error"
  }

  /** The payload of `heal.escalated`. */
  function EscalatedPayload(reason: string): Object {
    Cons("reasonCode", JStr(reason), Cons("humanContext", JStr(HumanContext), []))
  }

  /** The `heal.escalated` warning under the next UUID. */
  function WarnEscalated(s: Service, c: Clock, agentId: string, reason: string): (r: Service)
    requires Valid(s) && agentId in s.agents && |s.uuids| >= 1
    ensures Valid(r) && r.uuids == s.uuids[1..]
    ensures r.agents == s.agents[agentId := s.agents[agentId].(lastActivityAt := c.now)]
    ensures r.published == s.published +
      [AgentEvent(s.uuids[0], "heal.escalated", "warn", c.stamp, s.agents[agentId].run.correlationId,
                  agentId, EscalatedPayload(reason))]
    ensures r == s.(hub := r.hub, agents := r.agents, published := r.published, uuids := r.uuids)
    ensures r.hub.store.decisions == s.hub.store.decisions
  {
    var event := AgentEvent(s.uuids[0], "heal.escalated", "warn", c.stamp, s.agents[agentId].run.correlationId,
                            agentId, EscalatedPayload(reason));
    assert AgentIdOf(event) == agentId;
    Emit(Mint(s).1, c.now, event)
  }

  /** A forward that threw: a `heal.escalated` warning, a decision with the same reason code
      carrying the error text, and the agent paused. */
  function EscalateToHuman(s: Service, c: Clock, agentId: string, e: HealerError): (r: Service)
    requires Valid(s) && agentId in s.agents && |s.uuids| >= 3
    ensures Valid(r) && r.uuids == s.uuids[3..] && r.healer == s.healer
    ensures r.agents == s.agents[agentId := s.agents[agentId].(paused := true, lastActivityAt := c.now)]
    ensures var corr := s.agents[agentId].run.correlationId;
      && r.published == s.published +
           [AgentEvent(s.uuids[0], "heal.escalated", "warn", c.stamp, corr, agentId, EscalatedPayload(EscalationReason(e))),
            AgentEvent(s.uuids[2], "decision.required", "warn", c.stamp, corr, agentId,
                       DecisionPayload(s.uuids[1], EscalationReason(e), [Member("error", JStr(ErrorText(e)))]))]
      && s.uuids[1] in r.hub.store.decisions
      && IsRequired(r.hub.store.decisions[s.uuids[1]], corr, agentId, EscalationReason(e),
                    [Member("error", JStr(ErrorText(e)))])
    ensures r.order == s.order && r.signatures == s.signatures && r.watched == s.watched
  {
    var reason := EscalationReason(e);
    var extra := [Member("error", JStr(ErrorText(e)))];
    EscalationPauses(s, c, agentId, reason, extra);
    EscalationPublishes(s, c, agentId, reason, extra);
    Flag(WarnEscalated(s, c, agentId, reason), c, agentId, reason, extra)
  }

  /** The warning then the flag leave the agent paused and everything but the hub, the
      agents and the supply as it was. */
  lemma EscalationPauses(s: Service, c: Clock, agentId: string, reason: string, extra: Object)
    requires Valid(s) && agentId in s.agents && |s.uuids| >= 3
    ensures var r := Flag(WarnEscalated(s, c, agentId, reason), c, agentId, reason, extra);
      && Valid(r) && r.uuids == s.uuids[3..] && r.healer == s.healer
      && r.agents == s.agents[agentId := s.agents[agentId].(paused := true, lastActivityAt := c.now)]
      && r.order == s.order && r.signatures == s.signatures && r.watched == s.watched
  {
    var st := s.agents[agentId];
    UpdateTwice(s.agents, agentId, st.(lastActivityAt := c.now), st.(lastActivityAt := c.now, paused := true));
  }

  /** The warning then the flag publish `heal.escalated` and `decision.required`, and record
      the decision under the second UUID. */
  lemma EscalationPublishes(s: Service, c: Clock, agentId: string, reason: string, extra: Object)
    requires Valid(s) && agentId in s.agents && |s.uuids| >= 3
    ensures var r := Flag(WarnEscalated(s, c, agentId, reason), c, agentId, reason, extra);
      var corr := s.agents[agentId].run.correlationId;
      && r.published == s.published +
           [AgentEvent(s.uuids[0], "heal.escalated", "warn", c.stamp, corr, agentId, EscalatedPayload(reason)),
            AgentEvent(s.uuids[2], "decision.required", "warn", c.stamp, corr, agentId,
                       DecisionPayload(s.uuids[1], reason, extra))]
      && s.uuids[1] in r.hub.store.decisions
      && IsRequired(r.hub.store.decisions[s.uuids[1]], corr, agentId, reason, extra)
  {
    WarningKeepsRun(s, c, agentId, reason);
    var s1 := WarnEscalated(s, c, agentId, reason);
    var s2 := Flag(s1, c, agentId, reason, extra);
    AppendTwo(s.published, s1.published[|s.published|], s2.published[|s1.published|]);
  }

  /** The warning keeps the agent's run and moves the supply on by one. */
  lemma WarningKeepsRun(s: Service, c: Clock, agentId: string, reason: string)
    requires Valid(s) && agentId in s.agents && |s.uuids| >= 3
    ensures var s1 := WarnEscalated(s, c, agentId, reason);
      && agentId in s1.agents && s1.agents[agentId].run == s.agents[agentId].run
      && s1.uuids[0] == s.uuids[1] && s1.uuids[1] == s.uuids[2]
  {
  }

  /** The outcome of the healer call: the clock when it settles and what each attempt yields. */
  datatype HealerCall = HealerCall(settled: Clock, outcomes: seq<Attempt>)

  /** `forwardBuildFailed(failureEvent)`, checked at `now`; a failure escalates to a human once
      the call settles. */
  function ForwardFailure(s: Service, c: Clock, agentId: string, event: Json, heal: HealerCall): (r: Service)
    requires Valid(s) && agentId in s.agents && |s.uuids| >= 3 && |heal.outcomes| == |Delays|
    ensures var f := ForwardBuildFailed(s.healer, c.now, heal.settled.now, event, heal.outcomes);
      && (f.result.Success? ==> r == s.(healer := f.client))
      && (f.result.Failure? ==> r == EscalateToHuman(s.(healer := f.client), heal.settled, agentId, f.result.error))
    ensures Valid(r) && r.order == s.order && r.signatures == s.signatures && r.watched == s.watched
    ensures agentId in r.agents && r.agents[agentId].run == s.agents[agentId].run
  {
    var f := ForwardBuildFailed(s.healer, c.now, heal.settled.now, event, heal.outcomes);
    var s1 := s.(healer := f.client);
    if f.result.Success? then s1 else EscalateToHuman(s1, heal.settled, agentId, f.result.error)
  }

  /** `handleBuildFailure(agentId, result, phase)` for a known agent: report, then either the
      flapping decision or the healer. */
  function HandleBuildFailure(s: Service, c: Clock, agentId: string, result: ShellResult, phase: string,
                              heal: HealerCall): (r: Service)
    requires Valid(s) && |s.uuids| >= 4 && |heal.outcomes| == |Delays|
    ensures agentId !in s.agents ==> r == s
    ensures agentId in s.agents ==>
      var signature := SignatureOf(result.stderr, result.stdout, phase);
      var reported := ReportFailure(s, c, agentId, result, phase);
      && (|reported.signatures[signature]| >= FlappingThreshold ==>
            r == Flag(reported, c, agentId, "flapping_failure_signature", [Member("signature", JStr(signature))]))
      && (|reported.signatures[signature]| < FlappingThreshold ==>
            r == ForwardFailure(reported, c, agentId,
                   FailureEvent(s.uuids[0], c, s.agents[agentId], agentId, result, phase), heal))
    ensures Valid(r) && r.order == s.order && r.watched == s.watched
    ensures agentId in s.agents ==> r.agents[agentId].run.status == "blocked"
  {
    if agentId !in s.agents then s
    else
      var signature := SignatureOf(result.stderr, result.stdout, phase);
      var reported := ReportFailure(s, c, agentId, result, phase);
      if |reported.signatures[signature]| >= FlappingThreshold then
        Flag(reported, c, agentId, "flapping_failure_signature", [Member("signature", JStr(signature))])
      else ForwardFailure(reported, c, agentId, FailureEvent(s.uuids[0], c, s.agents[agentId], agentId, result, phase), heal)
  }

  // ---------------------------------------------------------------- the build pipeline

  /** A command `spawn` accepts: a non-empty string. Anything else makes `runShellCommand`
      throw before a child starts, which rejects the pipeline's promise. */
  predicate Runnable(command: Option<Json>) {
    command.Some? && command.value.JStr? && command.value.s != ""
  }

  /** What one pipeline run meets: the clock and result when the build settles, the same when
      the tests settle, and the healer call a failure makes. */
  datatype PipelineRun = PipelineRun(buildAt: Clock, build: ShellResult, testAt: Clock, test: ShellResult, heal: HealerCall)

  /** The payload of `build.passed`. */
  function PassedPayload(st: AgentState): Object {
    ConsOpt("buildCommand", st.buildCommand, ConsOpt("testCommand", st.testCommand, []))
  }

  /** The `build.passed` envelope. */
  function PassedEvent(id: string, c: Clock, st: AgentState, agentId: string): (e: Json)
    ensures Insertable(e) && Prop(e, "agentId") == Some(JStr(agentId))
    ensures Prop(e, "type") == Some(JStr("build.passed")) && Prop(e, "severity") == Some(JStr("info"))
  {
    AgentEvent(id, "build.passed", "info", c.stamp, st.run.correlationId, agentId, PassedPayload(st))
  }

  /** Both phases passed: `build.passed`, then the status back to `running`. */
  function BuildPassed(s: Service, c: Clock, agentId: string): (r: Service)
    requires Valid(s) && agentId in s.agents && |s.uuids| >= 1
    ensures Valid(r) && r.uuids == s.uuids[1..]
    ensures r.published == s.published + [PassedEvent(s.uuids[0], c, s.agents[agentId], agentId)]
    ensures r.agents == s.agents[agentId := s.agents[agentId].(lastActivityAt := c.now,
                                           run := s.agents[agentId].run.(status := "running"))]
    ensures r.order == s.order && r.watched == s.watched && r.healer == s.healer && r.signatures == s.signatures
    ensures r.hub.store.decisions == s.hub.store.decisions
  {
    var st := s.agents[agentId];
    var event := PassedEvent(s.uuids[0], c, st, agentId);
    assert AgentIdOf(event) == agentId;
    var s2 := Emit(Mint(s).1, c.now, event);
    assert s2.agents == s.agents[agentId := st.(lastActivityAt := c.now)];
    UpdateTwice(s.agents, agentId, st.(lastActivityAt := c.now),
                st.(lastActivityAt := c.now, run := st.run.(status := "running")));
    SetAgentStatus(s2, c.now, agentId, "running")
  }

  /** `runBuildPipeline(agentId)` started at `c`: nothing for an unknown or paused agent;
      otherwise the activity time is refreshed, the build runs, the tests run only after a
      passing build, and the first failing phase goes to `handleBuildFailure`. */
  function RunBuildPipeline(s: Service, c: Clock, agentId: string, p: PipelineRun): (r: Service)
    requires Valid(s) && |s.uuids| >= 4 && |p.heal.outcomes| == |Delays|
    ensures agentId !in s.agents || s.agents[agentId].paused ==> r == s
    ensures Valid(r) && r.order == s.order && r.watched == s.watched
  {
    if agentId !in s.agents || s.agents[agentId].paused then s
    else
      var st := s.agents[agentId];
      var s1 := s.(agents := s.agents[agentId := st.(lastActivityAt := c.now)]);
      if !Runnable(st.buildCommand) then s1
      else if !p.build.ok then HandleBuildFailure(s1, p.buildAt, agentId, p.build, "build", p.heal)
      else if !Runnable(st.testCommand) then s1
      else if !p.test.ok then HandleBuildFailure(s1, p.testAt, agentId, p.test, "test", p.heal)
      else BuildPassed(s1, p.testAt, agentId)
  }

  /** The debounce timer fires: the queued flag is cleared, then the pipeline runs. */
  function BuildTimerFired(s: Service, c: Clock, agentId: string, p: PipelineRun): (r: Service)
    requires Valid(s) && |s.uuids| >= 4 && |p.heal.outcomes| == |Delays|
    ensures agentId !in s.agents ==> r == s
    ensures agentId in s.agents ==>
      r == RunBuildPipeline(s.(agents := s.agents[agentId := s.agents[agentId].(pendingBuild := false)]), c, agentId, p)
    ensures Valid(r) && r.order == s.order && r.watched == s.watched
  {
    if agentId !in s.agents then s
    else RunBuildPipeline(s.(agents := s.agents[agentId := s.agents[agentId].(pendingBuild := false)]), c, agentId, p)
  }

  // ---------------------------------------------------------------- pipeline properties

  /** The failure windows are keyed by signature alone: any two agents failing with the same
      result in the same phase extend the same series. */
  lemma SignatureWindowShared(s: Service, c: Clock, a1: string, a2: string, result: ShellResult, phase: string)
    requires Valid(s) && a1 in s.agents && a2 in s.agents && |s.uuids| >= 1
    ensures ReportFailure(s, c, a1, result, phase).signatures == ReportFailure(s, c, a2, result, phase).signatures
  {
  }

  /** Three failures of one signature, none recorded before, the third within the window of
      the first: the third failure's series has three entries, enough to flap. */
  lemma {:induction false} ThirdFailureInWindowFlaps(sigs: map<string, seq<int>>, signature: string, t1: int, t2: int, t3: int)
    requires signature !in sigs && t1 <= t2 <= t3 && t3 - t1 < FailureWindowMs
    ensures var m1 := sigs[signature := FailureSeries(sigs, signature, t1)];
      var m2 := m1[signature := FailureSeries(m1, signature, t2)];
      && FailureSeries(m2, signature, t3) == [t1, t2, t3]
      && |FailureSeries(m2, signature, t3)| >= FlappingThreshold
  {
    assert FailureSeries(sigs, signature, t1) == [t1];
    var m1 := sigs[signature := [t1]];
    assert KeepRecent([t1], t2) == [t1];
    assert FailureSeries(m1, signature, t2) == [t1, t2];
    var m2 := m1[signature := [t1, t2]];
    assert KeepRecent([t2], t3) == [t2];
    assert KeepRecent([t1, t2], t3) == [t1, t2];
  }

  /** A failure more than the window after every earlier one of its signature starts a new
      series of one, which never flaps. */
  lemma StaleFailuresForgotten(sigs: map<string, seq<int>>, signature: string, now: int)
    requires signature in sigs
    requires forall i :: 0 <= i < |sigs[signature]| ==> now - sigs[signature][i] >= FailureWindowMs
    ensures FailureSeries(sigs, signature, now) == [now]
  {
    NoneRecent(sigs[signature], now);
  }

  lemma {:induction false} NoneRecent(times: seq<int>, now: int)
    requires forall i :: 0 <= i < |times| ==> now - times[i] >= FailureWindowMs
    ensures KeepRecent(times, now) == []
    decreases |times|
  {
    if |times| > 0 {
      NoneRecent(times[1..], now);
    }
  }

  /** Whatever happens after the report, `handleBuildFailure` publishes `build.failed` first,
      leaves the agent blocked and records the failure time under its signature. */
  lemma FailureBlocksAndReports(s: Service, c: Clock, agentId: string, result: ShellResult, phase: string,
                                heal: HealerCall)
    requires Valid(s) && |s.uuids| >= 4 && |heal.outcomes| == |Delays| && agentId in s.agents
    ensures var r := HandleBuildFailure(s, c, agentId, result, phase, heal);
      var signature := SignatureOf(result.stderr, result.stdout, phase);
      && |r.published| > |s.published|
      && r.published[|s.published|] == FailureEvent(s.uuids[0], c, s.agents[agentId], agentId, result, phase)
      && r.signatures[signature] == FailureSeries(s.signatures, signature, c.now)
  {
    var reported := ReportFailure(s, c, agentId, result, phase);
    var r := HandleBuildFailure(s, c, agentId, result, phase, heal);
    ReportedThenHandled(s, c, agentId, result, phase, heal);
    assert r.published[|s.published|] == r.published[..|reported.published|][|s.published|];
  }

  /** Step of `FailureBlocksAndReports`: what follows the report only appends events and
      leaves the failure windows alone. */
  lemma ReportedThenHandled(s: Service, c: Clock, agentId: string, result: ShellResult, phase: string,
                            heal: HealerCall)
    requires Valid(s) && |s.uuids| >= 4 && |heal.outcomes| == |Delays| && agentId in s.agents
    ensures var reported := ReportFailure(s, c, agentId, result, phase);
      var r := HandleBuildFailure(s, c, agentId, result, phase, heal);
      && |r.published| >= |reported.published| && r.published[..|reported.published|] == reported.published
      && r.signatures == reported.signatures
  {
    var signature := SignatureOf(result.stderr, result.stdout, phase);
    var reported := ReportFailure(s, c, agentId, result, phase);
    if |reported.signatures[signature]| < FlappingThreshold {
      ForwardKeepsPublished(reported, c, agentId, FailureEvent(s.uuids[0], c, s.agents[agentId], agentId, result, phase), heal);
    }
  }

  /** Forwarding a failure to the healer only appends events: none when it is delivered, the
      escalation's two when it is not. */
  lemma ForwardKeepsPublished(s: Service, c: Clock, agentId: string, event: Json, heal: HealerCall)
    requires Valid(s) && agentId in s.agents && |s.uuids| >= 3 && |heal.outcomes| == |Delays|
    ensures var r := ForwardFailure(s, c, agentId, event, heal);
      |r.published| >= |s.published| && r.published[..|s.published|] == s.published
  {
    var f := ForwardBuildFailed(s.healer, c.now, heal.settled.now, event, heal.outcomes);
    if f.result.Failure? {
      var e := EscalateToHuman(s.(healer := f.client), heal.settled, agentId, f.result.error);
      PrefixKept(s.published, e.published[|s.published|..]);
    }
  }

  /** The third failure of a signature in the window raises `flapping_failure_signature` and
      pauses the agent without calling the healer. */
  lemma FlappingSkipsHealer(s: Service, c: Clock, agentId: string, result: ShellResult, phase: string,
                            heal: HealerCall)
    requires Valid(s) && |s.uuids| >= 4 && |heal.outcomes| == |Delays| && agentId in s.agents
    requires var signature := SignatureOf(result.stderr, result.stdout, phase);
      |FailureSeries(s.signatures, signature, c.now)| >= FlappingThreshold
    ensures var r := HandleBuildFailure(s, c, agentId, result, phase, heal);
      && r.healer == s.healer
      && r.agents[agentId].paused
      && s.uuids[1] in r.hub.store.decisions
      && IsRequired(r.hub.store.decisions[s.uuids[1]], s.agents[agentId].run.correlationId, agentId,
           "flapping_failure_signature", [Member("signature", JStr(SignatureOf(result.stderr, result.stdout, phase)))])
  {
  }

  /** Below the flapping threshold the failure goes to the healer, and the client takes the
      forward's breaker state. A delivered forward changes nothing else: `build.failed` is
      the only event, no decision is raised and the pause flag stays as it was. */
  lemma DeliveredForwardRests(s: Service, c: Clock, agentId: string, result: ShellResult, phase: string,
                              heal: HealerCall)
    requires Valid(s) && |s.uuids| >= 4 && |heal.outcomes| == |Delays| && agentId in s.agents
    requires var signature := SignatureOf(result.stderr, result.stdout, phase);
      |FailureSeries(s.signatures, signature, c.now)| < FlappingThreshold
    requires ForwardBuildFailed(s.healer, c.now, heal.settled.now,
               FailureEvent(s.uuids[0], c, s.agents[agentId], agentId, result, phase), heal.outcomes).result.Success?
    ensures var r := HandleBuildFailure(s, c, agentId, result, phase, heal);
      var fe := FailureEvent(s.uuids[0], c, s.agents[agentId], agentId, result, phase);
      && r.healer == ForwardBuildFailed(s.healer, c.now, heal.settled.now, fe, heal.outcomes).client
      && r.published == s.published + [fe]
      && r.agents[agentId].paused == s.agents[agentId].paused
      && r.hub.store.decisions == s.hub.store.decisions
  {
    var reported := ReportFailure(s, c, agentId, result, phase);
    assert reported.healer == s.healer;
  }

  /** A forward that fails raises a decision whose reason tells an open circuit from an
      unreachable healer, and pauses the agent; the client keeps the forward's breaker state. */
  lemma FailedForwardEscalates(s: Service, c: Clock, agentId: string, event: Json, heal: HealerCall)
    requires Valid(s) && agentId in s.agents && |s.uuids| >= 3 && |heal.outcomes| == |Delays|
    requires ForwardBuildFailed(s.healer, c.now, heal.settled.now, event, heal.outcomes).result.Failure?
    ensures var r := ForwardFailure(s, c, agentId, event, heal);
      var f := ForwardBuildFailed(s.healer, c.now, heal.settled.now, event, heal.outcomes);
      && r.healer == f.client
      && r.agents[agentId].paused
      && s.uuids[1] in r.hub.store.decisions
      && r.hub.store.decisions[s.uuids[1]].reasonCode == Some(EscalationReason(f.result.error))
      && (EscalationReason(f.result.error) == "healer_circuit_open" <==> f.result.error.CircuitOpen?)
  {
  }

  /** The tests run only after a passing build: when the build command is missing or the build
      fails, what the tests would have done makes no difference. */
  lemma PipelineTestsOnlyAfterBuild(s: Service, c: Clock, agentId: string, p: PipelineRun,
                                    testAt: Clock, test: ShellResult)
    requires Valid(s) && |s.uuids| >= 4 && |p.heal.outcomes| == |Delays|
    requires agentId in s.agents ==> !Runnable(s.agents[agentId].buildCommand) || !p.build.ok
    ensures RunBuildPipeline(s, c, agentId, p) == RunBuildPipeline(s, c, agentId, p.(testAt := testAt, test := test))
  {
  }

  /** A pipeline run of an active agent ends in `build.passed` exactly when both commands are
      runnable and both pass. */
  lemma PipelinePassedIff(s: Service, c: Clock, agentId: string, p: PipelineRun)
    requires Valid(s) && |s.uuids| >= 4 && |p.heal.outcomes| == |Delays|
    requires agentId in s.agents && !s.agents[agentId].paused
    ensures var st := s.agents[agentId];
      ((Runnable(st.buildCommand) && p.build.ok && Runnable(st.testCommand) && p.test.ok) <==>
       RunBuildPipeline(s, c, agentId, p).published == s.published + [PassedEvent(s.uuids[0], p.testAt, st, agentId)])
  {
    var st := s.agents[agentId];
    var passed := PassedEvent(s.uuids[0], p.testAt, st, agentId);
    var r := RunBuildPipeline(s, c, agentId, p);
    if Runnable(st.buildCommand) && p.build.ok && Runnable(st.testCommand) && p.test.ok {
      PipelinePasses(s, c, agentId, p);
    } else if !Runnable(st.buildCommand) || (p.build.ok && !Runnable(st.testCommand)) {
      PipelineSkips(s, c, agentId, p);
    } else if !p.build.ok {
      PipelineBuildFails(s, c, agentId, p);
      assert r.published[|s.published|] != passed;
    } else {
      PipelineTestFails(s, c, agentId, p);
      assert r.published[|s.published|] != passed;
    }
  }

  /** Both phases pass: `build.passed` is the one event, and the agent is `running`. */
  lemma PipelinePasses(s: Service, c: Clock, agentId: string, p: PipelineRun)
    requires Valid(s) && |s.uuids| >= 4 && |p.heal.outcomes| == |Delays|
    requires agentId in s.agents && !s.agents[agentId].paused
    requires var st := s.agents[agentId];
      Runnable(st.buildCommand) && p.build.ok && Runnable(st.testCommand) && p.test.ok
    ensures var r := RunBuildPipeline(s, c, agentId, p);
      && r.published == s.published + [PassedEvent(s.uuids[0], p.testAt, s.agents[agentId], agentId)]
      && r.agents[agentId].run.status == "running"
  {
    var st := s.agents[agentId];
    var s1 := s.(agents := s.agents[agentId := st.(lastActivityAt := c.now)]);
    assert PassedEvent(s.uuids[0], p.testAt, s1.agents[agentId], agentId) == PassedEvent(s.uuids[0], p.testAt, st, agentId);
  }

  /** A missing command ends the run quietly: nothing is published. */
  lemma PipelineSkips(s: Service, c: Clock, agentId: string, p: PipelineRun)
    requires Valid(s) && |s.uuids| >= 4 && |p.heal.outcomes| == |Delays|
    requires agentId in s.agents && !s.agents[agentId].paused
    requires var st := s.agents[agentId];
      !Runnable(st.buildCommand) || (p.build.ok && !Runnable(st.testCommand))
    ensures var r := RunBuildPipeline(s, c, agentId, p);
      && r.published == s.published
      && r.agents == Touch(s.agents, agentId, c.now)
  {
    var st := s.agents[agentId];
    assert Touch(s.agents, agentId, c.now) == s.agents[agentId := st.(lastActivityAt := c.now)];
  }

  /** A failing build publishes `build.failed` first, never `build.passed`. */
  lemma PipelineBuildFails(s: Service, c: Clock, agentId: string, p: PipelineRun)
    requires Valid(s) && |s.uuids| >= 4 && |p.heal.outcomes| == |Delays|
    requires agentId in s.agents && !s.agents[agentId].paused
    requires Runnable(s.agents[agentId].buildCommand) && !p.build.ok
    ensures var r := RunBuildPipeline(s, c, agentId, p);
      && |r.published| > |s.published|
      && Prop(r.published[|s.published|], "type") == Some(JStr("build.failed"))
  {
    var st := s.agents[agentId];
    var s1 := s.(agents := s.agents[agentId := st.(lastActivityAt := c.now)]);
    FailureBlocksAndReports(s1, p.buildAt, agentId, p.build, "build", p.heal);
  }

  /** A passing build whose tests fail publishes `build.failed` first, never `build.passed`. */
  lemma PipelineTestFails(s: Service, c: Clock, agentId: string, p: PipelineRun)
    requires Valid(s) && |s.uuids| >= 4 && |p.heal.outcomes| == |Delays|
    requires agentId in s.agents && !s.agents[agentId].paused
    requires Runnable(s.agents[agentId].buildCommand) && p.build.ok
    requires Runnable(s.agents[agentId].testCommand) && !p.test.ok
    ensures var r := RunBuildPipeline(s, c, agentId, p);
      && |r.published| > |s.published|
      && Prop(r.published[|s.published|], "type") == Some(JStr("build.failed"))
  {
    var st := s.agents[agentId];
    var s1 := s.(agents := s.agents[agentId := st.(lastActivityAt := c.now)]);
    FailureBlocksAndReports(s1, p.testAt, agentId, p.test, "test", p.heal);
  }

  // ---------------------------------------------------------------- the stall check

  /** An agent the stall check acts on: not paused, and quiet for longer than the limit. */
  predicate Stalled(st: AgentState, now: int) {
    !st.paused && now - st.lastActivityAt > StallAfterMs
  }

  /** The entry of a stalled agent after the check: paused, `blocked`, and refreshed by the
      `decision.required` event. */
  function StallState(st: AgentState, now: int): AgentState {
    st.(paused := true, lastActivityAt := now, run := st.run.(status := "blocked"))
  }

  /** The entries after the check has visited `a`. */
  function StallStep(agents: map<string, AgentState>, a: string, now: int): map<string, AgentState> {
    if a in agents && Stalled(agents[a], now) then agents[a := StallState(agents[a], now)] else agents
  }

  /** The entries after the check has visited `ids` in order. */
  function StallMap(agents: map<string, AgentState>, ids: seq<string>, now: int): map<string, AgentState>
    decreases |ids|
  {
    if |ids| == 0 then agents else StallMap(StallStep(agents, ids[0], now), ids[1..], now)
  }

  /** How many agents the check finds stalled while visiting `ids` in order. */
  function StalledCount(agents: map<string, AgentState>, ids: seq<string>, now: int): nat
    decreases |ids|
  {
    if |ids| == 0 then 0
    else StallsAt(agents, ids[0], now) + StalledCount(StallStep(agents, ids[0], now), ids[1..], now)
  }

  /** The `agent_stalled` payload: the activity time the check saw. */
  function StalledPayload(st: AgentState): Object {
    [Member("lastActivityAt", JNum(Int(st.lastActivityAt)))]
  }

  /** `state.paused = true; state.status = 'blocked'`, then the row upserted with no end time. */
  function MarkStalled(s: Service, a: string): (r: Service)
    requires Valid(s) && a in s.agents
    ensures Valid(r)
    ensures r.agents == s.agents[a := s.agents[a].(paused := true, run := s.agents[a].run.(status := "blocked"))]
    ensures var row := FindRun(r.hub.store, a);
      row.Some? && row.value.status == "blocked" && row.value.endedAt.None?
    ensures r.hub.store.decisions == s.hub.store.decisions
    ensures r == s.(agents := r.agents, hub := r.hub)
  {
    var st := s.agents[a];
    var st1 := st.(paused := true, run := st.run.(status := "blocked"));
    var row := st1.run.(endedAt := None);
    UpsertAgentRunEffect(s.hub.store, row, a);
    s.(agents := s.agents[a := st1], hub := s.hub.(store := UpsertAgentRun(s.hub.store, row)))
  }

  /** One stalled agent: paused and `blocked`, then an `agent_stalled` decision under the next
      two UUIDs. */
  function StallOne(s: Service, c: Clock, a: string): (r: Service)
    requires Valid(s) && a in s.agents && Stalled(s.agents[a], c.now) && |s.uuids| >= 2
    ensures Valid(r) && r.uuids == s.uuids[2..]
    ensures r.agents == s.agents[a := StallState(s.agents[a], c.now)]
    ensures r.published == s.published +
      [AgentEvent(s.uuids[1], "decision.required", "warn", c.stamp, s.agents[a].run.correlationId, a,
                  DecisionPayload(s.uuids[0], "agent_stalled", StalledPayload(s.agents[a])))]
    ensures s.uuids[0] in r.hub.store.decisions
    ensures IsRequired(r.hub.store.decisions[s.uuids[0]], s.agents[a].run.correlationId, a,
                       "agent_stalled", StalledPayload(s.agents[a]))
    ensures r.order == s.order && r.signatures == s.signatures && r.watched == s.watched && r.healer == s.healer
  {
    var st := s.agents[a];
    var s1 := MarkStalled(s, a);
    var r := CreateDecisionRequired(s1, c, st.run.correlationId, a, "agent_stalled", StalledPayload(st));
    UpdateTwice(s.agents, a, st.(paused := true, run := st.run.(status := "blocked")), StallState(st, c.now));
    r
  }

  /** A stalled agent's stored row reads `blocked` with no end time. */
  lemma StallBlocksRow(s: Service, c: Clock, a: string)
    requires Valid(s) && a in s.agents && Stalled(s.agents[a], c.now) && |s.uuids| >= 2
    ensures var row := FindRun(StallOne(s, c, a).hub.store, a);
      row.Some? && row.value.status == "blocked" && row.value.endedAt.None?
  {
    var s1 := MarkStalled(s, a);
    var r := StallOne(s, c, a);
    assert r.hub.store.runs == s1.hub.store.runs;
    assert FindRun(r.hub.store, a) == FindRun(s1.hub.store, a);
  }

  /** Whether the check finds `a` stalled: 1 or 0. */
  function StallsAt(agents: map<string, AgentState>, a: string, now: int): nat {
    if a in agents && Stalled(agents[a], now) then 1 else 0
  }

  /** The check visiting one agent: a stalled agent is handled, any other left alone. */
  function StallVisit(s: Service, c: Clock, a: string): (r: Service)
    requires Valid(s) && |s.uuids| >= 2 * StallsAt(s.agents, a, c.now)
    ensures Valid(r)
    ensures r.agents == StallStep(s.agents, a, c.now)
    ensures r.uuids == s.uuids[2 * StallsAt(s.agents, a, c.now)..]
    ensures |r.published| == |s.published| + StallsAt(s.agents, a, c.now)
    ensures s.published <= r.published
    ensures r.order == s.order && r.signatures == s.signatures && r.watched == s.watched && r.healer == s.healer
  {
    if a in s.agents && Stalled(s.agents[a], c.now) then
      var r := StallOne(s, c, a);
      assert StallsAt(s.agents, a, c.now) == 1;
      assert r.published == s.published + [r.published[|s.published|]];
      r
    else
      assert StallsAt(s.agents, a, c.now) == 0 && s.uuids[0..] == s.uuids;
      s
  }

  /** The check over the agents `ids`, in order. */
  function StallScan(s: Service, c: Clock, ids: seq<string>): (r: Service)
    requires Valid(s) && |s.uuids| >= 2 * StalledCount(s.agents, ids, c.now)
    ensures Valid(r)
    ensures r.agents == StallMap(s.agents, ids, c.now)
    ensures r.uuids == s.uuids[2 * StalledCount(s.agents, ids, c.now)..]
    ensures |r.published| == |s.published| + StalledCount(s.agents, ids, c.now)
    ensures s.published <= r.published
    ensures r.order == s.order && r.signatures == s.signatures && r.watched == s.watched && r.healer == s.healer
    decreases |ids|
  {
    if |ids| == 0 then s
    else
      var s1 := StallVisit(s, c, ids[0]);
      ScanStep(s.agents, ids, c.now, s.uuids, s1.uuids);
      StallScan(s1, c, ids[1..])
  }

  /** After visiting the first agent, the rest of the scan finds the remaining stalls and
      draws from what the visit left of the supply `u`. */
  lemma ScanStep<T>(agents: map<string, AgentState>, ids: seq<string>, now: int, u: seq<T>, u1: seq<T>)
    requires |ids| > 0 && |u| >= 2 * StalledCount(agents, ids, now)
    requires u1 == u[2 * StallsAt(agents, ids[0], now)..]
    ensures var n := StalledCount(StallStep(agents, ids[0], now), ids[1..], now);
      && StalledCount(agents, ids, now) == StallsAt(agents, ids[0], now) + n
      && |u1| >= 2 * n
      && u1[2 * n..] == u[2 * StalledCount(agents, ids, now)..]
      && StallMap(StallStep(agents, ids[0], now), ids[1..], now) == StallMap(agents, ids, now)
  {
    DropTwice(u, u1, StallsAt(agents, ids[0], now), StalledCount(StallStep(agents, ids[0], now), ids[1..], now));
  }

  /** Dropping `2 * k` then `2 * n` elements drops `2 * (k + n)`. */
  lemma DropTwice<T>(u: seq<T>, u1: seq<T>, k: nat, n: nat)
    requires |u| >= 2 * (k + n) && u1 == u[2 * k..]
    ensures |u1| >= 2 * n && u1[2 * n..] == u[2 * (k + n)..]
  {
  }

  /** `checkStalledAgents()` at `c`: every agent, in spawn order. */
  function CheckStalledAgents(s: Service, c: Clock): (r: Service)
    requires Valid(s) && |s.uuids| >= 2 * StalledCount(s.agents, s.order, c.now)
    ensures Valid(r) && r.agents == StallMap(s.agents, s.order, c.now)
    ensures |r.published| == |s.published| + StalledCount(s.agents, s.order, c.now)
    ensures s.published <= r.published
    ensures r.order == s.order && r.signatures == s.signatures && r.watched == s.watched
  {
    StallScan(s, c, s.order)
  }

  /** With distinct ids, every visited agent that was stalled is paused and `blocked`, and
      every other agent is untouched. */
  lemma {:induction false} StallMapEffect(agents: map<string, AgentState>, ids: seq<string>, now: int)
    requires forall i, j :: 0 <= i < j < |ids| ==> ids[i] != ids[j]
    ensures forall a :: a in StallMap(agents, ids, now) <==> a in agents
    ensures forall a :: a in agents && a in ids && Stalled(agents[a], now) ==>
      StallMap(agents, ids, now)[a] == StallState(agents[a], now)
    ensures forall a :: a in agents && (a !in ids || !Stalled(agents[a], now)) ==>
      StallMap(agents, ids, now)[a] == agents[a]
    decreases |ids|
  {
    if |ids| > 0 {
      var m := StallStep(agents, ids[0], now);
      StallMapEffect(m, ids[1..], now);
      assert forall a :: a in ids[1..] ==> a != ids[0];
      assert forall a :: a in ids ==> a == ids[0] || a in ids[1..];
    }
  }

  /** When no visited agent is stalled, the check does nothing. */
  lemma {:induction false} NothingStalled(s: Service, c: Clock, ids: seq<string>)
    requires Valid(s)
    requires forall i :: 0 <= i < |ids| ==> ids[i] in s.agents ==> !Stalled(s.agents[ids[i]], c.now)
    ensures StalledCount(s.agents, ids, c.now) == 0
    ensures StallScan(s, c, ids) == s
    decreases |ids|
  {
    if |ids| > 0 {
      NothingStalled(s, c, ids[1..]);
    }
  }

  /** A second check at the same instant finds nothing more: each stall pauses its agent,
      so it raises one decision and no more. */
  lemma CheckStalledIdempotent(s: Service, c: Clock)
    requires Valid(s) && Ordered(s) && |s.uuids| >= 2 * StalledCount(s.agents, s.order, c.now)
    ensures var r := CheckStalledAgents(s, c);
      && StalledCount(r.agents, r.order, c.now) == 0
      && CheckStalledAgents(r, c) == r
  {
    var r := CheckStalledAgents(s, c);
    NoneStalledAfterCheck(s, c);
    NothingStalled(r, c, r.order);
  }

  /** Step of `CheckStalledIdempotent`: after the check no listed agent is stalled. */
  lemma NoneStalledAfterCheck(s: Service, c: Clock)
    requires Valid(s) && Ordered(s) && |s.uuids| >= 2 * StalledCount(s.agents, s.order, c.now)
    ensures var r := CheckStalledAgents(s, c);
      forall i :: 0 <= i < |r.order| ==> r.order[i] in r.agents ==> !Stalled(r.agents[r.order[i]], c.now)
  {
    StallMapEffect(s.agents, s.order, c.now);
  }

  /** The check pauses and blocks exactly the stalled agents and leaves every other agent as
      it was. */
  lemma CheckStalledEffect(s: Service, c: Clock)
    requires Valid(s) && Ordered(s) && |s.uuids| >= 2 * StalledCount(s.agents, s.order, c.now)
    ensures var r := CheckStalledAgents(s, c);
      && (forall a :: a in r.agents <==> a in s.agents)
      && (forall a :: a in s.agents && Stalled(s.agents[a], c.now) ==>
            r.agents[a].paused && r.agents[a].run.status == "blocked" && r.agents[a].lastActivityAt == c.now)
      && (forall a :: a in s.agents && !Stalled(s.agents[a], c.now) ==> r.agents[a] == s.agents[a])
  {
    StallMapEffect(s.agents, s.order, c.now);
  }

  // ---------------------------------------------------------------- resolving decisions

  /** What `resolveDecision` receives. */
  datatype Resolution = Resolution(decisionId: string, resolution: string, actor: string, notes: Option<string>)

  /** The payload of `decision.resolved`: `notes ?? null`. */
  function ResolvedPayload(q: Resolution): Object {
    var notes := if q.notes.Some? then JStr(q.notes.value) else JNull;
    Cons("decisionId", JStr(q.decisionId), Cons("resolution", JStr(q.resolution),
      Cons("actor", JStr(q.actor), Cons("notes", notes, []))))
  }

  /** The `decision.resolved` envelope; `row.agentId ?? undefined` leaves a null agent id out. */
  function ResolvedEvent(id: string, c: Clock, row: ResolvedRef, q: Resolution): (e: Json)
    ensures Insertable(e)
    ensures Prop(e, "type") == Some(JStr("decision.resolved")) && Prop(e, "severity") == Some(JStr("info"))
    ensures Prop(e, "correlationId") == Some(JStr(row.correlationId))
    ensures row.agentId.None? <==> Prop(e, "agentId").None?
    ensures row.agentId.Some? ==> Prop(e, "agentId") == Some(JStr(row.agentId.value))
    ensures Prop(e, "payload") == Some(JObj(ResolvedPayload(q)))
  {
    match row.agentId
    case Some(a) =>
      AgentEvent(id, "decision.resolved", "info", c.stamp, row.correlationId, a, ResolvedPayload(q))
    case None =>
      MakeEvent(id, JStr("decision.resolved"), JStr("info"), c.stamp, JStr(row.correlationId), None,
                JObj(ResolvedPayload(q)))
  }

  /** The entry of an agent resumed by a resolution. */
  function Resumed(st: AgentState, now: int): AgentState {
    st.(paused := false, lastActivityAt := now, pendingBuild := true, run := st.run.(status := "running"))
  }

  /** `state.paused = false`, the activity time refreshed and the status set to `running`. */
  function Unpause(s: Service, c: Clock, agentId: string): (r: Service)
    requires Valid(s) && agentId in s.agents
    ensures Valid(r)
    ensures r.agents == s.agents[agentId := s.agents[agentId].(paused := false, lastActivityAt := c.now,
                                           run := s.agents[agentId].run.(status := "running"))]
    ensures r == s.(agents := r.agents, hub := r.hub)
    ensures r.hub.store.decisions == s.hub.store.decisions
  {
    var st := s.agents[agentId];
    var s1 := s.(agents := s.agents[agentId := st.(paused := false, lastActivityAt := c.now)]);
    var r := SetAgentStatus(s1, c.now, agentId, "running");
    UpdateTwice(s.agents, agentId, st.(paused := false, lastActivityAt := c.now),
                st.(paused := false, lastActivityAt := c.now, run := st.run.(status := "running")));
    r
  }

  /** The `agent.progress` envelope announcing the resumption. */
  function ResumedEvent(id: string, c: Clock, correlationId: string, agentId: string): (e: Json)
    ensures Insertable(e) && AgentIdOf(e) == agentId
    ensures Prop(e, "type") == Some(JStr("agent.progress"))
  {
    AgentEvent(id, "agent.progress", "info", c.stamp, correlationId, agentId,
               [Member("message", JStr(ResumedMessage))])
  }

  /** A known agent named by the resolved decision: unpaused, `running`, an `agent.progress`
      under the next UUID, and a build queued. */
  function Resume(s: Service, c: Clock, agentId: string, correlationId: string): (r: Service)
    requires Valid(s) && agentId in s.agents && |s.uuids| >= 1
    ensures Valid(r) && r.uuids == s.uuids[1..]
    ensures r.agents == s.agents[agentId := Resumed(s.agents[agentId], c.now)]
    ensures r.published == s.published + [ResumedEvent(s.uuids[0], c, correlationId, agentId)]
    ensures r.hub.store.decisions == s.hub.store.decisions
    ensures r.order == s.order && r.signatures == s.signatures && r.watched == s.watched && r.healer == s.healer
  {
    var st := s.agents[agentId];
    var s1 := Unpause(s, c, agentId);
    var event := ResumedEvent(s.uuids[0], c, correlationId, agentId);
    var s2 := Emit(Mint(s1).1, c.now, event);
    var mid := st.(paused := false, lastActivityAt := c.now, run := st.run.(status := "running"));
    TouchCurrent(s1.agents, agentId, c.now);
    UpdateTwice(s.agents, agentId, mid, Resumed(st, c.now));
    ScheduleBuild(s2, agentId)
  }

  /** Whether the resolved decision names an agent the service knows: `row.agentId` truthy and
      present in `agentState`. */
  predicate ResumesAgent(s: Service, row: ResolvedRef) {
    row.agentId.Some? && row.agentId.value != "" && row.agentId.value in s.agents
  }

  /** The first half of resolving a known decision: the row resolved and `decision.resolved`
      emitted under the next UUID. */
  function Announce(s: Service, c: Clock, q: Resolution): (r: (Service, ResolvedRef))
    requires Valid(s) && |s.uuids| >= 2 && q.decisionId in s.hub.store.decisions
    ensures var before := s.hub.store.decisions[q.decisionId];
      r.1 == ResolvedRef(q.decisionId, before.correlationId, before.agentId)
    ensures q.decisionId in r.0.hub.store.decisions
    ensures var d := r.0.hub.store.decisions[q.decisionId];
      && d.status == "resolved" && d.resolution == Some(q.resolution) && d.actor == Some(q.actor)
      && d.notes == q.notes && d.resolvedAt == Some(c.now)
    ensures r.0.published == s.published + [ResolvedEvent(s.uuids[0], c, r.1, q)]
    ensures r.0.agents == Touch(s.agents, AgentIdOf(ResolvedEvent(s.uuids[0], c, r.1, q)), c.now)
    ensures r.0.uuids == s.uuids[1..]
    ensures Valid(r.0) && r.0.order == s.order && r.0.watched == s.watched
  {
    var (store, row) := Db.ResolveDecision(s.hub.store, q.decisionId, q.resolution, q.actor, q.notes, c.now);
    var s1 := s.(hub := s.hub.(store := store));
    var event := ResolvedEvent(s.uuids[0], c, row.value, q);
    (Emit(Mint(s1).1, c.now, event), row.value)
  }

  /** `resolveDecision({decisionId, resolution, actor, notes})` at `c`: `None` for an unknown
      decision, which changes nothing; otherwise the row is resolved, `decision.resolved` is
      emitted, and the agent it names is resumed when the service knows it. */
  function ResolveDecision(s: Service, c: Clock, q: Resolution): (r: (Service, Option<ResolvedRef>))
    requires Valid(s) && |s.uuids| >= 2
    ensures r.1.None? <==> q.decisionId !in s.hub.store.decisions
    ensures r.1.None? ==> r.0 == s
    ensures r.1.Some? ==> q.decisionId in r.0.hub.store.decisions
    ensures r.1.Some? ==>
      var d := r.0.hub.store.decisions[q.decisionId];
      var before := s.hub.store.decisions[q.decisionId];
      && d.status == "resolved" && d.resolution == Some(q.resolution) && d.actor == Some(q.actor)
      && d.notes == q.notes && d.resolvedAt == Some(c.now)
      && r.1.value == ResolvedRef(q.decisionId, before.correlationId, before.agentId)
      && |r.0.published| > |s.published|
      && r.0.published[|s.published|] == ResolvedEvent(s.uuids[0], c, r.1.value, q)
    ensures Valid(r.0) && r.0.order == s.order && r.0.watched == s.watched
    ensures forall a :: a in r.0.agents <==> a in s.agents
  {
    if q.decisionId !in s.hub.store.decisions then (s, None)
    else
      var (s2, row) := Announce(s, c, q);
      if ResumesAgent(s2, row) then
        var r := Resume(s2, c, row.agentId.value, row.correlationId);
        (r, Some(row))
      else (s2, Some(row))
  }

  /** Resolving a decision that names a known agent resumes it: unpaused, `running`, a build
      queued, and `agent.progress` right after `decision.resolved`. */
  lemma ResolveResumesAgent(s: Service, c: Clock, q: Resolution)
    requires Valid(s) && |s.uuids| >= 2 && q.decisionId in s.hub.store.decisions
    requires var d := s.hub.store.decisions[q.decisionId];
      d.agentId.Some? && d.agentId.value in s.agents
    ensures var a := s.hub.store.decisions[q.decisionId].agentId.value;
      var r := ResolveDecision(s, c, q).0;
      && a in r.agents
      && !r.agents[a].paused && r.agents[a].run.status == "running" && r.agents[a].pendingBuild
      && r.agents[a].lastActivityAt == c.now
      && |r.published| == |s.published| + 2
      && r.published[|s.published| + 1] ==
           ResumedEvent(s.uuids[1], c, s.hub.store.decisions[q.decisionId].correlationId, a)
  {
    ResolvedAgentResumed(s, c, q);
    ResolvedThenResumedEvents(s, c, q);
  }

  /** The entry half of `ResolveResumesAgent`. */
  lemma ResolvedAgentResumed(s: Service, c: Clock, q: Resolution)
    requires Valid(s) && |s.uuids| >= 2 && q.decisionId in s.hub.store.decisions
    requires var d := s.hub.store.decisions[q.decisionId];
      d.agentId.Some? && d.agentId.value in s.agents
    ensures var a := s.hub.store.decisions[q.decisionId].agentId.value;
      var r := ResolveDecision(s, c, q).0;
      && a in r.agents
      && !r.agents[a].paused && r.agents[a].run.status == "running" && r.agents[a].pendingBuild
      && r.agents[a].lastActivityAt == c.now
  {
    var d := s.hub.store.decisions[q.decisionId];
    AnnounceThenResume(s, c, q);
    ResumedEntry(Announce(s, c, q).0, c, d.agentId.value, d.correlationId);
  }

  /** The event half of `ResolveResumesAgent`. */
  lemma ResolvedThenResumedEvents(s: Service, c: Clock, q: Resolution)
    requires Valid(s) && |s.uuids| >= 2 && q.decisionId in s.hub.store.decisions
    requires var d := s.hub.store.decisions[q.decisionId];
      d.agentId.Some? && d.agentId.value in s.agents
    ensures var a := s.hub.store.decisions[q.decisionId].agentId.value;
      var r := ResolveDecision(s, c, q).0;
      && |r.published| == |s.published| + 2
      && r.published[|s.published| + 1] ==
           ResumedEvent(s.uuids[1], c, s.hub.store.decisions[q.decisionId].correlationId, a)
  {
    var d := s.hub.store.decisions[q.decisionId];
    AnnounceThenResume(s, c, q);
    AnnouncedOnce(s, c, q);
    ResumedOnce(Announce(s, c, q).0, c, d.agentId.value, d.correlationId);
  }

  /** The announcement appends one event and takes one UUID. */
  lemma AnnouncedOnce(s: Service, c: Clock, q: Resolution)
    requires Valid(s) && |s.uuids| >= 2 && q.decisionId in s.hub.store.decisions
    ensures var s2 := Announce(s, c, q).0;
      |s2.published| == |s.published| + 1 && |s2.uuids| >= 1 && s2.uuids[0] == s.uuids[1]
  {
    var s2 := Announce(s, c, q).0;
    NextUuid(s.uuids, s2.uuids);
  }

  /** Dropping the first UUID makes the second one next. */
  lemma NextUuid(u: seq<string>, u1: seq<string>)
    requires |u| >= 2 && u1 == u[1..]
    ensures |u1| >= 1 && u1[0] == u[1]
  {
  }

  /** `Resume` appends `agent.progress` under the next UUID. */
  lemma ResumedOnce(s: Service, c: Clock, a: string, correlationId: string)
    requires Valid(s) && a in s.agents && |s.uuids| >= 1
    ensures var r := Resume(s, c, a, correlationId);
      |r.published| == |s.published| + 1 && r.published[|s.published|] == ResumedEvent(s.uuids[0], c, correlationId, a)
  {
  }

  /** The resumed entry and the event announcing it, read off `Resume`. */
  lemma ResumedEntry(s: Service, c: Clock, a: string, correlationId: string)
    requires Valid(s) && a in s.agents && |s.uuids| >= 1
    ensures var r := Resume(s, c, a, correlationId);
      && a in r.agents
      && !r.agents[a].paused && r.agents[a].run.status == "running" && r.agents[a].pendingBuild
      && r.agents[a].lastActivityAt == c.now
      && |r.published| == |s.published| + 1
      && r.published[|s.published|] == ResumedEvent(s.uuids[0], c, correlationId, a)
  {
  }

  /** Step of `ResolveResumesAgent`: the resolution is the announcement followed by `Resume`. */
  lemma AnnounceThenResume(s: Service, c: Clock, q: Resolution)
    requires Valid(s) && |s.uuids| >= 2 && q.decisionId in s.hub.store.decisions
    requires var d := s.hub.store.decisions[q.decisionId];
      d.agentId.Some? && d.agentId.value in s.agents
    ensures var d := s.hub.store.decisions[q.decisionId];
      var s2 := Announce(s, c, q).0;
      && d.agentId.value in s2.agents && |s2.uuids| >= 1
      && ResolveDecision(s, c, q).0 == Resume(s2, c, d.agentId.value, d.correlationId)
  {
    var (s2, row) := Announce(s, c, q);
    assert row.agentId.value != "";
    assert ResumesAgent(s2, row);
  }

  /** A decision with no agent, or one the service does not know, only announces the
      resolution: no entry changes beyond the activity refresh of `emit`. */
  lemma ResolveWithoutAgentAnnounces(s: Service, c: Clock, q: Resolution)
    requires Valid(s) && |s.uuids| >= 2 && q.decisionId in s.hub.store.decisions
    requires var d := s.hub.store.decisions[q.decisionId];
      d.agentId.None? || d.agentId.value !in s.agents
    ensures var r := ResolveDecision(s, c, q).0;
      && r.agents == s.agents
      && r.published == s.published + [ResolvedEvent(s.uuids[0], c, ResolveDecision(s, c, q).1.value, q)]
  {
    var (s2, row) := Announce(s, c, q);
    var event := ResolvedEvent(s.uuids[0], c, row, q);
    assert AgentIdOf(event) == "" || AgentIdOf(event) !in s.agents;
    assert !ResumesAgent(s2, row);
  }

  /** A decision raised by a pause, once resolved, lifts that pause. */
  lemma FlagThenResolve(s: Service, c: Clock, agentId: string, reason: string, payload: Object,
                        later: Clock, resolution: string, actor: string, notes: Option<string>)
    requires Valid(s) && agentId in s.agents && |s.uuids| >= 4
    ensures var flagged := Flag(s, c, agentId, reason, payload);
      var r := ResolveDecision(flagged, later, Resolution(s.uuids[0], resolution, actor, notes));
      && flagged.agents[agentId].paused
      && r.1.Some? && r.1.value.agentId == Some(agentId)
      && !r.0.agents[agentId].paused && r.0.agents[agentId].run.status == "running"
  {
    var flagged := Flag(s, c, agentId, reason, payload);
    var q := Resolution(s.uuids[0], resolution, actor, notes);
    assert flagged.hub.store.decisions[q.decisionId].agentId == Some(agentId);
    ResolveResumesAgent(flagged, later, q);
  }

  // ---------------------------------------------------------------- injected events

  /** Whether `injectEvent` draws a second UUID: `correlationId ?? uuidv7()`. */
  predicate NeedsCorrelation(body: Json) {
    Prop(body, "correlationId").None? || Prop(body, "correlationId") == Some(JNull)
  }

  /** The envelope `injectEvent` builds from a request body under `id`, with `fallback` as the
      correlation id when the body has none. */
  function InjectedEnvelope(id: string, fallback: string, c: Clock, body: Json): (e: Json)
    requires Prop(body, "type").Some?
    ensures Prop(e, "id") == Some(JStr(id)) && Prop(e, "source") == Some(JStr(ServiceSource))
    ensures Prop(e, "type") == Prop(body, "type")
    ensures Prop(body, "severity").Some? ==> Prop(e, "severity") == Prop(body, "severity")
    ensures Prop(body, "severity").None? ==> Prop(e, "severity") == Some(JStr("warn"))
    ensures NeedsCorrelation(body) ==> Prop(e, "correlationId") == Some(JStr(fallback))
    ensures !NeedsCorrelation(body) ==> Prop(e, "correlationId") == Prop(body, "correlationId")
    ensures Prop(e, "agentId") == Prop(body, "agentId")
    ensures Prop(body, "payload").Some? ==> Prop(e, "payload") == Prop(body, "payload")
    ensures Prop(body, "payload").None? ==> Prop(e, "payload") == Some(JObj([]))
  {
    var severity := if Prop(body, "severity").Some? then Prop(body, "severity").value else JStr("warn");
    var correlationId := Nullish(Prop(body, "correlationId"), JStr(fallback));
    var payload := if Prop(body, "payload").Some? then Prop(body, "payload").value else JObj([]);
    MakeEvent(id, Prop(body, "type").value, severity, c.stamp, correlationId, Prop(body, "agentId"), payload)
  }

  /** The UUIDs `injectEvent` draws: the event id, then the correlation id when the body
      has none. */
  function MintForInject(s: Service, body: Json): (r: (string, string, Service))
    requires Valid(s) && |s.uuids| >= 2
    ensures var used := if NeedsCorrelation(body) then 2 else 1;
      && r.0 == s.uuids[0] && r.1 == (if NeedsCorrelation(body) then s.uuids[1] else "")
      && r.2 == s.(uuids := s.uuids[used..]) && Valid(r.2)
  {
    var (id, s1) := Mint(s);
    if NeedsCorrelation(body) then
      var (fallback, s2) := Mint(s1);
      assert s2.uuids == s.uuids[2..];
      (id, fallback, s2)
    else (id, "", s1)
  }

  /** `injectEvent(body)` at `c`: the envelope under the next UUID (and the one after as the
      correlation id when the body has none), emitted. An envelope the store cannot bind makes
      `emit` throw after the prune; then the result is `None` and no agent is refreshed. */
  function InjectEvent(s: Service, c: Clock, body: Json): (r: (Service, Option<Json>))
    requires Valid(s) && |s.uuids| >= 2 && Prop(body, "type").Some?
    ensures var used := if NeedsCorrelation(body) then 2 else 1;
      var e := InjectedEnvelope(s.uuids[0], if NeedsCorrelation(body) then s.uuids[1] else "", c, body);
      && r.0.uuids == s.uuids[used..]
      && (r.1.Some? <==> Insertable(e))
      && (r.1.Some? ==> r.1.value == e && r.0.published == s.published + [e]
                        && r.0.agents == Touch(s.agents, AgentIdOf(e), c.now))
      && (r.1.None? ==> r.0 == s.(hub := s.hub.(store := PruneOldEvents(s.hub.store, c.now)), uuids := r.0.uuids))
    ensures Valid(r.0) && r.0.order == s.order && r.0.watched == s.watched
  {
    var (id, fallback, s2) := MintForInject(s, body);
    var e := InjectedEnvelope(id, fallback, c, body);
    if Insertable(e) then (Emit(s2, c.now, e), Some(e))
    else
      var (hub, _) := EventHub.TryPublish(s2.hub, c.now, e);
      (s2.(hub := hub), None)
  }

  /** The body `{type}`: only `type` is defined. */
  lemma TypeOnlyBody(eventType: string)
    ensures var body := JObj([Member("type", JStr(eventType))]);
      && Prop(body, "type") == Some(JStr(eventType))
      && Prop(body, "correlationId").None? && Prop(body, "agentId").None?
      && Prop(body, "severity").None? && Prop(body, "payload").None?
  {
    assert [Member("type", JStr(eventType))] == Cons("type", JStr(eventType), []);
  }

  /** A body naming only a string type gets every default: `warn`, the fallback correlation
      id, an empty payload and no agent; the store can bind it. */
  lemma InjectDefaults(id: string, fallback: string, c: Clock, eventType: string)
    ensures var body := JObj([Member("type", JStr(eventType))]);
      var e := InjectedEnvelope(id, fallback, c, body);
      && NeedsCorrelation(body) && Insertable(e)
      && Prop(e, "severity") == Some(JStr("warn"))
      && Prop(e, "correlationId") == Some(JStr(fallback))
      && Prop(e, "payload") == Some(JObj([]))
      && Prop(e, "agentId").None?
  {
    var body := JObj([Member("type", JStr(eventType))]);
    TypeOnlyBody(eventType);
    var e := InjectedEnvelope(id, fallback, c, body);
    assert ColumnProp(e, "id") == Some(id) && ColumnProp(e, "type") == Some(eventType);
    assert ColumnProp(e, "correlationId") == Some(fallback);
  }

  /** Injecting such a body stores it under the first UUID with the second as its
      correlation id, and refreshes no agent. */
  lemma InjectMinimal(s: Service, c: Clock, eventType: string)
    requires Valid(s) && |s.uuids| >= 2
    ensures var body := JObj([Member("type", JStr(eventType))]);
      var r := InjectEvent(s, c, body);
      && r.1 == Some(InjectedEnvelope(s.uuids[0], s.uuids[1], c, body))
      && r.0.uuids == s.uuids[2..]
      && r.0.agents == s.agents
  {
    var body := JObj([Member("type", JStr(eventType))]);
    InjectDefaults(s.uuids[0], s.uuids[1], c, eventType);
    assert AgentIdOf(InjectedEnvelope(s.uuids[0], s.uuids[1], c, body)) == "";
  }
}

=== FILE: agenttext.dfy ===
/** The string helpers of `server/src/agentService.js`: the output tail kept in failure events,
    the failure signature that groups repeated failures, and the default branch name. */
module AgentText {
  import opened Wrappers
  import opened Text
  import opened Json

  // ---------------------------------------------------------------- tail

  /** The last `n` elements of `xs` (`xs.slice(-n)`; `slice(-0)` keeps everything). */
  function LastN<T>(xs: seq<T>, n: nat): (r: seq<T>)
    ensures n == 0 || |xs| <= n ==> r == xs
    ensures 0 < n <= |xs| ==> |r| == n
    ensures r == xs[|xs| - |r|..]
  {
    if n == 0 || |xs| <= n then xs else xs[|xs| - n..]
  }

  /** `tail(value, maxLines)`: the last `maxLines` lines of the output, rejoined with `\n`. */
  function Tail(value: string, maxLines: nat): (r: string)
    ensures value == "" ==> r == ""
    ensures value != "" ==> r == JoinWith(LastN(SplitLines(value), maxLines), '\n')
  {
    if value == "" then "" else JoinWith(LastN(SplitLines(value), maxLines), '\n')
  }

  /** The tail splits back into exactly the kept lines: the last `maxLines` of the output, or
      all of them when there are fewer or `maxLines` is 0. */
  lemma TailKeepsLastLines(value: string, maxLines: nat)
    requires value != ""
    ensures var lines := SplitLines(value);
      && SplitOn(Tail(value, maxLines), '\n') == LastN(lines, maxLines)
      && (maxLines > 0 ==> |SplitOn(Tail(value, maxLines), '\n')| <= maxLines)
  {
    var lines := SplitLines(value);
    var kept := LastN(lines, maxLines);
    SplitLinesFree(value);
    assert forall i :: 0 <= i < |kept| ==> kept[i] == lines[|lines| - |kept| + i];
    SplitJoin(kept, '\n');
  }

  // ---------------------------------------------------------------- failure signature

  /** The position of the first line that is not all whitespace, or `|lines|`. */
  function FirstNonBlank(lines: seq<string>): (i: nat)
    ensures i <= |lines|
    ensures forall k :: 0 <= k < i ==> IsBlank(lines[k])
    ensures i < |lines| ==> !IsBlank(lines[i])
    decreases |lines|
  {
    if |lines| == 0 then 0
    else if !IsBlank(lines[0]) then 0
    else
      var k := FirstNonBlank(lines[1..]);
      assert forall j :: 1 <= j < |lines| ==> lines[j] == lines[1..][j - 1];
      k + 1
  }

  const SignatureLimit: nat := 160

  /** `s.slice(0, n)`. */
  function Prefix(s: string, n: nat): (r: string)
    ensures |r| <= n && StartsWith(s, r)
    ensures |s| <= n ==> r == s
  {
    if |s| <= n then s else s[..n]
  }

  /** `signatureOf(result, phase)`: the phase, a colon, and the first non-blank line of
      stderr-then-stdout cut to 160 characters, or `unknown`. */
  function SignatureOf(stderr: string, stdout: string, phase: string): (sig: string)
    ensures StartsWith(sig, phase + ":")
    ensures |sig| <= |phase| + 1 + SignatureLimit
    ensures var lines := SplitLines(stderr + "\n" + stdout);
      var i := FirstNonBlank(lines);
      && (i == |lines| ==> sig == phase + ":unknown")
      && (i < |lines| ==> sig == phase + ":" + Prefix(lines[i], SignatureLimit))
  {
    var lines := SplitLines(stderr + "\n" + stdout);
    var i := FirstNonBlank(lines);
    var line := if i < |lines| then lines[i] else "unknown";
    var sig := phase + ":" + Prefix(line, SignatureLimit);
    assert sig[..|phase + ":"|] == phase + ":";
    sig
  }

  /** Dropping a carriage return, itself whitespace, keeps a line blank or non-blank. */
  lemma DropCRBlank(line: string)
    ensures IsBlank(DropCR(line)) <==> IsBlank(line)
  {
    if DropCR(line) != line {
      assert line == DropCR(line) + "\r";
    }
  }

  /** A first stderr line that is not blank is the signature, whatever stdout holds. */
  lemma StderrLineFirst(stderr: string, stdout: string, phase: string)
    requires '\n' !in stderr && !IsBlank(stderr)
    ensures SignatureOf(stderr, stdout, phase) == phase + ":" + Prefix(DropCR(stderr), SignatureLimit)
  {
    var text := stderr + "\n" + stdout;
    IndexOfAfter(stderr, '\n', stdout);
    assert text[..|stderr|] == stderr;
    DropCRBlank(stderr);
    var lines := SplitLines(text);
    assert lines[0] == DropCR(stderr);
  }

  /** Every line of a blank text is blank. */
  lemma {:induction false} SplitLinesBlank(s: string)
    requires IsBlank(s)
    ensures forall k :: 0 <= k < |SplitLines(s)| ==> IsBlank(SplitLines(s)[k])
    decreases |s|
  {
    var i := IndexOf(s, '\n');
    if i >= 0 {
      var head := s[..i];
      assert IsBlank(head);
      DropCRBlank(head);
      assert IsBlank(s[i + 1..]);
      SplitLinesBlank(s[i + 1..]);
      assert SplitLines(s) == [DropCR(head)] + SplitLines(s[i + 1..]);
    }
  }

  /** Output that is all whitespace has the signature `<phase>:unknown`. */
  lemma BlankOutputUnknown(stderr: string, stdout: string, phase: string)
    requires IsBlank(stderr) && IsBlank(stdout)
    ensures SignatureOf(stderr, stdout, phase) == phase + ":unknown"
  {
    var text := stderr + "\n" + stdout;
    assert IsBlank(text) by {
      assert forall k :: 0 <= k < |text| ==> text[k] == (if k < |stderr| then stderr[k] else if k == |stderr| then '\n' else stdout[k - |stderr| - 1]);
    }
    SplitLinesBlank(text);
  }

  // ---------------------------------------------------------------- branch names

  predicate IsSlugChar(c: char) {
    'a' <= c <= 'z' || '0' <= c <= '9'
  }

  /** `.replace(/[^a-z0-9]+/g, '-')`: every maximal run of other characters becomes one `-`.
      `inRun` says whether the previous character already opened such a run. */
  function CollapseRuns(s: string, inRun: bool): (r: string)
    ensures forall k :: 0 <= k < |r| ==> IsSlugChar(r[k]) || r[k] == '-'
    ensures forall k :: 0 <= k < |r| - 1 ==> !(r[k] == '-' && r[k + 1] == '-')
    ensures inRun && |r| > 0 ==> r[0] != '-'
    decreases |s|
  {
    if |s| == 0 then ""
    else if IsSlugChar(s[0]) then [s[0]] + CollapseRuns(s[1..], false)
    else if inRun then CollapseRuns(s[1..], true)
    else "-" + CollapseRuns(s[1..], true)
  }

  /** `.replace(/^-+|-+$/g, '')`. */
  function TrimHyphens(s: string): (r: string)
    ensures |r| == 0 || (r[0] != '-' && r[|r| - 1] != '-')
    ensures exists i, j :: 0 <= i <= j <= |s| && r == s[i..j]
    decreases |s|
  {
    if |s| > 0 && s[0] == '-' then
      var r := TrimHyphens(s[1..]);
      ghost var i, j :| 0 <= i <= j <= |s| - 1 && r == s[1..][i..j];
      assert r == s[i + 1..j + 1];
      r
    else if |s| > 0 && s[|s| - 1] == '-' then
      var r := TrimHyphens(s[..|s| - 1]);
      ghost var i, j :| 0 <= i <= j <= |s| - 1 && r == s[..|s| - 1][i..j];
      assert r == s[i..j];
      r
    else
      assert s == s[0..|s|];
      s
  }

  const SlugLimit: nat := 40

  /** The slug of a task text: lower-cased, runs of other characters as `-`, no hyphen at
      either end, then cut to 40 characters. */
  function Slug(text: string): (slug: string)
    ensures |slug| <= SlugLimit
    ensures forall k :: 0 <= k < |slug| ==> IsSlugChar(slug[k]) || slug[k] == '-'
    ensures |slug| > 0 ==> slug[0] != '-'
  {
    var t := TrimHyphens(CollapseRuns(Lower(text), false));
    ghost var i, j :| 0 <= i <= j <= |CollapseRuns(Lower(text), false)| && t == CollapseRuns(Lower(text), false)[i..j];
    Prefix(t, SlugLimit)
  }

  /** `branchFromTask(agentId, task)`: `agent/<agentId>/<slug>`, with `task` standing in for a
      missing task or an empty slug. */
  function BranchFromTask(agentId: string, task: Option<Json>): (branch: string)
    ensures exists slug ::
      && branch == "agent/" + agentId + "/" + slug
      && 0 < |slug| <= SlugLimit
      && slug[0] != '-'
      && (forall k :: 0 <= k < |slug| ==> IsSlugChar(slug[k]) || slug[k] == '-')
  {
    var text := if Defined(task) then JsString(task.value) else "task";
    var slug := Slug(text);
    var final := if slug == "" then "task" else slug;
    "agent/" + agentId + "/" + final
  }

  /** A text already in slug form, short enough, is its own slug: lower-case letters and
      digits in words joined by single hyphens. */
  predicate SlugShaped(s: string) {
    && 0 < |s| <= SlugLimit
    && s[0] != '-' && s[|s| - 1] != '-'
    && (forall k :: 0 <= k < |s| ==> IsSlugChar(s[k]) || s[k] == '-')
    && (forall k :: 0 <= k < |s| - 1 ==> !(s[k] == '-' && s[k + 1] == '-'))
  }

  lemma {:induction false} CollapseRunsKeeps(s: string, inRun: bool)
    requires forall k :: 0 <= k < |s| ==> IsSlugChar(s[k]) || s[k] == '-'
    requires forall k :: 0 <= k < |s| - 1 ==> !(s[k] == '-' && s[k + 1] == '-')
    requires inRun ==> |s| == 0 || s[0] != '-'
    ensures CollapseRuns(s, inRun) == s
    decreases |s|
  {
    if |s| > 0 {
      CollapseRunsKeeps(s[1..], !IsSlugChar(s[0]));
      assert s == [s[0]] + s[1..];
    }
  }

  lemma SlugOfSlugShaped(s: string)
    requires SlugShaped(s)
    ensures Slug(s) == s
    ensures forall agentId :: BranchFromTask(agentId, Some(JStr(s))) == "agent/" + agentId + "/" + s
  {
    assert Lower(s) == s by {
      assert forall k :: 0 <= k < |s| ==> LowerChar(s[k]) == s[k];
    }
    CollapseRunsKeeps(s, false);
    assert TrimHyphens(s) == s;
    assert Slug(s) == s;
    forall agentId
      ensures BranchFromTask(agentId, Some(JStr(s))) == "agent/" + agentId + "/" + s
    {
      assert Defined(Some(JStr(s)));
      assert JsString(JStr(s)) == s;
    }
  }
}

=== FILE: auth.dfy ===
/** Bearer-token checking of `server/src/auth.js`, a simplified form of section 2.1 of
    RFC 6750: the `Authorization` header is split on single spaces, the first field must be
    exactly `Bearer` and the second must be a non-empty copy of the configured token. */
module Auth {
  import opened Wrappers
  import opened Text
  import opened Json

  /** A JSON reply: what `sendJson(res, status, payload)` writes. */
  datatype Reply = Reply(status: nat, body: Json)

  const Scheme: string := "Bearer"

  /** `isAuthorized(req, token)`, with the header `None` when the request has none. */
  function IsAuthorized(header: Option<string>, token: string): (ok: bool)
    ensures header.None? ==> !ok
    ensures ok ==> token != "" && ' ' !in token
  {
    var parts := SplitOn(header.GetOr(""), ' ');
    SplitOnFree(header.GetOr(""), ' ');
    parts[0] == Scheme && |parts| > 1 && parts[1] != "" && parts[1] == token
  }

  /** The reference reading of an accepted header: `Bearer`, one space, the token, and then
      nothing or a space-separated remainder. The token must be non-empty and space-free. */
  predicate CarriesToken(h: string, token: string) {
    && token != ""
    && ' ' !in token
    && StartsWith(h, Scheme + " " + token)
    && (|h| == |Scheme| + 1 + |token| || h[|Scheme| + 1 + |token|] == ' ')
  }

  lemma AuthorizedCarriesToken(h: string, token: string)
    requires IsAuthorized(Some(h), token)
    ensures CarriesToken(h, token)
  {
    var parts := SplitOn(h, ' ');
    FirstTwoFields(h);
    ShapeCarriesToken(h, token, AfterSecond(parts, ' '));
  }

  /** What follows the second of `parts` once they are joined with `c`. */
  function AfterSecond(parts: seq<string>, c: char): string
    requires |parts| >= 2
  {
    if |parts| == 2 then "" else [c] + JoinWith(parts[2..], c)
  }

  lemma JoinTwoFields(parts: seq<string>, c: char)
    requires |parts| >= 2
    ensures JoinWith(parts, c) == parts[0] + [c] + parts[1] + AfterSecond(parts, c)
  {
    assert parts[1..][0] == parts[1];
    if |parts| > 2 {
      assert parts[1..][1..] == parts[2..];
    }
  }

  /** A header with two or more fields is its first field, a space, a space-free second
      field, and then nothing or a space. */
  lemma FirstTwoFields(h: string)
    requires |SplitOn(h, ' ')| >= 2
    ensures var parts := SplitOn(h, ' ');
      && h == parts[0] + " " + parts[1] + AfterSecond(parts, ' ')
      && ' ' !in parts[1]
      && (|parts| == 2 || AfterSecond(parts, ' ')[0] == ' ')
  {
    var parts := SplitOn(h, ' ');
    SplitOnFree(h, ' ');
    JoinSplit(h, ' ');
    JoinTwoFields(parts, ' ');
  }

  lemma ShapeCarriesToken(h: string, token: string, rest: string)
    requires token != "" && ' ' !in token && h == Scheme + " " + token + rest
    requires rest == "" || rest[0] == ' '
    ensures CarriesToken(h, token)
  {
    assert h[..|Scheme| + 1 + |token|] == Scheme + " " + token;
  }

  lemma CarriesTokenAuthorized(h: string, token: string)
    requires CarriesToken(h, token)
    ensures IsAuthorized(Some(h), token)
  {
    var rest := h[|Scheme| + 1 + |token|..];
    CarriesShape(h, token);
    SplitOnCons(Scheme, ' ', token + rest);
    FirstFieldIsToken(token, rest);
  }

  lemma CarriesShape(h: string, token: string)
    requires CarriesToken(h, token)
    ensures var rest := h[|Scheme| + 1 + |token|..];
      h == Scheme + [' '] + (token + rest) && (rest == "" || rest[0] == ' ')
  {
    var n := |Scheme| + 1 + |token|;
    assert h == h[..n] + h[n..];
  }

  /** Text that starts with a space-free field and then ends or has a space splits with that
      field first. */
  lemma FirstFieldIsToken(token: string, rest: string)
    requires ' ' !in token && (rest == "" || rest[0] == ' ')
    ensures SplitOn(token + rest, ' ')[0] == token
  {
    if rest == "" {
      assert token + rest == token;
      assert IndexOf(token, ' ') < 0;
    } else {
      assert token + rest == token + [' '] + rest[1..];
      SplitOnCons(token, ' ', rest[1..]);
    }
  }

  /** The parser accepts exactly the headers the reference reading accepts. */
  lemma IsAuthorizedIff(h: string, token: string)
    ensures IsAuthorized(Some(h), token) <==> CarriesToken(h, token)
  {
    if IsAuthorized(Some(h), token) {
      AuthorizedCarriesToken(h, token);
    }
    if CarriesToken(h, token) {
      CarriesTokenAuthorized(h, token);
    }
  }

  /** A request without the header is never authorized. */
  lemma MissingHeaderRejected(token: string)
    ensures !IsAuthorized(None, token)
  {
    assert SplitOn("", ' ') == [""];
  }

  /** `"Bearer " + token` is accepted exactly when the token is non-empty and has no space. */
  lemma BearerTokenAccepted(token: string)
    ensures IsAuthorized(Some(Scheme + " " + token), token) <==> token != "" && ' ' !in token
  {
    IsAuthorizedIff(Scheme + " " + token, token);
  }

  /** The scheme is compared case-sensitively: `bearer <token>` is rejected. */
  lemma SchemeCaseSensitive(token: string)
    ensures !IsAuthorized(Some("bearer " + token), token)
  {
    IsAuthorizedIff("bearer " + token, token);
    assert ("bearer " + token)[0] != (Scheme + " " + token)[0];
  }

  /** Trailing fields are ignored; a double space leaves an empty second field and is rejected. */
  lemma OnlySecondFieldCompared(token: string, rest: string)
    requires token != "" && ' ' !in token
    ensures IsAuthorized(Some(Scheme + " " + token + " " + rest), token)
    ensures !IsAuthorized(Some(Scheme + "  " + token), token)
  {
    var h := Scheme + " " + token + " " + rest;
    assert h[..|Scheme| + 1 + |token|] == Scheme + " " + token;
    assert h[|Scheme| + 1 + |token|] == ' ';
    IsAuthorizedIff(h, token);
    var d := Scheme + "  " + token;
    IsAuthorizedIff(d, token);
    assert d[|Scheme| + 1] == ' ';
    if StartsWith(d, Scheme + " " + token) {
      assert (Scheme + " " + token)[|Scheme| + 1] == token[0];
    }
  }

  /** `requireBearer`: `None` lets the handler go on; otherwise the 401 it sends. */
  function RequireBearer(header: Option<string>, token: string): (r: Option<Reply>)
    ensures r.None? <==> IsAuthorized(header, token)
    ensures r.Some? ==> r.value.status == 401 && Prop(r.value.body, "error") == Some(JStr("unauthorized"))
  {
    if IsAuthorized(header, token) then None
    else Some(Reply(401, JObj([Member("error", JStr("unauthorized"))])))
  }
}

=== FILE: breaker.dfy ===
/** The two-field circuit breaker of `server/src/circuitBreaker.js`. The clock is an explicit
    `now` (milliseconds) wherever the source reads `Date.now()`. */
module Breaker {

  datatype Breaker = Breaker(threshold: int, openMs: int, failures: nat, openUntil: int)

  /** The counting invariant: a positive threshold that the count never reaches. */
  predicate Valid(b: Breaker) {
    b.threshold >= 1 && b.failures < b.threshold
  }

  /** `new CircuitBreaker({failureThreshold, openMs})`. */
  function NewBreaker(threshold: int, openMs: int): (b: Breaker)
    ensures b.failures == 0 && b.openUntil == 0
    ensures b.threshold == threshold && b.openMs == openMs
    ensures threshold >= 1 ==> Valid(b)
    ensures forall now :: now >= 0 ==> CanRequest(b, now)
  {
    Breaker(threshold, openMs, 0, 0)
  }

  /** The defaults: five failures open the breaker for two minutes. */
  const DefaultThreshold: int := 5
  const DefaultOpenMs: int := 2 * 60 * 1000

  /** `canRequest()` at instant `now`. */
  predicate CanRequest(b: Breaker, now: int) {
    now >= b.openUntil
  }

  /** `markSuccess()`. */
  function MarkSuccess(b: Breaker): (r: Breaker)
    ensures r.failures == 0
    ensures forall now :: now >= 0 ==> CanRequest(r, now)
    ensures r.threshold == b.threshold && r.openMs == b.openMs
    ensures Valid(b) ==> Valid(r)
  {
    b.(failures := 0, openUntil := 0)
  }

  /** `markFailure()` at instant `now`: the failure that reaches the threshold opens the
      breaker until `now + openMs` and restarts the count. */
  function MarkFailure(b: Breaker, now: int): (r: Breaker)
    ensures r.threshold == b.threshold && r.openMs == b.openMs
    ensures r.openUntil == b.openUntil || r.openUntil == now + b.openMs
    ensures r.openUntil != b.openUntil ==> r.failures == 0
    ensures Valid(b) ==> Valid(r)
  {
    if b.failures + 1 >= b.threshold then b.(failures := 0, openUntil := now + b.openMs)
    else b.(failures := b.failures + 1)
  }

  /** Consecutive `markFailure()` calls at the given instants. */
  function MarkFailures(b: Breaker, times: seq<int>): Breaker
    decreases |times|
  {
    if |times| == 0 then b else MarkFailures(MarkFailure(b, times[0]), times[1..])
  }

  /** Failures that stay below the threshold only count: the open-until instant is unchanged. */
  lemma {:induction false} FewFailuresKeepClosed(b: Breaker, times: seq<int>)
    requires b.failures + |times| < b.threshold
    ensures MarkFailures(b, times) == b.(failures := b.failures + |times|)
    decreases |times|
  {
    if |times| > 0 {
      FewFailuresKeepClosed(MarkFailure(b, times[0]), times[1..]);
    }
  }

  /** From a zero count, `threshold` consecutive failures open the breaker until the last one's
      instant plus `openMs`, and reset the count. */
  lemma ThresholdFailuresOpen(b: Breaker, times: seq<int>)
    requires b.failures == 0 && b.threshold >= 1 && |times| == b.threshold
    ensures var r := MarkFailures(b, times);
      && r.failures == 0
      && r.openUntil == times[|times| - 1] + b.openMs
      && forall now :: CanRequest(r, now) <==> now >= times[|times| - 1] + b.openMs
  {
    var n := |times| - 1;
    FewFailuresKeepClosed(b, times[..n]);
    MarkFailuresAppend(b, times[..n], [times[n]]);
    assert times == times[..n] + [times[n]];
  }

  /** Failures in two runs are the failures of the concatenated run. */
  lemma {:induction false} MarkFailuresAppend(b: Breaker, xs: seq<int>, ys: seq<int>)
    ensures MarkFailures(b, xs + ys) == MarkFailures(MarkFailures(b, xs), ys)
    decreases |xs|
  {
    if |xs| > 0 {
      assert (xs + ys)[1..] == xs[1..] + ys;
      MarkFailuresAppend(MarkFailure(b, xs[0]), xs[1..], ys);
    } else {
      assert xs + ys == ys;
    }
  }

  /** After a success the next failure run starts from zero again. */
  lemma SuccessResetsCount(b: Breaker, times: seq<int>)
    requires |times| < b.threshold
    ensures MarkFailures(MarkSuccess(b), times).openUntil == 0
  {
    FewFailuresKeepClosed(MarkSuccess(b), times);
  }
}

=== FILE: contract.dfy ===
/** The event-envelope validator of `server/src/contract.js`: a loaded contract (the schema's
    required-key list and the enum sets for source, type and severity) checked against a
    candidate envelope, producing `{valid, errors}`. Only named keys are inspected, so
    unknown keys at the top level or inside `payload` never change the verdict. */
module Contract {
  import opened Wrappers
  import opened Text
  import opened Json

  /** `loadEventContract(...)`: the schema's `required` list (empty when the schema has
      none) and its three enum sets. */
  datatype EventContract = EventContract(
    required: seq<string>,
    sources: set<string>,
    types: set<string>,
    severities: set<string>)

  /** One reason an envelope is rejected; `Message` gives the text the API reports. */
  datatype Issue =
    | Missing(key: string)
    | BadId
    | BadSchemaVersion
    | BadEventVersion
    | BadSource
    | BadType
    | BadSeverity
    | BadTimestamp
    | BadCorrelationId
    | BadAgentId
    | BadPayload

  function Message(i: Issue): string {
    match i
    case Missing(k) => "missing " + k
    case BadId => "id must be a non-empty string"
    case BadSchemaVersion => "schemaVersion must be 1.0.0"
    case BadEventVersion => "eventVersion must be integer >= 1"
    case BadSource => "source is invalid"
    case BadType => "type is invalid"
    case BadSeverity => "severity is invalid"
    case BadTimestamp => "timestamp must be ISO-8601 UTC"
    case BadCorrelationId => "correlationId must be a non-empty string"
    case BadAgentId => "agentId must be a string when provided"
    case BadPayload => "payload must be an object"
  }

  datatype Validation = Validation(valid: bool, issues: seq<Issue>)

  /** The `errors` array of the result. */
  function Errors(v: Validation): (errs: seq<string>)
    ensures |errs| == |v.issues|
  {
    seq(|v.issues|, i requires 0 <= i < |v.issues| => Message(v.issues[i]))
  }

  const PinnedSchemaVersion: string := "1.0.0"

  // ---------------------------------------------------------------- the timestamp pattern

  /** A shape string: `D` stands for any decimal digit, every other character for itself. */
  predicate FitsShape(s: string, shape: string) {
    |s| == |shape| && forall i :: 0 <= i < |s| ==> if shape[i] == 'D' then IsDigit(s[i]) else s[i] == shape[i]
  }

  const TimestampShape: string := "DDDD-DD-DDTDD:DD:DD"

  /** The optional `(\.\d+)?` group of the pattern. */
  predicate FractionPart(f: string) {
    |f| == 0 || (|f| >= 2 && f[0] == '.' && AllDigits(f[1..]))
  }

  /** `/^\d{4}-\d{2}-\d{2}T\d{2}:\d{2}:\d{2}(\.\d+)?Z$/`: a shape check with no range checks. */
  predicate IsIsoTimestamp(s: string) {
    && |s| >= 20
    && FitsShape(s[..19], TimestampShape)
    && FractionPart(s[19..|s| - 1])
    && s[|s| - 1] == 'Z'
  }

  // ---------------------------------------------------------------- the individual checks

  /** A value that is neither an object nor an array: `key in v` throws on it. */
  predicate IsPrimitive(v: Json) {
    !v.JObj? && !v.JArr?
  }

  /** `key in v` for an object or array: own members (an array's are `length` and its
      indices), the names inherited from `Object.prototype`, and for an array those of
      `Array.prototype`. */
  predicate Present(v: Json, key: string) {
    || (v.JObj? && HasKey(v.members, key))
    || (v.JArr? && (key == "length" || IsIndexKey(key, |v.items|) || key in ArrayPrototypeKeys))
    || ((v.JObj? || v.JArr?) && key in ObjectPrototypeKeys)
  }

  /** `key` is the canonical decimal name of an index below `n`: no sign, no leading zero. */
  predicate IsIndexKey(key: string, n: nat) {
    |key| > 0 && AllDigits(key) && (key[0] != '0' || |key| == 1) && DigitsValue(key) < n
  }

  predicate NonEmptyString(o: Option<Json>) {
    o.Some? && o.value.JStr? && o.value.s != ""
  }

  /** `Number.isInteger(x) && x >= 1`. */
  predicate IntegerAtLeastOne(o: Option<Json>) {
    o.Some? && o.value.JNum? && o.value.n.Int? && o.value.n.i >= 1
  }

  /** `set.has(x)` for a set of strings. */
  predicate InEnum(o: Option<Json>, allowed: set<string>) {
    o.Some? && o.value.JStr? && o.value.s in allowed
  }

  predicate TimestampOk(o: Option<Json>) {
    o.Some? && o.value.JStr? && IsIsoTimestamp(o.value.s)
  }

  /** `agentId == null || typeof agentId === 'string'`. */
  predicate AgentIdOk(o: Option<Json>) {
    o.None? || o.value == JNull || o.value.JStr?
  }

  /** A non-null, non-array object. */
  predicate PayloadOk(o: Option<Json>) {
    o.Some? && o.value.JObj?
  }

  /** One `Missing` issue per required key the event lacks, in the contract's order. */
  function MissingIssues(required: seq<string>, event: Json): (issues: seq<Issue>)
    ensures |issues| <= |required|
    ensures |issues| == 0 <==> forall k :: k in required ==> Present(event, k)
    decreases |required|
  {
    if |required| == 0 then []
    else
      var rest := MissingIssues(required[1..], event);
      assert forall k :: k in required <==> k == required[0] || k in required[1..];
      if Present(event, required[0]) then rest else [Missing(required[0])] + rest
  }

  /** The field each non-`Missing` issue is about. */
  function FieldOf(kind: Issue): string {
    match kind
    case Missing(k) => k
    case BadId => "id"
    case BadSchemaVersion => "schemaVersion"
    case BadEventVersion => "eventVersion"
    case BadSource => "source"
    case BadType => "type"
    case BadSeverity => "severity"
    case BadTimestamp => "timestamp"
    case BadCorrelationId => "correlationId"
    case BadAgentId => "agentId"
    case BadPayload => "payload"
  }

  /** The field checks, in source order. */
  const FieldKinds: seq<Issue> := [BadId, BadSchemaVersion, BadEventVersion, BadSource, BadType,
                                   BadSeverity, BadTimestamp, BadCorrelationId, BadAgentId, BadPayload]

  /** The condition under which the check for `kind` passes, given the field's value. */
  predicate FieldOk(c: EventContract, kind: Issue, o: Option<Json>) {
    match kind
    case Missing(_) => true
    case BadId => NonEmptyString(o)
    case BadSchemaVersion => o == Some(JStr(PinnedSchemaVersion))
    case BadEventVersion => IntegerAtLeastOne(o)
    case BadSource => InEnum(o, c.sources)
    case BadType => InEnum(o, c.types)
    case BadSeverity => InEnum(o, c.severities)
    case BadTimestamp => TimestampOk(o)
    case BadCorrelationId => NonEmptyString(o)
    case BadAgentId => AgentIdOk(o)
    case BadPayload => PayloadOk(o)
  }

  predicate Passes(c: EventContract, event: Json, kind: Issue) {
    FieldOk(c, kind, Prop(event, FieldOf(kind)))
  }

  /** The failing checks among `kinds`, in order. */
  function Failing(c: EventContract, event: Json, kinds: seq<Issue>): (issues: seq<Issue>)
    ensures |issues| == 0 <==> forall i :: 0 <= i < |kinds| ==> Passes(c, event, kinds[i])
    decreases |kinds|
  {
    if |kinds| == 0 then []
    else
      var rest := Failing(c, event, kinds[1..]);
      assert forall i :: 0 < i < |kinds| ==> kinds[i] == kinds[1..][i - 1];
      (if Passes(c, event, kinds[0]) then [] else [kinds[0]]) + rest
  }

  /** The checks that follow the required-key loop. */
  function FieldIssues(c: EventContract, event: Json): seq<Issue> {
    Failing(c, event, FieldKinds)
  }

  /** Every field check passes. */
  predicate FieldsConform(c: EventContract, event: Json) {
    forall i :: 0 <= i < |FieldKinds| ==> Passes(c, event, FieldKinds[i])
  }

  /** The envelope has every required key and passes every field check. */
  predicate Conforms(c: EventContract, event: Json) {
    (forall k :: k in c.required ==> Present(event, k)) && FieldsConform(c, event)
  }

  /** `validateEventEnvelope(contract, event)`. `None` stands for the `TypeError` thrown by
      `key in event` on a primitive when a key is required, or by `event.id` on `null`. */
  function ValidateEventEnvelope(c: EventContract, event: Json): (r: Option<Validation>)
    ensures r.None? <==> event == JNull || (|c.required| > 0 && IsPrimitive(event))
    ensures r.Some? ==> (r.value.valid <==> |r.value.issues| == 0)
    ensures r.Some? ==> (r.value.valid <==> Conforms(c, event))
  {
    if event == JNull || (|c.required| > 0 && IsPrimitive(event)) then None
    else
      var issues := MissingIssues(c.required, event) + FieldIssues(c, event);
      Some(Validation(|issues| == 0, issues))
  }

  // ---------------------------------------------------------------- properties

  /** A key is reported missing exactly when it is required and absent. */
  lemma {:induction false} MissingIssueIff(required: seq<string>, event: Json, k: string)
    ensures Missing(k) in MissingIssues(required, event) <==> k in required && !Present(event, k)
    decreases |required|
  {
    if |required| > 0 {
      MissingIssueIff(required[1..], event, k);
      assert k in required <==> k == required[0] || k in required[1..];
    }
  }

  /** Only `Missing` issues come from the required-key loop. */
  lemma {:induction false} MissingIssuesOnlyMissing(required: seq<string>, event: Json)
    ensures forall i :: i in MissingIssues(required, event) ==> i.Missing?
    decreases |required|
  {
    if |required| > 0 {
      MissingIssuesOnlyMissing(required[1..], event);
    }
  }

  /** Each required key the event lacks adds its `Missing` issue, and no other key does. */
  lemma MissingKeyReported(c: EventContract, event: Json, k: string)
    requires ValidateEventEnvelope(c, event).Some?
    ensures Missing(k) in ValidateEventEnvelope(c, event).value.issues <==> k in c.required && !Present(event, k)
  {
    var issues := ValidateEventEnvelope(c, event).value.issues;
    assert issues == MissingIssues(c.required, event) + FieldIssues(c, event);
    MissingIssueIff(c.required, event, k);
    FailingIff(c, event, FieldKinds, Missing(k));
    assert Missing(k) !in FieldIssues(c, event);
  }

  /** On an array, a required name that `Array.prototype` carries is never reported missing:
      `"map" in []` holds. */
  lemma ArrayMethodsNotMissing(required: seq<string>, items: seq<Json>)
    requires forall i :: 0 <= i < |required| ==> required[i] in ArrayPrototypeKeys
    ensures MissingIssues(required, JArr(items)) == []
  {
    forall k | k in required ensures Present(JArr(items), k) {
    }
  }

  /** A check's issue is among the failing ones exactly when it is listed and fails. */
  lemma {:induction false} FailingIff(c: EventContract, event: Json, kinds: seq<Issue>, x: Issue)
    ensures x in Failing(c, event, kinds) <==> x in kinds && !Passes(c, event, x)
    decreases |kinds|
  {
    if |kinds| > 0 {
      FailingIff(c, event, kinds[1..], x);
      assert x in kinds <==> x == kinds[0] || x in kinds[1..];
    }
  }

  /** Each field check adds its own issue exactly when its field fails the check. */
  lemma FieldCheckReported(c: EventContract, event: Json, kind: Issue)
    requires ValidateEventEnvelope(c, event).Some?
    requires !kind.Missing?
    ensures kind in ValidateEventEnvelope(c, event).value.issues <==> !FieldOk(c, kind, Prop(event, FieldOf(kind)))
  {
    MissingIssuesOnlyMissing(c.required, event);
    FailingIff(c, event, FieldKinds, kind);
    assert kind in FieldKinds;
  }

  /** The messages of distinct issue kinds differ, so the `errors` strings carry the issues. */
  lemma MissingMessageInjective(a: string, b: string)
    ensures Message(Missing(a)) == Message(Missing(b)) ==> a == b
  {
    if Message(Missing(a)) == Message(Missing(b)) {
      assert a == Message(Missing(a))[8..];
      assert b == Message(Missing(b))[8..];
    }
  }

  const FieldNames: seq<string> := ["id", "schemaVersion", "eventVersion", "source", "type", "severity",
                                    "timestamp", "correlationId", "agentId", "payload"]

  /** The keys the validator ever reads. */
  predicate Inspected(c: EventContract, k: string) {
    k in c.required || k in FieldNames
  }

  lemma {:induction false} MissingAgree(required: seq<string>, a: Json, b: Json)
    requires forall k :: k in required ==> Present(a, k) == Present(b, k)
    ensures MissingIssues(required, a) == MissingIssues(required, b)
    decreases |required|
  {
    if |required| > 0 {
      assert required[0] in required;
      assert forall k :: k in required[1..] ==> k in required;
      MissingAgree(required[1..], a, b);
    }
  }

  lemma {:induction false} FailingAgree(c: EventContract, a: Json, b: Json, kinds: seq<Issue>)
    requires forall i :: 0 <= i < |kinds| ==> Passes(c, a, kinds[i]) == Passes(c, b, kinds[i])
    ensures Failing(c, a, kinds) == Failing(c, b, kinds)
    decreases |kinds|
  {
    if |kinds| > 0 {
      assert forall i :: 0 <= i < |kinds| - 1 ==> kinds[1..][i] == kinds[i + 1];
      FailingAgree(c, a, b, kinds[1..]);
    }
  }

  lemma FieldOfNamed(kind: Issue)
    requires !kind.Missing?
    ensures FieldOf(kind) in FieldNames
  {
  }

  /** The result depends on the event only through its two issue lists. */
  lemma SameIssuesSameResult(c: EventContract, a: Object, b: Object)
    requires MissingIssues(c.required, JObj(a)) == MissingIssues(c.required, JObj(b))
    requires FieldIssues(c, JObj(a)) == FieldIssues(c, JObj(b))
    ensures ValidateEventEnvelope(c, JObj(a)) == ValidateEventEnvelope(c, JObj(b))
  {
    var issues := MissingIssues(c.required, JObj(a)) + FieldIssues(c, JObj(a));
    assert ValidateEventEnvelope(c, JObj(a)) == Some(Validation(|issues| == 0, issues));
  }

  /** Two objects that agree on every inspected key get the same verdict and the same issues. */
  lemma AgreeOnInspected(c: EventContract, a: Object, b: Object)
    requires forall k :: Inspected(c, k) ==> Lookup(a, k) == Lookup(b, k)
    ensures ValidateEventEnvelope(c, JObj(a)) == ValidateEventEnvelope(c, JObj(b))
  {
    forall k | k in c.required
      ensures Present(JObj(a), k) == Present(JObj(b), k)
    {
      assert Lookup(a, k) == Lookup(b, k);
    }
    MissingAgree(c.required, JObj(a), JObj(b));
    forall i | 0 <= i < |FieldKinds|
      ensures Passes(c, JObj(a), FieldKinds[i]) == Passes(c, JObj(b), FieldKinds[i])
    {
      var kind := FieldKinds[i];
      if !kind.Missing? {
        FieldOfNamed(kind);
        assert Lookup(a, FieldOf(kind)) == Lookup(b, FieldOf(kind));
      }
    }
    FailingAgree(c, JObj(a), JObj(b), FieldKinds);
    SameIssuesSameResult(c, a, b);
  }

  /** Adding (or overwriting) a key the validator does not read never changes the result. */
  lemma UnknownTopLevelKeyIgnored(c: EventContract, event: Object, k: string, v: Json)
    requires !Inspected(c, k)
    ensures ValidateEventEnvelope(c, JObj(Put(event, k, v))) == ValidateEventEnvelope(c, JObj(event))
  {
    AgreeOnInspected(c, Put(event, k, v), event);
  }

  /** Whatever members the payload object carries, the result is the same. */
  lemma PayloadContentsIgnored(c: EventContract, event: Object, p: Object, q: Object)
    ensures ValidateEventEnvelope(c, JObj(Put(event, "payload", JObj(p))))
         == ValidateEventEnvelope(c, JObj(Put(event, "payload", JObj(q))))
  {
    var a := JObj(Put(event, "payload", JObj(p)));
    var b := JObj(Put(event, "payload", JObj(q)));
    PayloadPresence(c, event, p, q);
    MissingAgree(c.required, a, b);
    PayloadPasses(c, event, p, q);
    FailingAgree(c, a, b, FieldKinds);
    SameIssuesSameResult(c, a.members, b.members);
  }

  lemma PayloadPresence(c: EventContract, event: Object, p: Object, q: Object)
    ensures var a, b := JObj(Put(event, "payload", JObj(p))), JObj(Put(event, "payload", JObj(q)));
      forall k :: k in c.required ==> Present(a, k) == Present(b, k)
  {
    var a, b := JObj(Put(event, "payload", JObj(p))), JObj(Put(event, "payload", JObj(q)));
    forall k | k in c.required
      ensures Present(a, k) == Present(b, k)
    {
      assert HasKey(a.members, k) == HasKey(b.members, k);
    }
  }

  lemma PayloadPasses(c: EventContract, event: Object, p: Object, q: Object)
    ensures var a, b := JObj(Put(event, "payload", JObj(p))), JObj(Put(event, "payload", JObj(q)));
      forall i :: 0 <= i < |FieldKinds| ==> Passes(c, a, FieldKinds[i]) == Passes(c, b, FieldKinds[i])
  {
    var a, b := JObj(Put(event, "payload", JObj(p))), JObj(Put(event, "payload", JObj(q)));
    forall i | 0 <= i < |FieldKinds|
      ensures Passes(c, a, FieldKinds[i]) == Passes(c, b, FieldKinds[i])
    {
      if FieldKinds[i] != BadPayload {
        assert FieldOf(FieldKinds[i]) != "payload";
      }
    }
  }

  // ---------------------------------------------------------------- timestamps

  /** `n` printed with at least `width` digits, zero-padded on the left. */
  function PadNat(n: nat, width: nat): (r: string)
    ensures AllDigits(r) && |r| >= width
    ensures |NatToString(n)| <= width ==> |r| == width
    decreases width
  {
    var s := NatToString(n);
    if |s| >= width then s else "0" + PadNat(n, width - 1)
  }

  /** `Date.prototype.toISOString()` for years 0 to 9999: `YYYY-MM-DDTHH:mm:ss.sssZ`. */
  function IsoString(year: nat, month: nat, day: nat, hour: nat, minute: nat, second: nat, millis: nat): string {
    PadNat(year, 4) + "-" + PadNat(month, 2) + "-" + PadNat(day, 2) + "T"
    + PadNat(hour, 2) + ":" + PadNat(minute, 2) + ":" + PadNat(second, 2) + "." + PadNat(millis, 3) + "Z"
  }

  function Power10(k: nat): nat {
    if k == 0 then 1 else 10 * Power10(k - 1)
  }

  /** A number below `10^width` prints in at most `width` digits. */
  lemma {:induction false} NatToStringShort(n: nat, width: nat)
    requires 1 <= width && n < Power10(width)
    ensures |NatToString(n)| <= width
    decreases width
  {
    if n >= 10 {
      NatToStringShort(n / 10, width - 1);
    }
  }

  lemma FitsConcat(a: string, b: string, pa: string, pb: string)
    requires FitsShape(a, pa) && FitsShape(b, pb)
    ensures FitsShape(a + b, pa + pb)
  {
    forall i | 0 <= i < |a + b|
      ensures if (pa + pb)[i] == 'D' then IsDigit((a + b)[i]) else (a + b)[i] == (pa + pb)[i]
    {
      if i >= |a| {
        assert (a + b)[i] == b[i - |a|] && (pa + pb)[i] == pb[i - |a|];
      }
    }
  }

  /** A zero-padded field of the right width fits a run of `D`s. */
  lemma PaddedFits(n: nat, width: nat, shape: string)
    requires 1 <= width && n < Power10(width)
    requires |shape| == width && forall i :: 0 <= i < |shape| ==> shape[i] == 'D'
    ensures FitsShape(PadNat(n, width), shape)
  {
    NatToStringShort(n, width);
  }

  /** Every timestamp `toISOString` produces passes the timestamp check. */
  lemma IsoStringAccepted(year: nat, month: nat, day: nat, hour: nat, minute: nat, second: nat, millis: nat)
    requires year < 10000 && month < 100 && day < 100 && hour < 100 && minute < 100 && second < 100 && millis < 1000
    ensures IsIsoTimestamp(IsoString(year, month, day, hour, minute, second, millis))
  {
    Powers();
    PaddedFits(year, 4, "DDDD");
    PaddedFits(month, 2, "DD");
    PaddedFits(day, 2, "DD");
    PaddedFits(hour, 2, "DD");
    PaddedFits(minute, 2, "DD");
    PaddedFits(second, 2, "DD");
    var y, mo, d := PadNat(year, 4), PadNat(month, 2), PadNat(day, 2);
    var h, mi, s := PadNat(hour, 2), PadNat(minute, 2), PadNat(second, 2);
    var ms := PadNat(millis, 3);
    FieldsAccepted(y, mo, d, h, mi, s, ms);
  }

  lemma Powers()
    ensures Power10(2) == 100 && Power10(3) == 1000 && Power10(4) == 10000
  {
  }

  /** Fields of the right widths, joined as `toISOString` joins them, pass the check. */
  lemma FieldsAccepted(y: string, mo: string, d: string, h: string, mi: string, s: string, ms: string)
    requires FitsShape(y, "DDDD") && FitsShape(mo, "DD") && FitsShape(d, "DD")
    requires FitsShape(h, "DD") && FitsShape(mi, "DD") && FitsShape(s, "DD")
    requires |ms| >= 1 && AllDigits(ms)
    ensures IsIsoTimestamp(y + "-" + mo + "-" + d + "T" + h + ":" + mi + ":" + s + "." + ms + "Z")
  {
    var date, time := y + "-" + mo + "-" + d, h + ":" + mi + ":" + s;
    DateFits(y, mo, d);
    TimeFits(h, mi, s);
    HeadFits(date, time);
    assert y + "-" + mo + "-" + d + "T" + h + ":" + mi + ":" + s + "." + ms + "Z"
        == date + "T" + time + "." + ms + "Z";
    IsoTail(date + "T" + time, ms);
  }

  lemma SeparatorsFit()
    ensures FitsShape("-", "-") && FitsShape(":", ":") && FitsShape("T", "T")
    ensures "DDDD" + "-" == "DDDD-" && "DDDD-" + "DD" == "DDDD-DD" && "DDDD-DD" + "-" == "DDDD-DD-"
    ensures "DDDD-DD-" + "DD" == "DDDD-DD-DD"
    ensures "DD" + ":" == "DD:" && "DD:" + "DD" == "DD:DD" && "DD:DD" + ":" == "DD:DD:"
    ensures "DD:DD:" + "DD" == "DD:DD:DD"
    ensures "DDDD-DD-DD" + "T" == "DDDD-DD-DDT" && "DDDD-DD-DDT" + "DD:DD:DD" == TimestampShape
  {
  }

  lemma DateFits(y: string, mo: string, d: string)
    requires FitsShape(y, "DDDD") && FitsShape(mo, "DD") && FitsShape(d, "DD")
    ensures FitsShape(y + "-" + mo + "-" + d, "DDDD-DD-DD")
  {
    SeparatorsFit();
    FitsConcat(y, "-", "DDDD", "-");
    FitsConcat(y + "-", mo, "DDDD-", "DD");
    FitsConcat(y + "-" + mo, "-", "DDDD-DD", "-");
    FitsConcat(y + "-" + mo + "-", d, "DDDD-DD-", "DD");
  }

  lemma TimeFits(h: string, mi: string, s: string)
    requires FitsShape(h, "DD") && FitsShape(mi, "DD") && FitsShape(s, "DD")
    ensures FitsShape(h + ":" + mi + ":" + s, "DD:DD:DD")
  {
    SeparatorsFit();
    FitsConcat(h, ":", "DD", ":");
    FitsConcat(h + ":", mi, "DD:", "DD");
    FitsConcat(h + ":" + mi, ":", "DD:DD", ":");
    FitsConcat(h + ":" + mi + ":", s, "DD:DD:", "DD");
  }

  lemma HeadFits(date: string, time: string)
    requires FitsShape(date, "DDDD-DD-DD") && FitsShape(time, "DD:DD:DD")
    ensures FitsShape(date + "T" + time, TimestampShape)
  {
    SeparatorsFit();
    FitsConcat(date, "T", "DDDD-DD-DD", "T");
    FitsConcat(date + "T", time, "DDDD-DD-DDT", "DD:DD:DD");
  }

  /** After a well-shaped head, `.`, digits and `Z` complete a timestamp. */
  lemma IsoTail(head: string, ms: string)
    requires FitsShape(head, TimestampShape) && |ms| >= 1 && AllDigits(ms)
    ensures IsIsoTimestamp(head + "." + ms + "Z")
  {
    var r := head + "." + ms + "Z";
    assert r[..19] == head;
    assert r[19..|r| - 1] == "." + ms;
    assert ("." + ms)[1..] == ms;
  }

  /** The pattern checks shape only: out-of-range fields pass, offsets other than `Z` fail. */
  lemma TimestampShapeOnly()
    ensures IsIsoTimestamp("2024-99-99T99:99:99Z")
    ensures IsIsoTimestamp("2024-01-01T00:00:00.123456Z")
    ensures !IsIsoTimestamp("2024-01-01T00:00:00+00:00")
    ensures !IsIsoTimestamp("2024-01-01T00:00:00.Z")
  {
    var a := "2024-99-99T99:99:99Z";
    assert a[..19] == "2024-99-99T99:99:99";
    assert a[19..|a| - 1] == "";
    var f := "2024-01-01T00:00:00.123456Z";
    assert f[..19] == "2024-01-01T00:00:00";
    assert f[19..|f| - 1] == ".123456";
    var s := "2024-01-01T00:00:00.Z";
    assert s[19..|s| - 1] == ".";
  }
}

=== FILE: dashboard.dfy ===
/** The pure helpers and the envelope reducer of `src/App.jsx`: the runtime clock text, the
    status mapping of `normalizeAgent`, `eventToInsight`, and the changes `handleEnvelope` makes
    to the seen-id set, the agent and decision lists and the insights feed. React state, the
    timers, `localStorage` and locale time formatting stay outside; the clock is an input. */
module Dashboard {
  import opened Wrappers
  import opened Text
  import opened Json
  import opened JsNumber

  // ---------------------------------------------------------------- runtime text

  /** `padTime(value)` of a whole number: its decimal text, padded to two digits. */
  function PadTime(n: nat): (r: string)
    ensures |r| >= 2 && AllDigits(r) && DigitsValue(r) == n
    ensures n < 100 ==> |r| == 2
    ensures ':' !in r
  {
    var t := NatToString(n);
    DigitsValueOfNatToString(n);
    if n < 10 then
      DigitsValueLeadingZero(t);
      PadStart2(t)
    else
      assert n < 100 ==> NatToString(n / 10) == [DigitChar(n / 10)];
      PadStart2(t)
  }

  /** `Math.max(0, Number.isFinite(seconds) ? seconds : 0)`. */
  function Safe(seconds: Num): (r: real)
    ensures r >= 0.0
    ensures seconds.Fin? && seconds.value >= 0.0 ==> r == seconds.value
    ensures !seconds.Fin? || seconds.value <= 0.0 ==> r == 0.0
  {
    if seconds.Fin? && seconds.value > 0.0 then seconds.value else 0.0
  }

  /** `a % d` of JavaScript for `a >= 0`: what is left after taking whole `d`s away. */
  function Rem(a: real, d: nat): (r: real)
    requires a >= 0.0 && d > 0
  {
    a - d as real * (a / d as real).Floor as real
  }

  /** For `x >= 0`, `Math.floor(x / d)` and `Math.floor(x % d)` depend only on `Math.floor(x)`. */
  lemma FloorDivRem(x: real, d: nat)
    requires x >= 0.0 && (d == 60 || d == 3600)
    ensures (x / d as real).Floor == x.Floor / d
    ensures Rem(x, d) >= 0.0 && Rem(x, d).Floor == x.Floor % d
  {
    var n := x.Floor;
    var q, r := n / d, n % d;
    var f := x - n as real;
    if d == 60 {
      assert x == 60.0 * q as real + r as real + f;
      assert q as real <= x / 60.0 < q as real + 1.0;
    } else {
      assert x == 3600.0 * q as real + r as real + f;
      assert q as real <= x / 3600.0 < q as real + 1.0;
    }
  }

  /** The clock text of a whole number of seconds: hours, minutes and seconds, each padded to
      two digits and joined by `:`. */
  function ClockText(n: nat): (r: string)
    ensures |r| >= 8 && r[|r| - 3] == ':' && r[|r| - 6] == ':'
    ensures AllDigits(r[..|r| - 6]) && AllDigits(r[|r| - 5..|r| - 3]) && AllDigits(r[|r| - 2..])
    ensures DigitsValue(r[|r| - 5..|r| - 3]) < 60 && DigitsValue(r[|r| - 2..]) < 60
    ensures DigitsValue(r[..|r| - 6]) * 3600 + DigitsValue(r[|r| - 5..|r| - 3]) * 60
            + DigitsValue(r[|r| - 2..]) == n
  {
    var h, m, s := PadTime(n / 3600), PadTime(n % 3600 / 60), PadTime(n % 60);
    ClockParts(h, m, s);
    ClockArithmetic(n);
    h + ":" + m + ":" + s
  }

  /** Where the three fields sit in `h:mm:ss`. */
  lemma ClockParts(h: string, m: string, s: string)
    requires |h| >= 2 && |m| == 2 && |s| == 2
    ensures var r := h + ":" + m + ":" + s;
      && |r| >= 8 && r[|r| - 3] == ':' && r[|r| - 6] == ':'
      && r[..|r| - 6] == h && r[|r| - 5..|r| - 3] == m && r[|r| - 2..] == s
  {
    var r := h + ":" + m + ":" + s;
    assert r[..|r| - 6] == h && r[|r| - 5..|r| - 3] == m && r[|r| - 2..] == s;
  }

  /** `formatRuntime(seconds)`: the floors of `safe / 3600`, `(safe % 3600) / 60` and
      `safe % 60` are the clock fields of the whole part of `safe`. */
  function FormatRuntime(seconds: Num): (r: string)
    ensures r == ClockText(Safe(seconds).Floor)
  {
    var safe := Safe(seconds);
    FormatFields(safe);
    PadTime((safe / 3600.0).Floor) + ":" + PadTime((Rem(safe, 3600) / 60.0).Floor) + ":" + PadTime(Rem(safe, 60).Floor)
  }

  /** The three fields `formatRuntime` computes from a real are those of its floor. */
  lemma FormatFields(safe: real)
    requires safe >= 0.0
    ensures (safe / 3600.0).Floor == safe.Floor / 3600
    ensures (Rem(safe, 3600) / 60.0).Floor == safe.Floor % 3600 / 60
    ensures Rem(safe, 60).Floor == safe.Floor % 60
  {
    FloorDivRem(safe, 3600);
    FloorDivRem(Rem(safe, 3600), 60);
    FloorDivRem(safe, 60);
  }

  /** The three fields of a clock reading recombine into the reading. */
  lemma ClockArithmetic(safe: nat)
    ensures safe / 3600 * 3600 + safe % 3600 / 60 * 60 + safe % 60 == safe
  {
    var rest := safe % 3600;
    assert safe == safe / 3600 * 3600 + rest;
    assert rest == rest / 60 * 60 + rest % 60;
    assert rest % 60 == safe % 60 by {
      assert safe == (safe / 3600 * 60) * 60 + rest;
    }
  }

  /** `h * 3600 + m * 60 + s` of three fields none of which is `NaN`, or 0 when one is. */
  function ClockSeconds(h: Num, m: Num, s: Num): (secs: Num)
    ensures h.NaN? || m.NaN? || s.NaN? ==> secs == Fin(0.0)
    ensures h.Fin? && m.Fin? && s.Fin? ==> secs == Fin(h.value * 3600.0 + m.value * 60.0 + s.value)
    ensures secs.NaN? ==> h.Inf? || m.Inf? || s.Inf?
  {
    if h.NaN? || m.NaN? || s.NaN? then Fin(0.0)
    else Add(Add(Scale(h, 3600.0), Scale(m, 60.0)), s)
  }

  /** `parseRuntimeToSeconds(runtime)`: a non-empty string of three `:`-separated parts is
      read field by field with `Number`; anything else is 0. */
  function ParseRuntimeToSeconds(runtime: Option<Json>): (secs: Num)
    ensures runtime.None? || !runtime.value.JStr? || runtime.value.s == "" ==> secs == Fin(0.0)
    ensures runtime.Some? && runtime.value.JStr? && runtime.value.s != "" ==>
      var parts := SplitOn(runtime.value.s, ':');
      && (|parts| != 3 ==> secs == Fin(0.0))
      && (|parts| == 3 ==>
            secs == ClockSeconds(StringToNumber(parts[0]), StringToNumber(parts[1]), StringToNumber(parts[2])))
  {
    if runtime.None? || !runtime.value.JStr? || runtime.value.s == "" then Fin(0.0)
    else
      var parts := SplitOn(runtime.value.s, ':');
      if |parts| != 3 then Fin(0.0)
      else ClockSeconds(StringToNumber(parts[0]), StringToNumber(parts[1]), StringToNumber(parts[2]))
  }

  /** A clock text is its three fields joined by `:`, and splits back into them. */
  lemma ClockFields(n: nat)
    ensures var h, m, s := PadTime(n / 3600), PadTime(n % 3600 / 60), PadTime(n % 60);
      SplitOn(ClockText(n), ':') == [h, m, s]
  {
    ThreeParts(PadTime(n / 3600), PadTime(n % 3600 / 60), PadTime(n % 60));
  }

  /** A runtime text of three parts is read part by part. */
  lemma ParseThree(text: string, a: string, b: string, c: string)
    requires text != "" && SplitOn(text, ':') == [a, b, c]
    ensures ParseRuntimeToSeconds(Some(JStr(text)))
         == ClockSeconds(StringToNumber(a), StringToNumber(b), StringToNumber(c))
  {
  }

  /** A whole number of seconds formats as its clock text. */
  lemma FormatWhole(n: nat)
    ensures FormatRuntime(Fin(n as real)) == ClockText(n)
  {
    assert (n as real).Floor == n;
  }

  /** Reading back a formatted runtime gives the seconds it was formatted from. */
  lemma RuntimeRoundTrip(seconds: nat)
    ensures ParseRuntimeToSeconds(Some(JStr(FormatRuntime(Fin(seconds as real))))) == Fin(seconds as real)
  {
    FormatWhole(seconds);
    ParseClockText(seconds);
  }

  /** A clock text reads back as the seconds it spells. */
  lemma ParseClockText(n: nat)
    ensures ParseRuntimeToSeconds(Some(JStr(ClockText(n)))) == Fin(n as real)
  {
    var h, m, s := PadTime(n / 3600), PadTime(n % 3600 / 60), PadTime(n % 60);
    ClockFields(n);
    ClockArithmetic(n);
    ParseDigitFields(ClockText(n), h, m, s, n);
  }

  /** A text that splits into three fields of decimal digits reads as the clock reading they
      spell. */
  lemma ParseDigitFields(text: string, h: string, m: string, s: string, n: nat)
    requires text != "" && SplitOn(text, ':') == [h, m, s]
    requires |h| > 0 && |m| > 0 && |s| > 0 && AllDigits(h) && AllDigits(m) && AllDigits(s)
    requires DigitsValue(h) * 3600 + DigitsValue(m) * 60 + DigitsValue(s) == n
    ensures ParseRuntimeToSeconds(Some(JStr(text))) == Fin(n as real)
  {
    ParseThree(text, h, m, s);
    DigitFields(h, m, s, n);
  }

  /** Three fields of decimal digits are the clock reading they spell. */
  lemma DigitFields(h: string, m: string, s: string, n: nat)
    requires |h| > 0 && |m| > 0 && |s| > 0 && AllDigits(h) && AllDigits(m) && AllDigits(s)
    requires DigitsValue(h) * 3600 + DigitsValue(m) * 60 + DigitsValue(s) == n
    ensures ClockSeconds(StringToNumber(h), StringToNumber(m), StringToNumber(s)) == Fin(n as real)
  {
    DigitsNumber(h);
    DigitsNumber(m);
    DigitsNumber(s);
    ClockOfValues(DigitsValue(h), DigitsValue(m), DigitsValue(s), n);
  }

  /** Whole hours, minutes and seconds make the whole number of seconds they add up to. */
  lemma ClockOfValues(a: nat, b: nat, c: nat, n: nat)
    requires a * 3600 + b * 60 + c == n
    ensures ClockSeconds(Fin(a as real), Fin(b as real), Fin(c as real)) == Fin(n as real)
  {
  }

  /** The per-second ticker of a running agent without a start time: the text read back, plus
      one, formatted again, is the next second. */
  lemma TickAdvances(seconds: nat)
    ensures FormatRuntime(Add(ParseRuntimeToSeconds(Some(JStr(FormatRuntime(Fin(seconds as real))))), Fin(1.0)))
         == FormatRuntime(Fin((seconds + 1) as real))
  {
    RuntimeRoundTrip(seconds);
    assert Add(Fin(seconds as real), Fin(1.0)) == Fin((seconds + 1) as real);
  }

  /** A negative, zero, infinite or `NaN` count of seconds shows as `00:00:00`. */
  lemma NonPositiveRuntime(seconds: Num)
    requires !seconds.Fin? || seconds.value <= 0.0
    ensures FormatRuntime(seconds) == "00:00:00"
  {
    assert Safe(seconds).Floor == 0;
    ClockTextZero();
  }

  lemma ClockTextZero()
    ensures ClockText(0) == "00:00:00"
  {
    assert PadTime(0) == "00";
  }

  /** A text that splits into three fields `Number` reads as finite values is the clock
      reading they make. */
  lemma ParseFiniteFields(text: string, a: string, b: string, c: string, x: real, y: real, z: real, total: real)
    requires text != "" && SplitOn(text, ':') == [a, b, c]
    requires StringToNumber(a) == Fin(x) && StringToNumber(b) == Fin(y) && StringToNumber(c) == Fin(z)
    requires total == x * 3600.0 + y * 60.0 + z
    ensures ParseRuntimeToSeconds(Some(JStr(text))) == Fin(total)
  {
    ParseThree(text, a, b, c);
    ClockOfFields(StringToNumber(a), StringToNumber(b), StringToNumber(c), x, y, z, total);
  }

  /** Finite hours, minutes and seconds make `h * 3600 + m * 60 + s` seconds. */
  lemma ClockOfFields(h: Num, m: Num, s: Num, x: real, y: real, z: real, total: real)
    requires h == Fin(x) && m == Fin(y) && s == Fin(z) && total == x * 3600.0 + y * 60.0 + z
    ensures ClockSeconds(h, m, s) == Fin(total)
  {
  }

  /** A fractional field is read as `Number` reads it: an hour and a half is 5400 seconds. */
  lemma FractionalRuntime()
    ensures ParseRuntimeToSeconds(Some(JStr("1.5:00:00"))) == Fin(5400.0)
  {
    ZeroField();
    OneAndAHalf();
    SplitFractional();
    ParseFiniteFields("1.5:00:00", "1.5", "00", "00", 1.5, 0.0, 0.0, 5400.0);
  }

  lemma SplitFractional()
    ensures SplitOn("1.5:00:00", ':') == ["1.5", "00", "00"]
  {
    ThreeParts("1.5", "00", "00");
    assert "1.5:00:00" == "1.5" + ":" + "00" + ":" + "00";
  }

  /** A signed field is read as `Number` reads it: minus five hours is -18000 seconds. */
  lemma NegativeRuntime()
    ensures ParseRuntimeToSeconds(Some(JStr("-5:00:00"))) == Fin(-18000.0)
  {
    ZeroField();
    SignedFive();
    SplitNegative();
    ParseFiniteFields("-5:00:00", "-5", "00", "00", -5.0, 0.0, 0.0, -18000.0);
  }

  lemma SplitNegative()
    ensures SplitOn("-5:00:00", ':') == ["-5", "00", "00"]
  {
    ThreeParts("-5", "00", "00");
    assert "-5:00:00" == "-5" + ":" + "00" + ":" + "00";
  }

  lemma ZeroField()
    ensures StringToNumber("00") == Fin(0.0)
  {
    DoubleZero();
    DigitsNumber("00");
  }

  lemma DoubleZero()
    ensures DigitsValue("00") == 0
  {
    assert "00"[..1] == "0";
  }

  /** Three parts without `:` joined by `:` split back into those parts. */
  lemma ThreeParts(a: string, b: string, c: string)
    requires ':' !in a && ':' !in b && ':' !in c
    ensures SplitOn(a + ":" + b + ":" + c, ':') == [a, b, c]
  {
    assert [a, b, c][1..] == [b, c] && [b, c][1..] == [c];
    assert JoinWith([b, c], ':') == b + ":" + c;
    assert JoinWith([a, b, c], ':') == a + ":" + b + ":" + c;
    SplitJoin([a, b, c], ':');
  }

  // ---------------------------------------------------------------- agent status

  /** `AGENT_STATUS_MAP`: raw statuses onto the four labels the fleet view draws. */
  const AgentStatusMap: map<string, string> := map[
    "running" := "active", "active" := "active", "blocked" := "blocked", "paused" := "blocked",
    "idle" := "idle", "completed" := "idle", "done" := "idle", "failed" := "blocked",
    "thinking" := "thinking", "scanning" := "thinking"]

  const StatusLabels: set<string> := {"active", "blocked", "idle", "thinking"}

  /** `String(rawAgent?.status || '').toLowerCase()`: the key the status is looked up under. */
  function StatusKey(status: Option<Json>): (key: string)
    ensures forall i :: 0 <= i < |key| ==> !('A' <= key[i] <= 'Z')
  {
    Lower(if Defined(status) then JsString(status.value) else "")
  }

  /** What `AGENT_STATUS_MAP[key] || 'idle'` evaluates to: one of the map's labels, or a member
      that the object literal inherits from `Object.prototype` (a function, or the prototype
      object itself for `__proto__`), which is truthy and so replaces the `idle` default. */
  datatype StatusValue = Label(text: string) | Inherited(name: string)

  /** The status lookup of `normalizeAgent` as written: a plain object literal indexed by an
      arbitrary key. */
  function StatusAsWritten(status: Option<Json>): (v: StatusValue)
    ensures v.Label? ==> v.text in StatusLabels
    ensures v.Inherited? <==> StatusKey(status) in ObjectPrototypeKeys
  {
    var key := StatusKey(status);
    if key in AgentStatusMap then Label(AgentStatusMap[key])
    else if key in ObjectPrototypeKeys then Inherited(key)
    else Label("idle")
  }

  /** A status of `constructor` escapes the four labels: the card's status is then
      `Object.prototype.constructor`, a function, which no status badge matches. */
  lemma ConstructorStatusEscapes()
    ensures StatusAsWritten(Some(JStr("constructor"))) == Inherited("constructor")
  {
    assert Lower("constructor") == "constructor";
  }

  /** The status `normalizeAgent` evidently means to produce: the label of an own key of
      `AGENT_STATUS_MAP`, and `idle` for every other key. */
  function AgentStatus(status: Option<Json>): (badge: string)
    ensures badge in StatusLabels
    ensures StatusKey(status) in AgentStatusMap ==> badge == AgentStatusMap[StatusKey(status)]
    ensures StatusKey(status) !in AgentStatusMap ==> badge == "idle"
  {
    var key := StatusKey(status);
    if key in AgentStatusMap then AgentStatusMap[key] else "idle"
  }

  /** The corrected lookup agrees with the source on every key `Object.prototype` does not
      name, and the only lowercase keys it does name are `constructor` and `__proto__`. */
  lemma StatusAgreesOffPrototype(status: Option<Json>)
    ensures StatusKey(status) !in ObjectPrototypeKeys ==> StatusAsWritten(status) == Label(AgentStatus(status))
    ensures StatusAsWritten(status).Inherited? ==> StatusKey(status) in {"constructor", "__proto__"}
  {
    var key := StatusKey(status);
    if key in ObjectPrototypeKeys {
      assert key != "hasOwnProperty" by { assert !('A' <= key[3] <= 'Z'); }
      assert key != "isPrototypeOf" by { assert !('A' <= key[2] <= 'Z'); }
      assert key != "propertyIsEnumerable" by { assert !('A' <= key[8] <= 'Z'); }
      assert key != "toLocaleString" by { assert !('A' <= key[2] <= 'Z'); }
      assert key != "toString" by { assert !('A' <= key[2] <= 'Z'); }
      assert key != "valueOf" by { assert !('A' <= key[5] <= 'Z'); }
      assert key != "__defineGetter__" by { assert !('A' <= key[8] <= 'Z'); }
      assert key != "__defineSetter__" by { assert !('A' <= key[8] <= 'Z'); }
      assert key != "__lookupGetter__" by { assert !('A' <= key[8] <= 'Z'); }
      assert key != "__lookupSetter__" by { assert !('A' <= key[8] <= 'Z'); }
    }
  }

  // ---------------------------------------------------------------- insights

  /** The seven event types the insights feed shows, with their default titles. */
  const DefaultTitles: map<string, string> := map[
    "build.failed" := "Build failed", "build.passed" := "Build passed",
    "heal.attempted" := "Auto-heal started", "heal.completed" := "Auto-heal completed",
    "heal.escalated" := "Auto-heal escalated", "decision.required" := "Decision required",
    "decision.resolved" := "Decision resolved"]

  const FallbackDetail: string := "Live control-plane signal"

  /** One card of the insights feed. `time` is the value handed to `new Date(...)` before it
      is formatted as a locale time. */
  datatype Insight = Insight(
    id: string,
    severity: Json,
    source: Json,
    title: Json,
    detail: Json,
    action: Option<string>,
    time: Json,
    status: string)

  /** The severity of an event that names none: `critical` when its type mentions a failure
      or an escalation. */
  function DefaultSeverity(eventType: string): string {
    if Contains(eventType, "failed") || Contains(eventType, "escalated") then "critical" else "info"
  }

  /** A text that contains `sub` contains each of its characters. */
  lemma ContainsHas(s: string, sub: string, i: nat)
    requires i < |sub|
    ensures Contains(s, sub) ==> sub[i] in s
  {
    if Contains(s, sub) {
      var k: nat :| k <= |s| && OccursAt(s, sub, k);
      assert s[k + i] == sub[i];
    }
  }

  /** An occurrence at position `k` is an occurrence. */
  lemma ContainsAt(s: string, sub: string, k: nat)
    requires k <= |s| && StartsWith(s[k..], sub)
    ensures Contains(s, sub)
  {
    assert s[k..k + |sub|] == s[k..][..|sub|];
    assert OccursAt(s, sub, k);
  }

  /** A text missing one character of `sub` does not contain `sub`. */
  lemma Lacks(s: string, sub: string, i: nat)
    requires i < |sub| && sub[i] !in s
    ensures !Contains(s, sub)
  {
    ContainsHas(s, sub, i);
  }

  /** Of the seven types, exactly the failed build and the escalated heal are critical. */
  lemma SeverityDefaults()
    ensures DefaultSeverity("build.failed") == "critical"
    ensures DefaultSeverity("heal.escalated") == "critical"
    ensures DefaultSeverity("build.passed") == "info"
    ensures DefaultSeverity("heal.attempted") == "info"
    ensures DefaultSeverity("heal.completed") == "info"
    ensures DefaultSeverity("decision.required") == "info"
    ensures DefaultSeverity("decision.resolved") == "info"
  {
    ContainsAt("build.failed", "failed", 6);
    ContainsAt("heal.escalated", "escalated", 5);
    BuildPassedInfo();
    HealAttemptedInfo();
    HealCompletedInfo();
    DecisionRequiredInfo();
    DecisionResolvedInfo();
  }

  lemma BuildPassedInfo()
    ensures DefaultSeverity("build.passed") == "info"
  {
    Lacks("build.passed", "failed", 0);
    Lacks("build.passed", "escalated", 2);
  }

  lemma HealAttemptedInfo()
    ensures DefaultSeverity("heal.attempted") == "info"
  {
    Lacks("heal.attempted", "failed", 0);
    Lacks("heal.attempted", "escalated", 2);
  }

  lemma HealCompletedInfo()
    ensures DefaultSeverity("heal.completed") == "info"
  {
    Lacks("heal.completed", "failed", 0);
    Lacks("heal.completed", "escalated", 1);
  }

  lemma DecisionRequiredInfo()
    ensures DefaultSeverity("decision.required") == "info"
  {
    Lacks("decision.required", "failed", 0);
    Lacks("decision.required", "escalated", 4);
  }

  lemma DecisionResolvedInfo()
    ensures DefaultSeverity("decision.resolved") == "info"
  {
    Lacks("decision.resolved", "failed", 0);
    Lacks("decision.resolved", "escalated", 3);
  }

  /** `a || b || ... || last` over possibly `undefined` values. */
  function FirstDefined(candidates: seq<Option<Json>>, last: Json): (r: Json)
    ensures (exists i :: 0 <= i < |candidates| && Defined(candidates[i])) ==>
      exists i :: 0 <= i < |candidates| && Defined(candidates[i]) && r == candidates[i].value
    ensures (forall i :: 0 <= i < |candidates| ==> !Defined(candidates[i])) ==> r == last
    ensures |candidates| > 0 && Defined(candidates[0]) ==> r == candidates[0].value
  {
    if |candidates| == 0 then last
    else if Defined(candidates[0]) then candidates[0].value
    else FirstDefined(candidates[1..], last)
  }

  /** `event.payload || {}`. */
  function PayloadOf(event: Json): (p: Json)
    ensures Defined(Prop(event, "payload")) ==> Some(p) == Prop(event, "payload")
    ensures !Defined(Prop(event, "payload")) ==> p == JObj([])
  {
    if Defined(Prop(event, "payload")) then Prop(event, "payload").value else JObj([])
  }

  /** `eventToInsight(event)` at clock reading `now` (the `Date.now()` fallbacks): a card for
      the seven supported string types, nothing for any other type. */
  function EventToInsight(event: Json, now: int): (r: Option<Insight>)
    ensures r.Some? <==> exists t :: Prop(event, "type") == Some(JStr(t)) && t in DefaultTitles
    ensures r.Some? ==> r.value.status == "pending"
    ensures r.Some? ==> (r.value.action == Some("Open inbox") <==> Prop(event, "type") == Some(JStr("decision.required")))
    ensures r.Some? ==> r.value.action.None? || r.value.action == Some("Open inbox")
    ensures r.Some? && !Defined(Prop(PayloadOf(event), "title")) ==>
      r.value.title == JStr(DefaultTitles[Prop(event, "type").value.s])
    ensures r.Some? && !Defined(Prop(event, "severity")) ==>
      r.value.severity == JStr(DefaultSeverity(Prop(event, "type").value.s))
  {
    match Prop(event, "type")
    case Some(JStr(t)) =>
      if t !in DefaultTitles then None
      else
        var payload := PayloadOf(event);
        var id := if Defined(Prop(event, "id")) then JsString(Prop(event, "id").value) else IntToString(now);
        Some(Insight(
          "insight-" + id,
          FirstDefined([Prop(event, "severity")], JStr(DefaultSeverity(t))),
          FirstDefined([Prop(event, "source"), Prop(event, "agentId")], JStr("system")),
          FirstDefined([Prop(payload, "title")], JStr(DefaultTitles[t])),
          FirstDefined([Prop(payload, "summary"), Prop(payload, "message"), Prop(payload, "reasonCode"),
                        Prop(payload, "humanContext"), Prop(payload, "patchSummary")], JStr(FallbackDetail)),
          if t == "decision.required" then Some("Open inbox") else None,
          FirstDefined([Prop(event, "timestamp")], JNum(Int(now))),
          "pending"))
    case _ => None
  }

  // ---------------------------------------------------------------- the envelope reducer

  /** The seen-id set is cut once it holds more than this many ids ... */
  const SeenLimit: nat := 2000
  /** ... down to this many of the most recent. */
  const SeenKeep: nat := 1000
  /** The insights feed keeps this many cards. */
  const InsightsCap: nat := 50

  predicate Distinct<T(==)>(xs: seq<T>) {
    forall i, j :: 0 <= i < j < |xs| ==> xs[i] != xs[j]
  }

  /** `seen.add(id)` for an id not yet seen, then, past the limit,
      `new Set(Array.from(seen).slice(-1000))`: the set keeps insertion order. */
  function Remember(seen: seq<Json>, id: Json): (r: seq<Json>)
    requires id !in seen
    ensures |seen| < SeenLimit ==> r == seen + [id]
    ensures |seen| >= SeenLimit ==> |r| == SeenKeep
    ensures |r| > 0 && r[|r| - 1] == id
    ensures r == (seen + [id])[|seen| + 1 - |r|..]
    ensures |seen| <= SeenLimit ==> |r| <= SeenLimit
    ensures Distinct(seen) ==> Distinct(r)
  {
    var added := seen + [id];
    assert Distinct(seen) ==> Distinct(added);
    if |added| > SeenLimit then added[|added| - SeenKeep..] else added
  }

  /** The part of a normalized agent the reducer relies on: its id and status label. The
      display fields (name, role, task, runtime and so on) are read from `fields`. */
  datatype AgentCard = AgentCard(id: string, status: string, fields: Json)

  /** The part of a normalized decision the reducer changes; its question, context and time
      are read from `fields`. */
  datatype DecisionCard = DecisionCard(id: string, status: string, isResolving: bool,
                                       resolveError: Option<string>, fields: Json)

  /** The dashboard state `handleEnvelope` touches: the seen ids in insertion order, the last
      event id, the agent and decision lists, the insights feed and the active panel. */
  datatype View = View(
    seen: seq<Json>,
    lastEventId: Option<Json>,
    agents: seq<AgentCard>,
    decisions: seq<DecisionCard>,
    insights: seq<Insight>,
    panel: Option<string>)

  /** The state after one envelope, and whether the handler threw part way (a truthy type that
      is not a string has no `startsWith`); the stream client catches the error. */
  datatype Handled = Handled(view: View, threw: bool)

  /** `String(x || '')` of an id candidate. */
  function IdText(x: Option<Json>): string {
    if Defined(x) then JsString(x.value) else ""
  }

  /** The id `normalizeAgent` gives `{...payload, id: payload.id || envelope.agentId ||
      payload.agentId}`. */
  function AgentIdText(envelope: Json, payload: Json): string {
    IdText(Or(Or(Prop(payload, "id"), Prop(envelope, "agentId")), Prop(payload, "agentId")))
  }

  /** The id `normalizeDecision` gives `{...payload, id: payload.id || payload.decisionId ||
      envelope.id}`. */
  function RequiredIdText(envelope: Json, payload: Json): string {
    IdText(Or(Or(Prop(payload, "id"), Prop(payload, "decisionId")), Prop(envelope, "id")))
  }

  /** `payload.id || payload.decisionId || payload.targetDecisionId`. */
  function ResolvedIdOf(payload: Json): Option<Json> {
    Or(Or(Prop(payload, "id"), Prop(payload, "decisionId")), Prop(payload, "targetDecisionId"))
  }

  /** `prev.findIndex(agent => agent.id === id)`. */
  function FindAgent(agents: seq<AgentCard>, id: string): (i: int)
    ensures -1 <= i < |agents|
    ensures i >= 0 ==> agents[i].id == id && forall j :: 0 <= j < i ==> agents[j].id != id
    ensures i < 0 ==> forall j :: 0 <= j < |agents| ==> agents[j].id != id
    decreases |agents|
  {
    if |agents| == 0 then -1
    else if agents[0].id == id then 0
    else
      var k := FindAgent(agents[1..], id);
      if k < 0 then -1 else k + 1
  }

  /** The agent update: a card for a new id goes first; for a known id `{...prev[i], ...next}`
      replaces the card in place, and since a normalized agent defines every field, the merge
      is the new card. */
  function UpsertAgent(agents: seq<AgentCard>, card: AgentCard): (r: seq<AgentCard>)
    ensures card in r
    ensures forall c :: c in r ==> c == card || c in agents
    ensures (forall j :: 0 <= j < |agents| ==> agents[j].id != card.id) ==> r == [card] + agents
    ensures (exists j :: 0 <= j < |agents| && agents[j].id == card.id) ==>
      |r| == |agents| && forall j :: 0 <= j < |agents| && agents[j].id != card.id ==> r[j] == agents[j]
  {
    var i := FindAgent(agents, card.id);
    if i < 0 then [card] + agents
    else
      var r := agents[i := card];
      assert forall j :: 0 <= j < |r| ==> r[j] == card || r[j] == agents[j];
      r
  }

  /** An agent update never lists one id twice. */
  lemma UpsertKeepsIdsDistinct(agents: seq<AgentCard>, card: AgentCard)
    requires Distinct(Ids(agents))
    ensures Distinct(Ids(UpsertAgent(agents, card)))
  {
    var i := FindAgent(agents, card.id);
    var r := UpsertAgent(agents, card);
    if i < 0 {
      assert r == [card] + agents;
      forall a, b | 0 <= a < b < |r| ensures Ids(r)[a] != Ids(r)[b] {
        if a > 0 { assert Ids(r)[a] == Ids(agents)[a - 1] && Ids(r)[b] == Ids(agents)[b - 1]; }
      }
    } else {
      assert r == agents[i := card];
      forall a, b | 0 <= a < b < |r| ensures Ids(r)[a] != Ids(r)[b] {
        if a != i && b != i { assert Ids(r)[a] == Ids(agents)[a] && Ids(r)[b] == Ids(agents)[b]; }
        else if a == i { assert Ids(r)[b] == Ids(agents)[b]; }
        else { assert Ids(r)[a] == Ids(agents)[a]; }
      }
    }
  }

  function Ids(agents: seq<AgentCard>): (ids: seq<string>)
    ensures |ids| == |agents| && forall i :: 0 <= i < |agents| ==> ids[i] == agents[i].id
  {
    seq(|agents|, i requires 0 <= i < |agents| => agents[i].id)
  }

  function DecisionIds(decisions: seq<DecisionCard>): (ids: seq<string>)
    ensures |ids| == |decisions| && forall i :: 0 <= i < |decisions| ==> ids[i] == decisions[i].id
  {
    seq(|decisions|, i requires 0 <= i < |decisions| => decisions[i].id)
  }

  /** `exists ? prev : [required, ...prev]`: a required decision goes first unless its id is
      already listed. */
  function AddRequired(decisions: seq<DecisionCard>, card: DecisionCard): (r: seq<DecisionCard>)
    ensures (exists j :: 0 <= j < |decisions| && decisions[j].id == card.id) ==> r == decisions
    ensures (forall j :: 0 <= j < |decisions| ==> decisions[j].id != card.id) ==> r == [card] + decisions
  {
    if exists j :: 0 <= j < |decisions| && decisions[j].id == card.id then decisions
    else [card] + decisions
  }

  /** A required decision never lists one id twice. */
  lemma AddRequiredKeepsIdsDistinct(decisions: seq<DecisionCard>, card: DecisionCard)
    requires Distinct(DecisionIds(decisions))
    ensures Distinct(DecisionIds(AddRequired(decisions, card)))
  {
    var r := AddRequired(decisions, card);
    if forall j :: 0 <= j < |decisions| ==> decisions[j].id != card.id {
      assert r == [card] + decisions;
      forall a, b | 0 <= a < b < |r| ensures DecisionIds(r)[a] != DecisionIds(r)[b] {
        if a > 0 {
          assert DecisionIds(r)[a] == DecisionIds(decisions)[a - 1];
          assert DecisionIds(r)[b] == DecisionIds(decisions)[b - 1];
        }
      }
    }
  }

  /** The `decision.resolved` update: every listed decision whose id is `resolvedId` (strictly
      equal, so only a string id matches) is marked resolved and no longer resolving. */
  function MarkResolved(decisions: seq<DecisionCard>, resolvedId: Json): (r: seq<DecisionCard>)
    ensures |r| == |decisions| && DecisionIds(r) == DecisionIds(decisions)
    ensures forall i :: 0 <= i < |r| ==>
      r[i] == if resolvedId == JStr(decisions[i].id)
              then decisions[i].(status := "resolved", isResolving := false, resolveError := None)
              else decisions[i]
  {
    seq(|decisions|, i requires 0 <= i < |decisions| =>
      if resolvedId == JStr(decisions[i].id)
      then decisions[i].(status := "resolved", isResolving := false, resolveError := None)
      else decisions[i])
  }

  /** `[insight, ...prev].slice(0, 50)`. */
  function AddInsight(insights: seq<Insight>, insight: Insight): (r: seq<Insight>)
    ensures |r| <= InsightsCap && |r| == if |insights| < InsightsCap then |insights| + 1 else InsightsCap
    ensures r[0] == insight
    ensures forall i :: 1 <= i < |r| ==> r[i] == insights[i - 1]
  {
    var all := [insight] + insights;
    if |all| > InsightsCap then all[..InsightsCap] else all
  }

  /** `setActivePanel(panel => panel || 'inbox')`. */
  function OpenInbox(panel: Option<string>): (r: Option<string>)
    ensures panel.Some? && panel.value != "" ==> r == panel
    ensures panel.None? || panel.value == "" ==> r == Some("inbox")
  {
    if panel.Some? && panel.value != "" then panel else Some("inbox")
  }

  /** The `agent.*` step, for an agent event that names its agent. */
  function AgentStep(v: View, envelope: Json, payload: Json, t: string): (r: View)
    ensures !StartsWith(t, "agent.") ==> r == v
    ensures r.decisions == v.decisions && r.insights == v.insights && r.panel == v.panel
    ensures r.seen == v.seen && r.lastEventId == v.lastEventId
  {
    if StartsWith(t, "agent.") then
      v.(agents := UpsertAgent(v.agents, AgentCard(AgentIdText(envelope, payload),
                                                   AgentStatus(Prop(payload, "status")), payload)))
    else v
  }

  /** The `decision.required` step. */
  function RequiredStep(v: View, envelope: Json, payload: Json, t: string): (r: View)
    ensures t != "decision.required" ==> r == v
    ensures r.agents == v.agents && r.insights == v.insights
    ensures r.seen == v.seen && r.lastEventId == v.lastEventId
  {
    if t == "decision.required" then
      var id := RequiredIdText(envelope, payload);
      var ds := if id != "" then AddRequired(v.decisions, DecisionCard(id, "pending", false, None, payload))
                else v.decisions;
      v.(decisions := ds, panel := OpenInbox(v.panel))
    else v
  }

  /** The `decision.resolved` step. */
  function ResolvedStep(v: View, payload: Json, t: string): (r: View)
    ensures t != "decision.resolved" ==> r == v
    ensures r.agents == v.agents && r.insights == v.insights && r.panel == v.panel
    ensures r.seen == v.seen && r.lastEventId == v.lastEventId
  {
    var resolvedId := ResolvedIdOf(payload);
    if t == "decision.resolved" && Defined(resolvedId)
    then v.(decisions := MarkResolved(v.decisions, resolvedId.value))
    else v
  }

  /** The insights step, common to every type. */
  function InsightStep(v: View, envelope: Json, now: int): (r: View)
    ensures r.agents == v.agents && r.decisions == v.decisions && r.panel == v.panel
    ensures r.seen == v.seen && r.lastEventId == v.lastEventId
    ensures |v.insights| <= InsightsCap ==> |r.insights| <= InsightsCap
  {
    match EventToInsight(envelope, now)
    case Some(insight) => v.(insights := AddInsight(v.insights, insight))
    case None => v
  }

  /** The part of `handleEnvelope` after the seen-id check, for an envelope whose type is the
      string `t`, at clock reading `now`. */
  function Dispatch(v: View, envelope: Json, t: string, now: int): (r: View)
    ensures r.seen == v.seen && r.lastEventId == v.lastEventId
  {
    var payload := PayloadOf(envelope);
    if StartsWith(t, "agent.") && AgentIdText(envelope, payload) == "" then v
    else
      InsightStep(ResolvedStep(RequiredStep(AgentStep(v, envelope, payload, t), envelope, payload, t), payload, t),
                  envelope, now)
  }

  /** A type that does not start with `a` is not an agent event. */
  lemma NotAgentEvent(t: string)
    requires |t| > 0 && t[0] != 'a'
    ensures !StartsWith(t, "agent.")
  {
    if |t| >= 6 { assert t[..6][0] == t[0]; }
  }

  /** `handleEnvelope(envelope)` at clock reading `now`: an envelope without a truthy type, or
      with an id already seen, changes nothing; a new truthy id is remembered and becomes the
      last event id before anything else. */
  function HandleEnvelope(v: View, envelope: Json, now: int): (h: Handled)
    ensures !Defined(Prop(envelope, "type")) ==> h == Handled(v, false)
    ensures Defined(Prop(envelope, "id")) && Prop(envelope, "id").value in v.seen ==> h == Handled(v, false)
    ensures h.threw <==> Defined(Prop(envelope, "type")) && !Prop(envelope, "type").value.JStr?
                         && !(Defined(Prop(envelope, "id")) && Prop(envelope, "id").value in v.seen)
    ensures Defined(Prop(envelope, "type")) && Defined(Prop(envelope, "id")) ==>
      && Prop(envelope, "id").value in h.view.seen
      && h.view.lastEventId == (if Prop(envelope, "id").value in v.seen then v.lastEventId else Prop(envelope, "id"))
  {
    var id := Prop(envelope, "id");
    if !Defined(Prop(envelope, "type")) then Handled(v, false)
    else if Defined(id) && id.value in v.seen then Handled(v, false)
    else
      var v1 := if Defined(id) then v.(seen := Remember(v.seen, id.value), lastEventId := id) else v;
      match Prop(envelope, "type").value
      case JStr(t) => Handled(Dispatch(v1, envelope, t, now), false)
      case _ => Handled(v1, true)
  }

  /** What the reducer keeps true of the dashboard: at most 2000 seen ids, none twice; no agent
      or decision id listed twice; at most 50 insights. */
  predicate Consistent(v: View) {
    && |v.seen| <= SeenLimit && Distinct(v.seen)
    && Distinct(Ids(v.agents))
    && Distinct(DecisionIds(v.decisions))
    && |v.insights| <= InsightsCap
  }

  lemma DispatchKeepsConsistent(v: View, envelope: Json, t: string, now: int)
    requires Consistent(v)
    ensures Consistent(Dispatch(v, envelope, t, now))
  {
    var payload := PayloadOf(envelope);
    UpsertKeepsIdsDistinct(v.agents, AgentCard(AgentIdText(envelope, payload),
                                               AgentStatus(Prop(payload, "status")), payload));
    var v2 := AgentStep(v, envelope, payload, t);
    assert Consistent(v2);
    AddRequiredKeepsIdsDistinct(v2.decisions, DecisionCard(RequiredIdText(envelope, payload), "pending", false, None, payload));
    var v3 := RequiredStep(v2, envelope, payload, t);
    assert Consistent(v3);
    assert Consistent(ResolvedStep(v3, payload, t));
  }

  /** Every envelope, whatever its shape, keeps the dashboard consistent. */
  lemma HandleKeepsConsistent(v: View, envelope: Json, now: int)
    requires Consistent(v)
    ensures Consistent(HandleEnvelope(v, envelope, now).view)
  {
    var id := Prop(envelope, "id");
    if Defined(Prop(envelope, "type")) && !(Defined(id) && id.value in v.seen) {
      var v1 := if Defined(id) then v.(seen := Remember(v.seen, id.value), lastEventId := id) else v;
      assert Consistent(v1);
      if Prop(envelope, "type").value.JStr? {
        DispatchKeepsConsistent(v1, envelope, Prop(envelope, "type").value.s, now);
      }
    }
  }

  /** A redelivered envelope (same truthy id, as after a reconnect replays the backlog) changes
      nothing the second time, at any clock reading. */
  lemma RedeliveryIgnored(v: View, envelope: Json, now: int, later: int)
    requires Defined(Prop(envelope, "type")) && Defined(Prop(envelope, "id"))
    ensures var once := HandleEnvelope(v, envelope, now).view;
      HandleEnvelope(once, envelope, later) == Handled(once, false)
  {
  }

  /** A fresh `decision.required` envelope lists its decision exactly once, adds a card only for
      an id not yet listed, and opens the inbox unless another panel is open. */
  lemma RequiredListedOnce(v: View, envelope: Json, now: int)
    requires Consistent(v)
    requires Prop(envelope, "type") == Some(JStr("decision.required"))
    requires !(Defined(Prop(envelope, "id")) && Prop(envelope, "id").value in v.seen)
    requires RequiredIdText(envelope, PayloadOf(envelope)) != ""
    ensures var id := RequiredIdText(envelope, PayloadOf(envelope));
      var after := HandleEnvelope(v, envelope, now).view;
      && id in DecisionIds(after.decisions)
      && |after.decisions| == |v.decisions| + (if id in DecisionIds(v.decisions) then 0 else 1)
      && Distinct(DecisionIds(after.decisions))
      && after.panel.Some? && after.panel.value != ""
  {
    var payload := PayloadOf(envelope);
    var id := RequiredIdText(envelope, payload);
    var card := DecisionCard(id, "pending", false, None, payload);
    NotAgentEvent("decision.required");
    HandleKeepsConsistent(v, envelope, now);
    if id in DecisionIds(v.decisions) {
      var j :| 0 <= j < |v.decisions| && DecisionIds(v.decisions)[j] == id;
      assert AddRequired(v.decisions, card) == v.decisions;
    } else {
      assert AddRequired(v.decisions, card) == [card] + v.decisions;
      assert DecisionIds([card] + v.decisions)[0] == id;
    }
  }

  /** A fresh `decision.resolved` envelope naming a decision by a non-empty string id leaves that
      decision resolved and no longer resolving, and every other decision as it was. */
  lemma ResolvedMarksDecision(v: View, envelope: Json, now: int, target: string)
    requires Prop(envelope, "type") == Some(JStr("decision.resolved"))
    requires !(Defined(Prop(envelope, "id")) && Prop(envelope, "id").value in v.seen)
    requires ResolvedIdOf(PayloadOf(envelope)) == Some(JStr(target)) && target != ""
    ensures var after := HandleEnvelope(v, envelope, now).view;
      && |after.decisions| == |v.decisions|
      && forall i :: 0 <= i < |v.decisions| ==>
           if v.decisions[i].id == target
           then after.decisions[i].status == "resolved" && !after.decisions[i].isResolving
                && after.decisions[i].resolveError.None?
           else after.decisions[i] == v.decisions[i]
  {
    NotAgentEvent("decision.resolved");
    var id := Prop(envelope, "id");
    var v1 := if Defined(id) then v.(seen := Remember(v.seen, id.value), lastEventId := id) else v;
    var payload := PayloadOf(envelope);
    var v3 := RequiredStep(AgentStep(v1, envelope, payload, "decision.resolved"), envelope, payload, "decision.resolved");
    assert v3.decisions == v.decisions;
    assert ResolvedStep(v3, payload, "decision.resolved").decisions == MarkResolved(v.decisions, JStr(target));
    assert HandleEnvelope(v, envelope, now).view == Dispatch(v1, envelope, "decision.resolved", now);
  }

  /** An `agent.*` envelope that names no agent stops the handler early: no agent card changes
      and, unlike every other type, no insight is added. */
  lemma AnonymousAgentEventIgnored(v: View, envelope: Json, now: int, t: string)
    requires Prop(envelope, "type") == Some(JStr(t)) && StartsWith(t, "agent.")
    requires AgentIdText(envelope, PayloadOf(envelope)) == ""
    ensures var after := HandleEnvelope(v, envelope, now).view;
      after.agents == v.agents && after.decisions == v.decisions && after.insights == v.insights
      && after.panel == v.panel
  {
  }

  /** A fresh `agent.*` envelope that names an agent leaves exactly one card for it, carrying
      the status label its payload gives. */
  lemma AgentEventUpserts(v: View, envelope: Json, now: int, t: string)
    requires Consistent(v)
    requires Prop(envelope, "type") == Some(JStr(t)) && StartsWith(t, "agent.")
    requires !(Defined(Prop(envelope, "id")) && Prop(envelope, "id").value in v.seen)
    requires AgentIdText(envelope, PayloadOf(envelope)) != ""
    ensures var payload := PayloadOf(envelope);
      var after := HandleEnvelope(v, envelope, now).view;
      && AgentCard(AgentIdText(envelope, payload), AgentStatus(Prop(payload, "status")), payload) in after.agents
      && Distinct(Ids(after.agents))
      && |after.agents| == |v.agents| + (if AgentIdText(envelope, payload) in Ids(v.agents) then 0 else 1)
  {
    var payload := PayloadOf(envelope);
    var card := AgentCard(AgentIdText(envelope, payload), AgentStatus(Prop(payload, "status")), payload);
    HandleKeepsConsistent(v, envelope, now);
    if card.id in Ids(v.agents) {
      var j :| 0 <= j < |v.agents| && Ids(v.agents)[j] == card.id;
      assert |UpsertAgent(v.agents, card)| == |v.agents|;
    }
  }
}

=== FILE: healer.dfy ===
/** `forwardBuildFailed` of `server/src/healerClient.js`: the retry client behind a circuit
    breaker. The two clock readings (the breaker check before the call, the failure mark after
    the retries) and what each HTTP attempt yields are inputs. */
module Healer {
  import opened Wrappers
  import opened Json
  import opened Breaker
  import opened Retry

  datatype HealerClient = HealerClient(url: string, token: string, timeoutMs: int, breaker: Breaker)

  /** `new HealerClient({healerUrl, healerToken, timeoutMs})`: the breaker trips after five
      failed forwards and stays open for two minutes. */
  function NewHealerClient(url: string, token: string, timeoutMs: int): (c: HealerClient)
    ensures c.breaker == NewBreaker(5, 120000)
    ensures Valid(c.breaker)
  {
    HealerClient(url, token, timeoutMs, NewBreaker(DefaultThreshold, DefaultOpenMs))
  }

  /** What `forwardBuildFailed` throws. */
  datatype HealerError = CircuitOpen | Forward(cause: HttpError)

  /** The thrown error's `code`: only the breaker's own error carries one. */
  function ErrorCode(e: HealerError): (code: Option<string>)
    ensures code == Some("circuit_open") <==> e.CircuitOpen?
    ensures e.Forward? ==> code.None?
  {
    if e.CircuitOpen? then Some("circuit_open") else None
  }

  /** The request handed to `postJsonWithRetry`. */
  datatype Request = Request(url: string, headers: Object, body: Json, timeoutMs: int)

  /** `{correlationId: event.correlationId, buildFailedEvent: event}`; an absent correlation id
      is `undefined` and `JSON.stringify` leaves it out. */
  function ForwardBody(event: Json): (body: Json)
    ensures Prop(body, "correlationId") == Prop(event, "correlationId")
    ensures Prop(body, "buildFailedEvent") == Some(event)
  {
    var last := Cons("buildFailedEvent", event, []);
    match Prop(event, "correlationId")
    case Some(id) => JObj(Cons("correlationId", id, last))
    case None => JObj(last)
  }

  function ForwardRequest(c: HealerClient, event: Json): (req: Request)
    ensures req.url == c.url && req.timeoutMs == c.timeoutMs && req.body == ForwardBody(event)
    ensures Lookup(req.headers, "Authorization") == Some(JStr("Bearer " + c.token))
    ensures Lookup(req.headers, "content-type") == Some(JStr("application/json"))
  {
    var extra := [Member("Authorization", JStr("Bearer " + c.token))];
    assert UniqueKeys(extra);
    Request(c.url, RequestHeaders(extra), ForwardBody(event), c.timeoutMs)
  }

  /** The outcome of one forward: the client afterwards, the request sent (if any), and the
      result with the retry run behind it. */
  datatype Forwarded = Forwarded(
    client: HealerClient,
    request: Option<Request>,
    result: Result<Json, HealerError>,
    run: Option<Run>)

  /** `forwardBuildFailed(event)`, checked at `checkedAt` and settled at `settledAt`. */
  function ForwardBuildFailed(c: HealerClient, checkedAt: int, settledAt: int, event: Json,
                              outcomes: seq<Attempt>): (f: Forwarded)
    requires |outcomes| == |Delays|
    ensures !CanRequest(c.breaker, checkedAt) <==> f.request.None?
    ensures !CanRequest(c.breaker, checkedAt) ==> f.client == c && f.result == Failure(CircuitOpen)
    ensures f.request.Some? ==>
      && f.request == Some(ForwardRequest(c, event))
      && f.run == Some(PostJsonWithRetry(outcomes))
      && f.client.url == c.url && f.client.token == c.token
    ensures f.request.Some? && f.run.value.result.Success? ==>
      f.result == Success(f.run.value.result.value) && f.client.breaker == MarkSuccess(c.breaker)
    ensures f.request.Some? && f.run.value.result.Failure? ==>
      f.result == Failure(Forward(f.run.value.result.error))
      && f.client.breaker == MarkFailure(c.breaker, settledAt)
  {
    if !CanRequest(c.breaker, checkedAt) then Forwarded(c, None, Failure(CircuitOpen), None)
    else
      var run := PostJsonWithRetry(outcomes);
      var req := Some(ForwardRequest(c, event));
      match run.result
      case Success(v) => Forwarded(c.(breaker := MarkSuccess(c.breaker)), req, Success(v), Some(run))
      case Failure(e) =>
        Forwarded(c.(breaker := MarkFailure(c.breaker, settledAt)), req, Failure(Forward(e)), Some(run))
  }

  /** One failed forward is one failure mark, however many attempts the retry loop made. */
  lemma OneMarkPerForward(c: HealerClient, checkedAt: int, settledAt: int, event: Json,
                          outcomes: seq<Attempt>)
    requires |outcomes| == |Delays| && CanRequest(c.breaker, checkedAt)
    requires forall j :: 0 <= j < |Delays| ==> Fails(outcomes[j])
    ensures var f := ForwardBuildFailed(c, checkedAt, settledAt, event, outcomes);
      && f.run.value.attempts == 3
      && f.client.breaker == MarkFailure(c.breaker, settledAt)
      && AttemptResult(outcomes[2]).Failure?
      && f.result == Failure(Forward(AttemptResult(outcomes[2]).error))
  {
    AllFailLastError(outcomes);
  }

  /** A forward of the same event `n` times, each with its own clock readings and outcomes. */
  function ForwardMany(c: HealerClient, checks: seq<int>, settles: seq<int>, event: Json,
                       outcomes: seq<seq<Attempt>>): (r: (HealerClient, seq<Result<Json, HealerError>>))
    requires |checks| == |settles| == |outcomes|
    requires forall i :: 0 <= i < |outcomes| ==> |outcomes[i]| == |Delays|
    ensures |r.1| == |checks|
    decreases |checks|
  {
    if |checks| == 0 then (c, [])
    else
      var f := ForwardBuildFailed(c, checks[0], settles[0], event, outcomes[0]);
      var rest := ForwardMany(f.client, checks[1..], settles[1..], event, outcomes[1..]);
      (rest.0, [f.result] + rest.1)
  }

  /** A fresh client whose first five forwards reach the healer and fail fails fast with
      `circuit_open` on every forward checked within two minutes of the fifth failure. */
  lemma {:induction false} FiveFailuresOpenCircuit(url: string, token: string, timeoutMs: int,
      checks: seq<int>, settles: seq<int>, event: Json, outcomes: seq<seq<Attempt>>, now: int)
    requires |checks| == |settles| == |outcomes| == 5
    requires forall i :: 0 <= i < 5 ==> |outcomes[i]| == |Delays|
    requires forall i :: 0 <= i < 5 ==> 0 <= checks[i]
    requires forall i, j :: 0 <= i < 5 && 0 <= j < |Delays| ==> Fails(outcomes[i][j])
    requires settles[4] <= now < settles[4] + 120000
    ensures var c := ForwardMany(NewHealerClient(url, token, timeoutMs), checks, settles, event, outcomes).0;
      && !CanRequest(c.breaker, now)
      && ForwardBuildFailed(c, now, now, event, outcomes[0]).result == Failure(CircuitOpen)
      && ErrorCode(ForwardBuildFailed(c, now, now, event, outcomes[0]).result.error) == Some("circuit_open")
  {
    var c0 := NewHealerClient(url, token, timeoutMs);
    var r := ForwardMany(c0, checks, settles, event, outcomes);
    FailingForwards(c0, checks, settles, event, outcomes);
    ThresholdFailuresOpen(c0.breaker, settles);
  }

  /** While the breaker stays closed, failing forwards are exactly failure marks at the settle
      instants. */
  lemma {:induction false} FailingForwards(c: HealerClient, checks: seq<int>, settles: seq<int>,
      event: Json, outcomes: seq<seq<Attempt>>)
    requires |checks| == |settles| == |outcomes|
    requires forall i :: 0 <= i < |outcomes| ==> |outcomes[i]| == |Delays|
    requires forall i, j :: 0 <= i < |outcomes| && 0 <= j < |Delays| ==> Fails(outcomes[i][j])
    requires forall i :: 0 <= i < |checks| ==> 0 <= checks[i]
    requires c.breaker.openUntil == 0
    requires c.breaker.failures + |checks| <= c.breaker.threshold
    ensures ForwardMany(c, checks, settles, event, outcomes).0.breaker == MarkFailures(c.breaker, settles)
    decreases |checks|
  {
    if |checks| > 0 {
      var f := ForwardBuildFailed(c, checks[0], settles[0], event, outcomes[0]);
      OneMarkPerForward(c, checks[0], settles[0], event, outcomes[0]);
      if |checks| > 1 {
        assert f.client.breaker.openUntil == 0;
        FailingForwards(f.client, checks[1..], settles[1..], event, outcomes[1..]);
      } else {
        assert MarkFailures(c.breaker, settles) == MarkFailure(c.breaker, settles[0]);
      }
    }
  }
}

=== FILE: hub.dfy ===
/** The server-sent-events hub of `server/src/eventHub.js` on top of the store. Connections
    are numbered in the order they attach and stay in the list after they leave, so that what
    a departed connection no longer receives can be stated; `attached` is membership of the
    hub's client set. What a connection has been sent is the list of its writes. */
module EventHub {
  import opened Wrappers
  import opened Text
  import opened Json
  import opened Db
  import opened JsNumber

  /** The backlog replayed on attach is capped at this many rows. */
  const ReplayLimit: nat := 500

  const ConnectedComment: string := ": connected\n\n"

  datatype Client = Client(output: seq<string>, lastSentSeq: nat, attached: bool, ended: bool)

  datatype Hub = Hub(store: Store, clients: seq<Client>)

  predicate Valid(h: Hub) {
    Db.Valid(h.store)
  }

  /** `toSseFrame(seq, event)`: an `id`, an `event` and a `data` line, then a blank line. */
  function ToSseFrame(seqNo: nat, event: Json): (frame: string)
    ensures StartsWith(frame, "id: " + NatToString(seqNo) + "\n")
  {
    var head := "id: " + NatToString(seqNo) + "\n";
    var frame := head + "event: " + JsStringOpt(Prop(event, "type")) + "\ndata: " + Stringify(event) + "\n\n";
    assert frame[..|head|] == head;
    frame
  }

  /** The heartbeat frame: an `event` and a `data` line and no `id`. */
  function HeartbeatFrame(timestamp: string): (frame: string)
    ensures StartsWith(frame, "event: heartbeat\n")
  {
    var head := "event: heartbeat\n";
    var frame := head + "data: " + Stringify(JObj([Member("timestamp", JStr(timestamp))])) + "\n\n";
    assert frame[..|head|] == head;
    frame
  }

  /** The frames of replayed rows, in order. */
  function RowFrames(rows: seq<EventRow>): (frames: seq<string>)
    ensures |frames| == |rows|
    ensures forall i :: 0 <= i < |rows| ==> frames[i] == ToSseFrame(rows[i].seqNo, rows[i].envelope)
  {
    seq(|rows|, i requires 0 <= i < |rows| => ToSseFrame(rows[i].seqNo, rows[i].envelope))
  }

  /** Writes `frame` to every attached client; `sent`, when present, becomes their
      `lastSentSeq`. Detached clients are untouched. */
  function Broadcast(clients: seq<Client>, frame: string, sent: Option<nat>): (r: seq<Client>)
    ensures |r| == |clients|
    ensures forall i :: 0 <= i < |clients| && !clients[i].attached ==> r[i] == clients[i]
    ensures forall i :: 0 <= i < |clients| && clients[i].attached ==>
      r[i] == clients[i].(output := clients[i].output + [frame], lastSentSeq := sent.GetOr(clients[i].lastSentSeq))
  {
    seq(|clients|, i requires 0 <= i < |clients| =>
      if clients[i].attached
      then clients[i].(output := clients[i].output + [frame], lastSentSeq := sent.GetOr(clients[i].lastSentSeq))
      else clients[i])
  }

  /** `normalizeLastEventId(db, header)`: no header or an empty one is 0; a header that
      `Number` reads as a non-negative whole number is that number; anything else is looked up
      as an event id. */
  function NormalizeLastEventId(s: Store, header: Option<string>): (cursor: nat)
    requires Db.Valid(s)
    ensures header.None? || header == Some("") ==> cursor == 0
    ensures header.Some? && header.value != "" && WholeNumber(header.value).Some? ==>
      StringToNumber(header.value) == Fin(cursor as real)
    ensures header.Some? && WholeNumber(header.value).None? ==> cursor == GetSeqForEventId(s, header.value)
  {
    match header
    case None => 0
    case Some(h) =>
      if h == "" then 0
      else match WholeNumber(h)
        case Some(n) => n
        case None => GetSeqForEventId(s, h)
  }

  /** The `id` of a frame, sent back as `Last-Event-ID`, resumes right after that frame. */
  lemma CursorOfFrameId(s: Store, seqNo: nat)
    requires Db.Valid(s)
    ensures NormalizeLastEventId(s, Some(NatToString(seqNo))) == seqNo
  {
    NatToStringNumber(seqNo);
  }

  /** Other spellings of a number resume after that seq too, and blank text from the start:
      `Number` skips white space, reads exponents and `0x` literals, and reads blank text as 0. */
  lemma CursorSpellings(s: Store)
    requires Db.Valid(s)
    ensures NormalizeLastEventId(s, Some(" 5\n")) == 5
    ensures NormalizeLastEventId(s, Some("0x5")) == 5
  {
    PaddedFive();
    CursorOfNumber(s, " 5\n", 5);
    HexFive();
    CursorOfNumber(s, "0x5", 5);
  }

  /** An exponent scales the cursor. */
  lemma CursorExponent(s: Store)
    requires Db.Valid(s)
    ensures NormalizeLastEventId(s, Some("1e3")) == 1000
  {
    OneThousand();
    CursorOfNumber(s, "1e3", 1000);
  }

  /** A header of spaces replays from the start, like no header at all. */
  lemma CursorBlank(s: Store)
    requires Db.Valid(s)
    ensures NormalizeLastEventId(s, Some("   ")) == 0
  {
    BlankNumber("   ");
    CursorOfNumber(s, "   ", 0);
  }

  /** A header that `Number` reads as the whole number `n >= 0` resumes after seq `n`. */
  lemma CursorOfNumber(s: Store, header: string, n: nat)
    requires Db.Valid(s) && header != "" && StringToNumber(header) == Fin(n as real)
    ensures NormalizeLastEventId(s, Some(header)) == n
  {
  }

  /** A header that `Number` reads as a negative or fractional value is an event id. */
  lemma CursorOfOtherNumber(s: Store, header: string, x: real)
    requires Db.Valid(s) && StringToNumber(header) == Fin(x) && (x < 0.0 || x.Floor as real != x)
    ensures NormalizeLastEventId(s, Some(header)) == GetSeqForEventId(s, header)
  {
  }

  /** A cursor that is not a number names an event: resumption continues after that event, or
      from the start when no stored event has that id. A negative or fractional number is such
      a name too. */
  lemma CursorOfEventId(s: Store, eventId: string)
    requires Db.Valid(s) && WholeNumber(eventId).None?
    ensures var cursor := NormalizeLastEventId(s, Some(eventId));
      && (cursor == 0 <==> forall i :: 0 <= i < |s.log| ==> s.log[i].eventId != eventId)
      && (cursor > 0 ==> exists i :: 0 <= i < |s.log| && s.log[i].eventId == eventId && s.log[i].seqNo == cursor)
  {
  }

  /** `-5` and `1.5` are not cursors: they are looked up as event ids. */
  lemma NegativeAndFractionLookedUp(s: Store)
    requires Db.Valid(s)
    ensures NormalizeLastEventId(s, Some("-5")) == GetSeqForEventId(s, "-5")
    ensures NormalizeLastEventId(s, Some("1.5")) == GetSeqForEventId(s, "1.5")
  {
    SignedFive();
    CursorOfOtherNumber(s, "-5", -5.0);
    OneAndAHalf();
    CursorOfOtherNumber(s, "1.5", 1.5);
  }

  /** `publish(event)` at `now`: insert, then write the frame to every attached client and
      record its seq. Returns the seq. */
  function Publish(h: Hub, now: int, event: Json): (r: (Hub, nat))
    requires Valid(h) && Insertable(event)
    ensures (r.0.store, r.1) == InsertEvent(h.store, now, event)
    ensures Valid(r.0)
    ensures r.0.clients == Broadcast(h.clients, ToSseFrame(r.1, event), Some(r.1))
  {
    var (store, n) := InsertEvent(h.store, now, event);
    (Hub(store, Broadcast(h.clients, ToSseFrame(n, event), Some(n))), n)
  }

  /** `publish(event)` for any event: when the insert throws, the prune before it has run
      and no client is written to. */
  function TryPublish(h: Hub, now: int, event: Json): (r: (Hub, Option<nat>))
    requires Valid(h)
    ensures r.1.Some? <==> Insertable(event)
    ensures r.1.None? ==> r.0 == h.(store := PruneOldEvents(h.store, now))
    ensures r.1.Some? ==> (r.0, r.1.value) == Publish(h, now, event)
    ensures Valid(r.0)
  {
    if Insertable(event) then
      var (g, n) := Publish(h, now, event);
      (g, Some(n))
    else (h.(store := PruneOldEvents(h.store, now)), None)
  }

  /** Every attached client receives the published frame once, and its `lastSentSeq` moves
      past everything the log held before. */
  lemma PublishReachesAttached(h: Hub, now: int, event: Json, i: nat)
    requires Valid(h) && Insertable(event) && i < |h.clients| && h.clients[i].attached
    ensures var (h2, n) := Publish(h, now, event);
      && h2.clients[i].output == h.clients[i].output + [ToSseFrame(n, event)]
      && h2.clients[i].lastSentSeq == n
      && forall j :: 0 <= j < |h.store.log| ==> h.store.log[j].seqNo < n
  {
  }

  /** The `lastSentSeq` of a new connection: the last replayed seq, or the cursor. */
  function ReplayedUpTo(rows: seq<EventRow>, cursor: nat): (last: nat)
    requires Ascending(rows) && forall k :: 0 <= k < |rows| ==> rows[k].seqNo > cursor
    ensures last >= cursor
    ensures forall k :: 0 <= k < |rows| ==> rows[k].seqNo <= last
    ensures |rows| == 0 ==> last == cursor
  {
    if |rows| > 0 then rows[|rows| - 1].seqNo else cursor
  }

  /** The connection `attachClient` registers: the comment line and the backlog of up to 500
      rows above the cursor have been written to it. */
  function Connect(s: Store, header: Option<string>): (c: Client)
    requires Db.Valid(s)
    ensures var backlog := GetEventsAfter(s, NormalizeLastEventId(s, header), ReplayLimit);
      && c.output == [ConnectedComment] + RowFrames(backlog)
      && c.lastSentSeq == ReplayedUpTo(backlog, NormalizeLastEventId(s, header))
      && c.attached && !c.ended
  {
    var cursor := NormalizeLastEventId(s, header);
    var backlog := GetEventsAfter(s, cursor, ReplayLimit);
    Client([ConnectedComment] + RowFrames(backlog), ReplayedUpTo(backlog, cursor), true, false)
  }

  /** `attachClient(req, res)` with the request's `Last-Event-ID` header: the new connection
      joins the set after its backlog. Returns the new connection's number. */
  function Attach(h: Hub, header: Option<string>): (r: (Hub, nat))
    requires Valid(h)
    ensures r.0.store == h.store && r.1 == |h.clients|
    ensures r.0.clients == h.clients + [Connect(h.store, header)]
  {
    (Hub(h.store, h.clients + [Connect(h.store, header)]), |h.clients|)
  }

  /** The connection's `close` event: it leaves the set. */
  function Detach(h: Hub, id: nat): (r: Hub)
    ensures r.store == h.store && |r.clients| == |h.clients|
    ensures id < |h.clients| ==> !r.clients[id].attached && r.clients[id].output == h.clients[id].output
    ensures forall j :: 0 <= j < |h.clients| && j != id ==> r.clients[j] == h.clients[j]
  {
    if id < |h.clients| then h.(clients := h.clients[id := h.clients[id].(attached := false)]) else h
  }

  /** `heartbeat()` with the current time as an ISO string. */
  function Heartbeat(h: Hub, timestamp: string): (r: Hub)
    ensures r.store == h.store
    ensures r.clients == Broadcast(h.clients, HeartbeatFrame(timestamp), None)
  {
    h.(clients := Broadcast(h.clients, HeartbeatFrame(timestamp), None))
  }

  /** `close()`: end every attached response and empty the set. */
  function Close(h: Hub): (r: Hub)
    ensures r.store == h.store && |r.clients| == |h.clients|
    ensures forall i :: 0 <= i < |h.clients| ==>
      && !r.clients[i].attached
      && r.clients[i].output == h.clients[i].output
      && r.clients[i].ended == (h.clients[i].ended || h.clients[i].attached)
  {
    h.(clients := seq(|h.clients|, i requires 0 <= i < |h.clients| =>
      h.clients[i].(attached := false, ended := h.clients[i].ended || h.clients[i].attached)))
  }

  /** A client that has left receives nothing more: neither published frames nor heartbeats. */
  lemma DetachedReceivesNothing(h: Hub, id: nat, now: int, event: Json, timestamp: string)
    requires Valid(h) && Insertable(event) && id < |h.clients|
    ensures var d := Detach(h, id);
      && Publish(d, now, event).0.clients[id] == d.clients[id]
      && Heartbeat(d, timestamp).clients[id] == d.clients[id]
  {
  }

  /** After `close()` no client receives anything, whatever is published. */
  lemma ClosedHubIsSilent(h: Hub, now: int, event: Json, timestamp: string)
    requires Valid(h) && Insertable(event)
    ensures Publish(Close(h), now, event).0.clients == Close(h).clients
    ensures Heartbeat(Close(h), timestamp).clients == Close(h).clients
  {
    var c := Close(h);
    var p := Publish(c, now, event).0;
    assert forall i :: 0 <= i < |c.clients| ==> p.clients[i] == c.clients[i];
    var b := Heartbeat(c, timestamp);
    assert forall i :: 0 <= i < |c.clients| ==> b.clients[i] == c.clients[i];
  }

  /** A heartbeat writes to every client but leaves the log alone, and its frame carries no
      `id` line: it starts with its `event` line. */
  lemma HeartbeatKeepsLog(h: Hub, timestamp: string)
    ensures Heartbeat(h, timestamp).store == h.store
    ensures !StartsWith(HeartbeatFrame(timestamp), "id:")
  {
    var f := HeartbeatFrame(timestamp);
    assert f[0] == 'e';
  }

  /** Replay stops after 500 rows. When more rows follow the cursor, the next publish moves the
      connection's `lastSentSeq` past a stored row it was never sent: a gap that connection
      cannot see. */
  lemma ReplayLeavesGap(h: Hub, header: Option<string>, now: int, event: Json)
    requires Valid(h) && Insertable(event)
    requires |GetEventsAfter(h.store, NormalizeLastEventId(h.store, header), ReplayLimit + 1)| == ReplayLimit + 1
    ensures var (h2, id) := Attach(h, header);
      var cursor := NormalizeLastEventId(h.store, header);
      var skipped := GetEventsAfter(h.store, cursor, ReplayLimit + 1)[ReplayLimit];
      var (h3, n) := Publish(h2, now, event);
      && skipped in h.store.log
      && skipped !in GetEventsAfter(h.store, cursor, ReplayLimit)
      && h2.clients[id].lastSentSeq < skipped.seqNo < n
      && h3.clients[id].lastSentSeq == n
      && h3.clients[id].output == h2.clients[id].output + [ToSseFrame(n, event)]
  {
    var cursor := NormalizeLastEventId(h.store, header);
    var more := GetEventsAfter(h.store, cursor, ReplayLimit + 1);
    var backlog := GetEventsAfter(h.store, cursor, ReplayLimit);
    var skipped := more[ReplayLimit];
    PagePrefix(h.store, cursor, ReplayLimit);
    assert skipped !in backlog by {
      forall k | 0 <= k < |backlog|
        ensures backlog[k].seqNo < skipped.seqNo
      {
        assert backlog[k] == more[k];
      }
    }
    assert skipped in h.store.log && skipped.seqNo > cursor;
    assert |backlog| == ReplayLimit;
    var c := Connect(h.store, header);
    assert c.lastSentSeq == backlog[ReplayLimit - 1].seqNo;
    var (h2, id) := Attach(h, header);
    assert h2.clients[id] == c;
    PublishReachesAttached(h2, now, event, id);
  }

  /** A page of `limit` rows is the first `limit` rows of a longer page. */
  lemma PagePrefix(s: Store, cursor: int, limit: nat)
    requires Db.Valid(s)
    ensures GetEventsAfter(s, cursor, limit) == GetEventsAfter(s, cursor, limit + 1)[..|GetEventsAfter(s, cursor, limit)|]
  {
  }
}

=== FILE: jsnumber.dfy ===
/** The `Number(text)` coercion of ECMAScript (StringToNumber, section 7.1.4.1.1 of
    ECMA-262): surrounding white space is ignored, blank text is 0, a `0x`/`0o`/`0b` literal is
    read in its base, and otherwise an optionally signed decimal with an optional fraction and
    exponent, or `Infinity`; everything else is `NaN`. Values are exact reals: rounding to the
    nearest double is not modelled. */
module JsNumber {
  import opened Wrappers
  import opened Text

  /** A JavaScript number: `NaN`, a signed infinity, or a finite value. */
  datatype Num = NaN | Inf(negative: bool) | Fin(value: real)

  /** `Number.isInteger(n)`. */
  predicate IsInteger(n: Num) {
    n.Fin? && n.value.Floor as real == n.value
  }

  /** `Number.isFinite(n)`. */
  predicate IsFinite(n: Num) {
    n.Fin?
  }

  /** `Number(s)` when it is a whole number `n >= 0`, as `Number.isInteger(n) && n >= 0`
      tests it. */
  function WholeNumber(s: string): (r: Option<nat>)
    ensures r.Some? <==> IsInteger(StringToNumber(s)) && StringToNumber(s).value >= 0.0
    ensures r.Some? ==> StringToNumber(s) == Fin(r.value as real)
  {
    var n := StringToNumber(s);
    if IsInteger(n) && n.value >= 0.0 then Some(n.value.Floor) else None
  }

  /** `a + b`: infinities of opposite signs cancel to `NaN`. */
  function Add(a: Num, b: Num): (r: Num)
    ensures a.Fin? && b.Fin? ==> r == Fin(a.value + b.value)
    ensures a.NaN? || b.NaN? ==> r.NaN?
    ensures r.NaN? ==> a.NaN? || b.NaN? || (a.Inf? && b.Inf? && a.negative != b.negative)
  {
    match (a, b)
    case (Fin(x), Fin(y)) => Fin(x + y)
    case (Inf(p), Inf(q)) => if p == q then a else NaN
    case (Inf(_), Fin(_)) => a
    case (Fin(_), Inf(_)) => b
    case _ => NaN
  }

  /** `a * k` for a positive constant `k`. */
  function Scale(a: Num, k: real): (r: Num)
    requires k > 0.0
    ensures a.Fin? ==> r == Fin(a.value * k)
    ensures !a.Fin? ==> r == a
  {
    if a.Fin? then Fin(a.value * k) else a
  }

  /** `x` times `10` to the power `k`, for any whole `k`. */
  function ScaleByTen(x: real, k: int): real
    decreases if k < 0 then -k else k
  {
    if k == 0 then x
    else if k > 0 then 10.0 * ScaleByTen(x, k - 1)
    else ScaleByTen(x, k + 1) / 10.0
  }

  /** The value of a digit in base 16 (either case), or `None`. */
  function HexDigit(c: char): (d: Option<nat>)
    ensures d.Some? ==> d.value < 16
  {
    if '0' <= c <= '9' then Some(c as int - '0' as int)
    else if 'a' <= c <= 'f' then Some(c as int - 'a' as int + 10)
    else if 'A' <= c <= 'F' then Some(c as int - 'A' as int + 10)
    else None
  }

  /** `c` is a digit of base `base` (2, 8 or 16). */
  predicate InBase(c: char, base: nat) {
    HexDigit(c).Some? && HexDigit(c).value < base
  }

  /** The value of a string of base-`base` digits, most significant first. */
  function BaseValue(s: string, base: nat): nat
    requires forall i :: 0 <= i < |s| ==> InBase(s[i], base)
    decreases |s|
  {
    if |s| == 0 then 0
    else
      assert InBase(s[|s| - 1], base);
      var high := BaseValue(s[..|s| - 1], base);
      NatProduct(high, base);
      high * base + HexDigit(s[|s| - 1]).value
  }

  lemma NatProduct(a: nat, b: nat)
    ensures a * b >= 0
  {
  }

  /** A `0x`, `0o` or `0b` literal, given the letter and the digits after it. */
  function NonDecimal(letter: char, digits: string): Num {
    if letter == 'x' || letter == 'X' then InBaseLiteral(digits, 16)
    else if letter == 'o' || letter == 'O' then InBaseLiteral(digits, 8)
    else InBaseLiteral(digits, 2)
  }

  /** At least one digit of base `base`, read in that base; anything else is `NaN`. */
  function InBaseLiteral(digits: string, base: nat): Num {
    if |digits| > 0 && forall i :: 0 <= i < |digits| ==> InBase(digits[i], base)
    then Fin(BaseValue(digits, base) as real)
    else NaN
  }

  /** The exponent after `e`/`E`: an optional sign and at least one digit. */
  function ExponentOf(t: string): (k: Option<int>) {
    var (negative, digits) :=
      if |t| > 0 && IsSign(t[0]) then (t[0] == '-', t[1..]) else (false, t);
    if |digits| > 0 && AllDigits(digits)
    then Some(if negative then -(DigitsValue(digits) as int) else DigitsValue(digits))
    else None
  }

  /** The first index of `e` or `E` in `s`, or -1. */
  function ExponentMark(s: string): (r: int)
    ensures -1 <= r < |s|
    ensures r >= 0 ==> IsExponentMark(s[r]) && forall j :: 0 <= j < r ==> !IsExponentMark(s[j])
    ensures r < 0 ==> forall j :: 0 <= j < |s| ==> !IsExponentMark(s[j])
    decreases |s|
  {
    if |s| == 0 then -1
    else if IsExponentMark(s[|s| - 1]) && ExponentMark(s[..|s| - 1]) < 0 then |s| - 1
    else ExponentMark(s[..|s| - 1])
  }

  predicate IsExponentMark(c: char) {
    c == 'e' || c == 'E'
  }

  predicate IsSign(c: char) {
    c == '+' || c == '-'
  }

  /** The second letter of a `0x`, `0o` or `0b` literal. */
  predicate IsBaseLetter(c: char) {
    c == 'x' || c == 'X' || c == 'o' || c == 'O' || c == 'b' || c == 'B'
  }

  /** An unsigned decimal literal: a mantissa, then optionally `e` or `E` and an exponent. */
  function UnsignedDecimal(u: string): (r: Option<real>) {
    var e := ExponentMark(u);
    if e < 0 then Mantissa(u, 0)
    else match ExponentOf(u[e + 1..])
      case Some(k) => Mantissa(u[..e], k)
      case None => None
  }

  /** Digits with at most one `.` and at least one digit, times ten to the power `k`. */
  function Mantissa(m: string, k: int): (r: Option<real>) {
    var dot := IndexOf(m, '.');
    var whole := if dot < 0 then m else m[..dot];
    var fraction := if dot < 0 then "" else m[dot + 1..];
    if AllDigits(whole) && AllDigits(fraction) && |whole| + |fraction| > 0
    then Some(ScaleByTen(DigitsValue(whole + fraction) as real, k - |fraction|))
    else None
  }

  /** A trimmed, non-blank literal: non-decimal, signed `Infinity`, or signed decimal. */
  function NumericLiteral(t: string): (n: Num)
    requires |t| > 0
    ensures n.Inf? ==> t == "Infinity" || t == "+Infinity" || t == "-Infinity"
    ensures n.Inf? ==> (n.negative <==> t[0] == '-')
  {
    if |t| >= 2 && t[0] == '0' && IsBaseLetter(t[1]) then NonDecimal(t[1], t[2..])
    else
      var (negative, u) := if IsSign(t[0]) then (t[0] == '-', t[1..]) else (false, t);
      if u == "Infinity" then Inf(negative)
      else match UnsignedDecimal(u)
        case Some(x) => Fin(if negative then -x else x)
        case None => NaN
  }

  /** `Number(s)` of a string. */
  function StringToNumber(s: string): (n: Num)
    ensures IsBlank(s) ==> n == Fin(0.0)
  {
    var t := TrimEnd(TrimStart(s));
    if t == "" then
      Fin(0.0)
    else
      assert !IsBlank(s) by {
        var k := |s| - |TrimStart(s)|;
        assert !IsJsWhitespace(s[k]);
      }
      NumericLiteral(t)
  }

  /** Text with nothing to trim is its own trimmed form. */
  lemma TrimNothing(s: string)
    requires |s| > 0 && !IsJsWhitespace(s[0]) && !IsJsWhitespace(s[|s| - 1])
    ensures TrimEnd(TrimStart(s)) == s
  {
  }

  // The lemmas below that speak about `StringToNumber` take every fact about the text itself
  // from a separate lemma about the characters alone.

  /** Only the trimmed text decides a non-blank string's number. */
  lemma TrimmedNumber(s: string, t: string)
    requires TrimEnd(TrimStart(s)) == t && |t| > 0
    ensures StringToNumber(s) == NumericLiteral(t)
  {
  }

  /** Text that starts and ends with something other than white space is read as it stands. */
  lemma LiteralNumber(s: string)
    requires |s| > 0 && !IsJsWhitespace(s[0]) && !IsJsWhitespace(s[|s| - 1])
    ensures StringToNumber(s) == NumericLiteral(s)
  {
    TrimNothing(s);
    TrimmedNumber(s, s);
  }

  /** Text of white space only is 0. */
  lemma BlankNumber(s: string)
    requires IsBlank(s)
    ensures StringToNumber(s) == Fin(0.0)
  {
  }

  /** Trimming the start drops a blank prefix and stops at the first other character. */
  lemma {:induction false} TrimStartBlank(before: string, rest: string)
    requires IsBlank(before) && |rest| > 0 && !IsJsWhitespace(rest[0])
    ensures TrimStart(before + rest) == rest
  {
    if before != [] {
      assert (before + rest)[1..] == before[1..] + rest;
      TrimStartBlank(before[1..], rest);
    }
  }

  /** Trimming the end drops a blank suffix and stops at the last other character. */
  lemma {:induction false} TrimEndBlank(rest: string, after: string)
    requires IsBlank(after) && |rest| > 0 && !IsJsWhitespace(rest[|rest| - 1])
    ensures TrimEnd(rest + after) == rest
  {
    if after != [] {
      var shorter := after[..|after| - 1];
      assert (rest + after)[..|rest + after| - 1] == rest + shorter;
      TrimEndBlank(rest, shorter);
    } else {
      assert rest + after == rest;
    }
  }

  /** Trimming drops white space before and after the text and nothing else. */
  lemma PaddedTrim(before: string, t: string, after: string)
    requires IsBlank(before) && IsBlank(after)
    requires |t| > 0 && !IsJsWhitespace(t[0]) && !IsJsWhitespace(t[|t| - 1])
    ensures TrimEnd(TrimStart(before + t + after)) == t
  {
    assert before + t + after == before + (t + after);
    TrimStartBlank(before, t + after);
    TrimEndBlank(t, after);
  }

  /** White space before and after a literal is ignored. */
  lemma PaddedNumber(before: string, t: string, after: string)
    requires IsBlank(before) && IsBlank(after)
    requires |t| > 0 && !IsJsWhitespace(t[0]) && !IsJsWhitespace(t[|t| - 1])
    ensures StringToNumber(before + t + after) == StringToNumber(t)
  {
    PaddedTrim(before, t, after);
    TrimmedNumber(before + t + after, t);
    LiteralNumber(t);
  }

  // ---------------------------------------------------------------- plain decimals

  /** Digits, dots and `e` only. */
  predicate PlainDecimal(s: string) {
    |s| > 0 && forall j :: 0 <= j < |s| ==> IsDigit(s[j]) || s[j] == '.' || s[j] == 'e'
  }

  /** Plain text has no sign, no base prefix, nothing to trim and is not `Infinity`. */
  lemma PlainShape(s: string)
    requires PlainDecimal(s)
    ensures !IsSign(s[0]) && !IsJsWhitespace(s[0]) && !IsJsWhitespace(s[|s| - 1])
    ensures |s| >= 2 ==> !IsBaseLetter(s[1])
    ensures s[0] != 'I' && s != "Infinity"
  {
  }

  /** A literal with no sign, no base prefix and not `Infinity` is an unsigned decimal. */
  lemma DecimalLiteral(t: string, x: real)
    requires |t| > 0 && !IsSign(t[0]) && (|t| >= 2 ==> !IsBaseLetter(t[1])) && t != "Infinity"
    requires UnsignedDecimal(t) == Some(x)
    ensures NumericLiteral(t) == Fin(x)
  {
  }

  /** Plain text reads as the unsigned decimal it spells. */
  lemma PlainNumber(s: string, x: real)
    requires PlainDecimal(s) && UnsignedDecimal(s) == Some(x)
    ensures StringToNumber(s) == Fin(x)
  {
    PlainShape(s);
    DecimalLiteral(s, x);
    LiteralNumber(s);
  }

  /** Text with no exponent mark is a mantissa alone. */
  lemma PlainSplit(u: string)
    requires ExponentMark(u) < 0
    ensures UnsignedDecimal(u) == Mantissa(u, 0)
  {
  }

  /** Text with an exponent mark reads as its mantissa scaled by its exponent. */
  lemma ExponentSplit(u: string, m: string, x: string, k: int)
    requires ExponentMark(u) == |m| && u[..|m|] == m && u[|m| + 1..] == x && ExponentOf(x) == Some(k)
    ensures UnsignedDecimal(u) == Mantissa(m, k)
  {
  }

  /** Digits alone, with no `.`, are a whole mantissa. */
  lemma DigitsMantissa(m: string, k: int)
    requires |m| > 0 && AllDigits(m)
    ensures Mantissa(m, k) == Some(ScaleByTen(DigitsValue(m) as real, k))
  {
    NoDot(m);
    assert m + "" == m;
  }

  lemma NoDot(digits: string)
    requires AllDigits(digits)
    ensures IndexOf(digits, '.') < 0
  {
    assert forall j :: 0 <= j < |digits| ==> digits[j] != '.';
  }

  lemma DigitsShape(s: string)
    requires |s| > 0 && AllDigits(s)
    ensures PlainDecimal(s) && ExponentMark(s) < 0
  {
    assert forall j :: 0 <= j < |s| ==> !IsExponentMark(s[j]);
  }

  /** A string of decimal digits is an unsigned decimal literal with that value. */
  lemma DigitsDecimal(s: string)
    requires |s| > 0 && AllDigits(s)
    ensures UnsignedDecimal(s) == Some(DigitsValue(s) as real)
  {
    DigitsShape(s);
    PlainSplit(s);
    DigitsMantissa(s, 0);
  }

  /** A string of decimal digits is the number it spells. */
  lemma DigitsNumber(s: string)
    requires |s| > 0 && AllDigits(s)
    ensures StringToNumber(s) == Fin(DigitsValue(s) as real)
  {
    DigitsDecimal(s);
    DigitsShape(s);
    PlainNumber(s, DigitsValue(s) as real);
  }

  /** The decimal text of a whole number reads back as that number. */
  lemma NatToStringNumber(n: nat)
    ensures StringToNumber(NatToString(n)) == Fin(n as real)
  {
    DigitsNumber(NatToString(n));
    DigitsValueOfNatToString(n);
  }

  // ---------------------------------------------------------------- signs

  lemma SignShape(sign: char, t: string)
    requires IsSign(sign) && |t| > 0
    ensures ([sign] + t)[0] == sign && ([sign] + t)[1..] == t
    ensures ([sign] + t)[|t|] == t[|t| - 1]
  {
    assert ([sign] + t)[1..] == t;
  }

  /** The same literal behind a `+` or a `-`. */
  lemma SignedLiteral(sign: char, t: string, x: real)
    requires IsSign(sign) && |t| > 0 && t != "Infinity" && UnsignedDecimal(t) == Some(x)
    ensures NumericLiteral([sign] + t) == Fin(if sign == '-' then -x else x)
  {
    SignShape(sign, t);
  }

  lemma SignedDigitsLiteral(sign: char, t: string)
    requires IsSign(sign) && |t| > 0 && AllDigits(t)
    ensures NumericLiteral([sign] + t) == Fin(if sign == '-' then -(DigitsValue(t) as real) else DigitsValue(t) as real)
  {
    DigitsDecimal(t);
    DigitsShape(t);
    PlainShape(t);
    SignedLiteral(sign, t, DigitsValue(t) as real);
  }

  lemma SignedDigits(sign: char, t: string)
    requires IsSign(sign) && |t| > 0 && AllDigits(t)
    ensures StringToNumber([sign] + t) == Fin(if sign == '-' then -(DigitsValue(t) as real) else DigitsValue(t) as real)
  {
    SignShape(sign, t);
    LiteralNumber([sign] + t);
    SignedDigitsLiteral(sign, t);
  }

  /** A leading `+` is allowed and a leading `-` negates a decimal literal. */
  lemma SignedNumber(t: string)
    requires |t| > 0 && AllDigits(t)
    ensures StringToNumber("+" + t) == Fin(DigitsValue(t) as real)
    ensures StringToNumber("-" + t) == Fin(-(DigitsValue(t) as real))
  {
    SignedDigits('+', t);
    SignedDigits('-', t);
  }

  // ---------------------------------------------------------------- fractions

  /** `whole.fraction` is plain, has no exponent mark, and its first `.` follows `whole`. */
  lemma FractionShape(whole: string, fraction: string)
    requires AllDigits(whole) && AllDigits(fraction) && |whole| + |fraction| > 0
    ensures PlainDecimal(whole + "." + fraction)
    ensures ExponentMark(whole + "." + fraction) < 0
    ensures IndexOf(whole + "." + fraction, '.') == |whole|
    ensures (whole + "." + fraction)[..|whole|] == whole
    ensures (whole + "." + fraction)[|whole| + 1..] == fraction
  {
    var s := whole + "." + fraction;
    assert s[..|whole|] == whole && s[|whole| + 1..] == fraction;
    FractionChars(whole, fraction);
    DotPosition(whole, fraction);
  }

  lemma FractionChars(whole: string, fraction: string)
    requires AllDigits(whole) && AllDigits(fraction)
    ensures PlainDecimal(whole + "." + fraction) && ExponentMark(whole + "." + fraction) < 0
  {
    var s := whole + "." + fraction;
    assert forall j :: 0 <= j < |s| ==> IsDigit(s[j]) || s[j] == '.';
  }

  lemma DotPosition(whole: string, fraction: string)
    requires AllDigits(whole)
    ensures IndexOf(whole + "." + fraction, '.') == |whole|
  {
    var s := whole + "." + fraction;
    assert s[|whole|] == '.';
    assert forall j :: 0 <= j < |whole| ==> s[j] != '.';
  }

  /** A mantissa with a `.` reads its digits on both sides as one number. */
  lemma FractionMantissa(m: string, whole: string, fraction: string, k: int)
    requires AllDigits(whole) && AllDigits(fraction) && |whole| + |fraction| > 0
    requires IndexOf(m, '.') == |whole| && m[..|whole|] == whole && m[|whole| + 1..] == fraction
    ensures Mantissa(m, k) == Some(ScaleByTen(DigitsValue(whole + fraction) as real, k - |fraction|))
  {
  }

  /** The digits of a fraction read as one whole number, scaled down by one power of ten per
      fraction digit. */
  lemma FractionDecimal(whole: string, fraction: string)
    requires AllDigits(whole) && AllDigits(fraction) && |whole| + |fraction| > 0
    ensures UnsignedDecimal(whole + "." + fraction) ==
      Some(ScaleByTen(DigitsValue(whole + fraction) as real, -|fraction|))
  {
    FractionShape(whole, fraction);
    PlainSplit(whole + "." + fraction);
    FractionMantissa(whole + "." + fraction, whole, fraction, 0);
  }

  /** A fraction counts in tenths, hundredths and so on. */
  lemma FractionNumber(whole: string, fraction: string)
    requires AllDigits(whole) && AllDigits(fraction) && |whole| + |fraction| > 0
    ensures StringToNumber(whole + "." + fraction) ==
      Fin(ScaleByTen(DigitsValue(whole + fraction) as real, -|fraction|))
  {
    FractionDecimal(whole, fraction);
    FractionShape(whole, fraction);
    PlainNumber(whole + "." + fraction, ScaleByTen(DigitsValue(whole + fraction) as real, -|fraction|));
  }

  // ---------------------------------------------------------------- exponents

  lemma ExponentShape(mantissa: string, exponent: string)
    requires |mantissa| > 0 && AllDigits(mantissa) && |exponent| > 0 && AllDigits(exponent)
    ensures PlainDecimal(mantissa + "e" + exponent)
    ensures ExponentMark(mantissa + "e" + exponent) == |mantissa|
    ensures (mantissa + "e" + exponent)[..|mantissa|] == mantissa
    ensures (mantissa + "e" + exponent)[|mantissa| + 1..] == exponent
  {
    var s := mantissa + "e" + exponent;
    assert s[..|mantissa|] == mantissa && s[|mantissa| + 1..] == exponent;
    assert IsExponentMark(s[|mantissa|]);
    assert forall j :: 0 <= j < |mantissa| ==> !IsExponentMark(s[j]);
    assert forall j :: 0 <= j < |s| ==> IsDigit(s[j]) || s[j] == 'e';
  }

  lemma DigitsExponent(digits: string)
    requires |digits| > 0 && AllDigits(digits)
    ensures ExponentOf(digits) == Some(DigitsValue(digits))
  {
    assert !IsSign(digits[0]);
  }

  /** Digits, `e`, digits: the mantissa scaled by that power of ten. */
  lemma ExponentDecimal(mantissa: string, exponent: string)
    requires |mantissa| > 0 && AllDigits(mantissa) && |exponent| > 0 && AllDigits(exponent)
    ensures UnsignedDecimal(mantissa + "e" + exponent) ==
      Some(ScaleByTen(DigitsValue(mantissa) as real, DigitsValue(exponent)))
  {
    ExponentShape(mantissa, exponent);
    DigitsExponent(exponent);
    ExponentSplit(mantissa + "e" + exponent, mantissa, exponent, DigitsValue(exponent));
    DigitsMantissa(mantissa, DigitsValue(exponent));
  }

  /** An exponent scales by that power of ten. */
  lemma ExponentNumber(mantissa: string, exponent: string)
    requires |mantissa| > 0 && AllDigits(mantissa) && |exponent| > 0 && AllDigits(exponent)
    ensures StringToNumber(mantissa + "e" + exponent) ==
      Fin(ScaleByTen(DigitsValue(mantissa) as real, DigitsValue(exponent)))
  {
    ExponentDecimal(mantissa, exponent);
    ExponentShape(mantissa, exponent);
    PlainNumber(mantissa + "e" + exponent, ScaleByTen(DigitsValue(mantissa) as real, DigitsValue(exponent)));
  }

  // ---------------------------------------------------------------- base prefixes

  /** Hexadecimal digits. */
  predicate HexDigits(digits: string) {
    |digits| > 0 && forall i :: 0 <= i < |digits| ==> InBase(digits[i], 16)
  }

  lemma HexShape(digits: string)
    requires HexDigits(digits)
    ensures var s := "0x" + digits;
      && s[0] == '0' && s[1] == 'x' && s[2..] == digits && s[..2] == "0x"
      && !IsJsWhitespace(s[|s| - 1])
  {
    var s := "0x" + digits;
    assert s[2..] == digits && s[..2] == "0x";
    assert s[|s| - 1] == digits[|digits| - 1] && HexDigit(s[|s| - 1]).Some?;
  }

  /** `0x` reads hexadecimal digits. */
  lemma HexNumber(digits: string)
    requires HexDigits(digits)
    ensures StringToNumber("0x" + digits) == Fin(BaseValue(digits, 16) as real)
  {
    HexShape(digits);
    LiteralNumber("0x" + digits);
  }

  lemma NotInfinity(u: string)
    requires |u| > 0 && u[0] != 'I'
    ensures u != "Infinity"
  {
  }

  /** A sign in front of a `0x` literal leaves text that is not an unsigned decimal. */
  lemma SignedHexLiteral(sign: char, u: string)
    requires IsSign(sign) && |u| >= 2 && u[..2] == "0x"
    ensures NumericLiteral([sign] + u) == NaN
  {
    SignShape(sign, u);
    HexNotDecimal(u);
    HexPrefix(u);
    NotInfinity(u);
  }

  lemma HexPrefix(u: string)
    requires |u| >= 2 && u[..2] == "0x"
    ensures u[0] == '0' && u[1] == 'x'
  {
    assert u[1] == u[..2][1];
    assert u[0] == u[..2][0];
  }

  lemma HexNotDecimal(u: string)
    requires |u| >= 2 && u[..2] == "0x"
    ensures UnsignedDecimal(u).None?
  {
    HexPrefix(u);
    var e := ExponentMark(u);
    if e < 0 {
      PlainSplit(u);
      HexMantissa(u, 0);
    } else {
      assert e >= 2;
      var m := u[..e];
      match ExponentOf(u[e + 1..])
      case None =>
      case Some(k) =>
        ExponentSplit(u, m, u[e + 1..], k);
        HexMantissa(m, k);
    }
  }

  /** A mantissa with `x` in second place is not a number. */
  lemma HexMantissa(m: string, k: int)
    requires |m| >= 2 && m[1] == 'x'
    ensures Mantissa(m, k).None?
  {
    var dot := IndexOf(m, '.');
    if dot >= 0 {
      assert dot != 1;
      if dot >= 2 { assert m[..dot][1] == 'x'; }
    }
  }

  lemma SignedHexShape(sign: char, digits: string)
    requires IsSign(sign) && HexDigits(digits)
    ensures var s := [sign] + "0x" + digits;
      && s == [sign] + ("0x" + digits) && !IsJsWhitespace(s[0]) && !IsJsWhitespace(s[|s| - 1])
  {
    var s := [sign] + "0x" + digits;
    assert s == [sign] + ("0x" + digits);
    assert s[|s| - 1] == digits[|digits| - 1] && HexDigit(s[|s| - 1]).Some?;
  }

  /** A sign before `0x` makes the text `NaN`. */
  lemma SignedHexNaN(sign: char, digits: string)
    requires IsSign(sign) && HexDigits(digits)
    ensures StringToNumber([sign] + "0x" + digits) == NaN
  {
    SignedHexShape(sign, digits);
    HexShape(digits);
    LiteralNumber([sign] + "0x" + digits);
    SignedHexLiteral(sign, "0x" + digits);
  }

  // ---------------------------------------------------------------- examples

  /** White space around a literal is ignored. */
  lemma PaddedFive()
    ensures StringToNumber(" 5\n") == Fin(5.0)
  {
    PaddingIgnored();
    Five();
  }

  lemma PaddingIgnored()
    ensures StringToNumber(" 5\n") == StringToNumber("5")
  {
    PaddedFiveText();
    PaddedNumber(" ", "5", "\n");
  }

  lemma PaddedFiveText()
    ensures " 5\n" == " " + "5" + "\n"
    ensures IsBlank(" ") && IsBlank("\n") && !IsJsWhitespace('5')
  {
  }

  lemma Five()
    ensures StringToNumber("5") == Fin(5.0)
  {
    FiveDigits();
    DigitsNumber("5");
  }

  lemma FiveDigits()
    ensures |"5"| > 0 && AllDigits("5") && DigitsValue("5") == 5
  {
  }

  /** A leading `+` is allowed and a leading `-` negates. */
  lemma SignedFive()
    ensures StringToNumber("+5") == Fin(5.0)
    ensures StringToNumber("-5") == Fin(-5.0)
  {
    SignedFiveText();
    FiveDigits();
    SignedNumber("5");
  }

  lemma SignedFiveText()
    ensures "+5" == "+" + "5" && "-5" == "-" + "5"
  {
  }

  /** A fraction counts in tenths: 1.5 is fifteen tenths. */
  lemma OneAndAHalf()
    ensures StringToNumber("1.5") == Fin(1.5)
  {
    OneAndAHalfText();
    FractionNumber("1", "5");
  }

  lemma OneAndAHalfText()
    ensures "1.5" == "1" + "." + "5" && AllDigits("1") && AllDigits("5")
    ensures ScaleByTen(DigitsValue("1" + "5") as real, -|"5"|) == 1.5
  {
    assert "1" + "5" == "15" && "15"[..1] == "1";
    assert DigitsValue("15") == 15;
  }

  /** An exponent scales by a power of ten. */
  lemma OneThousand()
    ensures StringToNumber("1e3") == Fin(1000.0)
  {
    OneThousandText();
    ExponentNumber("1", "3");
  }

  lemma OneThousandText()
    ensures "1e3" == "1" + "e" + "3" && AllDigits("1") && AllDigits("3")
    ensures ScaleByTen(DigitsValue("1") as real, DigitsValue("3")) == 1000.0
  {
    assert DigitsValue("1") == 1 && DigitsValue("3") == 3;
  }

  /** `0x` reads hexadecimal digits; a sign before it makes the text `NaN`. */
  lemma HexFive()
    ensures StringToNumber("0x5") == Fin(5.0)
    ensures StringToNumber("-0x5") == NaN
  {
    HexFiveText();
    HexNumber("5");
    SignedHexNaN('-', "5");
  }

  lemma HexFiveText()
    ensures "0x5" == "0x" + "5" && "-0x5" == ['-'] + "0x" + "5"
    ensures HexDigits("5") && BaseValue("5", 16) == 5
  {
    assert InBase("5"[0], 16);
  }
}

=== FILE: json.dfy ===
/** JSON values as the JavaScript code sees them after `JSON.parse`, with the property
    access, truthiness, `String(...)` and `JSON.stringify` semantics the source relies on.
    Objects keep their members in the order given. JavaScript would list integer-like keys
    first, in ascending order; no modelled object has such a key. */
module Json {
  import opened Wrappers
  import opened Text

  /** A finite number: an integer value, or a non-integral one carried by its JavaScript text. */
  datatype Number = Int(i: int) | Frac(text: string)

  datatype Json =
    | JNull
    | JBool(b: bool)
    | JNum(n: Number)
    | JStr(s: string)
    | JArr(items: seq<Json>)
    | JObj(members: seq<Member>)

  datatype Member = Member(key: string, value: Json)

  /** The members of a JSON object, in the order given. */
  type Object = seq<Member>

  // ---------------------------------------------------------------- property access

  /** `obj[key]` on an object: the value of the member named `key`, or `undefined`. */
  function Lookup(ms: Object, key: string): (r: Option<Json>)
    decreases |ms|
  {
    if |ms| == 0 then None
    else if ms[0].key == key then Some(ms[0].value)
    else Lookup(ms[1..], key)
  }

  /** `obj[key]` is `undefined` exactly when no member has that name, and otherwise the value
      of a member with that name. */
  lemma {:induction false} LookupFinds(ms: Object, key: string)
    ensures Lookup(ms, key).None? <==> forall i :: 0 <= i < |ms| ==> ms[i].key != key
    ensures Lookup(ms, key).Some? ==> exists i :: 0 <= i < |ms| && ms[i] == Member(key, Lookup(ms, key).value)
    decreases |ms|
  {
    if |ms| > 0 && ms[0].key != key {
      LookupFinds(ms[1..], key);
      assert forall i :: 1 <= i < |ms| ==> ms[i] == ms[1..][i - 1];
      if Lookup(ms, key).Some? {
        var j :| 0 <= j < |ms| - 1 && ms[1..][j] == Member(key, Lookup(ms, key).value);
        assert ms[j + 1] == ms[1..][j];
      }
    }
  }

  /** A member put in front of an object is found first; every other name is looked up in the
      rest. */
  function Cons(key: string, v: Json, rest: Object): (r: Object)
    ensures forall k :: Lookup(r, k) == if k == key then Some(v) else Lookup(rest, k)
  {
    assert ([Member(key, v)] + rest)[1..] == rest;
    [Member(key, v)] + rest
  }

  /** A member in front of `rest` unless its value is `undefined`: `JSON.stringify` leaves
      an `undefined` member out. */
  function ConsOpt(key: string, o: Option<Json>, rest: Object): (r: Object)
    ensures forall k :: Lookup(r, k) == if k == key && o.Some? then o else Lookup(rest, k)
  {
    if o.Some? then Cons(key, o.value, rest) else rest
  }

  /** `key in obj` for an object's own members. */
  predicate HasKey(ms: Object, key: string) {
    Lookup(ms, key).Some?
  }

  /** The property names every plain object inherits from `Object.prototype`; `key in obj`
      and `obj[key]` see them even when the object has no such member. */
  const ObjectPrototypeKeys: set<string> := {
    "constructor", "hasOwnProperty", "isPrototypeOf", "propertyIsEnumerable", "toLocaleString",
    "toString", "valueOf", "__proto__", "__defineGetter__", "__defineSetter__",
    "__lookupGetter__", "__lookupSetter__"}

  /** The string-named properties every array inherits from `Array.prototype` (section 23.1.3
      of ECMAScript 2023); `key in arr` sees them as well as the `Object.prototype` names. */
  const ArrayPrototypeKeys: set<string> := {
    "length", "constructor", "at", "concat", "copyWithin", "entries", "every", "fill", "filter",
    "find", "findIndex", "findLast", "findLastIndex", "flat", "flatMap", "forEach", "includes",
    "indexOf", "join", "keys", "lastIndexOf", "map", "pop", "push", "reduce", "reduceRight",
    "reverse", "shift", "slice", "some", "sort", "splice", "toLocaleString", "toReversed",
    "toSorted", "toSpliced", "toString", "unshift", "values", "with"}

  /** `v.key` for any value: only objects have the named properties the code reads. */
  function Prop(v: Json, key: string): (r: Option<Json>)
    ensures r.Some? ==> v.JObj?
  {
    if v.JObj? then Lookup(v.members, key) else None
  }

  /** `obj[key] = v`: replaces the member in place, or appends a new one. */
  function Put(ms: Object, key: string, v: Json): (r: Object)
    ensures Lookup(r, key) == Some(v)
    ensures forall k :: k != key ==> Lookup(r, k) == Lookup(ms, k)
    ensures |r| == |ms| || |r| == |ms| + 1
    decreases |ms|
  {
    if |ms| == 0 then [Member(key, v)]
    else if ms[0].key == key then [Member(key, v)] + ms[1..]
    else [ms[0]] + Put(ms[1..], key, v)
  }

  /** No two members share a key, as in every object `JSON.parse` or a literal builds. */
  predicate UniqueKeys(ms: Object) {
    forall i, j :: 0 <= i < j < |ms| ==> ms[i].key != ms[j].key
  }

  /** `{...base, ...extra}`: the members of `extra` assigned one by one over `base`. */
  function Assign(base: Object, extra: Object): (r: Object)
    ensures UniqueKeys(extra) ==> forall k :: Lookup(r, k) == (if HasKey(extra, k) then Lookup(extra, k) else Lookup(base, k))
    decreases |extra|
  {
    if |extra| == 0 then base
    else
      var b := Put(base, extra[0].key, extra[0].value);
      var r := Assign(b, extra[1..]);
      assert UniqueKeys(extra) ==> forall k :: Lookup(r, k) == (if HasKey(extra, k) then Lookup(extra, k) else Lookup(base, k)) by {
        if UniqueKeys(extra) {
          assert UniqueKeys(extra[1..]);
          forall k
            ensures Lookup(r, k) == (if HasKey(extra, k) then Lookup(extra, k) else Lookup(base, k))
          {
            if k == extra[0].key {
              LookupFinds(extra[1..], k);
              assert !HasKey(extra[1..], k);
            } else {
              assert Lookup(extra, k) == Lookup(extra[1..], k);
            }
          }
        }
      }
      r
  }

  /** Removes every member named `key` (`delete obj[key]`). */
  function Remove(ms: Object, key: string): (r: Object)
    ensures Lookup(r, key).None?
    ensures forall k :: k != key ==> Lookup(r, k) == Lookup(ms, k)
    decreases |ms|
  {
    if |ms| == 0 then []
    else if ms[0].key == key then Remove(ms[1..], key)
    else [ms[0]] + Remove(ms[1..], key)
  }

  // ---------------------------------------------------------------- truthiness

  /** JavaScript truthiness of a defined value. */
  predicate Truthy(v: Json) {
    match v
    case JNull => false
    case JBool(b) => b
    case JNum(n) => !(n.Int? && n.i == 0)
    case JStr(s) => s != ""
    case JArr(_) => true
    case JObj(_) => true
  }

  /** Truthiness of a possibly `undefined` value. */
  predicate Defined(o: Option<Json>) {
    o.Some? && Truthy(o.value)
  }

  /** `a || b` on possibly `undefined` values. */
  function Or(a: Option<Json>, b: Option<Json>): (r: Option<Json>)
    ensures Defined(a) ==> r == a
    ensures !Defined(a) ==> r == b
  {
    if Defined(a) then a else b
  }

  /** `a ?? b`: `b` exactly when `a` is `undefined` or `null`. */
  function Nullish(a: Option<Json>, b: Json): (r: Json)
    ensures a.Some? && a.value != JNull ==> r == a.value
    ensures a.None? || a.value == JNull ==> r == b
  {
    if a.Some? && a.value != JNull then a.value else b
  }

  // ---------------------------------------------------------------- String(v)

  /** `String(v)`: arrays join their elements with `,` (`null` elements print as empty),
      objects print as `[object Object]`. */
  function JsString(v: Json): string
    decreases v, 1
  {
    match v
    case JNull => "null"
    case JBool(b) => if b then "true" else "false"
    case JNum(n) => (match n case Int(i) => IntToString(i) case Frac(t) => t)
    case JStr(s) => s
    case JArr(items) => JoinItemStrings(v, 0)
    case JObj(_) => "[object Object]"
  }

  function JoinItemStrings(v: Json, i: nat): string
    requires v.JArr? && i <= |v.items|
    decreases v, 0, |v.items| - i
  {
    if i == |v.items| then ""
    else
      var item := if v.items[i] == JNull then "" else JsString(v.items[i]);
      (if i == 0 then "" else ",") + item + JoinItemStrings(v, i + 1)
  }

  /** `String(x)` of a possibly `undefined` value. */
  function JsStringOpt(o: Option<Json>): string {
    match o
    case None => "undefined"
    case Some(v) => JsString(v)
  }

  // ---------------------------------------------------------------- JSON.stringify

  const HexDigits: string := "0123456789abcdef"

  /** How `JSON.stringify` writes one character inside a string literal. */
  function EscapeChar(c: char): string {
    if c == '"' then "\\\""
    else if c == '\\' then "\\\\"
    else if c == '\U{0008}' then "\\b"
    else if c == '\U{000C}' then "\\f"
    else if c == '\n' then "\\n"
    else if c == '\r' then "\\r"
    else if c == '\t' then "\\t"
    else if c < ' ' then "\\u00" + [HexDigits[c as int / 16], HexDigits[c as int % 16]]
    else [c]
  }

  function Escape(s: string): string
    decreases |s|
  {
    if |s| == 0 then "" else EscapeChar(s[0]) + Escape(s[1..])
  }

  function Quote(s: string): string {
    "\"" + Escape(s) + "\""
  }

  /** `JSON.stringify(v)`: compact, members in the order given. */
  function Stringify(v: Json): string
    decreases v, 1
  {
    match v
    case JNull => "null"
    case JBool(b) => if b then "true" else "false"
    case JNum(n) => (match n case Int(i) => IntToString(i) case Frac(t) => t)
    case JStr(s) => Quote(s)
    case JArr(_) => "[" + StringifyItems(v, 0) + "]"
    case JObj(_) => "{" + StringifyMembers(v, 0) + "}"
  }

  function StringifyItems(v: Json, i: nat): string
    requires v.JArr? && i <= |v.items|
    decreases v, 0, |v.items| - i
  {
    if i == |v.items| then ""
    else (if i == 0 then "" else ",") + Stringify(v.items[i]) + StringifyItems(v, i + 1)
  }

  function StringifyMembers(v: Json, i: nat): string
    requires v.JObj? && i <= |v.members|
    decreases v, 0, |v.members| - i
  {
    if i == |v.members| then ""
    else
      var m := v.members[i];
      (if i == 0 then "" else ",") + Quote(m.key) + ":" + Stringify(m.value) + StringifyMembers(v, i + 1)
  }

  // ---------------------------------------------------------------- line-break freedom

  /** The text of a JavaScript number: digits, point, exponent and signs only. */
  predicate NumberText(t: string) {
    forall i :: 0 <= i < |t| ==> IsDigit(t[i]) || t[i] in ".e+-"
  }

  /** Every non-integral number in `v` carries a genuine number text. */
  predicate WellFormed(v: Json)
    decreases v, 1
  {
    match v
    case JNum(n) => n.Frac? ==> NumberText(n.text)
    case JArr(_) => ItemsWellFormed(v, 0)
    case JObj(_) => MembersWellFormed(v, 0)
    case _ => true
  }

  predicate ItemsWellFormed(v: Json, i: nat)
    requires v.JArr? && i <= |v.items|
    decreases v, 0, |v.items| - i
  {
    i == |v.items| || (WellFormed(v.items[i]) && ItemsWellFormed(v, i + 1))
  }

  predicate MembersWellFormed(v: Json, i: nat)
    requires v.JObj? && i <= |v.members|
    decreases v, 0, |v.members| - i
  {
    i == |v.members| || (WellFormed(v.members[i].value) && MembersWellFormed(v, i + 1))
  }

  /** Text without the two characters that end a line on the event stream. */
  predicate NoLineBreak(s: string) {
    '\n' !in s && '\r' !in s
  }

  lemma NoLineBreakConcat(a: string, b: string)
    requires NoLineBreak(a) && NoLineBreak(b)
    ensures NoLineBreak(a + b)
  {
    assert forall c :: c in a + b ==> c in a || c in b;
  }

  lemma {:induction false} EscapeNoLineBreak(s: string)
    ensures NoLineBreak(Escape(s))
    decreases |s|
  {
    if |s| > 0 {
      EscapeNoLineBreak(s[1..]);
      EscapeCharNoLineBreak(s[0]);
      NoLineBreakConcat(EscapeChar(s[0]), Escape(s[1..]));
    }
  }

  /** Each character's escape is free of raw line breaks: `\n` and `\r` become two
      printable characters, other controls a `\u00XX` of hex digits. */
  lemma EscapeCharNoLineBreak(c: char)
    ensures NoLineBreak(EscapeChar(c))
  {
    if c < ' ' && c != '\U{0008}' && c != '\U{000C}' && c != '\n' && c != '\r' && c != '\t' {
      var h := [HexDigits[c as int / 16], HexDigits[c as int % 16]];
      assert NoLineBreak(h);
      NoLineBreakConcat("\\u00", h);
    }
  }

  lemma QuoteNoLineBreak(s: string)
    ensures NoLineBreak(Quote(s))
  {
    EscapeNoLineBreak(s);
    NoLineBreakConcat("\"", Escape(s));
    NoLineBreakConcat("\"" + Escape(s), "\"");
  }

  lemma NatToStringNoLineBreak(n: nat)
    ensures NoLineBreak(NatToString(n))
  {
    var r := NatToString(n);
    assert forall i :: 0 <= i < |r| ==> IsDigit(r[i]);
  }

  /** `JSON.stringify` never emits a raw line break: line breaks inside strings are escaped. */
  lemma {:induction false} StringifyNoLineBreak(v: Json)
    requires WellFormed(v)
    ensures NoLineBreak(Stringify(v))
    decreases v, 1
  {
    match v
    case JNull =>
    case JBool(_) =>
    case JNum(n) =>
      if n.Int? {
        NatToStringNoLineBreak(if n.i < 0 then -n.i else n.i);
        if n.i < 0 { NoLineBreakConcat("-", NatToString(-n.i)); }
      }
    case JStr(s) => QuoteNoLineBreak(s);
    case JArr(_) =>
      ItemsNoLineBreak(v, 0);
      NoLineBreakConcat("[", StringifyItems(v, 0));
      NoLineBreakConcat("[" + StringifyItems(v, 0), "]");
    case JObj(_) =>
      MembersNoLineBreak(v, 0);
      NoLineBreakConcat("{", StringifyMembers(v, 0));
      NoLineBreakConcat("{" + StringifyMembers(v, 0), "}");
  }

  lemma {:induction false} ItemsNoLineBreak(v: Json, i: nat)
    requires v.JArr? && i <= |v.items| && ItemsWellFormed(v, i)
    ensures NoLineBreak(StringifyItems(v, i))
    decreases v, 0, |v.items| - i
  {
    if i < |v.items| {
      StringifyNoLineBreak(v.items[i]);
      ItemsNoLineBreak(v, i + 1);
      var sep := if i == 0 then "" else ",";
      NoLineBreakConcat(sep, Stringify(v.items[i]));
      NoLineBreakConcat(sep + Stringify(v.items[i]), StringifyItems(v, i + 1));
    }
  }

  lemma {:induction false} MembersNoLineBreak(v: Json, i: nat)
    requires v.JObj? && i <= |v.members| && MembersWellFormed(v, i)
    ensures NoLineBreak(StringifyMembers(v, i))
    decreases v, 0, |v.members| - i
  {
    if i < |v.members| {
      var m := v.members[i];
      StringifyNoLineBreak(m.value);
      MembersNoLineBreak(v, i + 1);
      QuoteNoLineBreak(m.key);
      var sep := if i == 0 then "" else ",";
      NoLineBreakConcat(sep, Quote(m.key));
      NoLineBreakConcat(sep + Quote(m.key), ":");
      NoLineBreakConcat(sep + Quote(m.key) + ":", Stringify(m.value));
      NoLineBreakConcat(sep + Quote(m.key) + ":" + Stringify(m.value), StringifyMembers(v, i + 1));
    }
  }
}

=== FILE: retry.dfy ===
/** The bounded retry loop `postJsonWithRetry` of `server/src/httpClient.js`. What the network
    does on each attempt is an input; the random jitter of the back-off is not modelled, so a
    sleep is recorded by its base delay. */
module Retry {
  import opened Wrappers
  import opened Text
  import opened Json

  /** The base delays after each failed attempt; one attempt per entry. */
  const Delays: seq<nat> := [500, 1000, 2000]

  /** The body text of a response, as `JSON.parse` would see it. */
  datatype BodyText = EmptyBody | JsonBody(value: Json) | MalformedBody(message: string)

  /** What one `fetch` attempt yields. */
  datatype Attempt =
    | Responded(status: int, body: BodyText)
    | TimedOut
    | NetworkFailure(message: string)

  /** The errors an attempt can throw. */
  datatype HttpError =
    | HttpStatus(status: int)
    | RequestTimeout
    | FetchFailed(message: string)
    | BadJson(message: string)

  /** The thrown error's `message`. */
  function ErrorMessage(e: HttpError): string {
    match e
    case HttpStatus(n) => "http_" + IntToString(n)
    case RequestTimeout => "request_timeout"
    case FetchFailed(m) => m
    case BadJson(m) => m
  }

  /** `response.ok`. */
  predicate IsOk(status: int) {
    200 <= status <= 299
  }

  /** The result of one attempt: a non-2xx status, a timeout, a network failure and a body that
      does not parse all throw; an empty body is read as `{}`. */
  function AttemptResult(a: Attempt): (r: Result<Json, HttpError>)
    ensures r.Success? <==> a.Responded? && IsOk(a.status) && !a.body.MalformedBody?
    ensures a.Responded? && !IsOk(a.status) ==> r == Failure(HttpStatus(a.status))
    ensures a.Responded? && IsOk(a.status) && a.body.EmptyBody? ==> r == Success(JObj([]))
    ensures a.Responded? && IsOk(a.status) && a.body.JsonBody? ==> r == Success(a.body.value)
  {
    match a
    case Responded(status, body) =>
      if !IsOk(status) then Failure(HttpStatus(status))
      else (
        match body
        case EmptyBody => Success(JObj([]))
        case JsonBody(v) => Success(v)
        case MalformedBody(m) => Failure(BadJson(m))
      )
    case TimedOut => Failure(RequestTimeout)
    case NetworkFailure(m) => Failure(FetchFailed(m))
  }

  predicate Fails(a: Attempt) {
    AttemptResult(a).Failure?
  }

  /** The outcome of a call: its result, how many attempts it made, and the sleeps between. */
  datatype Run = Run(result: Result<Json, HttpError>, attempts: nat, sleeps: seq<nat>)

  /** The loop from attempt `i` on, given what every attempt would yield. */
  function RetryFrom(outcomes: seq<Attempt>, i: nat): (run: Run)
    requires |outcomes| == |Delays| && i < |Delays|
    ensures i < run.attempts <= |Delays|
    ensures run.result == AttemptResult(outcomes[run.attempts - 1])
    ensures forall k :: i <= k < run.attempts - 1 ==> Fails(outcomes[k])
    ensures run.result.Failure? ==> run.attempts == |Delays|
    ensures run.sleeps == Delays[i..run.attempts - 1]
    decreases |Delays| - i
  {
    var r := AttemptResult(outcomes[i]);
    if r.Success? || i == |Delays| - 1 then Run(r, i + 1, [])
    else
      var rest := RetryFrom(outcomes, i + 1);
      assert Delays[i..rest.attempts - 1] == [Delays[i]] + Delays[i + 1..rest.attempts - 1];
      Run(rest.result, rest.attempts, [Delays[i]] + rest.sleeps)
  }

  /** `postJsonWithRetry`: the whole call. */
  function PostJsonWithRetry(outcomes: seq<Attempt>): (run: Run)
    requires |outcomes| == |Delays|
    ensures 1 <= run.attempts <= 3
    ensures run.result == AttemptResult(outcomes[run.attempts - 1])
    ensures forall k :: 0 <= k < run.attempts - 1 ==> Fails(outcomes[k])
    ensures run.result.Failure? ==> run.attempts == 3
    ensures run.sleeps == Delays[..run.attempts - 1]
  {
    RetryFrom(outcomes, 0)
  }

  /** The same loop written as the source writes it: a counted loop that returns on the first
      success, records the last error, and sleeps only when another attempt follows. */
  method RunAttempts(outcomes: seq<Attempt>) returns (run: Run)
    requires |outcomes| == |Delays|
    ensures 1 <= run.attempts <= 3
    ensures forall k :: 0 <= k < run.attempts - 1 ==> Fails(outcomes[k])
    ensures run.result.Success? ==> run.result == AttemptResult(outcomes[run.attempts - 1])
    ensures run.result.Failure? ==> run.attempts == 3 && run.result == AttemptResult(outcomes[2])
    ensures run.sleeps == Delays[..run.attempts - 1]
    ensures run == PostJsonWithRetry(outcomes)
  {
    var sleeps: seq<nat> := [];
    var lastError: HttpError := RequestTimeout;
    var i := 0;
    while i < |Delays|
      invariant 0 <= i <= |Delays|
      invariant i < |Delays| ==> sleeps == Delays[..i]
      invariant forall k :: 0 <= k < i ==> Fails(outcomes[k])
      invariant i == |Delays| ==> lastError == AttemptResult(outcomes[|Delays| - 1]).error
      invariant i == |Delays| ==> sleeps == Delays[..|Delays| - 1]
      decreases |Delays| - i
    {
      var r := AttemptResult(outcomes[i]);
      if r.Success? {
        FirstSuccessReturned(outcomes, i);
        return Run(r, i + 1, sleeps);
      }
      lastError := r.error;
      if i == |Delays| - 1 {
        i := i + 1;
        break;
      }
      sleeps := sleeps + [Delays[i]];
      i := i + 1;
    }
    AllFailLastError(outcomes);
    run := Run(Failure(lastError), |Delays|, sleeps);
  }

  /** The first success wins: an attempt that succeeds ends the loop with its value. */
  lemma FirstSuccessReturned(outcomes: seq<Attempt>, k: nat)
    requires |outcomes| == |Delays| && k < |Delays|
    requires forall j :: 0 <= j < k ==> Fails(outcomes[j])
    requires !Fails(outcomes[k])
    ensures PostJsonWithRetry(outcomes) == Run(AttemptResult(outcomes[k]), k + 1, Delays[..k])
  {
  }

  /** When every attempt fails the call throws the last attempt's error, after three attempts
      and two sleeps. */
  lemma AllFailLastError(outcomes: seq<Attempt>)
    requires |outcomes| == |Delays|
    requires forall j :: 0 <= j < |Delays| ==> Fails(outcomes[j])
    ensures PostJsonWithRetry(outcomes) == Run(AttemptResult(outcomes[2]), 3, [500, 1000])
  {
  }

  /** `Authorization` and other extra headers are merged over `content-type`. */
  function RequestHeaders(extra: Object): (h: Object)
    ensures UniqueKeys(extra) ==>
      forall k :: Lookup(h, k) ==
        (if HasKey(extra, k) then Lookup(extra, k)
         else if k == "content-type" then Some(JStr("application/json")) else None)
  {
    Assign([Member("content-type", JStr("application/json"))], extra)
  }
}

=== FILE: routes.dfy ===
/** The HTTP handler of `server/src/app.js`: which route a request takes, the bearer check
    before any body is read, the body parse, the per-route field checks, and the idempotent
    ingestion of `POST /events`. The server state is the agent service (whose hub holds the
    store); the clock reading and the directory check a spawn needs are inputs. */
module Routes {
  import opened Wrappers
  import opened Text
  import opened Json
  import opened Auth
  import opened Contract
  import opened Db
  import opened Retry
  import EventHub
  import Agents

  /** A cached ingestion answer is replayed for ten minutes. */
  const IdempotencyTtlMs: int := 10 * 60 * 1000

  /** The parts of a request the handler reads: the method (`verb`), the path, the
      `Authorization`, `Idempotency-Key` and `Last-Event-ID` headers, and the body text. */
  datatype Request = Request(
    verb: string,
    path: string,
    authorization: Option<string>,
    idempotencyKey: Option<string>,
    lastEventId: Option<string>,
    body: BodyText)

  /** What the handler does with the connection. `InternalError` is the `500 internal_error`
      reply of the catch-all, whose `message` is the thrown error's text. `Silent` sends
      nothing and leaves the request open. `Unmodelled` marks a request field of a type the
      service model does not take: a number, boolean, array or object where text is read. */
  datatype Response =
    | Answer(reply: Reply)
    | AgentList(runs: seq<AgentRun>)
    | EventStream(client: nat)
    | InternalError
    | Silent
    | Unmodelled

  /** The server's configuration: the contract and the bearer token. */
  datatype Config = Config(contract: EventContract, token: string)

  function ErrorReply(status: nat, error: string): (r: Reply)
    ensures r.status == status && Prop(r.body, "error") == Some(JStr(error))
  {
    Reply(status, JObj(Cons("error", JStr(error), [])))
  }

  // ---------------------------------------------------------------- the body

  /** What `parseJsonBody` resolves with: a value, or `null` after it answered 400. */
  datatype Parsed = Parsed(value: Json) | Malformed

  /** `parseJsonBody(req, res)`: an empty body reads as `{}`, text that does not parse is
      answered with `400 invalid_json`. */
  function ParseJsonBody(text: BodyText): (p: Parsed)
    ensures text.EmptyBody? ==> p == Parsed(JObj([]))
    ensures text.JsonBody? ==> p == Parsed(text.value)
    ensures p.Malformed? <==> text.MalformedBody?
  {
    match text
    case EmptyBody => Parsed(JObj([]))
    case JsonBody(v) => Parsed(v)
    case MalformedBody(_) => Malformed
  }

  /** Which reading of `if (!body) return;` the handler uses. */
  datatype Guard = AsWritten | Corrected

  /** `if (!body) return;` after the parse. As written it also stops, without any reply, on
      a body that parsed to a falsy value (`null`, `false`, `0`, `""`); corrected, it stops
      only when the parse has already answered. */
  function BodyGuard(g: Guard, p: Parsed): (stop: Option<Response>)
    ensures p.Malformed? ==> stop == Some(Answer(ErrorReply(400, "invalid_json")))
    ensures g.Corrected? ==> (stop.Some? <==> p.Malformed?)
    ensures g.AsWritten? && p.Parsed? ==> (stop.Some? <==> !Truthy(p.value))
    ensures stop.Some? && p.Parsed? ==> stop.value == Silent
  {
    match p
    case Malformed => Some(Answer(ErrorReply(400, "invalid_json")))
    case Parsed(v) => if g.AsWritten? && !Truthy(v) then Some(Silent) else None
  }

  // ---------------------------------------------------------------- POST /events

  /** The outcome of an ingestion: the hub afterwards, the response, and the envelope
      published, if one was. */
  datatype Ingested = Ingested(hub: EventHub.Hub, response: Response, stored: Option<Json>)

  /** `{...cached, accepted: true, deduped: true}`. */
  function DedupedBody(cached: Json): (body: Json)
    ensures Prop(body, "accepted") == Some(JBool(true)) && Prop(body, "deduped") == Some(JBool(true))
    ensures forall k :: k != "accepted" && k != "deduped" && cached.JObj? ==> Prop(body, k) == Prop(cached, k)
  {
    var base := if cached.JObj? then cached.members else [];
    var extra := Cons("accepted", JBool(true), Cons("deduped", JBool(true), []));
    assert UniqueKeys(extra);
    JObj(Assign(base, extra))
  }

  /** `{accepted: true, deduped: false, eventId: body.id, streamId: seq}`. */
  function AcceptedBody(event: Json, seqNo: nat): (body: Json)
    ensures Prop(body, "accepted") == Some(JBool(true)) && Prop(body, "deduped") == Some(JBool(false))
    ensures Prop(body, "eventId") == Prop(event, "id")
    ensures Prop(body, "streamId") == Some(JNum(Int(seqNo)))
  {
    JObj(Cons("accepted", JBool(true), Cons("deduped", JBool(false),
      ConsOpt("eventId", Prop(event, "id"), Cons("streamId", JNum(Int(seqNo)), [])))))
  }

  /** A cached record still fresh at `now`. */
  function Cached(s: Store, now: int, key: string): (r: Option<IdempotencyRecord>)
    ensures r.Some? ==> key in s.idempotency && r.value == s.idempotency[key] && now - r.value.createdAt <= IdempotencyTtlMs
    ensures r.None? ==> key !in s.idempotency || now - s.idempotency[key].createdAt > IdempotencyTtlMs
  {
    var existing := GetIdempotencyRecord(s, key);
    if existing.Some? && now - existing.value.createdAt <= IdempotencyTtlMs then existing else None
  }

  /** The validator's verdict as a reply, or `None` when it passes. */
  function Rejection(c: EventContract, event: Json): (r: Option<Response>)
    ensures ValidateEventEnvelope(c, event).None? ==> r == Some(InternalError)
    ensures ValidateEventEnvelope(c, event).Some? ==>
      (r.None? <==> Conforms(c, event))
    ensures r.Some? && r.value.Answer? ==>
      r.value.reply.status == 400 && Prop(r.value.reply.body, "error") == Some(JStr("invalid_event"))
  {
    match ValidateEventEnvelope(c, event)
    case None => Some(InternalError)
    case Some(v) =>
      if v.valid then None
      else
        Some(Answer(InvalidEvent(Errors(v))))
  }

  /** The 400 naming the validator's messages under `details`. */
  function InvalidEvent(errs: seq<string>): (reply: Reply)
    ensures reply.status == 400 && Prop(reply.body, "error") == Some(JStr("invalid_event"))
    ensures Prop(reply.body, "details") == Some(JArr(seq(|errs|, i requires 0 <= i < |errs| => JStr(errs[i]))))
  {
    var details := JArr(seq(|errs|, i requires 0 <= i < |errs| => JStr(errs[i])));
    Reply(400, JObj(Cons("error", JStr("invalid_event"), Cons("details", details, []))))
  }

  /** Publish a checked envelope and cache the answer under the key. An envelope the store
      cannot bind makes `publish` throw after its prune, and nothing is cached. */
  function PublishAndCache(h: EventHub.Hub, now: int, key: string, event: Json): (r: Ingested)
    requires EventHub.Valid(h)
    ensures EventHub.Valid(r.hub) && r.hub.store.decisions == h.store.decisions
    ensures r.stored.Some? <==> Insertable(event)
    ensures r.stored.None? ==>
      r.response == InternalError && r.hub == h.(store := PruneOldEvents(h.store, now))
    ensures r.stored.Some? ==>
      var (h2, n) := EventHub.Publish(h, now, event);
      && r.stored == Some(event)
      && r.response == Answer(Reply(200, AcceptedBody(event, n)))
      && r.hub == h2.(store := SaveIdempotencyRecord(h2.store, key, AcceptedBody(event, n), now))
  {
    var (h2, n) := EventHub.TryPublish(h, now, event);
    if n.None? then Ingested(h2, InternalError, None)
    else
      var result := AcceptedBody(event, n.value);
      Ingested(h2.(store := SaveIdempotencyRecord(h2.store, key, result, now)), Answer(Reply(200, result)), Some(event))
  }

  /** The `POST /events` handler after the bearer check, at `now`: the key is required; the
      cache is pruned and a fresh record is replayed before the body is read; then the body is
      parsed, validated, published and its answer cached. */
  function Ingest(g: Guard, h: EventHub.Hub, c: EventContract, now: int, key: Option<string>,
                  text: BodyText): (r: Ingested)
    requires EventHub.Valid(h)
    ensures EventHub.Valid(r.hub) && r.hub.store.decisions == h.store.decisions
    ensures r.response.Silent? ==> g.AsWritten? && text.JsonBody? && !Truthy(text.value)
    ensures key.None? || key.value == "" ==>
      r == Ingested(h, Answer(ErrorReply(400, "Idempotency-Key header required")), None)
    ensures key.Some? && key.value != "" ==>
      var pruned := PruneIdempotency(h.store, now, IdempotencyTtlMs);
      && (Cached(pruned, now, key.value).Some? ==>
            r == Ingested(h.(store := pruned), Answer(Reply(200, DedupedBody(Cached(pruned, now, key.value).value.response))), None))
      && (Cached(pruned, now, key.value).None? && ParseJsonBody(text).Malformed? ==>
            r == Ingested(h.(store := pruned), Answer(ErrorReply(400, "invalid_json")), None))
    ensures r.stored.Some? ==> text.JsonBody? && r.stored == Some(text.value)
  {
    if key.None? || key.value == "" then
      Ingested(h, Answer(ErrorReply(400, "Idempotency-Key header required")), None)
    else
      var h1 := h.(store := PruneIdempotency(h.store, now, IdempotencyTtlMs));
      var cached := Cached(h1.store, now, key.value);
      if cached.Some? then Ingested(h1, Answer(Reply(200, DedupedBody(cached.value.response))), None)
      else
        var p := ParseJsonBody(text);
        var stop := BodyGuard(g, p);
        if stop.Some? then Ingested(h1, stop.value, None)
        else
          var event := p.value;
          var rejected := Rejection(c, event);
          if rejected.Some? then Ingested(h1, rejected.value, None)
          else PublishAndCache(h1, now, key.value, event)
  }

  /** A key answered within the time to live is answered again with the cached body and
      `deduped: true`, whatever the second body is, and the log does not grow. */
  lemma IngestThenReplay(g: Guard, h: EventHub.Hub, c: EventContract, now: int, later: int, key: string,
                         first: BodyText, second: BodyText)
    requires EventHub.Valid(h) && key != "" && now <= later <= now + IdempotencyTtlMs
    requires Ingest(g, h, c, now, Some(key), first).stored.Some?
    ensures var r1 := Ingest(g, h, c, now, Some(key), first);
      var r2 := Ingest(g, r1.hub, c, later, Some(key), second);
      && r1.response.Answer? && r1.response.reply.status == 200
      && r2.response == Answer(Reply(200, DedupedBody(r1.response.reply.body)))
      && r2.stored.None? && r2.hub.store.log == r1.hub.store.log
      && r2.hub.clients == r1.hub.clients
  {
    var r1 := Ingest(g, h, c, now, Some(key), first);
    var pruned := PruneIdempotency(h.store, now, IdempotencyTtlMs);
    assert Cached(pruned, now, key).None?;
    var p := ParseJsonBody(first);
    assert BodyGuard(g, p).None? && Rejection(c, p.value).None?;
    var event := p.value;
    var (h2, n) := EventHub.Publish(h.(store := pruned), now, event);
    assert r1.hub.store.idempotency[key] == IdempotencyRecord(AcceptedBody(event, n), now);
    assert Cached(PruneIdempotency(r1.hub.store, later, IdempotencyTtlMs), later, key).Some?;
  }

  /** A request without a key changes nothing and is answered before the body is read. */
  lemma MissingKeyNoEffect(g: Guard, h: EventHub.Hub, c: EventContract, now: int, text: BodyText)
    requires EventHub.Valid(h)
    ensures Ingest(g, h, c, now, None, text) == Ingest(g, h, c, now, Some(""), EmptyBody)
    ensures Ingest(g, h, c, now, None, text).hub == h
  {
  }

  /** An envelope the contract rejects is neither published nor cached: the key stays free
      for a corrected retry. */
  lemma RejectedNotRecorded(g: Guard, h: EventHub.Hub, c: EventContract, now: int, key: string, event: Json)
    requires EventHub.Valid(h) && key != ""
    requires key !in h.store.idempotency
    requires Truthy(event) && ValidateEventEnvelope(c, event).Some? && !Conforms(c, event)
    ensures var r := Ingest(g, h, c, now, Some(key), JsonBody(event));
      && r.stored.None? && r.hub.store.log == h.store.log && r.hub.clients == h.clients
      && key !in r.hub.store.idempotency
      && r.response.Answer? && r.response.reply.status == 400
  {
  }

  /** A conforming, bindable envelope under a fresh key is published once: the log gains it
      under the next sequence number, which the answer reports. */
  lemma AcceptedPublishedOnce(g: Guard, h: EventHub.Hub, c: EventContract, now: int, key: string, event: Json)
    requires EventHub.Valid(h) && key != ""
    requires key !in h.store.idempotency
    requires Truthy(event) && ValidateEventEnvelope(c, event).Some? && Conforms(c, event) && Insertable(event)
    ensures var r := Ingest(g, h, c, now, Some(key), JsonBody(event));
      && r.stored == Some(event)
      && r.hub.store.nextSeq == h.store.nextSeq + 1
      && |r.hub.store.log| > 0
      && r.hub.store.log[|r.hub.store.log| - 1].seqNo == h.store.nextSeq
      && r.hub.store.log[|r.hub.store.log| - 1].envelope == event
      && r.response == Answer(Reply(200, AcceptedBody(event, h.store.nextSeq)))
  {
    FreshKeyPublishes(g, h, c, now, key, event);
    PublishAppends(h.(store := PruneIdempotency(h.store, now, IdempotencyTtlMs)), now, key, event);
  }

  /** Under a fresh key, a conforming envelope goes straight to publishing. */
  lemma FreshKeyPublishes(g: Guard, h: EventHub.Hub, c: EventContract, now: int, key: string, event: Json)
    requires EventHub.Valid(h) && key != ""
    requires key !in h.store.idempotency
    requires Truthy(event) && ValidateEventEnvelope(c, event).Some? && Conforms(c, event)
    ensures Ingest(g, h, c, now, Some(key), JsonBody(event))
      == PublishAndCache(h.(store := PruneIdempotency(h.store, now, IdempotencyTtlMs)), now, key, event)
  {
    FreshKeyNotCached(h.store, now, key);
    ConformingBodyPasses(g, c, event);
  }

  /** A key the store has never recorded is not replayed. */
  lemma FreshKeyNotCached(s: Store, now: int, key: string)
    requires key !in s.idempotency
    ensures Cached(PruneIdempotency(s, now, IdempotencyTtlMs), now, key).None?
  {
  }

  /** A truthy, conforming body passes the guard and the validator under either guard. */
  lemma ConformingBodyPasses(g: Guard, c: EventContract, event: Json)
    requires Truthy(event) && ValidateEventEnvelope(c, event).Some? && Conforms(c, event)
    ensures ParseJsonBody(JsonBody(event)) == Parsed(event)
    ensures BodyGuard(g, Parsed(event)).None? && Rejection(c, event).None?
  {
  }

  /** Publishing a bindable envelope appends it under the next sequence number and answers
      with that number. */
  lemma PublishAppends(h: EventHub.Hub, now: int, key: string, event: Json)
    requires EventHub.Valid(h) && Insertable(event)
    ensures var r := PublishAndCache(h, now, key, event);
      && r.stored == Some(event)
      && r.hub.store.nextSeq == h.store.nextSeq + 1
      && |r.hub.store.log| > 0
      && r.hub.store.log[|r.hub.store.log| - 1].seqNo == h.store.nextSeq
      && r.hub.store.log[|r.hub.store.log| - 1].envelope == event
      && r.response == Answer(Reply(200, AcceptedBody(event, h.store.nextSeq)))
  {
  }

  // ---------------------------------------------------------------- routing

  const DecisionsPrefix: string := "/decisions/"
  const ResolveSuffix: string := "/resolve"

  /** The decision id of a path matching `^/decisions/[^/]+/resolve$`: the third piece of
      the path split at `/`. */
  function DecisionIdOf(path: string): (id: Option<string>)
    ensures id.Some? ==> id.value != "" && '/' !in id.value && path == DecisionsPrefix + id.value + ResolveSuffix
  {
    var n := |DecisionsPrefix|;
    var m := |ResolveSuffix|;
    if |path| > n + m && path[..n] == DecisionsPrefix && path[|path| - m..] == ResolveSuffix
       && '/' !in path[n..|path| - m]
    then
      assert path == path[..n] + path[n..|path| - m] + path[|path| - m..];
      Some(path[n..|path| - m])
    else None
  }

  /** Every non-empty id without a `/` has a resolve path, and the route reads it back. */
  lemma DecisionPathRoundTrip(id: string)
    requires id != "" && '/' !in id
    ensures DecisionIdOf(DecisionsPrefix + id + ResolveSuffix) == Some(id)
    ensures RouteOf("POST", DecisionsPrefix + id + ResolveSuffix) == ResolveDecision(id)
  {
    var path := DecisionsPrefix + id + ResolveSuffix;
    var n := |DecisionsPrefix|;
    assert path[..n] == DecisionsPrefix;
    assert path[n..|path| - |ResolveSuffix|] == id;
    assert path[|path| - |ResolveSuffix|..] == ResolveSuffix;
  }

  datatype Route =
    | StreamEvents
    | ListRuns
    | SpawnAgent
    | IngestEvent
    | InjectEvent
    | ListDecisions
    | ResolveDecision(decisionId: string)
    | NotFound

  /** The route of a method and pathname, tried in the handler's order. */
  function RouteOf(verb: string, path: string): (rt: Route)
    ensures rt.ResolveDecision? ==> verb == "POST" && DecisionIdOf(path) == Some(rt.decisionId)
    ensures verb == "POST" && DecisionIdOf(path).Some? ==> rt.ResolveDecision?
  {
    if verb == "GET" && path == "/events" then StreamEvents
    else if verb == "GET" && path == "/agents" then ListRuns
    else if verb == "POST" && path == "/spawn" then SpawnAgent
    else if verb == "POST" && path == "/events" then IngestEvent
    else if verb == "POST" && path == "/inject" then InjectEvent
    else if verb == "GET" && path == "/decisions" then ListDecisions
    else if verb == "POST" && DecisionIdOf(path).Some? then ResolveDecision(DecisionIdOf(path).value)
    else NotFound
  }

  /** The routes behind the bearer check: every route that changes state. */
  predicate Guarded(rt: Route) {
    rt.SpawnAgent? || rt.IngestEvent? || rt.InjectEvent? || rt.ResolveDecision?
  }

  // ---------------------------------------------------------------- request fields

  /** A body field the service reads as text: its value, or `Untyped` when it holds
      something else. */
  datatype Read<T> = Read(value: T) | Untyped

  /** A field already checked truthy, passed on as text. */
  function TextOf(o: Option<Json>): (r: Read<string>)
    ensures r.Read? <==> o.Some? && o.value.JStr?
    ensures r.Read? ==> o == Some(JStr(r.value))
  {
    if o.Some? && o.value.JStr? then Read(o.value.s) else Untyped
  }

  /** A text field read with `||`: every falsy value stands for absent. */
  function FalsyOrText(o: Option<Json>): (r: Read<Option<string>>)
    ensures r == Read(None) <==> !Defined(o)
    ensures r.Untyped? <==> Defined(o) && !o.value.JStr?
    ensures r.Read? && r.value.Some? ==> o == Some(JStr(r.value.value))
  {
    if !Defined(o) then Read(None)
    else if o.value.JStr? then Read(Some(o.value.s))
    else Untyped
  }

  /** A text field read with `??`: only `undefined` and `null` stand for absent. */
  function NullableText(o: Option<Json>): (r: Read<Option<string>>)
    ensures r == Read(None) <==> o.None? || o.value == JNull
    ensures r.Untyped? <==> o.Some? && o.value != JNull && !o.value.JStr?
    ensures r.Read? && r.value.Some? ==> o == Some(JStr(r.value.value))
  {
    if o.None? || o.value == JNull then Read(None)
    else if o.value.JStr? then Read(Some(o.value.s))
    else Untyped
  }

  // ---------------------------------------------------------------- the handlers

  /** The server state after a request, and the response. */
  datatype Handled = Handled(service: Agents.Service, response: Response)

  /** The argument `spawn` destructures from a body: `task` and `repoPath` as given,
      `branch || ...`, `priority ?? 'normal'`, and `metadata = {}`. */
  function SpawnRequestOf(body: Json): (r: Read<Agents.SpawnRequest>)
    ensures r.Read? ==>
      && Prop(body, "task") == Some(JStr(r.value.task))
      && Prop(body, "repoPath") == Some(JStr(r.value.repoPath))
      && (r.value.branch.None? <==> !Defined(Prop(body, "branch")))
      && (r.value.priority.None? <==> Prop(body, "priority").None? || Prop(body, "priority") == Some(JNull))
      && (Prop(body, "metadata").None? ==> r.value.metadata == JObj([]))
      && (Prop(body, "metadata").Some? ==> r.value.metadata == Prop(body, "metadata").value)
  {
    var task := TextOf(Prop(body, "task"));
    var repoPath := TextOf(Prop(body, "repoPath"));
    var branch := FalsyOrText(Prop(body, "branch"));
    var priority := NullableText(Prop(body, "priority"));
    if task.Untyped? || repoPath.Untyped? || branch.Untyped? || priority.Untyped? then Untyped
    else Read(Agents.SpawnRequest(task.value, repoPath.value, branch.value, priority.value,
                                  Prop(body, "metadata").GetOr(JObj([]))))
  }

  /** `{agentId, correlationId, status: 'accepted'}` with status 202. */
  function SpawnReply(resp: Agents.SpawnResponse): (reply: Reply)
    ensures reply.status == 202
    ensures Prop(reply.body, "agentId") == Some(JStr(resp.agentId))
    ensures Prop(reply.body, "correlationId") == Some(JStr(resp.correlationId))
    ensures Prop(reply.body, "status") == Some(JStr("accepted"))
  {
    Reply(202, JObj(Cons("agentId", JStr(resp.agentId), Cons("correlationId", JStr(resp.correlationId),
      Cons("status", JStr("accepted"), [])))))
  }

  /** `POST /spawn` after the body guard. Reading a field of a `null` body throws. The build
      `spawn` queues runs as `scheduleBuild` once the call returns. */
  function SpawnRoute(s: Agents.Service, c: Agents.Clock, body: Json, repoIsDir: bool): (r: Handled)
    requires Agents.Valid(s) && |s.uuids| >= 5
    ensures Agents.Valid(r.service) && !r.response.Silent?
    ensures body == JNull ==> r == Handled(s, InternalError)
    ensures body != JNull && (!Defined(Prop(body, "task")) || !Defined(Prop(body, "repoPath"))) ==>
      r == Handled(s, Answer(ErrorReply(400, "task and repoPath are required")))
    ensures r.response.Answer? && r.response.reply.status == 202 ==>
      SpawnRequestOf(body).Read? && SpawnAccepted(s, r, SpawnRequestOf(body).value)
  {
    if body == JNull then Handled(s, InternalError)
    else if !Defined(Prop(body, "task")) || !Defined(Prop(body, "repoPath")) then
      Handled(s, Answer(ErrorReply(400, "task and repoPath are required")))
    else
      var req := SpawnRequestOf(body);
      if req.Untyped? then Handled(s, Unmodelled)
      else SpawnTyped(s, c, req.value, repoIsDir)
  }

  /** The 202 of `POST /spawn`: the reply names the agent and correlation ids the first two
      UUIDs give, and the service knows that agent with the request's task and path. */
  predicate SpawnAccepted(s: Agents.Service, r: Handled, req: Agents.SpawnRequest)
    requires |s.uuids| >= 2
  {
    var agentId := "agent_" + s.uuids[0];
    && r.response.Answer?
    && r.response.reply == SpawnReply(Agents.SpawnResponse(agentId, s.uuids[1]))
    && agentId in r.service.agents
    && r.service.agents[agentId].run.task == req.task
    && r.service.agents[agentId].run.repoPath == req.repoPath
  }

  /** A spawn request whose fields all have the modelled types: `spawn`, then the queued
      `scheduleBuild`, then the reply. Only a thrown `spawn` answers 500. */
  function SpawnTyped(s: Agents.Service, c: Agents.Clock, req: Agents.SpawnRequest, repoIsDir: bool): (r: Handled)
    requires Agents.Valid(s) && |s.uuids| >= 5
    ensures Agents.Valid(r.service) && !r.response.Silent?
    ensures r.response.Answer? ==> SpawnAccepted(s, r, req)
  {
    var agentId := "agent_" + s.uuids[0];
    var sp := Agents.Spawn(s, c, req, repoIsDir);
    Agents.SpawnRegistersRun(s, c, req, repoIsDir);
    var s1 := QueueBuild(sp.service, agentId, sp.queuesBuild);
    if sp.response.None? then Handled(s1, InternalError)
    else Handled(s1, Answer(SpawnReply(sp.response.value)))
  }

  /** The `scheduleBuild` a spawn queues unless `runImmediately` is false: every run is kept. */
  function QueueBuild(s: Agents.Service, agentId: string, queues: bool): (r: Agents.Service)
    requires Agents.Valid(s)
    ensures Agents.Valid(r)
    ensures forall a :: a in s.agents ==> a in r.agents && r.agents[a].run == s.agents[a].run
    ensures !queues ==> r == s
  {
    if queues then Agents.ScheduleBuild(s, agentId) else s
  }

  /** `{accepted: true, event}` with status 200. */
  function InjectedReply(event: Json): (reply: Reply)
    ensures reply.status == 200 && Prop(reply.body, "accepted") == Some(JBool(true))
    ensures Prop(reply.body, "event") == Some(event)
  {
    Reply(200, JObj(Cons("accepted", JBool(true), Cons("event", event, []))))
  }

  /** `POST /inject` after the body guard: `type` must be truthy; the answer carries the
      injected envelope. */
  function InjectRoute(s: Agents.Service, c: Agents.Clock, body: Json): (r: Handled)
    requires Agents.Valid(s) && |s.uuids| >= 2
    ensures Agents.Valid(r.service) && !r.response.Silent?
    ensures body == JNull ==> r == Handled(s, InternalError)
    ensures body != JNull && !Defined(Prop(body, "type")) ==> r == Handled(s, Answer(ErrorReply(400, "type required")))
    ensures r.response.Answer? && r.response.reply.status == 200 ==>
      && Prop(r.response.reply.body, "accepted") == Some(JBool(true))
      && Prop(r.response.reply.body, "event").Some?
      && r.service.published == s.published + [Prop(r.response.reply.body, "event").value]
      && Prop(Prop(r.response.reply.body, "event").value, "type") == Prop(body, "type")
  {
    if body == JNull then Handled(s, InternalError)
    else if !Defined(Prop(body, "type")) then Handled(s, Answer(ErrorReply(400, "type required")))
    else
      var (s1, event) := Agents.InjectEvent(s, c, body);
      if event.None? then Handled(s1, InternalError)
      else Handled(s1, Answer(InjectedReply(event.value)))
  }

  /** The argument `resolveDecision` receives from a body whose `resolution` and `actor` are
      truthy; `notes` is absent, `null` or text. */
  function ResolutionOf(decisionId: string, body: Json): (r: Read<Agents.Resolution>)
    ensures r.Read? ==>
      && r.value.decisionId == decisionId
      && Prop(body, "resolution") == Some(JStr(r.value.resolution))
      && Prop(body, "actor") == Some(JStr(r.value.actor))
      && (r.value.notes.None? <==> Prop(body, "notes").None? || Prop(body, "notes") == Some(JNull))
      && (r.value.notes.Some? ==> Prop(body, "notes") == Some(JStr(r.value.notes.value)))
  {
    var resolution := TextOf(Prop(body, "resolution"));
    var actor := TextOf(Prop(body, "actor"));
    var notes := NullableText(Prop(body, "notes"));
    if resolution.Untyped? || actor.Untyped? || notes.Untyped? then Untyped
    else Read(Agents.Resolution(decisionId, resolution.value, actor.value, notes.value))
  }

  /** `{accepted: true, decisionId}` with status 200. */
  function ResolvedReply(decisionId: string): (reply: Reply)
    ensures reply.status == 200 && Prop(reply.body, "accepted") == Some(JBool(true))
    ensures Prop(reply.body, "decisionId") == Some(JStr(decisionId))
  {
    Reply(200, JObj(Cons("accepted", JBool(true), Cons("decisionId", JStr(decisionId), []))))
  }

  /** `POST /decisions/<id>/resolve` after the body guard: `404 decision_not_found` for an
      unknown id, which changes nothing; otherwise the decision is resolved as asked. */
  function ResolveRoute(s: Agents.Service, c: Agents.Clock, decisionId: string, body: Json): (r: Handled)
    requires Agents.Valid(s) && |s.uuids| >= 2
    ensures Agents.Valid(r.service) && !r.response.Silent?
    ensures body == JNull ==> r == Handled(s, InternalError)
    ensures body != JNull && (!Defined(Prop(body, "resolution")) || !Defined(Prop(body, "actor"))) ==>
      r == Handled(s, Answer(ErrorReply(400, "resolution and actor required")))
    ensures r.response == Answer(ErrorReply(404, "decision_not_found")) ==>
      r.service == s && decisionId !in s.hub.store.decisions
    ensures r.response.Answer? && r.response.reply.status == 200 ==>
      && ResolutionOf(decisionId, body).Read?
      && decisionId in r.service.hub.store.decisions
      && r.service.hub.store.decisions[decisionId].status == "resolved"
      && r.service.hub.store.decisions[decisionId].resolution == Some(ResolutionOf(decisionId, body).value.resolution)
      && Prop(r.response.reply.body, "decisionId") == Some(JStr(decisionId))
  {
    if body == JNull then Handled(s, InternalError)
    else if !Defined(Prop(body, "resolution")) || !Defined(Prop(body, "actor")) then
      Handled(s, Answer(ErrorReply(400, "resolution and actor required")))
    else
      var q := ResolutionOf(decisionId, body);
      if q.Untyped? then Handled(s, Unmodelled)
      else
        var (s1, row) := Agents.ResolveDecision(s, c, q.value);
        if row.None? then Handled(s1, Answer(ErrorReply(404, "decision_not_found")))
        else Handled(s1, Answer(ResolvedReply(decisionId)))
  }

  /** A guarded route once the bearer check has passed. */
  function Authorized(g: Guard, s: Agents.Service, cfg: Config, rt: Route, req: Request, c: Agents.Clock,
                      repoIsDir: bool): (r: Handled)
    requires Agents.Valid(s) && |s.uuids| >= 5 && Guarded(rt)
    ensures Agents.Valid(r.service)
    ensures r.response.Silent? ==>
      g.AsWritten? && ParseJsonBody(req.body).Parsed? && !Truthy(ParseJsonBody(req.body).value)
    ensures rt.IngestEvent? ==>
      var i := Ingest(g, s.hub, cfg.contract, c.now, req.idempotencyKey, req.body);
      r == Handled(s.(hub := i.hub), i.response)
  {
    if rt.IngestEvent? then
      var i := Ingest(g, s.hub, cfg.contract, c.now, req.idempotencyKey, req.body);
      Handled(s.(hub := i.hub), i.response)
    else
      var p := ParseJsonBody(req.body);
      var stop := BodyGuard(g, p);
      if stop.Some? then Handled(s, stop.value)
      else
        match rt
        case SpawnAgent => SpawnRoute(s, c, p.value, repoIsDir)
        case InjectEvent => InjectRoute(s, c, p.value)
        case ResolveDecision(id) => ResolveRoute(s, c, id, p.value)
  }

  /** The request handler: reads answer without the bearer check; every route that changes
      state checks it before reading the body. */
  function Handle(g: Guard, s: Agents.Service, cfg: Config, req: Request, c: Agents.Clock, repoIsDir: bool): (r: Handled)
    requires Agents.Valid(s) && |s.uuids| >= 5
    ensures Agents.Valid(r.service)
    ensures Guarded(RouteOf(req.verb, req.path)) && !IsAuthorized(req.authorization, cfg.token) ==>
      r == Handled(s, Answer(RequireBearer(req.authorization, cfg.token).value))
    ensures !Guarded(RouteOf(req.verb, req.path)) ==>
      r.service == s.(hub := r.service.hub) && r.service.hub.store == s.hub.store
    ensures r.response.Silent? ==>
      && g.AsWritten? && Guarded(RouteOf(req.verb, req.path))
      && ParseJsonBody(req.body).Parsed? && !Truthy(ParseJsonBody(req.body).value)
  {
    var rt := RouteOf(req.verb, req.path);
    if !Guarded(rt) then Unguarded(s, rt, req)
    else
      var denied := RequireBearer(req.authorization, cfg.token);
      if denied.Some? then Handled(s, Answer(denied.value))
      else Authorized(g, s, cfg, rt, req, c, repoIsDir)
  }

  /** A route that reads: it answers without the bearer check and leaves the store alone. */
  function Unguarded(s: Agents.Service, rt: Route, req: Request): (r: Handled)
    requires Agents.Valid(s) && !Guarded(rt)
    ensures Agents.Valid(r.service) && !r.response.Silent?
    ensures r.service == s.(hub := r.service.hub) && r.service.hub.store == s.hub.store
  {
    match rt
    case StreamEvents =>
      var (hub, id) := EventHub.Attach(s.hub, req.lastEventId);
      Handled(s.(hub := hub), EventStream(id))
    case ListRuns => Handled(s, AgentList(ListAgents(s.hub.store)))
    case ListDecisions => Handled(s, InternalError)
    case NotFound => Handled(s, Answer(ErrorReply(404, "not_found")))
  }

  /** Without a valid bearer token a state-changing route answers 401 whatever the body and
      the idempotency key are, and changes nothing. */
  lemma UnauthorizedIgnoresBody(g: Guard, s: Agents.Service, cfg: Config, req: Request, c: Agents.Clock,
                                repoIsDir: bool, key: Option<string>, body: BodyText)
    requires Agents.Valid(s) && |s.uuids| >= 5
    requires Guarded(RouteOf(req.verb, req.path)) && !IsAuthorized(req.authorization, cfg.token)
    ensures var r := Handle(g, s, cfg, req, c, repoIsDir);
      && r == Handle(g, s, cfg, req.(idempotencyKey := key, body := body), c, repoIsDir)
      && r.service == s && r.response.Answer? && r.response.reply.status == 401
  {
  }

  /** As written, an authorized `POST /spawn` whose body is the JSON text `null` is never
      answered: the guard meant for a failed parse also stops on a falsy value. */
  lemma NullSpawnBodyUnanswered(s: Agents.Service, cfg: Config, c: Agents.Clock, repoIsDir: bool, header: string)
    requires Agents.Valid(s) && |s.uuids| >= 5 && IsAuthorized(Some(header), cfg.token)
    ensures Handle(AsWritten, s, cfg, Request("POST", "/spawn", Some(header), None, None, JsonBody(JNull)), c, repoIsDir)
      == Handled(s, Silent)
  {
  }

  /** With the guard stopping only on a failed parse, every request is answered; a falsy
      body on `POST /spawn` gets the 500 of reading a field of `null`, or the missing-field
      400. */
  lemma EveryRequestAnswered(s: Agents.Service, cfg: Config, req: Request, c: Agents.Clock, repoIsDir: bool)
    requires Agents.Valid(s) && |s.uuids| >= 5
    ensures !Handle(Corrected, s, cfg, req, c, repoIsDir).response.Silent?
    ensures RouteOf(req.verb, req.path).SpawnAgent? && IsAuthorized(req.authorization, cfg.token)
            && req.body.JsonBody? && !Truthy(req.body.value) ==>
      Handle(Corrected, s, cfg, req, c, repoIsDir).response ==
        if req.body.value == JNull then InternalError
        else Answer(ErrorReply(400, "task and repoPath are required"))
  {
  }

  /** `GET /decisions` calls a store method that `server/src/db.js` does not define: the
      call throws, the catch-all answers 500, and nothing changes. */
  lemma DecisionsListingFails(g: Guard, s: Agents.Service, cfg: Config, req: Request, c: Agents.Clock,
                              repoIsDir: bool)
    requires Agents.Valid(s) && |s.uuids| >= 5
    requires req.verb == "GET" && req.path == "/decisions"
    ensures Handle(g, s, cfg, req, c, repoIsDir) == Handled(s, InternalError)
  {
  }

  /** `GET /agents` lists every stored run once, newest start first, and changes nothing. */
  lemma ListedAgentsSorted(g: Guard, s: Agents.Service, cfg: Config, req: Request, c: Agents.Clock, repoIsDir: bool)
    requires Agents.Valid(s) && |s.uuids| >= 5
    requires req.verb == "GET" && req.path == "/agents"
    ensures var r := Handle(g, s, cfg, req, c, repoIsDir);
      && r.service == s && r.response.AgentList?
      && StartDescending(r.response.runs) && multiset(r.response.runs) == multiset(s.hub.store.runs)
  {
  }

  /** `GET /events` attaches one connection, positioned by the `Last-Event-ID` header, and
      changes nothing else. */
  lemma StreamAttaches(g: Guard, s: Agents.Service, cfg: Config, req: Request, c: Agents.Clock, repoIsDir: bool)
    requires Agents.Valid(s) && |s.uuids| >= 5
    requires req.verb == "GET" && req.path == "/events"
    ensures var r := Handle(g, s, cfg, req, c, repoIsDir);
      && r.response == EventStream(|s.hub.clients|)
      && r.service == s.(hub := s.hub.(clients := s.hub.clients + [EventHub.Connect(s.hub.store, req.lastEventId)]))
  {
  }
}


=== FILE: sse.dfy ===
/** The dashboard's event-stream client in `src/lib/controlPlane.js`: the incremental parser
    `parseSseChunk` (the line rules of section 9.2.6 of the WHATWG HTML Living Standard,
    "Interpreting an event stream", as this client implements them), the `lastEventId` rule
    of the message callback, and the reconnect backoff. Chunks are given as decoded text. */
module Sse {
  import opened Wrappers
  import opened Text
  import opened Json
  import Db
  import EventHub

  /** The message being assembled: `{id, event, data}` with the data lines so far. */
  datatype Pending = Pending(id: Option<string>, event: string, data: seq<string>)

  /** A dispatched message: the data lines joined with `\n`. */
  datatype Message = Message(id: Option<string>, event: string, data: string)

  /** The parser state: the unterminated text and the message being assembled. */
  datatype Parser = Parser(buffer: string, pending: Pending)

  const Fresh: Pending := Pending(None, "message", [])

  const Initial: Parser := Parser("", Fresh)

  /** The field name of a line: the text before its first `:`, or the whole line. */
  function FieldOf(line: string): (field: string)
    ensures ':' !in field && StartsWith(line, field)
  {
    var i := IndexOf(line, ':');
    if i < 0 then line else line[..i]
  }

  /** The value of a line: the text after its first `:` with all leading whitespace trimmed,
      or empty when there is no `:`. */
  function ValueOf(line: string): (value: string)
    ensures ':' !in line ==> value == ""
    ensures |value| > 0 ==> !IsJsWhitespace(value[0])
  {
    var i := IndexOf(line, ':');
    if i < 0 then "" else TrimStart(line[i + 1..])
  }

  /** The message a blank line dispatches. */
  function Dispatch(p: Pending): (m: Message)
    ensures m.id == p.id && m.event == p.event
  {
    Message(p.id, p.event, JoinWith(p.data, '\n'))
  }

  /** One complete line: a blank line dispatches the message if it has data and starts a
      fresh one; a comment does nothing; `event`, `data` and `id` set their part and every
      other field is ignored. */
  function ProcessLine(p: Pending, line: string): (r: (Pending, seq<Message>))
    ensures line == "" ==> r.0 == Fresh && r.1 == (if |p.data| > 0 then [Dispatch(p)] else [])
    ensures line != "" ==> r.1 == []
    ensures line != "" && line[0] == ':' ==> r.0 == p
    ensures |r.0.data| >= (if line == "" then 0 else |p.data|)
  {
    if line == "" then (Fresh, if |p.data| > 0 then [Dispatch(p)] else [])
    else if line[0] == ':' then (p, [])
    else
      var field := FieldOf(line);
      var value := ValueOf(line);
      if field == "event" then (p.(event := if value == "" then "message" else value), [])
      else if field == "data" then (p.(data := p.data + [value]), [])
      else if field == "id" then (p.(id := Some(value)), [])
      else (p, [])
  }

  /** The complete lines of one call, in order. */
  function ProcessLines(p: Pending, lines: seq<string>): (r: (Pending, seq<Message>))
    ensures (forall k :: 0 <= k < |lines| ==> lines[k] != "") ==> r.1 == []
    ensures |r.1| <= |lines|
    decreases |lines|
  {
    if |lines| == 0 then (p, [])
    else
      var first := ProcessLine(p, lines[0]);
      var rest := ProcessLines(first.0, lines[1..]);
      (rest.0, first.1 + rest.1)
  }

  /** The state and messages after the complete lines of `lines` (all but the last), with
      the last kept as the buffer. */
  function Feed(p: Pending, lines: seq<string>): (r: (Parser, seq<Message>))
    requires |lines| >= 1
    ensures r.0.buffer == lines[|lines| - 1]
  {
    var done := ProcessLines(p, lines[..|lines| - 1]);
    (Parser(lines[|lines| - 1], done.0), done.1)
  }

  /** `parseSseChunk(chunk, state, onMessage)`: the messages passed to `onMessage`, in order,
      and the state afterwards. The buffer keeps exactly the text after the last `\n`. */
  function ParseChunk(st: Parser, chunk: string): (r: (Parser, seq<Message>))
    ensures IsLineTail(st.buffer + chunk, r.0.buffer)
    ensures '\n' !in st.buffer + chunk ==> r == (Parser(st.buffer + chunk, st.pending), [])
  {
    SplitLinesLast(st.buffer + chunk);
    Feed(st.pending, SplitLines(st.buffer + chunk))
  }

  /** Processing `xs + ys` is processing `xs`, then `ys` from where it left off. */
  lemma {:induction false} ProcessLinesAppend(p: Pending, xs: seq<string>, ys: seq<string>)
    ensures var (q, out1) := ProcessLines(p, xs); var (end, out2) := ProcessLines(q, ys);
      ProcessLines(p, xs + ys) == (end, out1 + out2)
    decreases |xs|
  {
    if |xs| > 0 {
      assert (xs + ys)[0] == xs[0];
      assert (xs + ys)[1..] == xs[1..] + ys;
      var (q, o) := ProcessLine(p, xs[0]);
      ProcessLinesAppend(q, xs[1..], ys);
      var (mid, o1) := ProcessLines(q, xs[1..]);
      var (end, o2) := ProcessLines(mid, ys);
      assert ProcessLines(p, xs) == (mid, o + o1);
      assert ProcessLines(p, xs + ys) == (end, o + (o1 + o2));
      assert o + (o1 + o2) == (o + o1) + o2;
    } else {
      assert xs + ys == ys;
      var (end, out2) := ProcessLines(p, ys);
      assert [] + out2 == out2;
    }
  }

  /** Feeding the complete lines of `ls` and then `ls2` is feeding them all at once. */
  lemma FeedCompose(p: Pending, ls: seq<string>, ls2: seq<string>)
    requires |ls| >= 1 && |ls2| >= 1
    ensures var first := Feed(p, ls); var second := Feed(first.0.pending, ls2);
      Feed(p, ls[..|ls| - 1] + ls2) == (second.0, first.1 + second.1)
  {
    var all := ls[..|ls| - 1] + ls2;
    assert all[..|all| - 1] == ls[..|ls| - 1] + ls2[..|ls2| - 1];
    assert all[|all| - 1] == ls2[|ls2| - 1];
    ProcessLinesAppend(p, ls[..|ls| - 1], ls2[..|ls2| - 1]);
  }

  /** Feeding lines continued by `t` is feeding the lines, then the last one followed by `t`. */
  lemma FeedContinue(p: Pending, ls: seq<string>, t: string)
    requires |ls| >= 1
    ensures var first := Feed(p, ls); var second := Feed(first.0.pending, SplitLines(ls[|ls| - 1] + t));
      Feed(p, Continue(ls, t)) == (second.0, first.1 + second.1)
  {
    FeedCompose(p, ls, SplitLines(ls[|ls| - 1] + t));
  }

  /** Feeding `s1` then `s2` dispatches the same messages, and ends in the same state, as
      feeding `s1 + s2`: where the transport cuts the stream does not matter. */
  lemma ChunksCompose(st: Parser, s1: string, s2: string)
    ensures var first := ParseChunk(st, s1); var second := ParseChunk(first.0, s2);
      ParseChunk(st, s1 + s2) == (second.0, first.1 + second.1)
  {
    var text := st.buffer + s1;
    assert st.buffer + (s1 + s2) == text + s2;
    SplitLinesAppend(text, s2);
    FeedContinue(st.pending, SplitLines(text), s2);
  }

  /** The chunks of a stream, fed one after another. */
  function ParseChunks(st: Parser, chunks: seq<string>): (r: (Parser, seq<Message>))
    decreases |chunks|
  {
    if |chunks| == 0 then (st, [])
    else
      var first := ParseChunk(st, chunks[0]);
      var rest := ParseChunks(first.0, chunks[1..]);
      (rest.0, first.1 + rest.1)
  }

  /** The text of a sequence of chunks. */
  function Concat(chunks: seq<string>): string
    decreases |chunks|
  {
    if |chunks| == 0 then "" else chunks[0] + Concat(chunks[1..])
  }

  /** Any cut of a stream into chunks parses like the whole stream in one chunk. */
  lemma {:induction false} AnyChunking(st: Parser, chunks: seq<string>)
    requires '\n' !in st.buffer
    ensures ParseChunks(st, chunks) == ParseChunk(st, Concat(chunks))
    decreases |chunks|
  {
    if |chunks| == 0 {
      assert st.buffer + "" == st.buffer;
    } else {
      var (mid, _) := ParseChunk(st, chunks[0]);
      AnyChunking(mid, chunks[1..]);
      ChunksCompose(st, chunks[0], Concat(chunks[1..]));
    }
  }

  /** Joined data splits back into its lines when no line holds a `\n`; the lines of a chunk
      never do. */
  lemma DataLinesRecovered(p: Pending)
    requires |p.data| >= 1 && forall i :: 0 <= i < |p.data| ==> '\n' !in p.data[i]
    ensures SplitOn(Dispatch(p).data, '\n') == p.data
  {
    SplitJoin(p.data, '\n');
  }

  // ---------------------------------------------------------------- the server's frames

  /** `name: value`, the line form of one field. */
  function FieldLine(name: string, value: string): string {
    name + ": " + value
  }

  /** A field line is read back as its name and value when the name has no `:` and the
      value does not start with whitespace. */
  lemma FieldLineRoundTrip(name: string, value: string)
    requires ':' !in name && (value == "" || !IsJsWhitespace(value[0]))
    ensures FieldOf(FieldLine(name, value)) == name && ValueOf(FieldLine(name, value)) == value
  {
    var line := FieldLine(name, value);
    assert line == name + [':'] + (" " + value);
    IndexOfAfter(name, ':', " " + value);
    assert line[..|name|] == name;
    assert line[|name| + 1..] == " " + value;
    assert (" " + value)[1..] == value;
  }

  /** A text that can stand as an `event` value: one line, not empty, and not starting with
      whitespace (which the parser would trim). */
  predicate EventName(t: string) {
    t != "" && NoLineBreak(t) && !IsJsWhitespace(t[0])
  }

  lemma LineNoCR(line: string)
    requires NoLineBreak(line)
    ensures DropCR(line) == line && '\n' !in line
  {
  }

  /** A field line has no line break when its name and value have none. */
  lemma FieldLineNoBreak(name: string, value: string)
    requires NoLineBreak(name) && NoLineBreak(value)
    ensures NoLineBreak(FieldLine(name, value))
  {
    NoLineBreakConcat(name, ": ");
    NoLineBreakConcat(name + ": ", value);
  }

  /** A `\n` alone is two empty lines. */
  lemma NewlineLines()
    ensures SplitLines("\n") == ["", ""]
  {
    assert "" + "\n" + "" == "\n";
    SplitLinesCons("", "");
  }

  /** A line without a line break, then `\n`, is that line ahead of the lines of the rest. */
  lemma ConsLine(l: string, rest: string)
    requires NoLineBreak(l)
    ensures SplitLines(l + "\n" + rest) == [l] + SplitLines(rest)
  {
    LineNoCR(l);
    SplitLinesCons(l, rest);
  }

  lemma Prepend3<T>(a: T, b: T, c: T, tail: seq<T>)
    ensures [a] + ([b] + ([c] + tail)) == [a, b, c] + tail
  {
  }

  lemma Take4<T>(a: T, b: T, c: T, d: T, e: T)
    ensures [a, b, c, d, e][..4] == [a] + ([b] + ([c] + [d])) && [a, b, c, d, e][4] == e
  {
  }

  /** Three lines closed by a blank line split into those lines, the blank one and the
      empty remainder. */
  lemma ThreeLines(l1: string, l2: string, l3: string)
    requires NoLineBreak(l1) && NoLineBreak(l2) && NoLineBreak(l3)
    ensures SplitLines(l1 + "\n" + (l2 + "\n" + (l3 + "\n" + "\n"))) == [l1, l2, l3, "", ""]
  {
    var t3 := l3 + "\n" + "\n";
    var t2 := l2 + "\n" + t3;
    NewlineLines();
    ConsLine(l3, "\n");
    ConsLine(l2, t3);
    ConsLine(l1, t2);
    Prepend3(l1, l2, l3, ["", ""]);
  }

  /** The hub's frame is its three field lines and a blank line. */
  lemma FrameShape(n: string, t: string, d: string)
    ensures "id: " + n + "\n" + "event: " + t + "\ndata: " + d + "\n\n"
      == FieldLine("id", n) + "\n" + (FieldLine("event", t) + "\n" + (FieldLine("data", d) + "\n" + "\n"))
  {
  }

  lemma ProcessLinesStep(p: Pending, l: string, ls: seq<string>)
    ensures var first := ProcessLine(p, l); var rest := ProcessLines(first.0, ls);
      ProcessLines(p, [l] + ls) == (rest.0, first.1 + rest.1)
  {
    assert ([l] + ls)[0] == l;
    assert ([l] + ls)[1..] == ls;
  }

  /** An `id`, `event` or `data` line sets that part of the message and dispatches nothing. */
  lemma FieldStep(p: Pending, name: string, value: string)
    requires name in {"id", "event", "data"}
    requires value == "" || !IsJsWhitespace(value[0])
    ensures ProcessLine(p, FieldLine(name, value)).1 == []
    ensures name == "id" ==> ProcessLine(p, FieldLine(name, value)).0 == p.(id := Some(value))
    ensures name == "event" && value != "" ==> ProcessLine(p, FieldLine(name, value)).0 == p.(event := value)
    ensures name == "data" ==> ProcessLine(p, FieldLine(name, value)).0 == p.(data := p.data + [value])
  {
    FieldLineRoundTrip(name, value);
    assert FieldLine(name, value)[0] == name[0];
  }

  /** A blank line after one data line dispatches that line as the data. */
  lemma BlankLineDispatches(p: Pending)
    requires |p.data| == 1
    ensures ProcessLines(p, [""]) == (Fresh, [Message(p.id, p.event, p.data[0])])
  {
    assert [""][1..] == [];
    assert JoinWith(p.data, '\n') == p.data[0];
    var out := [Message(p.id, p.event, p.data[0])];
    assert ProcessLine(p, "") == (Fresh, out);
    assert ProcessLines(Fresh, []) == (Fresh, []);
    assert out + [] == out;
  }

  /** The field lines of a frame and its blank line dispatch one message and leave the
      message fresh. */
  lemma FrameFields(n: string, t: string, d: string)
    requires t != "" && !IsJsWhitespace(t[0])
    requires n == "" || !IsJsWhitespace(n[0])
    requires d == "" || !IsJsWhitespace(d[0])
    ensures ProcessLines(Fresh, [FieldLine("id", n)] + ([FieldLine("event", t)] + ([FieldLine("data", d)] + [""])))
      == (Fresh, [Message(Some(n), t, d)])
  {
    var p1 := Fresh.(id := Some(n));
    var p2 := p1.(event := t);
    var p3 := p2.(data := [d]);
    FieldStep(Fresh, "id", n);
    FieldStep(p1, "event", t);
    FieldStep(p2, "data", d);
    assert p2.data + [d] == [d];
    BlankLineDispatches(p3);
    var m := [Message(Some(n), t, d)];
    ProcessLinesStep(p2, FieldLine("data", d), [""]);
    assert ProcessLines(p2, [FieldLine("data", d)] + [""]) == (Fresh, [] + m);
    ProcessLinesStep(p1, FieldLine("event", t), [FieldLine("data", d)] + [""]);
    assert ProcessLines(p1, [FieldLine("event", t)] + ([FieldLine("data", d)] + [""])) == (Fresh, [] + ([] + m));
    ProcessLinesStep(Fresh, FieldLine("id", n), [FieldLine("event", t)] + ([FieldLine("data", d)] + [""]));
    assert [] + ([] + ([] + m)) == m;
  }

  /** The JSON text of an object starts with `{`. */
  lemma ObjectTextOpens(v: Json)
    requires v.JObj?
    ensures Stringify(v) != "" && Stringify(v)[0] == '{'
  {
    assert Stringify(v) == "{" + StringifyMembers(v, 0) + "}";
  }

  /** The frame of the hub for `event`, in field-line form. */
  lemma FrameText(seqNo: nat, event: Json)
    requires Prop(event, "type").Some? && Prop(event, "type").value.JStr?
    ensures var t := Prop(event, "type").value.s;
      "" + EventHub.ToSseFrame(seqNo, event) == FieldLine("id", NatToString(seqNo)) + "\n" +
        (FieldLine("event", t) + "\n" + (FieldLine("data", Stringify(event)) + "\n" + "\n"))
  {
    var t := Prop(event, "type").value.s;
    var f := EventHub.ToSseFrame(seqNo, event);
    assert f == "id: " + NatToString(seqNo) + "\n" + "event: " + t + "\ndata: " + Stringify(event) + "\n\n";
    FrameShape(NatToString(seqNo), t, Stringify(event));
    assert "" + f == f;
  }

  /** An envelope whose frame the client reads back unchanged: well formed, with a one-line
      text `type`. */
  predicate Framable(event: Json) {
    && WellFormed(event)
    && Prop(event, "type").Some? && Prop(event, "type").value.JStr?
    && EventName(Prop(event, "type").value.s)
  }

  /** The lines of a hub frame: its three field lines, the blank line and the empty
      remainder. */
  lemma FrameLines(seqNo: nat, event: Json)
    requires Framable(event)
    ensures "" + EventHub.ToSseFrame(seqNo, event) == Initial.buffer + EventHub.ToSseFrame(seqNo, event)
    ensures SplitLines("" + EventHub.ToSseFrame(seqNo, event)) ==
      [FieldLine("id", NatToString(seqNo)), FieldLine("event", Prop(event, "type").value.s),
       FieldLine("data", Stringify(event)), "", ""]
  {
    var n := NatToString(seqNo);
    var t := Prop(event, "type").value.s;
    var d := Stringify(event);
    NatToStringNoLineBreak(seqNo);
    StringifyNoLineBreak(event);
    FieldLineNoBreak("id", n);
    FieldLineNoBreak("event", t);
    FieldLineNoBreak("data", d);
    FrameText(seqNo, event);
    ThreeLines(FieldLine("id", n), FieldLine("event", t), FieldLine("data", d));
  }

  /** A frame of the hub, parsed from a fresh state, dispatches exactly one message: the
      sequence number as its id, the event type as its name and the envelope's JSON text as
      its data; the state is fresh again. */
  lemma FrameRoundTrip(seqNo: nat, event: Json)
    requires Framable(event)
    ensures ParseChunk(Initial, EventHub.ToSseFrame(seqNo, event)) ==
      (Initial, [Message(Some(NatToString(seqNo)), Prop(event, "type").value.s, Stringify(event))])
  {
    var n := NatToString(seqNo);
    var t := Prop(event, "type").value.s;
    var d := Stringify(event);
    ObjectTextOpens(event);
    assert IsDigit(n[0]);
    FrameLines(seqNo, event);
    Take4(FieldLine("id", n), FieldLine("event", t), FieldLine("data", d), "", "");
    FrameFields(n, t, d);
  }

  /** The lines of the `: connected` comment: the comment, a blank line and the empty
      remainder. */
  lemma CommentLines()
    ensures SplitLines(Initial.buffer + EventHub.ConnectedComment) == [": connected"] + ["", ""]
  {
    var c := ": connected";
    assert Initial.buffer + EventHub.ConnectedComment == c + "\n" + "\n";
    NewlineLines();
    ConsLine(c, "\n");
  }

  lemma Take2<T>(a: T, b: T, c: T)
    ensures ([a] + [b, c])[..2] == [a] + [b] && ([a] + [b, c])[2] == c
  {
  }

  /** The `: connected` comment sent on attach dispatches nothing and leaves the state fresh. */
  lemma ConnectedCommentSilent()
    ensures ParseChunk(Initial, EventHub.ConnectedComment) == (Initial, [])
  {
    var c := ": connected";
    CommentLines();
    Take2(c, "", "");
    ProcessLinesStep(Fresh, c, [""]);
    assert ProcessLine(Fresh, c) == (Fresh, []);
    assert [""][1..] == [];
    assert ProcessLines(Fresh, [""]) == (Fresh, []);
  }

  /** The message the client reads from the frame of a stored row. */
  function RowMessage(row: Db.EventRow): (m: Message)
    requires Framable(row.envelope)
    ensures m.id == Some(NatToString(row.seqNo)) && m.data == Stringify(row.envelope)
  {
    Message(Some(NatToString(row.seqNo)), Prop(row.envelope, "type").value.s, Stringify(row.envelope))
  }

  function RowMessages(rows: seq<Db.EventRow>): (ms: seq<Message>)
    requires forall i :: 0 <= i < |rows| ==> Framable(rows[i].envelope)
    ensures |ms| == |rows|
  {
    seq(|rows|, i requires 0 <= i < |rows| => RowMessage(rows[i]))
  }

  lemma RowMessagesCons(rows: seq<Db.EventRow>)
    requires |rows| > 0 && forall i :: 0 <= i < |rows| ==> Framable(rows[i].envelope)
    ensures RowMessages(rows) == [RowMessage(rows[0])] + RowMessages(rows[1..])
  {
  }

  /** The replayed frames of stored rows, sent one after the other, parse into one message
      per row, in order. */
  lemma {:induction false} ReplayParses(rows: seq<Db.EventRow>)
    requires forall i :: 0 <= i < |rows| ==> Framable(rows[i].envelope)
    ensures ParseChunks(Initial, EventHub.RowFrames(rows)) == (Initial, RowMessages(rows))
    decreases |rows|
  {
    if |rows| > 0 {
      var frames := EventHub.RowFrames(rows);
      assert frames[1..] == EventHub.RowFrames(rows[1..]);
      FrameRoundTrip(rows[0].seqNo, rows[0].envelope);
      ReplayParses(rows[1..]);
      RowMessagesCons(rows);
    }
  }

  /** However the transport cuts the replayed frames into chunks, the client reads exactly one
      message per row, in order, and ends with no partial message. */
  lemma ReplayAnyChunking(rows: seq<Db.EventRow>, chunks: seq<string>)
    requires forall i :: 0 <= i < |rows| ==> Framable(rows[i].envelope)
    requires Concat(chunks) == Concat(EventHub.RowFrames(rows))
    ensures ParseChunks(Initial, chunks) == (Initial, RowMessages(rows))
  {
    AnyChunking(Initial, chunks);
    AnyChunking(Initial, EventHub.RowFrames(rows));
    ReplayParses(rows);
  }

  // ---------------------------------------------------------------- the message callback

  /** What the callback does with a message: hands an envelope on, drops it, or reports that
      its data is not JSON. */
  datatype Delivery = Delivered(envelope: Json) | Dropped | Unparsable

  /** The callback of `subscribeToEvents` for a message, with `parsed` the result of
      `JSON.parse(message.data)` (`None` when it throws). A truthy message id becomes the last
      event id; a message without data, or a heartbeat, goes no further; a parsed envelope
      with a truthy `id` makes that id the last event id, in its text form. */
  function Deliver(last: Option<string>, m: Message, parsed: Option<Json>): (r: (Option<string>, Delivery))
    ensures m.data == "" || m.event == "heartbeat" ==> r.1 == Dropped
    ensures r.1.Delivered? <==> m.data != "" && m.event != "heartbeat" && parsed.Some?
    ensures r.1.Unparsable? <==> m.data != "" && m.event != "heartbeat" && parsed.None?
    ensures r.1.Delivered? ==> r.1.envelope == parsed.value
    ensures !(r.1.Delivered? && Defined(Prop(parsed.value, "id"))) ==>
      r.0 == (if m.id.Some? && m.id.value != "" then m.id else last)
    ensures r.1.Delivered? && Defined(Prop(parsed.value, "id")) ==>
      r.0 == Some(JsString(Prop(parsed.value, "id").value))
  {
    var framed := if m.id.Some? && m.id.value != "" then m.id else last;
    if m.data == "" || m.event == "heartbeat" then (framed, Dropped)
    else if parsed.None? then (framed, Unparsable)
    else
      var envelope := parsed.value;
      var id := Prop(envelope, "id");
      (if Defined(id) then Some(JsString(id.value)) else framed, Delivered(envelope))
  }

  /** A hub frame reaches the callback as its envelope; the last event id becomes the
      envelope's own truthy id in text form, or else the frame's sequence number, which the
      hub reads back as that sequence number on reconnect. */
  lemma FrameDelivered(last: Option<string>, seqNo: nat, event: Json)
    requires Framable(event) && Prop(event, "type").value.s != "heartbeat"
    ensures var ms := ParseChunk(Initial, EventHub.ToSseFrame(seqNo, event)).1;
      && |ms| == 1
      && var r := Deliver(last, ms[0], Some(event));
      && r.1 == Delivered(event)
      && r.0 == (if Defined(Prop(event, "id")) then Some(JsString(Prop(event, "id").value)) else Some(NatToString(seqNo)))
  {
    var m := Message(Some(NatToString(seqNo)), Prop(event, "type").value.s, Stringify(event));
    FrameRoundTrip(seqNo, event);
    assert ParseChunk(Initial, EventHub.ToSseFrame(seqNo, event)).1[0] == m;
    ObjectTextOpens(event);
    assert NatToString(seqNo) != "";
  }

  /** A heartbeat never reaches `onEnvelope` and never moves the last event id. */
  lemma HeartbeatIgnored(last: Option<string>, timestamp: string, parsed: Option<Json>)
    ensures var m := Message(None, "heartbeat", Stringify(JObj([Member("timestamp", JStr(timestamp))])));
      Deliver(last, m, parsed) == (last, Dropped)
  {
  }

  // ---------------------------------------------------------------- reconnecting

  /** The waits between reconnect attempts. */
  const RetryDelaysMs: seq<int> := [500, 1000, 2000, 5000]

  /** `RETRY_DELAYS_MS[Math.min(attempt, RETRY_DELAYS_MS.length - 1)]`. */
  function Backoff(attempt: nat): (ms: int)
    ensures ms in RetryDelaysMs && 500 <= ms <= 5000
    ensures attempt >= |RetryDelaysMs| - 1 ==> ms == 5000
  {
    RetryDelaysMs[if attempt < |RetryDelaysMs| - 1 then attempt else |RetryDelaysMs| - 1]
  }

  /** Later attempts never wait less. */
  lemma BackoffMonotone(a: nat, b: nat)
    requires a <= b
    ensures Backoff(a) <= Backoff(b)
  {
  }

  /** The reconnect loop: each pass either opened the stream before it failed, which resets
      the attempt count, or failed to connect; either way it waits `Backoff(attempt)` and
      counts one more attempt. */
  function Waits(attempt: nat, connected: seq<bool>): (r: seq<int>)
    ensures |r| == |connected|
    ensures forall i :: 0 <= i < |r| ==> 500 <= r[i] <= 5000
    decreases |connected|
  {
    if |connected| == 0 then []
    else
      var a := if connected[0] then 0 else attempt;
      [Backoff(a)] + Waits(a + 1, connected[1..])
  }

  /** The state reported before a connection attempt. */
  function ConnectingState(attempt: nat): (state: string)
    ensures state == "connecting" <==> attempt == 0
  {
    if attempt > 0 then "reconnecting" else "connecting"
  }

  /** Consecutive failed connections wait 500, 1000, 2000 and then 5000 ms each time. */
  lemma {:induction false} FailuresBackOff(attempt: nat, connected: seq<bool>)
    requires forall i :: 0 <= i < |connected| ==> !connected[i]
    ensures forall i :: 0 <= i < |connected| ==> Waits(attempt, connected)[i] == Backoff(attempt + i)
    decreases |connected|
  {
    if |connected| > 0 {
      FailuresBackOff(attempt + 1, connected[1..]);
      var w := Waits(attempt, connected);
      assert w == [Backoff(attempt)] + Waits(attempt + 1, connected[1..]);
      forall i | 0 <= i < |connected|
        ensures w[i] == Backoff(attempt + i)
      {
        if i > 0 {
          assert w[i] == Waits(attempt + 1, connected[1..])[i - 1];
        }
      }
    }
  }

  /** A pass that opened the stream waits the shortest delay, however many failures came
      before it. */
  lemma OpenedResets(attempt: nat, connected: seq<bool>)
    requires |connected| >= 1 && connected[0]
    ensures Waits(attempt, connected)[0] == 500
  {
  }
}


=== FILE: store.dfy ===
/** The durable store of `server/src/db.js` as an immutable value: the event log with its
    never-reused sequence counter (the `AUTOINCREMENT` key of `event_log`), the idempotency
    records, the decisions and the agent runs. `Date.now()` is the parameter `now`; envelopes,
    responses and payloads are kept as JSON values, so a `JSON.stringify`/`JSON.parse` pair
    is the identity. */
module Db {
  import opened Wrappers
  import opened Text
  import opened Json

  const MsPerDay: int := 24 * 60 * 60 * 1000
  /** Events older than seven days are dropped before every insert. */
  const EventRetentionMs: int := 7 * MsPerDay
  /** The default page size of `getEventsAfter`. */
  const DefaultPageLimit: nat := 500
  /** The default age limit of `pruneIdempotency`. */
  const DefaultIdempotencyMaxAgeMs: int := 10 * 60 * 1000

  datatype EventRow = EventRow(
    seqNo: nat,
    eventId: string,
    correlationId: string,
    eventType: string,
    agentId: Option<string>,
    createdAt: int,
    envelope: Json)

  datatype IdempotencyRecord = IdempotencyRecord(response: Json, createdAt: int)

  datatype Decision = Decision(
    id: string,
    correlationId: string,
    agentId: Option<string>,
    status: string,
    reasonCode: Option<string>,
    resolution: Option<string>,
    actor: Option<string>,
    notes: Option<string>,
    payload: Json,
    createdAt: int,
    updatedAt: int,
    resolvedAt: Option<int>)

  datatype AgentRun = AgentRun(
    agentId: string,
    task: string,
    status: string,
    repoPath: string,
    branch: string,
    priority: Option<string>,
    correlationId: string,
    metadata: Json,
    startedAt: int,
    endedAt: Option<int>)

  /** The four tables. `runs` is in insertion order; `nextSeq` is the next value the
      `AUTOINCREMENT` key hands out. */
  datatype Store = Store(
    log: seq<EventRow>,
    nextSeq: nat,
    idempotency: map<string, IdempotencyRecord>,
    decisions: map<string, Decision>,
    runs: seq<AgentRun>)

  /** The empty store of a fresh database. */
  function EmptyStore(): (s: Store)
    ensures Valid(s) && |s.log| == 0 && |s.runs| == 0
  {
    Store([], 1, map[], map[], [])
  }

  // ---------------------------------------------------------------- invariants

  /** Log rows in strictly ascending seq order. */
  predicate Ascending(rows: seq<EventRow>) {
    forall i, j :: 0 <= i < j < |rows| ==> rows[i].seqNo < rows[j].seqNo
  }

  predicate UniqueAgents(runs: seq<AgentRun>) {
    forall i, j :: 0 <= i < j < |runs| ==> runs[i].agentId != runs[j].agentId
  }

  /** What the table constraints guarantee: seqs are positive, ascending and below the
      counter; each agent id and decision id names one row. */
  predicate Valid(s: Store) {
    && s.nextSeq >= 1
    && Ascending(s.log)
    && (forall i :: 0 <= i < |s.log| ==> 1 <= s.log[i].seqNo < s.nextSeq)
    && UniqueAgents(s.runs)
    && (forall id :: id in s.decisions ==> s.decisions[id].id == id)
  }

  // ---------------------------------------------------------------- event log

  /** In ascending rows the head comes before every row drawn from the tail. */
  lemma HeadBeforeAll(rows: seq<EventRow>, rest: seq<EventRow>)
    requires |rows| > 0 && forall row :: row in rest ==> row in rows[1..]
    ensures Ascending(rows) ==> forall k :: 0 <= k < |rest| ==> rows[0].seqNo < rest[k].seqNo
  {
    if Ascending(rows) {
      forall k | 0 <= k < |rest|
        ensures rows[0].seqNo < rest[k].seqNo
      {
        assert rest[k] in rows[1..];
      }
    }
  }

  /** The rows kept by a `DELETE ... WHERE created_at < cutoff`, in their order. */
  function KeepFrom(rows: seq<EventRow>, cutoff: int): (r: seq<EventRow>)
    ensures forall row :: row in r <==> row in rows && row.createdAt >= cutoff
    ensures |r| <= |rows|
    ensures Ascending(rows) ==> Ascending(r)
    decreases |rows|
  {
    if |rows| == 0 then []
    else
      var rest := KeepFrom(rows[1..], cutoff);
      assert forall row :: row in rows <==> row == rows[0] || row in rows[1..];
      if rows[0].createdAt >= cutoff then
        HeadBeforeAll(rows, rest);
        [rows[0]] + rest
      else rest
  }

  /** `pruneOldEvents()` at `now`: exactly the rows older than seven days go. */
  function PruneOldEvents(s: Store, now: int): (r: Store)
    ensures forall row :: row in r.log <==> row in s.log && row.createdAt >= now - EventRetentionMs
    ensures r.nextSeq == s.nextSeq
    ensures r == s.(log := r.log)
    ensures Valid(s) ==> Valid(r)
  {
    var log := KeepFrom(s.log, now - EventRetentionMs);
    assert forall i :: 0 <= i < |log| ==> log[i] in s.log;
    s.(log := log)
  }

  /** The text a bound parameter leaves in a `TEXT` column: strings as they are, numbers as
      their decimal text. Other values cannot be bound and make the statement throw. */
  function ColumnText(v: Json): Option<string> {
    match v
    case JStr(t) => Some(t)
    case JNum(Int(i)) => Some(IntToString(i))
    case JNum(Frac(t)) => Some(t)
    case _ => None
  }

  /** `event.<key>` as column text. */
  function ColumnProp(event: Json, key: string): Option<string> {
    match Prop(event, key)
    case Some(v) => ColumnText(v)
    case None => None
  }

  /** `event.agentId ?? null`: absent and `null` both store `NULL`. */
  predicate AgentIdBindable(event: Json) {
    Prop(event, "agentId").None? || Prop(event, "agentId") == Some(JNull)
    || ColumnProp(event, "agentId").Some?
  }

  /** The insert succeeds when `id`, `correlationId` and `type` fill their `NOT NULL` text
      columns and `agentId` is absent, `null` or bindable. */
  predicate Insertable(event: Json) {
    && ColumnProp(event, "id").Some?
    && ColumnProp(event, "correlationId").Some?
    && ColumnProp(event, "type").Some?
    && AgentIdBindable(event)
  }

  /** `insertEvent(event)` at `now`: prune, then append a row under the next seq. */
  function InsertEvent(s: Store, now: int, event: Json): (r: (Store, nat))
    requires Insertable(event)
    ensures var (t, n) := r;
      && n == s.nextSeq && t.nextSeq == n + 1
      && |t.log| >= 1 && t.log[|t.log| - 1].seqNo == n && t.log[|t.log| - 1].envelope == event
      && t.log[..|t.log| - 1] == PruneOldEvents(s, now).log
      && t.idempotency == s.idempotency && t.decisions == s.decisions && t.runs == s.runs
    ensures Valid(s) ==> Valid(r.0) && forall i :: 0 <= i < |s.log| ==> s.log[i].seqNo < r.1
  {
    var pruned := PruneOldEvents(s, now);
    var row := EventRow(s.nextSeq, ColumnProp(event, "id").value,
                        ColumnProp(event, "correlationId").value, ColumnProp(event, "type").value,
                        ColumnProp(event, "agentId"), now, event);
    var log := pruned.log + [row];
    assert log[..|log| - 1] == pruned.log;
    AppendRowValid(pruned, row);
    (pruned.(log := log, nextSeq := s.nextSeq + 1), s.nextSeq)
  }

  /** `insertEvent(event)` for any event: the prune always runs first, and an event whose
      fields cannot be bound makes the insert throw after it, adding no row. */
  function TryInsertEvent(s: Store, now: int, event: Json): (r: (Store, Option<nat>))
    ensures r.1.Some? <==> Insertable(event)
    ensures r.1.None? ==> r.0 == PruneOldEvents(s, now)
    ensures r.1.Some? ==> (r.0, r.1.value) == InsertEvent(s, now, event)
    ensures Valid(s) ==> Valid(r.0)
  {
    if Insertable(event) then
      var (t, n) := InsertEvent(s, now, event);
      (t, Some(n))
    else (PruneOldEvents(s, now), None)
  }

  /** A row stamped with the counter may be appended: the invariant holds afterwards. */
  lemma AppendRowValid(s: Store, row: EventRow)
    requires row.seqNo == s.nextSeq
    ensures Valid(s) ==> Valid(s.(log := s.log + [row], nextSeq := s.nextSeq + 1))
  {
    if Valid(s) {
      var log := s.log + [row];
      forall i, j | 0 <= i < j < |log|
        ensures log[i].seqNo < log[j].seqNo
      {
        if j < |s.log| {
          assert log[i] == s.log[i] && log[j] == s.log[j];
        } else {
          assert log[i] == s.log[i];
        }
      }
    }
  }

  /** A run of inserts, one `(now, event)` pair each; the seqs they return in turn. */
  function InsertEvents(s: Store, nows: seq<int>, events: seq<Json>): (r: (Store, seq<nat>))
    requires |nows| == |events|
    requires forall i :: 0 <= i < |events| ==> Insertable(events[i])
    ensures |r.1| == |events|
    decreases |events|
  {
    if |events| == 0 then (s, [])
    else
      var (t, n) := InsertEvent(s, nows[0], events[0]);
      var rest := InsertEvents(t, nows[1..], events[1..]);
      (rest.0, [n] + rest.1)
  }

  /** Every insert returns a seq above all seqs returned before it, and above every row the
      log held, pruned or not: seqs are never reused. */
  lemma {:induction false} InsertSeqsIncrease(s: Store, nows: seq<int>, events: seq<Json>)
    requires |nows| == |events|
    requires forall i :: 0 <= i < |events| ==> Insertable(events[i])
    requires Valid(s)
    ensures var r := InsertEvents(s, nows, events);
      && Valid(r.0)
      && (forall i, j :: 0 <= i < j < |r.1| ==> r.1[i] < r.1[j])
      && (forall i :: 0 <= i < |r.1| ==> s.nextSeq <= r.1[i] < r.0.nextSeq)
      && r.0.nextSeq == s.nextSeq + |events|
    decreases |events|
  {
    if |events| > 0 {
      var p := InsertEvent(s, nows[0], events[0]);
      var n := p.1;
      assert n == s.nextSeq && p.0.nextSeq == n + 1 && Valid(p.0);
      forall i | 0 <= i < |events| - 1
        ensures Insertable(events[1..][i])
      {
        assert events[1..][i] == events[i + 1];
      }
      InsertSeqsIncrease(p.0, nows[1..], events[1..]);
      var rest := InsertEvents(p.0, nows[1..], events[1..]);
      assert InsertEvents(s, nows, events) == (rest.0, [n] + rest.1);
      ConsIncreasing(n, rest.1, rest.0.nextSeq);
    }
  }

  /** A seq below an increasing run of larger seqs keeps the run increasing. */
  lemma ConsIncreasing(n: nat, rest: seq<nat>, hi: nat)
    requires forall i, j :: 0 <= i < j < |rest| ==> rest[i] < rest[j]
    requires forall i :: 0 <= i < |rest| ==> n < rest[i] < hi
    requires n < hi
    ensures var all := [n] + rest;
      && (forall i, j :: 0 <= i < j < |all| ==> all[i] < all[j])
      && (forall i :: 0 <= i < |all| ==> n <= all[i] < hi)
  {
    var all := [n] + rest;
    assert forall i :: 1 <= i < |all| ==> all[i] == rest[i - 1];
  }

  /** The position of the first row above `lastSeq` in an ascending log (the index scan). */
  function FirstAbove(log: seq<EventRow>, lastSeq: int): (k: nat)
    requires Ascending(log)
    ensures k <= |log|
    ensures forall j :: 0 <= j < k ==> log[j].seqNo <= lastSeq
    ensures k < |log| ==> log[k].seqNo > lastSeq
    decreases |log|
  {
    if |log| == 0 || log[0].seqNo > lastSeq then 0
    else
      var k := FirstAbove(log[1..], lastSeq);
      assert forall j :: 1 <= j < |log| ==> log[j] == log[1..][j - 1];
      k + 1
  }

  /** `getEventsAfter(lastSeq, limit)`: the first `limit` rows whose seq is above `lastSeq`,
      in ascending order. */
  function GetEventsAfter(s: Store, lastSeq: int, limit: nat): (rows: seq<EventRow>)
    requires Valid(s)
    ensures |rows| <= limit
    ensures Ascending(rows)
    ensures forall i :: 0 <= i < |rows| ==> rows[i] in s.log && rows[i].seqNo > lastSeq
    ensures forall row :: row in s.log && row.seqNo > lastSeq && row !in rows ==>
      |rows| == limit && forall i :: 0 <= i < |rows| ==> rows[i].seqNo < row.seqNo
  {
    var k := FirstAbove(s.log, lastSeq);
    var end := if |s.log| - k < limit then |s.log| else k + limit;
    AfterSlice(s.log, k, end, lastSeq);
    s.log[k..end]
  }

  /** The slice `log[k..end]` of an ascending log, where `k` is the first row above
      `lastSeq`: ascending, above `lastSeq`, and below every later row above `lastSeq`. */
  lemma AfterSlice(log: seq<EventRow>, k: nat, end: nat, lastSeq: int)
    requires Ascending(log) && k <= end <= |log|
    requires forall j :: 0 <= j < k ==> log[j].seqNo <= lastSeq
    requires k < |log| ==> log[k].seqNo > lastSeq
    ensures Ascending(log[k..end])
    ensures forall i :: 0 <= i < end - k ==> log[k..end][i] in log && log[k..end][i].seqNo > lastSeq
    ensures forall row :: row in log && row.seqNo > lastSeq && row !in log[k..end] ==>
      end < |log| && forall i :: 0 <= i < end - k ==> log[k..end][i].seqNo < row.seqNo
  {
    var rows := log[k..end];
    assert forall i :: 0 <= i < |rows| ==> rows[i] == log[k + i];
    forall row | row in log && row.seqNo > lastSeq && row !in rows
      ensures end < |log| && forall i :: 0 <= i < |rows| ==> rows[i].seqNo < row.seqNo
    {
      var j :| 0 <= j < |log| && log[j] == row;
      assert forall m :: k <= m < end ==> log[m] == rows[m - k];
    }
  }

  /** `getSeqForEventId(eventId)`: the seq of a row carrying that event id, or 0. */
  function GetSeqForEventId(s: Store, eventId: string): (n: nat)
    requires Valid(s)
    ensures n == 0 <==> forall i :: 0 <= i < |s.log| ==> s.log[i].eventId != eventId
    ensures n > 0 ==> exists i :: 0 <= i < |s.log| && s.log[i].eventId == eventId && s.log[i].seqNo == n
  {
    FirstSeqOf(s.log, eventId)
  }

  function FirstSeqOf(rows: seq<EventRow>, eventId: string): (n: nat)
    requires forall i :: 0 <= i < |rows| ==> rows[i].seqNo >= 1
    ensures n == 0 <==> forall i :: 0 <= i < |rows| ==> rows[i].eventId != eventId
    ensures n > 0 ==> exists i :: 0 <= i < |rows| && rows[i].eventId == eventId && rows[i].seqNo == n
    decreases |rows|
  {
    if |rows| == 0 then 0
    else if rows[0].eventId == eventId then rows[0].seqNo
    else
      var r := FirstSeqOf(rows[1..], eventId);
      assert forall i :: 1 <= i < |rows| ==> rows[i] == rows[1..][i - 1];
      r
  }

  // ---------------------------------------------------------------- idempotency keys

  /** `getIdempotencyRecord(key)`. */
  function GetIdempotencyRecord(s: Store, key: string): (r: Option<IdempotencyRecord>)
    ensures r.Some? <==> key in s.idempotency
    ensures r.Some? ==> r.value == s.idempotency[key]
  {
    if key in s.idempotency then Some(s.idempotency[key]) else None
  }

  /** `saveIdempotencyRecord(key, response)` at `now`: insert or replace. */
  function SaveIdempotencyRecord(s: Store, key: string, response: Json, now: int): (r: Store)
    ensures GetIdempotencyRecord(r, key) == Some(IdempotencyRecord(response, now))
    ensures forall k :: k != key ==> GetIdempotencyRecord(r, k) == GetIdempotencyRecord(s, k)
    ensures r == s.(idempotency := r.idempotency)
    ensures Valid(s) ==> Valid(r)
  {
    s.(idempotency := s.idempotency[key := IdempotencyRecord(response, now)])
  }

  /** `pruneIdempotency(maxAgeMs)` at `now`: exactly the records older than the cutoff go. */
  function PruneIdempotency(s: Store, now: int, maxAgeMs: int): (r: Store)
    ensures forall k :: k in r.idempotency <==> k in s.idempotency && s.idempotency[k].createdAt >= now - maxAgeMs
    ensures forall k :: k in r.idempotency ==> r.idempotency[k] == s.idempotency[k]
    ensures r == s.(idempotency := r.idempotency)
    ensures Valid(s) ==> Valid(r)
  {
    var cutoff := now - maxAgeMs;
    s.(idempotency := map k | k in s.idempotency && s.idempotency[k].createdAt >= cutoff :: s.idempotency[k])
  }

  /** After pruning at `now`, every record left is at most `maxAgeMs` old. */
  lemma PrunedRecordsAreFresh(s: Store, now: int, maxAgeMs: int, key: string)
    requires GetIdempotencyRecord(PruneIdempotency(s, now, maxAgeMs), key).Some?
    ensures now - GetIdempotencyRecord(PruneIdempotency(s, now, maxAgeMs), key).value.createdAt <= maxAgeMs
  {
  }

  // ---------------------------------------------------------------- agent runs

  /** The position of the run for `agentId`, or -1. */
  function RunIndex(runs: seq<AgentRun>, agentId: string): (i: int)
    ensures -1 <= i < |runs|
    ensures i >= 0 ==> runs[i].agentId == agentId && forall j :: 0 <= j < i ==> runs[j].agentId != agentId
    ensures i < 0 ==> forall j :: 0 <= j < |runs| ==> runs[j].agentId != agentId
    decreases |runs|
  {
    if |runs| == 0 then -1
    else if runs[0].agentId == agentId then 0
    else
      var k := RunIndex(runs[1..], agentId);
      if k < 0 then -1 else k + 1
  }

  /** The row `upsertAgentRun` binds for `run`: the metadata column holds `run.metadata ?? {}`. */
  function StoredRun(run: AgentRun): (row: AgentRun)
    ensures row.metadata != JNull
    ensures run.metadata != JNull ==> row == run
    ensures run.metadata == JNull ==> row == run.(metadata := JObj([]))
  {
    run.(metadata := Nullish(Some(run.metadata), JObj([])))
  }

  /** `upsertAgentRun(run)`: a new agent gets the whole row; an existing one takes only the
      status, metadata, end time, priority, branch and repository path. */
  function UpsertAgentRun(s: Store, run: AgentRun): (r: Store)
    ensures r == s.(runs := r.runs)
    ensures UniqueAgents(s.runs) ==> UniqueAgents(r.runs)
    ensures Valid(s) ==> Valid(r)
  {
    var row := StoredRun(run);
    var i := RunIndex(s.runs, run.agentId);
    if i < 0 then
      s.(runs := s.runs + [row])
    else
      var old_ := s.runs[i];
      var updated := old_.(status := row.status, metadata := row.metadata, endedAt := row.endedAt,
                           priority := row.priority, branch := row.branch, repoPath := row.repoPath);
      s.(runs := s.runs[i := updated])
  }

  /** The row for `agentId`, when there is one. */
  function FindRun(s: Store, agentId: string): (r: Option<AgentRun>)
    ensures r.Some? <==> exists j :: 0 <= j < |s.runs| && s.runs[j].agentId == agentId
    ensures r.Some? ==> r.value in s.runs && r.value.agentId == agentId
  {
    var i := RunIndex(s.runs, agentId);
    if i < 0 then None else Some(s.runs[i])
  }

  /** After an upsert the agent has exactly the row the upsert describes: fresh agents get
      the input as given; known agents keep their task, correlation id and start time. A
      `null` metadata is stored as `{}`. Every other agent's row is unchanged. */
  lemma UpsertAgentRunEffect(s: Store, run: AgentRun, other: string)
    requires Valid(s)
    ensures var r := UpsertAgentRun(s, run);
      && FindRun(r, run.agentId).Some?
      && FindRun(r, run.agentId).value.metadata == (if run.metadata == JNull then JObj([]) else run.metadata)
      && (FindRun(s, run.agentId).None? ==> FindRun(r, run.agentId) == Some(StoredRun(run)))
      && (FindRun(s, run.agentId).Some? ==>
            var before := FindRun(s, run.agentId).value;
            FindRun(r, run.agentId) == Some(StoredRun(run).(task := before.task,
              correlationId := before.correlationId, startedAt := before.startedAt)))
      && (other != run.agentId ==> FindRun(r, other) == FindRun(s, other))
  {
    var row := StoredRun(run);
    var r := UpsertAgentRun(s, run);
    var i := RunIndex(s.runs, run.agentId);
    RunIndexUnique(r.runs, run.agentId);
    RunIndexUnique(r.runs, other);
    RunIndexUnique(s.runs, other);
    if i < 0 {
      assert r.runs == s.runs + [row];
      assert r.runs[|s.runs|] == row;
      assert forall j :: 0 <= j < |s.runs| ==> r.runs[j] == s.runs[j];
      if other != run.agentId && FindRun(s, other).None? {
        assert forall j :: 0 <= j < |r.runs| ==> r.runs[j].agentId != other;
      }
    } else {
      assert r.runs[i].agentId == run.agentId;
      assert forall j :: 0 <= j < |s.runs| && j != i ==> r.runs[j] == s.runs[j];
    }
  }

  /** With unique agent ids, any row carrying the id is the one `RunIndex` finds. */
  lemma RunIndexUnique(runs: seq<AgentRun>, agentId: string)
    requires UniqueAgents(runs)
    ensures forall j :: 0 <= j < |runs| && runs[j].agentId == agentId ==> RunIndex(runs, agentId) == j
  {
  }

  /** Rows ordered by start time, latest first. */
  predicate StartDescending(runs: seq<AgentRun>) {
    forall i, j :: 0 <= i < j < |runs| ==> runs[i].startedAt >= runs[j].startedAt
  }

  /** Inserts `x` into a list ordered latest first, just before the first row that started no
      later. */
  function InsertByStart(x: AgentRun, runs: seq<AgentRun>): (r: seq<AgentRun>)
    requires StartDescending(runs)
    ensures StartDescending(r)
    ensures multiset(r) == multiset(runs) + multiset{x}
    decreases |runs|
  {
    if |runs| == 0 then [x]
    else if runs[0].startedAt <= x.startedAt then [x] + runs
    else
      var rest := InsertByStart(x, runs[1..]);
      assert runs == [runs[0]] + runs[1..];
      assert multiset([runs[0]] + rest) == multiset{runs[0]} + multiset(rest);
      InsertedBelow(runs[0], x, runs[1..], rest);
      [runs[0]] + rest
  }

  /** A row that started no earlier than `x` and every row of `runs` may head their merge. */
  lemma InsertedBelow(head: AgentRun, x: AgentRun, runs: seq<AgentRun>, rest: seq<AgentRun>)
    requires x.startedAt < head.startedAt
    requires forall k :: 0 <= k < |runs| ==> runs[k].startedAt <= head.startedAt
    requires StartDescending(rest) && multiset(rest) == multiset(runs) + multiset{x}
    ensures StartDescending([head] + rest)
  {
    forall k | 0 <= k < |rest|
      ensures rest[k].startedAt <= head.startedAt
    {
      assert rest[k] in multiset(rest);
      if rest[k] != x {
        assert rest[k] in multiset(runs);
        assert rest[k] in runs;
      }
    }
    var l := [head] + rest;
    forall i, j | 0 <= i < j < |l|
      ensures l[i].startedAt >= l[j].startedAt
    {
      if i > 0 {
        assert l[i] == rest[i - 1] && l[j] == rest[j - 1];
      } else {
        assert l[j] == rest[j - 1];
      }
    }
  }

  /** `listAgents()`: every run, latest start first. */
  function ListAgents(s: Store): (r: seq<AgentRun>)
    ensures StartDescending(r)
    ensures multiset(r) == multiset(s.runs)
  {
    SortByStart(s.runs)
  }

  function SortByStart(runs: seq<AgentRun>): (r: seq<AgentRun>)
    ensures StartDescending(r)
    ensures multiset(r) == multiset(runs)
    decreases |runs|
  {
    if |runs| == 0 then []
    else
      assert runs == [runs[0]] + runs[1..];
      InsertByStart(runs[0], SortByStart(runs[1..]))
  }

  // ---------------------------------------------------------------- decisions

  /** The fields `createDecision` takes from its argument. */
  datatype NewDecision = NewDecision(
    id: string,
    correlationId: string,
    agentId: Option<string>,
    reasonCode: Option<string>,
    payload: Option<Json>)

  /** `createDecision(decision)` at `now`. The insert fails on an id already present (the
      primary key), and then the store is unchanged. */
  function CreateDecision(s: Store, d: NewDecision, now: int): (r: Option<Store>)
    ensures r.None? <==> d.id in s.decisions
    ensures r.Some? ==>
      && r.value == s.(decisions := r.value.decisions)
      && d.id in r.value.decisions
      && var stored := r.value.decisions[d.id];
      && stored.status == "pending"
      && stored.createdAt == now && stored.updatedAt == now && stored.resolvedAt.None?
      && stored.resolution.None? && stored.actor.None? && stored.notes.None?
      && stored.correlationId == d.correlationId && stored.agentId == d.agentId
      && stored.reasonCode == d.reasonCode
      && (d.payload.None? || d.payload.value == JNull ==> stored.payload == JObj([]))
      && (d.payload.Some? && d.payload.value != JNull ==> stored.payload == d.payload.value)
      && (forall id :: id != d.id ==> (id in r.value.decisions <==> id in s.decisions))
      && forall id :: id in s.decisions ==> r.value.decisions[id] == s.decisions[id]
    ensures r.Some? && Valid(s) ==> Valid(r.value)
  {
    if d.id in s.decisions then None
    else
      var stored := Decision(d.id, d.correlationId, d.agentId, "pending", d.reasonCode, None, None,
                             None, Nullish(d.payload, JObj([])), now, now, None);
      Some(s.(decisions := s.decisions[d.id := stored]))
  }

  /** What `resolveDecision` returns for a decision it updated. */
  datatype ResolvedRef = ResolvedRef(id: string, correlationId: string, agentId: Option<string>)

  /** `resolveDecision(id, resolution, actor, notes)` at `now`. There is no status guard:
      an already resolved decision is resolved again with the new values. */
  function ResolveDecision(s: Store, id: string, resolution: string, actor: string,
                           notes: Option<string>, now: int): (r: (Store, Option<ResolvedRef>))
    ensures r.1.None? <==> id !in s.decisions
    ensures r.1.None? ==> r.0 == s
    ensures r.1.Some? ==>
      && r.0 == s.(decisions := r.0.decisions)
      && r.0.decisions.Keys == s.decisions.Keys
      && var before := s.decisions[id];
      && r.0.decisions[id] == before.(status := "resolved", resolution := Some(resolution),
           actor := Some(actor), notes := notes, updatedAt := now, resolvedAt := Some(now))
      && r.1.value == ResolvedRef(id, before.correlationId, before.agentId)
      && forall k :: k in s.decisions && k != id ==> r.0.decisions[k] == s.decisions[k]
    ensures Valid(s) ==> Valid(r.0)
  {
    if id !in s.decisions then (s, None)
    else
      var before := s.decisions[id];
      var after := before.(status := "resolved", resolution := Some(resolution), actor := Some(actor),
                           notes := notes, updatedAt := now, resolvedAt := Some(now));
      (s.(decisions := s.decisions[id := after]), Some(ResolvedRef(id, before.correlationId, before.agentId)))
  }

  /** Resolving twice succeeds both times and the second resolution wins. */
  lemma ResolveTwice(s: Store, id: string, res1: string, actor1: string, notes1: Option<string>,
                     now1: int, res2: string, actor2: string, notes2: Option<string>, now2: int)
    requires id in s.decisions
    ensures var first := ResolveDecision(s, id, res1, actor1, notes1, now1);
      var second := ResolveDecision(first.0, id, res2, actor2, notes2, now2);
      && first.1.Some? && second.1 == first.1
      && second.0.decisions[id].resolution == Some(res2)
      && second.0.decisions[id].actor == Some(actor2)
      && second.0.decisions[id].resolvedAt == Some(now2)
  {
  }
}

=== FILE: text.dfy ===
/** String helpers with the semantics of the JavaScript built-ins the source relies on:
    decimal rendering, `split`/`join`, `/\r?\n/` line splitting, `trimStart`, `padStart`. */
module Text {

  // ---------------------------------------------------------------- digits

  predicate IsDigit(c: char) {
    '0' <= c <= '9'
  }

  predicate AllDigits(s: string) {
    forall i :: 0 <= i < |s| ==> IsDigit(s[i])
  }

  function DigitChar(d: nat): (c: char)
    requires d < 10
    ensures IsDigit(c) && c as int - '0' as int == d
  {
    ['0', '1', '2', '3', '4', '5', '6', '7', '8', '9'][d]
  }

  /** The decimal rendering of a natural number, as `String(n)` prints it. */
  function NatToString(n: nat): (r: string)
    ensures |r| >= 1 && AllDigits(r)
    ensures |r| > 1 ==> r[0] != '0'
    decreases n
  {
    if n < 10 then [DigitChar(n)] else NatToString(n / 10) + [DigitChar(n % 10)]
  }

  /** The decimal rendering of an integer, with a leading `-` when negative. */
  function IntToString(i: int): (r: string)
    ensures |r| >= 1
  {
    if i < 0 then "-" + NatToString(-i) else NatToString(i)
  }

  /** The value of a string of decimal digits; the empty string is 0, as `Number("")` is. */
  function DigitsValue(s: string): nat
    requires AllDigits(s)
    decreases |s|
  {
    if |s| == 0 then 0 else DigitsValue(s[..|s| - 1]) * 10 + (s[|s| - 1] as int - '0' as int)
  }

  /** Reading back the decimal rendering of `n` gives `n`. */
  lemma {:induction false} DigitsValueOfNatToString(n: nat)
    ensures DigitsValue(NatToString(n)) == n
    decreases n
  {
    if n >= 10 {
      var r := NatToString(n);
      assert r[..|r| - 1] == NatToString(n / 10);
      DigitsValueOfNatToString(n / 10);
    }
  }

  lemma NatToStringInjective(a: nat, b: nat)
    ensures NatToString(a) == NatToString(b) ==> a == b
  {
    DigitsValueOfNatToString(a);
    DigitsValueOfNatToString(b);
  }

  /** Leading zeros do not change the value of a digit string. */
  lemma {:induction false} DigitsValueLeadingZero(s: string)
    requires AllDigits(s)
    ensures AllDigits("0" + s) && DigitsValue("0" + s) == DigitsValue(s)
    decreases |s|
  {
    if |s| > 0 {
      var t := "0" + s;
      assert t[..|t| - 1] == "0" + s[..|s| - 1];
      DigitsValueLeadingZero(s[..|s| - 1]);
    }
  }

  /** `String(value).padStart(2, '0')`. */
  function PadStart2(s: string): (r: string)
    ensures |r| == if |s| < 2 then 2 else |s|
  {
    if |s| == 0 then "00" else if |s| == 1 then "0" + s else s
  }

  // ---------------------------------------------------------------- characters

  /** The characters `String.prototype.trim`/`trimStart` remove: WhiteSpace and LineTerminator. */
  predicate IsJsWhitespace(c: char) {
    || c == '\t' || c == '\n' || c == '\U{000B}' || c == '\U{000C}' || c == '\r' || c == ' '
    || c == '\U{00A0}' || c == '\U{1680}' || ('\U{2000}' <= c <= '\U{200A}')
    || c == '\U{2028}' || c == '\U{2029}' || c == '\U{202F}' || c == '\U{205F}' || c == '\U{3000}'
    || c == '\U{FEFF}'
  }

  /** `s.trimStart()`. */
  function TrimStart(s: string): (r: string)
    ensures |r| <= |s| && r == s[|s| - |r|..]
    ensures |r| > 0 ==> !IsJsWhitespace(r[0])
    ensures forall i :: 0 <= i < |s| - |r| ==> IsJsWhitespace(s[i])
    decreases |s|
  {
    if |s| > 0 && IsJsWhitespace(s[0]) then TrimStart(s[1..]) else s
  }

  /** `s.trimEnd()`. */
  function TrimEnd(s: string): (r: string)
    ensures |r| <= |s| && r == s[..|r|]
    ensures |r| > 0 ==> !IsJsWhitespace(r[|r| - 1])
    ensures forall i :: |r| <= i < |s| ==> IsJsWhitespace(s[i])
    decreases |s|
  {
    if |s| > 0 && IsJsWhitespace(s[|s| - 1]) then TrimEnd(s[..|s| - 1]) else s
  }

  /** `s.trim().length === 0`. */
  predicate IsBlank(s: string) {
    forall i :: 0 <= i < |s| ==> IsJsWhitespace(s[i])
  }

  /** ASCII case folding; the source calls the Unicode-aware `toLowerCase`. */
  function LowerChar(c: char): char {
    if 'A' <= c <= 'Z' then (c as int + 32) as char else c
  }

  function Lower(s: string): (r: string)
    ensures |r| == |s| && forall i :: 0 <= i < |s| ==> r[i] == LowerChar(s[i])
  {
    seq(|s|, i requires 0 <= i < |s| => LowerChar(s[i]))
  }

  predicate StartsWith(s: string, prefix: string) {
    |prefix| <= |s| && s[..|prefix|] == prefix
  }

  /** `s.includes(sub)`. */
  predicate Contains(s: string, sub: string) {
    exists k: nat :: k <= |s| && OccursAt(s, sub, k)
  }

  /** `sub` occurs in `s` starting at position `k`. */
  predicate OccursAt(s: string, sub: string, k: nat) {
    k + |sub| <= |s| && s[k..k + |sub|] == sub
  }

  /** The first position of `c` in `s`, or -1 (`s.indexOf(c)`). */
  function IndexOf(s: string, c: char): (r: int)
    ensures -1 <= r < |s|
    ensures r >= 0 ==> s[r] == c && c !in s[..r]
    ensures r < 0 ==> c !in s
    decreases |s|
  {
    if |s| == 0 then -1
    else if s[0] == c then 0
    else
      var k := IndexOf(s[1..], c);
      assert s[1..][..(if k < 0 then 0 else k)] == s[1..(if k < 0 then 1 else k + 1)];
      if k < 0 then -1 else k + 1
  }

  // ---------------------------------------------------------------- split and join

  /** `s.split(c)` for a one-character separator. */
  function SplitOn(s: string, c: char): (parts: seq<string>)
    ensures |parts| >= 1
    decreases |s|
  {
    var i := IndexOf(s, c);
    if i < 0 then [s] else [s[..i]] + SplitOn(s[i + 1..], c)
  }

  /** No part of `s.split(c)` contains `c`. */
  lemma {:induction false} SplitOnFree(s: string, c: char)
    ensures forall k :: 0 <= k < |SplitOn(s, c)| ==> c !in SplitOn(s, c)[k]
    decreases |s|
  {
    var i := IndexOf(s, c);
    if i >= 0 {
      SplitOnFree(s[i + 1..], c);
      var rest := SplitOn(s[i + 1..], c);
      assert SplitOn(s, c) == [s[..i]] + rest;
    }
  }

  /** `parts.join(c)`. */
  function JoinWith(parts: seq<string>, c: char): string
    decreases |parts|
  {
    if |parts| == 0 then ""
    else if |parts| == 1 then parts[0]
    else parts[0] + [c] + JoinWith(parts[1..], c)
  }

  /** Splitting then joining on the same character gives back the input. */
  lemma {:induction false} JoinSplit(s: string, c: char)
    ensures JoinWith(SplitOn(s, c), c) == s
    decreases |s|
  {
    var i := IndexOf(s, c);
    if i >= 0 {
      JoinSplit(s[i + 1..], c);
      assert s == s[..i] + [c] + s[i + 1..];
    }
  }

  /** The first `c` of `a + [c] + b` is the one after `a` when `a` has none. */
  lemma {:induction false} IndexOfAfter(a: string, c: char, b: string)
    requires c !in a
    ensures IndexOf(a + [c] + b, c) == |a|
    decreases |a|
  {
    if |a| > 0 {
      assert (a + [c] + b)[1..] == a[1..] + [c] + b;
      assert c !in a[1..];
      IndexOfAfter(a[1..], c, b);
    }
  }

  /** Splitting `a + [c] + b` where `a` has no `c`: `a` is the first part. */
  lemma SplitOnCons(a: string, c: char, b: string)
    requires c !in a
    ensures SplitOn(a + [c] + b, c) == [a] + SplitOn(b, c)
  {
    var s := a + [c] + b;
    IndexOfAfter(a, c, b);
    assert s[..|a|] == a;
    assert s[|a| + 1..] == b;
  }

  /** Appending text does not move the first occurrence of `c`. */
  lemma {:induction false} IndexOfAppend(s: string, t: string, c: char)
    requires IndexOf(s, c) >= 0
    ensures IndexOf(s + t, c) == IndexOf(s, c)
  {
    var i := IndexOf(s, c);
    assert s + t == s[..i] + [c] + (s[i + 1..] + t);
    IndexOfAfter(s[..i], c, s[i + 1..] + t);
  }

  /** Joining separator-free parts then splitting gives back the parts. */
  lemma {:induction false} SplitJoin(parts: seq<string>, c: char)
    requires |parts| >= 1
    requires forall i :: 0 <= i < |parts| ==> c !in parts[i]
    ensures SplitOn(JoinWith(parts, c), c) == parts
    decreases |parts|
  {
    if |parts| > 1 {
      var s := JoinWith(parts, c);
      var rest := JoinWith(parts[1..], c);
      assert s == parts[0] + [c] + rest;
      IndexOfAfter(parts[0], c, rest);
      assert s[..|parts[0]|] == parts[0];
      assert s[|parts[0]| + 1..] == rest;
      SplitJoin(parts[1..], c);
      assert parts == [parts[0]] + parts[1..];
    } else {
      assert IndexOf(parts[0], c) < 0;
    }
  }

  /** Removes one trailing carriage return. */
  function DropCR(line: string): (r: string)
    ensures r == line || (|line| > 0 && line[|line| - 1] == '\r' && r == line[..|line| - 1])
  {
    if |line| > 0 && line[|line| - 1] == '\r' then line[..|line| - 1] else line
  }

  /** `s.split(/\r?\n/)`: every `\n`, with the `\r` just before it, separates two lines.
      The last piece is the raw text after the last `\n`. */
  function SplitLines(s: string): (lines: seq<string>)
    ensures |lines| >= 1
    ensures '\n' !in s ==> lines == [s]
    decreases |s|
  {
    var i := IndexOf(s, '\n');
    if i < 0 then [s] else [DropCR(s[..i])] + SplitLines(s[i + 1..])
  }

  /** No line of `lines` contains a `\n`. */
  predicate LinesFree(lines: seq<string>) {
    forall k :: 0 <= k < |lines| ==> '\n' !in lines[k]
  }

  /** Dropping a final `\r` adds no `\n`. */
  lemma DropCRFree(line: string)
    requires '\n' !in line
    ensures '\n' !in DropCR(line)
  {
    if DropCR(line) != line {
      assert forall k :: 0 <= k < |DropCR(line)| ==> DropCR(line)[k] == line[k];
    }
  }

  /** No line produced by `SplitLines` contains a `\n`. */
  lemma {:induction false} SplitLinesFree(s: string)
    ensures LinesFree(SplitLines(s))
    decreases |s|, 1
  {
    if IndexOf(s, '\n') >= 0 {
      SplitLinesFreeStep(s);
    }
  }

  /** The step of `SplitLinesFree` over the first `\n` of `s`. */
  lemma {:induction false} SplitLinesFreeStep(s: string)
    requires IndexOf(s, '\n') >= 0
    ensures LinesFree(SplitLines(s))
    decreases |s|, 0
  {
    var i := IndexOf(s, '\n');
    SplitLinesFree(s[i + 1..]);
    DropCRFree(s[..i]);
    SplitLinesStep(s);
  }

  /** The split of a text with a `\n`: its first line, then the lines after that `\n`. */
  lemma SplitLinesStep(s: string)
    requires IndexOf(s, '\n') >= 0
    ensures var i := IndexOf(s, '\n');
      SplitLines(s) == [DropCR(s[..i])] + SplitLines(s[i + 1..])
  {
  }

  /** Putting an element ahead of a non-empty sequence keeps its last element, and puts it
      ahead of the others. */
  lemma ConsLast<T>(x: T, rs: seq<T>)
    requires |rs| >= 1
    ensures var ls := [x] + rs;
      ls[|ls| - 1] == rs[|rs| - 1] && ls[..|ls| - 1] == [x] + rs[..|rs| - 1]
  {
  }

  /** Text appended after a `\n` leaves the first line alone. */
  lemma SplitLinesAppendHead(s: string, t: string)
    requires IndexOf(s, '\n') >= 0
    ensures var i := IndexOf(s, '\n');
      SplitLines(s + t) == [DropCR(s[..i])] + SplitLines(s[i + 1..] + t)
  {
    var i := IndexOf(s, '\n');
    var st := s + t;
    IndexOfAppend(s, t, '\n');
    assert st[..i] == s[..i];
    assert st[i + 1..] == s[i + 1..] + t;
    SplitLinesStep(st);
  }

  /** The lines `ls` of a text, continued by `t`: all but the last, then the lines of the last
      followed by `t`. */
  function Continue(ls: seq<string>, t: string): (r: seq<string>)
    requires |ls| >= 1
  {
    ls[..|ls| - 1] + SplitLines(ls[|ls| - 1] + t)
  }

  /** Continuing lines behind a first line continues the rest. */
  lemma ContinueCons(x: string, rs: seq<string>, t: string)
    requires |rs| >= 1
    ensures Continue([x] + rs, t) == [x] + Continue(rs, t)
  {
    ConsLast(x, rs);
  }

  /** The lines of `s + t` as `SplitLinesAppend` states them. */
  predicate AppendSplits(s: string, t: string) {
    SplitLines(s + t) == Continue(SplitLines(s), t)
  }

  /** The step of `SplitLinesAppend` over the first `\n` of `s`. */
  lemma {:induction false} AppendSplitsStep(s: string, t: string)
    requires IndexOf(s, '\n') >= 0
    ensures AppendSplits(s, t)
    decreases |s|, 0
  {
    var i := IndexOf(s, '\n');
    SplitLinesAppend(s[i + 1..], t);
    var h := DropCR(s[..i]);
    var rs := SplitLines(s[i + 1..]);
    SplitLinesAppendHead(s, t);
    assert SplitLines(s + t) == [h] + Continue(rs, t);
    SplitLinesStep(s);
    ContinueCons(h, rs, t);
  }

  /** `SplitLinesAppend` for a text without `\n`. */
  lemma AppendSplitsLine(s: string, t: string)
    requires IndexOf(s, '\n') < 0
    ensures AppendSplits(s, t)
  {
    assert SplitLines(s) == [s];
    EmptyPrefix(s, SplitLines(s + t));
    assert Continue([s], t) == SplitLines(s + t);
  }

  /** The lines of `s + t`: the complete lines of `s`, then the lines of its unterminated
      remainder continued by `t`. */
  lemma {:induction false} SplitLinesAppend(s: string, t: string)
    ensures AppendSplits(s, t)
    decreases |s|, 1
  {
    if IndexOf(s, '\n') >= 0 {
      AppendSplitsStep(s, t);
    } else {
      AppendSplitsLine(s, t);
    }
  }

  /** Nothing taken from a one-element sequence, then `tail`, is `tail`. */
  lemma EmptyPrefix<T>(x: T, tail: seq<T>)
    ensures [x][..0] + tail == tail && [x][0] == x
  {
  }

  /** `tail` is the text of `s` after its last `\n`, or all of `s` when it has none. */
  predicate IsLineTail(s: string, tail: string) {
    && |tail| <= |s| && '\n' !in tail
    && (forall j :: 0 <= j < |tail| ==> tail[j] == s[|s| - |tail| + j])
    && (|tail| < |s| ==> s[|s| - |tail| - 1] == '\n')
  }

  /** A line tail of the text after a `\n` is a line tail of the whole text. */
  lemma LineTailAfter(s: string, i: nat, tail: string)
    requires i < |s| && s[i] == '\n' && IsLineTail(s[i + 1..], tail)
    ensures IsLineTail(s, tail)
  {
    var t := s[i + 1..];
    var k := |t| - |tail|;
    if k > 0 {
      assert s[|s| - |tail| - 1] == t[k - 1];
    }
  }

  /** The last piece of `SplitLines(s)` is the text after the last `\n` of `s`. */
  lemma {:induction false} SplitLinesLast(s: string)
    ensures IsLineTail(s, LastLine(s))
    decreases |s|, 1
  {
    if IndexOf(s, '\n') >= 0 {
      SplitLinesLastStep(s);
    } else {
      assert SplitLines(s) == [s];
    }
  }

  /** The last piece of `SplitLines(s)`. */
  function LastLine(s: string): string {
    SplitLines(s)[|SplitLines(s)| - 1]
  }

  /** The last piece of a text with a `\n` is the last piece of the text after it. */
  lemma LastLineStep(s: string)
    requires IndexOf(s, '\n') >= 0
    ensures LastLine(s) == LastLine(s[IndexOf(s, '\n') + 1..])
  {
    var i := IndexOf(s, '\n');
    SplitLinesStep(s);
    LastOfCons(SplitLines(s), DropCR(s[..i]), SplitLines(s[i + 1..]));
  }

  /** A sequence built as `[x] + rs` ends as `rs` does. */
  lemma LastOfCons<T>(xs: seq<T>, x: T, rs: seq<T>)
    requires xs == [x] + rs && |rs| >= 1
    ensures |xs| >= 1 && xs[|xs| - 1] == rs[|rs| - 1]
  {
  }

  /** The step of `SplitLinesLast` over the first `\n` of `s`. */
  lemma {:induction false} SplitLinesLastStep(s: string)
    requires IndexOf(s, '\n') >= 0
    ensures IsLineTail(s, LastLine(s))
    decreases |s|, 0
  {
    var i := IndexOf(s, '\n');
    SplitLinesLast(s[i + 1..]);
    LastLineStep(s);
    LineTailAfter(s, i, LastLine(s[i + 1..]));
  }

  /** Splitting `a + "\n" + b` where `a` is a line: `a`, less a final `\r`, comes first. */
  lemma SplitLinesCons(a: string, b: string)
    requires '\n' !in a
    ensures SplitLines(a + "\n" + b) == [DropCR(a)] + SplitLines(b)
  {
    var s := a + "\n" + b;
    IndexOfAfter(a, '\n', b);
    assert s[..|a|] == a;
    assert s[|a| + 1..] == b;
  }
}


=== FILE: uuid.dfy ===
/** The UUIDv7 generator of `server/src/id.js` (RFC 9562, section 5.7): the low 48 bits of the
    millisecond clock in big-endian order, the version nibble `7`, the variant bits `10`, and
    random bits everywhere else, printed as lowercase hex in the 8-4-4-4-12 layout. The
    clock reading and the 16 random bytes are parameters. */
module Uuid {
  import opened Wrappers

  type Byte = b: int | 0 <= b < 256

  function Pow(base: nat, e: nat): (r: nat)
    ensures base > 0 ==> r > 0
  {
    if e == 0 then 1 else base * Pow(base, e - 1)
  }

  /** Multiplication by a natural number preserves order. */
  lemma {:induction false} MulMono(a: nat, b: nat, p: nat)
    requires a <= b
    ensures a * p <= b * p
    decreases b - a
  {
    if a < b {
      MulMono(a, b - 1, p);
      assert b * p == (b - 1) * p + p;
    }
  }

  lemma MulAssoc(v: nat, p: nat)
    ensures (v * p) * 16 == v * (p * 16)
  {
  }

  /** Quotient and remainder are unique. */
  lemma DivModUnique(x: nat, m: nat, q: nat, r: nat)
    requires m > 0 && x == m * q + r && r < m
    ensures x / m == q && x % m == r
  {
    var q', r' := x / m, x % m;
    if q' < q {
      MulMono(q' + 1, q, m);
    }
    if q' > q {
      MulMono(q + 1, q', m);
    }
  }

  /** Splitting off the lowest base-256 digit. */
  lemma ModSplit(x: nat, k: nat)
    requires k > 0
    ensures x % (256 * k) == ((x / 256) % k) * 256 + x % 256
    ensures x / (256 * k) == (x / 256) / k
  {
    var q := x / 256;
    var d := x % 256;
    var hi := q / k;
    var lo := q % k;
    assert q == k * hi + lo;
    assert x == (256 * k) * hi + (lo * 256 + d);
    MulMono(lo, k - 1, 256);
    DivModUnique(x, 256 * k, hi, lo * 256 + d);
  }

  // ---------------------------------------------------------------- the byte layout

  const TwoTo48: nat := 0x1_0000_0000_0000

  /** The six clock bytes, most significant first: `Number((ms >> k) & 0xffn)` for
      k = 40, 32, 24, 16, 8 and 0 (lines 7-12). */
  function TimeBytes(ms: nat): (bs: seq<Byte>)
    ensures |bs| == 6
  {
    [(ms / 0x100_0000_0000) % 256, (ms / 0x1_0000_0000) % 256, (ms / 0x100_0000) % 256,
     (ms / 0x1_0000) % 256, (ms / 0x100) % 256, ms % 256]
  }

  /** The 16 bytes of the id: clock bytes over bytes 0-5, `(b & 0x0f) | 0x70` on byte 6,
      `(b & 0x3f) | 0x80` on byte 8, and the random input everywhere else. */
  function Stamp(ms: nat, rnd: seq<Byte>): (bytes: seq<Byte>)
    requires |rnd| == 16
    ensures |bytes| == 16
  {
    TimeBytes(ms) + [rnd[6] % 16 + 0x70, rnd[7], rnd[8] % 64 + 0x80] + rnd[9..]
  }

  // ---------------------------------------------------------------- hex text

  predicate IsLowerHex(c: char) {
    '0' <= c <= '9' || 'a' <= c <= 'f'
  }

  predicate AllLowerHex(s: string) {
    forall i :: 0 <= i < |s| ==> IsLowerHex(s[i])
  }

  function HexDigit(d: nat): (c: char)
    requires d < 16
    ensures IsLowerHex(c)
  {
    if d < 10 then ('0' as int + d) as char else ('a' as int + d - 10) as char
  }

  /** The value of a lowercase hex digit (0 for any other character). */
  function HexCharValue(c: char): (d: nat)
    ensures d < 16
  {
    if '0' <= c <= '9' then c as int - '0' as int
    else if 'a' <= c <= 'f' then c as int - 'a' as int + 10
    else 0
  }

  lemma HexDigitValue(d: nat)
    requires d < 16
    ensures HexCharValue(HexDigit(d)) == d
  {
  }

  /** Larger digits print as larger characters. */
  lemma HexDigitMonotone(d: nat, e: nat)
    requires d < e < 16
    ensures HexDigit(d) < HexDigit(e)
  {
  }

  /** `b.toString(16).padStart(2, '0')`. */
  function HexByte(b: Byte): (h: string)
    ensures |h| == 2
  {
    [HexDigit(b / 16), HexDigit(b % 16)]
  }

  /** `[...bytes].map(...).join('')`. */
  function Hex(bytes: seq<Byte>): (h: string)
    ensures |h| == 2 * |bytes|
    decreases |bytes|
  {
    if |bytes| == 0 then "" else Hex(bytes[..|bytes| - 1]) + HexByte(bytes[|bytes| - 1])
  }

  /** Hex text consists of lowercase hex digits only. */
  lemma {:induction false} HexIsLowerHex(bytes: seq<Byte>)
    ensures AllLowerHex(Hex(bytes))
    decreases |bytes|
  {
    if |bytes| > 0 {
      var init := bytes[..|bytes| - 1];
      var hb := HexByte(bytes[|bytes| - 1]);
      HexIsLowerHex(init);
      var h := Hex(bytes);
      forall i | 0 <= i < |h|
        ensures IsLowerHex(h[i])
      {
        if i < |Hex(init)| { assert h[i] == Hex(init)[i]; } else { assert h[i] == hb[i - |Hex(init)|]; }
      }
    }
  }

  /** `formatUuid`: the 32 hex digits cut 8-4-4-4-12 and joined with `-`. */
  function FormatUuid(bytes: seq<Byte>): (id: string)
    requires |bytes| == 16
    ensures |id| == 36
  {
    var hex := Hex(bytes);
    hex[..8] + "-" + hex[8..12] + "-" + hex[12..16] + "-" + hex[16..20] + "-" + hex[20..]
  }

  /** `uuidv7()` with the clock reading and the random bytes as parameters. */
  function Uuidv7(ms: nat, rnd: seq<Byte>): string
    requires |rnd| == 16
  {
    FormatUuid(Stamp(ms, rnd))
  }

  // ---------------------------------------------------------------- reading an id back

  /** The number a string of hex digits denotes, most significant first. */
  function HexValue(s: string): nat
    decreases |s|
  {
    if |s| == 0 then 0 else HexValue(s[..|s| - 1]) * 16 + HexCharValue(s[|s| - 1])
  }

  /** The bytes denoted by pairs of hex digits, read from the right (a lone leading digit
      is dropped). */
  function Unhex(s: string): (bytes: seq<Byte>)
    decreases |s|
  {
    if |s| < 2 then []
    else Unhex(s[..|s| - 2]) + [HexCharValue(s[|s| - 2]) * 16 + HexCharValue(s[|s| - 1])]
  }

  /** The 32 digit positions of the 8-4-4-4-12 layout, in order. */
  function Digits(id: string): string
    requires |id| == 36
  {
    id[..8] + id[9..13] + id[14..18] + id[19..23] + id[24..]
  }

  /** The 16 bytes an id in the 8-4-4-4-12 layout spells, or `None` when a digit position
      holds something other than a lowercase hex digit. */
  function ParseUuid(id: string): Option<seq<Byte>>
    requires |id| == 36
  {
    if AllLowerHex(Digits(id)) then Some(Unhex(Digits(id))) else None
  }

  /** The number a byte string denotes, most significant byte first. */
  function BigEndian(bytes: seq<Byte>): nat
    decreases |bytes|
  {
    if |bytes| == 0 then 0 else BigEndian(bytes[..|bytes| - 1]) * 256 + bytes[|bytes| - 1]
  }

  /** The two digits of a byte denote the byte. */
  lemma HexByteDigits(b: Byte)
    ensures HexCharValue(HexByte(b)[0]) * 16 + HexCharValue(HexByte(b)[1]) == b
  {
    HexDigitValue(b / 16);
    HexDigitValue(b % 16);
  }

  lemma UnhexSnoc(s: string, b: Byte)
    ensures Unhex(s + HexByte(b)) == Unhex(s) + [b]
  {
    var hb := HexByte(b);
    var h := s + hb;
    var v := HexCharValue(h[|h| - 2]) * 16 + HexCharValue(h[|h| - 1]);
    assert Unhex(h) == Unhex(h[..|h| - 2]) + [v];
    assert h[..|h| - 2] == s;
    assert v == b by {
      assert h[|h| - 2] == hb[0] && h[|h| - 1] == hb[1];
      HexByteDigits(b);
    }
  }

  /** Hex-decoding undoes hex-encoding. */
  lemma {:induction false} UnhexHex(bytes: seq<Byte>)
    ensures Unhex(Hex(bytes)) == bytes
    decreases |bytes|
  {
    if |bytes| > 0 {
      var init := bytes[..|bytes| - 1];
      var b := bytes[|bytes| - 1];
      assert Hex(bytes) == Hex(init) + HexByte(b);
      UnhexHex(init);
      UnhexSnoc(Hex(init), b);
      assert bytes == init + [b];
    }
  }

  /** A hex string's value splits at any point into high and low digits. */
  lemma {:induction false} HexValueAppend(a: string, b: string)
    ensures HexValue(a + b) == HexValue(a) * Pow(16, |b|) + HexValue(b)
    decreases |b|
  {
    if |b| > 0 {
      var ab := a + b;
      var b' := b[..|b| - 1];
      assert ab[..|ab| - 1] == a + b';
      assert ab[|ab| - 1] == b[|b| - 1];
      HexValueAppend(a, b');
      assert HexValue(ab) == HexValue(a + b') * 16 + HexCharValue(b[|b| - 1]);
      assert HexValue(b) == HexValue(b') * 16 + HexCharValue(b[|b| - 1]);
      var v, p := HexValue(a), Pow(16, |b'|);
      assert Pow(16, |b|) == p * 16;
      assert (v * p + HexValue(b')) * 16 == v * (p * 16) + HexValue(b') * 16 by {
        MulAssoc(v, p);
      }
    } else {
      assert a + b == a;
    }
  }

  /** The hex text of a byte string denotes the same number. */
  lemma {:induction false} HexValueOfHex(bytes: seq<Byte>)
    ensures HexValue(Hex(bytes)) == BigEndian(bytes)
    decreases |bytes|
  {
    if |bytes| > 0 {
      var init := bytes[..|bytes| - 1];
      var b := bytes[|bytes| - 1];
      HexValueOfHex(init);
      HexValueAppend(Hex(init), HexByte(b));
      HexDigitValue(b / 16);
      HexDigitValue(b % 16);
      var h := HexByte(b);
      assert h[..1][..0] == [] && h[..1] == [h[0]];
      assert HexValue(h[..1]) == HexCharValue(h[0]);
      assert HexValue(h) == HexCharValue(h[0]) * 16 + HexCharValue(h[1]);
      HexByteDigits(b);
    }
  }

  /** The lowest `n` base-256 digits of `x`, most significant first. */
  function LowBytes(x: nat, n: nat): (bs: seq<Byte>)
    ensures |bs| == n
  {
    if n == 0 then [] else LowBytes(x / 256, n - 1) + [x % 256]
  }

  lemma {:induction false} LowBytesValue(x: nat, n: nat)
    ensures BigEndian(LowBytes(x, n)) == x % Pow(256, n)
  {
    if n > 0 {
      LowBytesValue(x / 256, n - 1);
      ModSplit(x, Pow(256, n - 1));
      assert Pow(256, n) == 256 * Pow(256, n - 1);
      assert LowBytes(x, n)[..n - 1] == LowBytes(x / 256, n - 1);
    }
  }

  /** The shifts of lines 7-12 pick the base-256 digits of the clock. */
  lemma TimeBytesAreLowBytes(ms: nat)
    ensures TimeBytes(ms) == LowBytes(ms, 6)
  {
    var q1 := ms / 256;
    var q2 := q1 / 256;
    var q3 := q2 / 256;
    var q4 := q3 / 256;
    ModSplit(ms, 256);
    ModSplit(ms, 0x1_0000);
    ModSplit(q1, 256);
    ModSplit(ms, 0x100_0000);
    ModSplit(q1, 0x1_0000);
    ModSplit(q2, 256);
    ModSplit(ms, 0x1_0000_0000);
    ModSplit(q1, 0x100_0000);
    ModSplit(q2, 0x1_0000);
    ModSplit(q3, 256);
    assert ms / 0x1_0000 == q2;
    assert ms / 0x100_0000 == q3;
    assert ms / 0x1_0000_0000 == q4;
    assert ms / 0x100_0000_0000 == q4 / 256;
    assert LowBytes(q4 / 256, 1) == [q4 / 256 % 256];
    assert LowBytes(q4, 2) == [q4 / 256 % 256, q4 % 256];
    assert LowBytes(q3, 3) == [q4 / 256 % 256, q4 % 256, q3 % 256];
    assert LowBytes(q2, 4) == [q4 / 256 % 256, q4 % 256, q3 % 256, q2 % 256];
    assert LowBytes(q1, 5) == [q4 / 256 % 256, q4 % 256, q3 % 256, q2 % 256, q1 % 256];
  }

  /** The clock bytes denote `ms mod 2^48`. */
  lemma TimeBytesValue(ms: nat)
    ensures BigEndian(TimeBytes(ms)) == ms % TwoTo48
  {
    TimeBytesAreLowBytes(ms);
    LowBytesValue(ms, 6);
    assert Pow(256, 6) == TwoTo48;
  }

  // ---------------------------------------------------------------- properties of ids

  /** `UUID_V7_RE`: `^[0-9a-f]{8}-[0-9a-f]{4}-7[0-9a-f]{3}-[89ab][0-9a-f]{3}-[0-9a-f]{12}$`. */
  predicate MatchesUuidV7(s: string) {
    && |s| == 36
    && (forall i :: 0 <= i < 36 && i != 8 && i != 13 && i != 18 && i != 23 ==> IsLowerHex(s[i]))
    && s[8] == '-' && s[13] == '-' && s[18] == '-' && s[23] == '-'
    && s[14] == '7'
    && s[19] in "89ab"
  }

  /** The hex digits of the stamped bytes: version nibble at 12, variant digit at 16. */
  lemma StampHexDigits(ms: nat, rnd: seq<Byte>)
    requires |rnd| == 16
    ensures var h := Hex(Stamp(ms, rnd)); h[12] == '7' && h[16] in "89ab"
  {
    var bytes := Stamp(ms, rnd);
    HexPrefix(bytes, 7);
    HexPrefix(bytes, 9);
    var h7 := Hex(bytes[..7]);
    var h9 := Hex(bytes[..9]);
    assert bytes[..7][..6] == bytes[..6];
    assert bytes[..9][..8] == bytes[..8];
    assert h7[12] == HexDigit(bytes[6] / 16);
    assert bytes[6] / 16 == 7;
    assert h9[16] == HexDigit(bytes[8] / 16);
    assert 8 <= bytes[8] / 16 <= 11;
  }

  /** The hex of a prefix is a prefix of the hex. */
  lemma {:induction false} HexPrefix(bytes: seq<Byte>, n: nat)
    requires n <= |bytes|
    ensures Hex(bytes)[..2 * n] == Hex(bytes[..n])
    decreases |bytes|
  {
    if n < |bytes| {
      var init := bytes[..|bytes| - 1];
      HexPrefix(init, n);
      assert init[..n] == bytes[..n];
    } else {
      assert bytes[..n] == bytes;
    }
  }

  /** Every generated id has the UUIDv7 shape: 36 lowercase hex characters and dashes,
      version `7` at position 14 and a variant digit in `89ab` at position 19. */
  lemma Uuidv7Shape(ms: nat, rnd: seq<Byte>)
    requires |rnd| == 16
    ensures MatchesUuidV7(Uuidv7(ms, rnd))
  {
    var h := Hex(Stamp(ms, rnd));
    var id := Uuidv7(ms, rnd);
    StampHexDigits(ms, rnd);
    HexIsLowerHex(Stamp(ms, rnd));
    assert id[14] == h[12] && id[19] == h[16];
    forall i | 0 <= i < 36 && i != 8 && i != 13 && i != 18 && i != 23
      ensures IsLowerHex(id[i])
    {
      if i < 8 { assert id[i] == h[i]; }
      else if i < 13 { assert id[i] == h[i - 1]; }
      else if i < 18 { assert id[i] == h[i - 2]; }
      else if i < 23 { assert id[i] == h[i - 3]; }
      else { assert id[i] == h[i - 4]; }
    }
  }

  /** Parsing an id gives back exactly the bytes it was formatted from. */
  lemma ParseFormat(bytes: seq<Byte>)
    requires |bytes| == 16
    ensures ParseUuid(FormatUuid(bytes)) == Some(bytes)
  {
    var h := Hex(bytes);
    var id := FormatUuid(bytes);
    assert Digits(id) == h;
    HexIsLowerHex(bytes);
    UnhexHex(bytes);
  }

  /** The random input survives in every bit the generator does not overwrite. */
  lemma Uuidv7KeepsRandomBits(ms: nat, rnd: seq<Byte>)
    requires |rnd| == 16
    ensures var bytes := Stamp(ms, rnd);
      && bytes[6] % 16 == rnd[6] % 16
      && bytes[7] == rnd[7]
      && bytes[8] % 64 == rnd[8] % 64
      && bytes[9..] == rnd[9..]
      && ParseUuid(Uuidv7(ms, rnd)) == Some(bytes)
  {
    ParseFormat(Stamp(ms, rnd));
  }

  /** The first 12 hex digits of an id, read as a number, are the clock modulo `2^48`. */
  lemma Uuidv7Timestamp(ms: nat, rnd: seq<Byte>)
    requires |rnd| == 16
    ensures var id := Uuidv7(ms, rnd);
      AllLowerHex(id[..8] + id[9..13]) && HexValue(id[..8] + id[9..13]) == ms % TwoTo48
  {
    var bytes := Stamp(ms, rnd);
    var h := Hex(bytes);
    var id := Uuidv7(ms, rnd);
    HexPrefix(bytes, 6);
    HexIsLowerHex(bytes);
    assert bytes[..6] == TimeBytes(ms);
    assert id[..8] + id[9..13] == h[..12];
    HexValueOfHex(TimeBytes(ms));
    TimeBytesValue(ms);
  }

  // ---------------------------------------------------------------- ordering

  /** Strict lexicographic order on strings, as JavaScript's `<` compares them. */
  predicate LexLess(a: string, b: string)
    decreases |a|
  {
    |b| > 0 && (|a| == 0 || a[0] < b[0] || (a[0] == b[0] && LexLess(a[1..], b[1..])))
  }

  /** The leading digit's weight in a hex string's value. */
  lemma HexValueFirst(s: string)
    requires |s| > 0
    ensures HexValue(s) == HexCharValue(s[0]) * Pow(16, |s| - 1) + HexValue(s[1..])
  {
    var head, tail := s[..1], s[1..];
    assert s == head + tail;
    HexValueAppend(head, tail);
    assert head[..0] == [] && head[0] == s[0];
    assert HexValue(head) == HexCharValue(s[0]);
  }

  /** On lowercase hex digits, character order is value order. */
  lemma HexCharOrder(c: char, d: char)
    requires IsLowerHex(c) && IsLowerHex(d)
    ensures HexCharValue(c) < HexCharValue(d) ==> c < d
    ensures HexCharValue(c) == HexCharValue(d) ==> c == d
  {
  }

  lemma DigitCompare(da: nat, db: nat, x: nat, y: nat, p: nat)
    requires x < p && y < p && da * p + x < db * p + y
    ensures da <= db && (da == db ==> x < y)
  {
    assert (db + 1) * p == db * p + p;
    if da > db {
      MulMono(db + 1, da, p);
    }
  }

  /** Comparing two hex numbers of equal width: the leading digits compare first. */
  lemma LeadingDigitOrder(a: string, b: string)
    requires |a| == |b| > 0 && HexValue(a) < HexValue(b)
    ensures HexCharValue(a[0]) <= HexCharValue(b[0])
    ensures HexCharValue(a[0]) == HexCharValue(b[0]) ==> HexValue(a[1..]) < HexValue(b[1..])
  {
    HexValueFirst(a);
    HexValueFirst(b);
    HexValueBound(a[1..]);
    HexValueBound(b[1..]);
    DigitCompare(HexCharValue(a[0]), HexCharValue(b[0]), HexValue(a[1..]), HexValue(b[1..]), Pow(16, |a| - 1));
  }

  /** Of two hex strings of equal length, the one denoting the smaller number sorts first. */
  lemma {:induction false} HexOrder(a: string, b: string)
    requires AllLowerHex(a) && AllLowerHex(b) && |a| == |b|
    requires HexValue(a) < HexValue(b)
    ensures LexLess(a, b)
    decreases |a|
  {
    if |a| > 0 {
      LeadingDigitOrder(a, b);
      HexCharOrder(a[0], b[0]);
      if a[0] == b[0] {
        HexOrder(a[1..], b[1..]);
      }
    }
  }

  lemma {:induction false} HexValueBound(s: string)
    ensures HexValue(s) < Pow(16, |s|)
    decreases |s|
  {
    if |s| > 0 {
      HexValueBound(s[..|s| - 1]);
    }
  }

  /** A strict difference inside a common-length head decides the order of the whole. */
  lemma {:induction false} LexLessAppend(a: string, b: string, c: string, d: string)
    requires |a| == |b| && LexLess(a, b)
    ensures LexLess(a + c, b + d)
    decreases |a|
  {
    if a[0] == b[0] && |a| > 0 {
      assert (a + c)[1..] == a[1..] + c && (b + d)[1..] == b[1..] + d;
      LexLessAppend(a[1..], b[1..], c, d);
    }
  }

  /** Ids sort by creation time: a later clock reading (modulo `2^48`) gives a larger id,
      whatever the random bytes. */
  lemma Uuidv7Ordered(ms1: nat, rnd1: seq<Byte>, ms2: nat, rnd2: seq<Byte>)
    requires |rnd1| == 16 && |rnd2| == 16
    requires ms1 % TwoTo48 < ms2 % TwoTo48
    ensures LexLess(Uuidv7(ms1, rnd1), Uuidv7(ms2, rnd2))
  {
    var id1, id2 := Uuidv7(ms1, rnd1), Uuidv7(ms2, rnd2);
    Uuidv7Timestamp(ms1, rnd1);
    Uuidv7Timestamp(ms2, rnd2);
    var t1, t2 := id1[..8] + id1[9..13], id2[..8] + id2[9..13];
    HexOrder(t1, t2);
    var k1, k2 := id1[..8] + "-" + id1[9..13], id2[..8] + "-" + id2[9..13];
    assert LexLess(k1, k2) by {
      if LexLess(id1[..8], id2[..8]) {
        LexLessAppend(id1[..8], id2[..8], "-" + id1[9..13], "-" + id2[9..13]);
        assert k1 == id1[..8] + ("-" + id1[9..13]) && k2 == id2[..8] + ("-" + id2[9..13]);
      } else {
        LexLessSplit(id1[..8], id2[..8], id1[9..13], id2[9..13]);
        LexLessPrefix(id1[..8] + "-", id1[9..13], id2[9..13]);
        assert k1 == (id1[..8] + "-") + id1[9..13] && k2 == (id2[..8] + "-") + id2[9..13];
      }
    }
    assert id1 == k1 + id1[13..] && id2 == k2 + id2[13..];
    LexLessAppend(k1, k2, id1[13..], id2[13..]);
  }

  /** When heads of equal length are not ordered, the order of `a + c` and `b + d` comes
      from equal heads and ordered tails. */
  lemma {:induction false} LexLessSplit(a: string, b: string, c: string, d: string)
    requires |a| == |b| && |c| == |d| && LexLess(a + c, b + d) && !LexLess(a, b)
    ensures a == b && LexLess(c, d)
    decreases |a|
  {
    if |a| > 0 {
      assert (a + c)[0] == a[0] && (b + d)[0] == b[0];
      assert (a + c)[1..] == a[1..] + c && (b + d)[1..] == b[1..] + d;
      LexLessSplit(a[1..], b[1..], c, d);
    } else {
      assert a + c == c && b + d == d;
    }
  }

  /** A common prefix does not change the order. */
  lemma {:induction false} LexLessPrefix(p: string, a: string, b: string)
    requires LexLess(a, b)
    ensures LexLess(p + a, p + b)
    decreases |p|
  {
    if |p| > 0 {
      assert (p + a)[1..] == p[1..] + a && (p + b)[1..] == p[1..] + b;
      LexLessPrefix(p[1..], a, b);
    } else {
      assert p + a == a && p + b == b;
    }
  }
}

=== FILE: wrappers.dfy ===
/** Failure-compatible wrapper types shared by every module of the model. */
module Wrappers {

  /** A value that may be absent: JavaScript's `undefined`/`null` in a typed field. */
  datatype Option<+T> = None | Some(value: T) {

    /** Returns the value, or `default` when absent (the `??` operator). */
    function GetOr(default: T): T {
      match this
      case Some(v) => v
      case None => default
    }
  }

  /** The outcome of an operation that can fail: a value or an error. */
  datatype Result<+R, +E> = Success(value: R) | Failure(error: E)
}
